=== FILE: README.md ===
# Gantt planner core in Dafny

This project models the core of a team Gantt planner, which has a Python
(FastAPI/SQLAlchemy) backend and a React frontend, and proves properties
of that model.

The backend is modelled as pure functions over an immutable store. Each
table is a map from id to row. The tables are teams, memberships (user,
team, role), projects, streams, goals, tasks, task assignments, task
relations, reminders, push subscriptions and users. Every service is a
function from a store and its arguments to a `Result`. An error is one of
NotFound, Forbidden or Conflict, or a Crash for any other exception. A
failed call leaves the store as it was before its commit. The model covers:

- the ownership-chain permission checks (team, project, stream, task);
- project, stream, goal and task services, including:
  - sibling-name collisions, which exclude the renamed row itself;
  - "max + 1 or 1" positions;
  - the assignment replacement;
  - the cascade deletes, and exactly what they leave behind;
- both team implementations:
  - the router that the application mounts;
  - the unused service layer;
- the reminder lifecycle:
  - the reminder services;
  - the scheduler job table that the routes keep in sync;
  - the guarded firing of a reminder with `send_push`;
  - the re-hydration of pending reminders at start-up;
- push subscriptions;
- the user services and the authentication middleware.

Some inputs and outside calls become parameters:

- The current time is an argument.
- Password checks, JWT decoding and web-push delivery are oracle functions.
- The scheduler is an explicit map from job key to time.

The frontend part models the pure logic of these pieces:

- the relation colouring (connected components of related tasks);
- the task sort and filter;
- the scale lengths and ticks of the timeline;
- the sidebar's grouping, drag-and-drop reorder and insert shift;
- the chart's reducers over stream data, its vertical reorder and its date range;
- a stream's layout, bar bounds, visibility, drag shift and drop indicator.

Server requests made by the frontend are a `Request -> bool` oracle. Each
update loop is the sequence of requests it sends, stopping at the first
failure.

Module layout:

| module | covers |
|---|---|
| `Base` | `Option`, `Result`, errors, and JS truthiness |
| `Ordered` | minimum and maximum of int sets |
| `Decimal` | `str`/`int` on ids |
| `Seqs` | filter and flat-map |
| `Store` | the tables and fresh ids |
| `Access` | the permission checks |
| `Cascade` | the cascade deletes |
| `Projects`, `Streams`, `Goals`, `Tasks` | the hierarchy services |
| `Teams` | both team implementations |
| `Reminders`, `ReminderRoutes`, `Scheduler`, `Push` | the reminder lifecycle |
| `Users`, `Middleware` | users and authentication |
| `RelationColors`, `TaskUtils`, `Timeline` | the frontend utilities |
| `GanttItems`, `Sidebar`, `Chart`, `StreamView` | the Gantt components |

## Model

| member | source | states |
|---|---|---|
| Access.RoleIn | gantt-backend/app/crud/team.py:6-9 | the role of the caller's first membership row in the team; present exactly when the caller is a member |
| Access.CheckMember | gantt-backend/app/services/project_service.py:14-20 | fails only with Forbidden; succeeds exactly when the caller is a member and, when a lead is needed, an Editor; the row returned is the caller's row of that team |
| Access.CheckTeam | gantt-backend/app/services/project_service.py:8-22 | a missing team is NotFound, checked before the membership; Forbidden exactly when the team exists and the grant fails; success returns the caller's membership |
| Access.CheckProject | gantt-backend/app/services/project_service.py:25-39 | a missing project is NotFound; otherwise success exactly when the caller holds the grant in the project's team, returning the project row; the only errors are NotFound and Forbidden |
| Access.ProjectAccess | gantt-backend/app/services/stream_service.py:11-21 | missing project is NotFound; success exactly when the caller is a member of the project's team (no role test), returning the project and a membership of that team |
| Access.StreamAccess | gantt-backend/app/services/stream_service.py:24-28 | an unknown stream is NotFound before any access check; success exactly when the stream's project exists and the caller is a member of its team |
| Access.AdminPermission | gantt-backend/app/services/stream_service.py:31-34 | succeeds, returning the same membership, exactly when its role is Editor; Forbidden otherwise |
| Access.CheckStream | gantt-backend/app/services/goal_service.py:8-27 | stream NotFound, then project NotFound, then Forbidden for a non-member or a non-Editor when a lead is needed; reaching the team through the relationship crashes when the team row is missing; success returns the stream row |
| Access.CheckTask | gantt-backend/app/services/task_service.py:28-49 | an unknown task is NotFound; otherwise the outcome and error are those of the stream check on the task's stream; success returns the task row |
| Access.EditorIsMember | gantt-backend/app/services/project_service.py:14-20 | the Editor grant implies the member grant |
| Access.AuthorizedUnique | gantt-backend/app/services/project_service.py:19-20 | with unique (team, user) memberships, the Editor grant holds exactly when the caller's row has role 2 |
| Access.StreamChecksAgree | gantt-backend/app/services/stream_service.py:24-34 | the stream service's access check followed by the admin check succeeds exactly when the goal service's lead check does, and the access check alone exactly when its member check does |
| Access.ProjectChecksAgree | gantt-backend/app/services/stream_service.py:11-34 | the project access check followed by the admin check succeeds exactly when the project check with need_lead does |
| Access.RelationshipAgreesWithColumn | gantt-backend/app/services/task_service.py:17-18 | in an intact store, reaching the team through `project.team.id` gives the same result as through `project.team_id` |
| Store.FreshId | gantt-backend/app/models/task.py:8 | the key an integer primary key hands to a new row is not used by any existing row |
| Store.FirstMembership | gantt-backend/app/crud/team.py:16-18 | absent exactly when the user holds no membership row of the team; otherwise a row of that team and user |
| Store.UserByEmail | gantt-backend/app/crud/team.py:36-37 | absent exactly when no user has that email; otherwise a user with exactly that email |
| Store.FirstAssignment | gantt-backend/app/services/task_service.py:128 | absent exactly when the task has no assignment row; otherwise one of its assignment rows |
| Store.AssigneeEmail | gantt-backend/app/crud/task.py:13-14 | an email is reported only for a task with an assignment row, never for one without |
| Store.FirstMembershipUnique | gantt-backend/app/crud/team.py:16-18 | under unique memberships the first row found is the only row of that team and user |
| Store.UserByEmailUnique | gantt-backend/app/models/user.py:8 | with the unique email column, looking a user's email up finds that user |
| Ordered.First | gantt-backend/app/crud/team.py:16-18 | `.first()` over matching keys: absent exactly when nothing matches, otherwise the least matching key |
| Ordered.NextPosition | gantt-backend/app/services/goal_service.py:41-44 | the position after the greatest one present (its predecessor is present), above every existing position, and 1 when there are none |
| Ordered.SortedIds | gantt-backend/app/crud/team.py:21-22 | `.all()` lists every matching key exactly once, in ascending order |
| Decimal.Show | gantt-backend/app/core/scheduler.py:23 | `str(id)` writes a non-empty string that is all digits exactly when the number is non-negative |
| Decimal.Parse | gantt-backend/app/core/middleware.py:36 | `int(sub)` succeeds exactly on a non-empty run of digits, optionally after one sign; a bare run reads as its decimal value, a signed run as that value negated for '-'; the empty string and a leading non-digit other than a sign are refused |
| Decimal.ParseShow | gantt-backend/app/core/middleware.py:36 | reading back what `str` wrote gives the original integer |
| Decimal.ShowInjective | gantt-backend/app/core/scheduler.py:23 | distinct reminder ids give distinct job ids |
| Projects.ListProjects | gantt-backend/app/services/project_service.py:42-44 | an unknown team is NotFound and a non-member is Forbidden, no other refusal; any member may list; the listing holds exactly the team's projects |
| Projects.CreateProject | gantt-backend/app/services/project_service.py:47-49 | NotFound for an unknown team, Forbidden for a non-Editor, no other refusal; success exactly for an Editor; adds exactly one project, under a fresh id, with the given name and team |
| Projects.UpdateProject | gantt-backend/app/services/project_service.py:52-54 | NotFound for an unknown project, Forbidden for a non-Editor of its team, no other refusal; success exactly for an Editor; sets the name only when one is given and never moves the project to another team |
| Projects.DeleteProject | gantt-backend/app/services/project_service.py:57-70 | NotFound for an unknown project, Forbidden for a non-Editor of its team, no other refusal; success exactly for an Editor; removes the project, its streams and every task and goal of those streams, and nothing else |
| Projects.ReaderListsOnly | gantt-backend/app/services/project_service.py:42-58 | a Reader can list the team's projects but creating, renaming and deleting are Forbidden |
| Projects.DuplicateProjectNamesAllowed | gantt-backend/app/crud/project.py:15-23 | a second project with an existing project's name is created; project names are not checked for uniqueness |
| Projects.CreateProjectKeepsIntact | gantt-backend/app/crud/project.py:15-23 | creating a project keeps every row's parent present |
| Projects.DeleteProjectKeepsIntact | gantt-backend/app/services/project_service.py:62-70 | the cascade leaves no stream, task or goal without its parent |
| Projects.DeleteProjectSparesOthers | gantt-backend/app/services/project_service.py:62-70 | streams of other projects, and their tasks and goals, survive unchanged |
| Streams.GetStreamById | gantt-backend/app/crud/stream.py:12-16 | the stream row when it exists, NotFound otherwise |
| Streams.StreamByName | gantt-backend/app/crud/stream.py:19-21 | absent exactly when no stream outside the excluded ids has that exact name in the project; otherwise such a stream |
| Streams.CreateNewStream | gantt-backend/app/crud/stream.py:24-29 | adds exactly one stream, under an unused id, with the given name and project |
| Streams.UpdateStreamRow | gantt-backend/app/crud/stream.py:32-45 | Conflict exactly when a new, different name is already taken by another stream of the project; otherwise only the name changes (when given) and the project stays |
| Streams.DeleteStreamRows | gantt-backend/app/crud/stream.py:48-58 | NotFound for a missing stream; otherwise removes the stream and exactly the tasks and goals with its id, and leaves assignments, relations and reminders in place |
| Streams.ListStreams | gantt-backend/app/services/stream_service.py:37-41 | NotFound for an unknown project, Forbidden for a non-member of its team, no other refusal; any member may list; the listing is exactly the project's streams |
| Streams.GetStream | gantt-backend/app/services/stream_service.py:44-47 | NotFound exactly when the stream or its project is missing; Forbidden for a non-member of the team, no other refusal; success exactly for a member, returning the stream |
| Streams.CreateStream | gantt-backend/app/services/stream_service.py:50-61 | NotFound for an unknown project, Forbidden for a non-Editor before any name test, Conflict exactly when an Editor reuses an existing name in the project; otherwise one new stream |
| Streams.UpdateStream | gantt-backend/app/services/stream_service.py:64-71 | NotFound exactly when the stream or its project is missing; Forbidden for a non-Editor; Conflict when the new name is taken in the project; no other refusal; for an Editor the result is the rename of the crud helper |
| Streams.DeleteStream | gantt-backend/app/services/stream_service.py:74-80 | NotFound for an unknown stream, Forbidden for a non-Editor; an Editor gets the crud cascade |
| Streams.SameNameNeverConflicts | gantt-backend/app/crud/stream.py:33 | renaming to the current name, or giving no name, changes nothing and never conflicts |
| Streams.CreateStreamKeepsNamesUnique | gantt-backend/app/services/stream_service.py:56-61 | creation keeps stream names unique within each project, and the name lookup then finds the new stream |
| Streams.UpdateStreamKeepsNamesUnique | gantt-backend/app/crud/stream.py:34-40 | a rename keeps stream names unique within each project |
| Streams.CreateStreamKeepsIntact | gantt-backend/app/crud/stream.py:24-29 | creating a stream keeps every row's parent present |
| Streams.DeleteStreamKeepsIntact | gantt-backend/app/crud/stream.py:49-57 | deleting a stream leaves no task or goal without its stream |
| Streams.ReaderCannotMutateStream | gantt-backend/app/services/stream_service.py:44-80 | a Reader of the team can get the stream, but updating and deleting it are Forbidden |
| Goals.GoalByName | gantt-backend/app/crud/goal.py:14-20 | absent exactly when no goal of the stream has that exact name apart from the excluded id; the exclusion applies only to a truthy id |
| Goals.CreateGoalRow | gantt-backend/app/crud/goal.py:23-36 | adds one goal under an unused id, storing name, description, dates, stream and position as the request schema gives them (the corrected reading of the Findings row on goals) |
| Goals.ListGoals | gantt-backend/app/services/goal_service.py:30-32 | NotFound when the stream or its project is missing, Forbidden for a non-member, no other refusal; any member may list; the listing is exactly the stream's goals |
| Goals.CreateGoal | gantt-backend/app/services/goal_service.py:35-46 | the corrected service: NotFound, then Forbidden for a non-Editor, then Conflict exactly when the stream has a goal of that name; it succeeds exactly when the stream is found, the caller is an Editor of its team and no goal of the stream has the name; a new goal keeps a supplied position, and otherwise gets 1 in an empty stream or one more than the greatest position; no other goal changes |
| Goals.UpdateGoal | gantt-backend/app/services/goal_service.py:49-67 | the corrected service: the goal lookup comes before permissions; Forbidden for a caller who is not an Editor of the goal's team; Conflict exactly when a truthy new name differs and another goal of the stream has it; it succeeds exactly when the goal and its team are found, the caller is an Editor and there is no such clash; the sent fields, position and start date included, are then set and only that goal changes |
| Goals.DeleteGoal | gantt-backend/app/services/goal_service.py:70-77 | NotFound exactly for a missing goal or a goal whose stream or project is missing; Forbidden for a non-Editor, no other refusal; success exactly for an Editor of its team, removing only that goal |
| Goals.ReaderCannotDeleteGoal | gantt-backend/app/services/goal_service.py:70-77 | a Reader of the stream's team gets Forbidden |
| Goals.CreateThenDeleteGoal | gantt-backend/app/services/goal_service.py:35-77 | deleting a goal just created gives back the store as it was |
| Goals.DeleteGoalKeepsIntact | gantt-backend/app/services/goal_service.py:70-77 | deleting a goal keeps every row's parent present |
| Goals.CreateGoalAsWritten | gantt-backend/app/services/goal_service.py:35-46 | as written against the Goal class, which maps no position or start date: the checks still answer NotFound, Forbidden and Conflict, and every request that passes them crashes |
| Goals.NoGoalIsCreated | gantt-backend/app/crud/goal.py:23-31 | every request the corrected service accepts crashes as written, so no goal is ever created |
| Goals.UpdateGoalAsWritten | gantt-backend/app/crud/goal.py:39-45 | as written: the same errors as the corrected update; on success only name, description and deadline reach the row, and its position and start date stay |
| Goals.PositionIsLost | gantt-backend/app/models/goal.py:7-13 | an Editor's update of a goal's position is applied by the corrected update and lost by the update as written |
| Goals.GoalPatchLaws | gantt-backend/app/crud/goal.py:39-45 | an update that sends no field leaves the goal as it was, and sending the same fields twice equals sending them once |
| Goals.ExclusionOfSelfIrrelevant | gantt-backend/app/crud/goal.py:17-18 | when the new name differs from the goal's own, excluding the goal itself does not change whether a collision is found |
| Goals.CreateGoalKeepsNamesUnique | gantt-backend/app/services/goal_service.py:37-39 | creation keeps goal names unique within each stream |
| Goals.UpdateGoalKeepsNamesUnique | gantt-backend/app/services/goal_service.py:56-65 | a rename to a non-empty name, or no rename, keeps goal names unique within each stream |
| Goals.EmptyNameSkipsCheck | gantt-backend/app/services/goal_service.py:56 | renaming a goal to "" skips the collision test, so two goals of one stream can both be named "" |
| Goals.CreateGoalKeepsIntact | gantt-backend/app/crud/goal.py:23-36 | creating a goal keeps every row's parent present |
| Tasks.Views | gantt-backend/app/crud/task.py:12-14 | one view per id, in order, each carrying the task row and its first assignee's email |
| Tasks.TasksByStream | gantt-backend/app/crud/task.py:10-16 | exactly the tasks with that stream id, each once, not ordered by position |
| Tasks.TasksByProjectMembers | gantt-backend/app/crud/task.py:19-23 | the project listing, the per-stream lists concatenated, holds exactly the tasks of the project's streams |
| Tasks.NewTask | gantt-backend/app/crud/task.py:32-45 | a falsy description is stored as "", a falsy status or priority as 1; name, stream, dates and position as given |
| Tasks.AllTasks | gantt-backend/app/services/task_service.py:52-56 | a caller with no membership row gets the empty list |
| Tasks.AllTasksMembers | gantt-backend/app/services/task_service.py:58-77 | a row is listed exactly when it is a task of a stream of a project of a team the caller is a member of, tagged with that team |
| Tasks.ProjectTasks | gantt-backend/app/services/task_service.py:81-91 | NotFound exactly for an unknown project; a project whose team row is gone is a Crash; a non-member of an existing team is Forbidden; success exactly for a member of an existing team, returning the project listing |
| Tasks.StreamTasks | gantt-backend/app/services/task_service.py:94-96 | NotFound exactly when the stream or project is missing; every refusal is the member check's own (NotFound, Crash for a gone team row, or Forbidden); success exactly when that check passes, returning the stream's tasks |
| Tasks.CreateTask | gantt-backend/app/services/task_service.py:99-117 | Editor only: a failing stream check returns its own error (NotFound for a missing stream or project, Crash for a gone team row, Forbidden for a non-Editor), and no other refusal kind exists; an unknown truthy assignee email is NotFound and nothing is committed; the new task has a fresh id and is the crud row built from the request, with "" for a falsy description and 1 for a falsy status or priority; it keeps a given position, otherwise gets 1 in an empty stream or exactly one more than the greatest position of the stream's tasks; a truthy email adds one assignment row for that user |
| Tasks.UpdateTask | gantt-backend/app/services/task_service.py:120-135 | the task check's error (NotFound for an unknown task, Forbidden for a Reader) is returned as it is; a permitted request with an unknown truthy email is NotFound; a truthy email replaces the first assignment row with the new assignee's; the sent columns are written and no other task changes |
| Tasks.DeleteTask | gantt-backend/app/services/task_service.py:138-144 | Editor only; while a relation at either end or a second assignment row holds the task, the commit fails and nothing changes; otherwise the task and its one assignment row go, no assignment or relation names it afterwards, and its reminders stay |
| Tasks.DeleteRelation | gantt-backend/app/services/task_service.py:147-156 | NotFound for a missing relation; when the first task's Editor check fails its error (NotFound for a missing task, Forbidden for a non-Editor) is returned; success exactly when it passes; removes only that relation |
| Tasks.ReaderCannotDeleteRelation | gantt-backend/app/services/task_service.py:147-156 | a Reader of the first task's team gets Forbidden |
| Tasks.RelateThenUnrelate | gantt-backend/app/services/task_service.py:147-171 | an Editor of the first task's team who deletes a relation just created gets the store back unchanged |
| Tasks.CreateRelation | gantt-backend/app/services/task_service.py:159-171 | NotFound when either task is missing, Conflict for a task related to itself, then NotFound for an unknown connection type; otherwise one new relation |
| Tasks.ReassignReplaces | gantt-backend/app/services/task_service.py:128-132 | with at most one assignment row before, a reassignment leaves exactly one row for the task: the new assignee's |
| Tasks.FalsyEmailKeepsAssignee | gantt-backend/app/services/task_service.py:123 | a falsy email can never clear the assignee; the reported assignee stays the same |
| Tasks.RelatedTaskIsNotDeleted | gantt-backend/app/models/task.py:25-34 | a permitted delete of a task that a relation names fails, because the relation's NOT NULL task column cannot be cleared |
| Tasks.DeleteTaskKeepsRelationsResolved | gantt-backend/app/services/task_service.py:138-144 | when every relation joins two existing tasks, a successful delete keeps it so |
| Tasks.DeleteTaskLeavesReminders | gantt-backend/app/services/task_service.py:138-144 | a deleted task's reminders stay, still naming it |
| Tasks.RelationNeedsNoPermission | gantt-backend/app/api/task.py:42-46 | any two distinct existing tasks can be related through an existing connection type, with no caller check |
| Tasks.CreateTaskKeepsIntact | gantt-backend/app/services/task_service.py:106-115 | creating a task keeps every row's parent present |
| Teams.RoleLabel | gantt-backend/app/services/team_service.py:34 | the service labels role 2 "Editor" and every other role id "Reader" |
| Teams.RoleName | gantt-backend/app/api/team.py:18-21 | the router's role name is always "Reader" or "Editor" |
| Teams.RoleNamesAgree | gantt-backend/app/api/team.py:43 | the router's mapping with its "Reader" default gives every role id the same label as the service's test |
| Teams.AddMembership | gantt-backend/app/crud/team.py:48-57 | adding a membership row keeps every existing row, gives only the new key the new row, and makes the user a member |
| Teams.AddMembershipKeepsUnique | gantt-backend/app/services/team_service.py:66-67 | adding a row for a pair without one keeps (team, user) pairs unique |
| Teams.MemberStaysMember | gantt-backend/app/services/team_service.py:60-67 | when rows are only added, a member stays a member |
| Teams.MemberViews | gantt-backend/app/services/team_service.py:28-35 | the listing succeeds exactly when every row's user exists; each entry carries that user's id, e-mail and nickname and the role label of the row |
| Teams.TeamUsers | gantt-backend/app/services/team_service.py:23-37 | NotFound exactly for a missing team, Forbidden exactly for a non-member caller; on success one entry per membership row of the team, in key order |
| Teams.TeamListing | gantt-backend/app/services/team_service.py:26-37 | past the checks the listing fails only with a Crash, and exactly when some membership row of the team names a user that is gone; otherwise one entry per row of the team in key order, with that row's user id and "Editor" exactly for the Editor role |
| Teams.TeamUsersCrash | gantt-backend/app/api/team.py:24-52 | past the checks the listing fails exactly when a row of the team names a user that no longer exists |
| Teams.CreateTeam | gantt-backend/app/services/team_service.py:40-47 | creation adds a team under a fresh id with the given name and a role-2 row for its creator, and nothing else |
| Teams.CreatorIsEditor | gantt-backend/app/api/team.py:55-71 | in a store without dangling memberships the creator may edit the new team at once and holds its only row |
| Teams.CreateTeamKeepsIntact | gantt-backend/app/services/team_service.py:40-47 | creating a team leaves no row without its parent |
| Teams.AddReaders | gantt-backend/app/services/team_service.py:60-67 | the service's invite loop stops with NotFound exactly when some e-mail is unknown; otherwise every listed user is a member; new rows are Reader rows and what was added before an error is already committed |
| Teams.UpdateTeamService | gantt-backend/app/services/team_service.py:50-79 | NotFound for a missing team, Forbidden for a caller who is not an editor; an unknown newUsers email is NotFound; any non-empty deleteUsers fails; a success renames only on a truthy name, every newUsers email names a user who is then a member, and the update keeps pairs unique |
| Teams.PartialUpdateSurvives | gantt-backend/app/services/team_service.py:60-64 | a known user listed before an unknown e-mail is a member after the request fails with NotFound |
| Teams.AddEditorsAsWritten | gantt-backend/app/api/team.py:95-110 | the router's invite loop as written: it fails exactly on an unknown e-mail and only adds role-2 rows, but looks memberships up in the store as it was before the request |
| Teams.DuplicateEmailAsWritten | gantt-backend/app/api/team.py:95-110 | listing a non-member's e-mail twice gives that user two rows in the team |
| Teams.AddEditors | gantt-backend/app/api/team.py:95-110 | the invite loop as intended: fails exactly on an unknown e-mail; otherwise every listed user is a member, new rows go only to users without one, and pairs stay unique |
| Teams.RemoveMembers | gantt-backend/app/api/team.py:112-122 | the removal loop fails exactly on an unknown e-mail; otherwise it only deletes rows, each listed user loses their first row of the team, and every row it deletes is such a first row |
| Teams.UpdateTeam | gantt-backend/app/api/team.py:74-127 | the corrected update succeeds exactly when the team exists, the caller is an editor and every listed e-mail is known; it then writes a present name and changes only teams and memberships; an existing row survives, unchanged, exactly when it is not the first row of a user listed for removal |
| Teams.Rename | gantt-backend/app/api/team.py:92-93 | a present name, even an empty one, replaces the team's name; nothing else changes |
| Teams.Invite | gantt-backend/app/api/team.py:95 | an absent newUsers field leaves the store as it is |
| Teams.UpdateTeamAsWritten | gantt-backend/app/api/team.py:74-127 | the router's update as written: Forbidden for a non-editor; NotFound exactly for a missing team or, for an editor, an unknown email in either list; a success writes a present name, changes only the team and membership tables, adds only role-2 rows of the team, and keeps, unchanged, exactly the existing rows that are not a listed user's first row |
| Teams.DuplicateInviteAsWritten | gantt-backend/app/api/team.py:95-110 | one request that names a non-member twice succeeds and leaves that user with two rows |
| Teams.UpdateTeamKeepsUniqueMemberships | gantt-backend/app/api/team.py:95-122 | the corrected update keeps one row per (team, user) pair |
| Teams.ListedMemberLeaves | gantt-backend/app/api/team.py:112-122 | with one row per pair, a member listed in deleteUsers is not a member afterwards, even if newUsers lists them too |
| Teams.InvitedUserJoins | gantt-backend/app/api/team.py:95-122 | a non-member listed in newUsers is a member afterwards, even if deleteUsers lists them too |
| Teams.DeleteTeamAsWritten | gantt-backend/app/api/team.py:130-155 | the router's delete as written: NotFound exactly for a missing team; succeeds exactly for an editor; removes exactly the team, its projects' streams, its projects and its membership rows, and leaves every other table, tasks and goals included, unchanged |
| Teams.DeleteTeamOrphansTasks | gantt-backend/app/api/team.py:147-155 | a task of the deleted team survives its stream, so the store is no longer intact |
| Teams.DeleteTeam | gantt-backend/app/services/team_service.py:82-106 | the cascade removes exactly the team, its rows, its projects, their streams and those streams' tasks and goals; every other row is unchanged |
| Teams.DeleteTeamKeepsIntact | gantt-backend/app/services/team_service.py:89-105 | the full cascade leaves no row without its parent |
| Teams.DeleteTeamSparesOthers | gantt-backend/app/services/team_service.py:89-105 | a stream of another team keeps its team, its tasks and its goals |
| Users.UserById | gantt-backend/app/crud/user.py:7-11 | the lookup fails with NotFound exactly when the user is missing, and otherwise returns that user |
| Users.UserByNickname | gantt-backend/app/crud/user.py:17-23 | no result exactly when no user has the nickname; a result is a user with that nickname |
| Users.EmailExists | gantt-backend/app/services/user_service.py:12-14 | true exactly when some user has the e-mail |
| Users.CreateUser | gantt-backend/app/crud/user.py:26-42 | Conflict exactly when the e-mail or the nickname is taken; otherwise one new user under a fresh id and nothing else changes |
| Users.IssueToken | gantt-backend/app/core/security.py:21-27 | the token encodes the decimal user id as subject and an expiry 30 days after issue; the type is "Bearer" |
| Users.Register | gantt-backend/app/services/user_service.py:17-23 | registration fails with Conflict exactly when the insert does; otherwise the store holds the new user with the hashed password and the token names the new id |
| Users.Login | gantt-backend/app/services/user_service.py:26-32 | login succeeds exactly when a user has the e-mail and the password verifies against that user's hash; every failure is Forbidden |
| Users.TeamsOfUser | gantt-backend/app/crud/team.py:25-33 | the listed teams are exactly the existing teams the user holds a row in, each once |
| Users.UserByToken | gantt-backend/app/services/user_service.py:35-38 | NotFound exactly for a missing user; otherwise the user and their teams |
| Users.GetUser | gantt-backend/app/services/user_service.py:41-47 | asking for anyone else's record is Forbidden before any lookup; one's own record is as by token |
| Users.CreateUserKeepsUnique | gantt-backend/app/crud/user.py:33-40 | a successful insert keeps e-mails and nicknames unique |
| Users.DuplicateEmailRejected | gantt-backend/app/crud/user.py:35-40 | registering a taken e-mail is a Conflict whatever the nickname |
| Users.LoginFailuresAlike | gantt-backend/app/services/user_service.py:28-29 | an unknown e-mail and a wrong password give the same Forbidden |
| Users.RegisterThenLogin | gantt-backend/app/services/user_service.py:17-32 | after registering, logging in with the same password yields a token for the new user |
| Users.TeamsAreMemberships | gantt-backend/app/services/user_service.py:35-38 | a team is listed for the user exactly when it exists and holds a row for them |
| Middleware.FirstSpace | gantt-backend/app/core/middleware.py:24 | the index found is the first space of the string, and there is none exactly when the string holds no space |
| Middleware.FirstSpaceAt | gantt-backend/app/core/middleware.py:24 | a space with no space before it is the one found |
| Middleware.AfterFirstSpace | gantt-backend/app/core/middleware.py:24 | the token is everything after the header's first space |
| Middleware.Authenticate | gantt-backend/app/core/middleware.py:14-38 | an exempt path passes without a user; a missing header or one not starting with "Bearer " is 401, so is a token that does not decode or a falsy subject; an integer subject passes as that id and any other subject is a server error |
| Middleware.CurrentUser | gantt-backend/app/api/auth.py:10-20 | no id or id 0 is a 401, an id without a user a 404; otherwise the request is admitted as exactly that user |
| Middleware.ExemptionIsPrefix | gantt-backend/app/core/middleware.py:5-18 | anything starting with an exempt path is exempt, and an ordinary route is not |
| Middleware.LowercaseSchemeRefused | gantt-backend/app/core/middleware.py:21-22 | a lower-case "bearer " scheme is refused whatever the token |
| Middleware.LoginTokenAuthenticates | gantt-backend/app/core/middleware.py:24-36 | the token a login hands out, sent back after "Bearer ", lets the request through as that user and admits that user, when decoding inverts encoding |
| Middleware.NonNumericSubjectCrashes | gantt-backend/app/core/middleware.py:31-36 | a decodable token whose subject is not an integer passes every check and then fails the conversion |
| Reminders.UserReminders | gantt-backend/app/crud/reminder.py:19-23 | the listing holds exactly the caller's reminders, each once |
| Reminders.PendingReminders | gantt-backend/app/crud/reminder.py:26-30 | the listing holds exactly the reminders not yet sent, each once |
| Reminders.TaskReminders | gantt-backend/app/services/reminder_service.py:40-43 | fails exactly when the task check fails, with its error; otherwise lists exactly the caller's own reminders on the task |
| Reminders.CreateReminder | gantt-backend/app/services/reminder_service.py:46-66 | the task check's error first; then Conflict exactly for a time before now; otherwise one new unsent row for the caller and nothing else |
| Reminders.UpdateReminder | gantt-backend/app/services/reminder_service.py:69-86 | NotFound for a missing reminder, Forbidden for another user's; Conflict exactly for a sent time before now; a success changes only that reminder's time, keeping its task, owner and sent flag |
| Reminders.DeleteReminder | gantt-backend/app/services/reminder_service.py:89-98 | NotFound for a missing reminder, Forbidden exactly for another user's; otherwise only that reminder goes |
| Reminders.ReaderMayRemind | gantt-backend/app/services/reminder_service.py:25-30 | a Reader of the task's team may set a reminder at or after now |
| Reminders.OnlyOwnerChanges | gantt-backend/app/services/reminder_service.py:80-96 | someone other than the owner can neither change nor delete a reminder, whatever their role |
| Reminders.RescheduleKeepsSent | gantt-backend/app/crud/reminder.py:45-51 | moving a reminder that already fired keeps it marked sent |
| Reminders.CreatedIsPending | gantt-backend/app/crud/reminder.py:26-42 | a new reminder is pending and listed for its owner, and the pending list grows by exactly one |
| Reminders.AddedIsUnsent | gantt-backend/app/crud/reminder.py:33-42 | adding an unsent row under a new key adds exactly that key to the unsent set |
| Push.UserSubscriptions | gantt-backend/app/crud/push.py:11-15 | the listing holds exactly the user's subscriptions, each once |
| Push.MarkAsSent | gantt-backend/app/crud/reminder.py:54-59 | the reminder is sent afterwards and keeps its task, owner and time |
| Push.SendPush | gantt-backend/app/services/push_service.py:13-45 | a missing or sent reminder changes nothing; otherwise every subscription of the owner is tried once, the reminder ends up sent, and what was delivered is among what was tried |
| Push.CreateSubscription | gantt-backend/app/services/push_service.py:48-65 | a subscription is always a new row under a fresh key and nothing else changes |
| Push.DeleteSubscription | gantt-backend/app/services/push_service.py:73-82 | NotFound for a missing subscription, Forbidden exactly for another user's; otherwise only that row goes |
| Push.SubscribeThenUnsubscribe | gantt-backend/app/services/push_service.py:48-82 | an owner deleting a subscription just created gets back the store as it was |
| Push.UnsubscribedIsNotTried | gantt-backend/app/services/push_service.py:13-45 | a deleted subscription is never tried when a reminder fires |
| Push.MarkAsSentIdempotent | gantt-backend/app/crud/reminder.py:54-59 | marking twice is marking once |
| Push.SecondFiringIsSilent | gantt-backend/app/services/push_service.py:19-21 | firing a reminder a second time tries nothing and changes nothing |
| Push.DeliveryOutcomeIgnored | gantt-backend/app/services/push_service.py:27-44 | what the deliveries answer changes neither the store nor which subscriptions are tried |
| Push.NoSubscriptionsStillSent | gantt-backend/app/services/push_service.py:23-44 | a user with no subscriptions still has the reminder marked sent |
| Push.NoEndpointDedup | gantt-backend/app/crud/push.py:18-28 | registering the same endpoint twice leaves two equal rows |
| Scheduler.AddJob | gantt-backend/app/core/scheduler.py:18-24 | adding a job under a taken id fails; otherwise exactly one entry is added, keyed by the reminder id, and the others stay |
| Scheduler.RemoveJobIfPresent | gantt-backend/app/api/reminder.py:72-73 | only the reminder's job goes, if there is one |
| Scheduler.Rehydrate | gantt-backend/app/core/scheduler.py:16-24 | the loop adds a job for each listed reminder due strictly after now, with its time, and keeps the existing jobs; with distinct ids and no clash it cannot fail |
| Scheduler.StartScheduler | gantt-backend/app/core/scheduler.py:10-26 | every job after start belongs to an unsent reminder due strictly after now, is keyed by its id and runs at its time |
| Scheduler.Fire | gantt-backend/app/core/scheduler.py:18-24 | running a job drops it from the table and fires the reminder it carries |
| Scheduler.NoJobForUnknown | gantt-backend/app/core/scheduler.py:23 | with sound jobs an unknown reminder has no job |
| Scheduler.RestartSchedulesPending | gantt-backend/app/core/scheduler.py:14-24 | after a restart a reminder has a job exactly when it is unsent and due strictly after now, and every job is sound |
| Scheduler.FireKeepsJobsSound | gantt-backend/app/services/push_service.py:44 | firing keeps every remaining job sound |
| Scheduler.SentReminderFiresSilently | gantt-backend/app/services/push_service.py:19-21 | a job whose reminder was sent fires without any delivery and without change |
| ReminderRoutes.ReminderStatus | gantt-backend/app/api/reminder.py:50-55 | not found is 404, forbidden 403, a time in the past 400, anything uncaught 500 |
| ReminderRoutes.CreateReminderRoute | gantt-backend/app/api/reminder.py:28-55 | a failing service call leaves everything as it was; a success commits the row and adds exactly one job, keyed by the new id, at the reminder's time |
| ReminderRoutes.Reschedule | gantt-backend/app/api/reminder.py:72-81 | the reminder's job is replaced by one at the new time and the other jobs stay |
| ReminderRoutes.UpdateReminderRoute | gantt-backend/app/api/reminder.py:58-89 | succeeds exactly when the service does; with a time the job moves to the new time, without one the jobs are untouched |
| ReminderRoutes.DeleteReminderRoute | gantt-backend/app/api/reminder.py:92-108 | succeeds exactly when the service does; the reminder's job is gone and the others stay |
| ReminderRoutes.CreateRouteKeepsJobsSound | gantt-backend/app/api/reminder.py:41-47 | with sound jobs creation never trips over an existing job id, and the jobs stay sound |
| ReminderRoutes.UpdateRouteKeepsJobsSound | gantt-backend/app/api/reminder.py:71-81 | an update keeps the jobs sound |
| ReminderRoutes.DeleteRouteKeepsJobsSound | gantt-backend/app/api/reminder.py:100-103 | a delete keeps the jobs sound |
| ReminderRoutes.DueNowIsNotRecovered | gantt-backend/app/core/scheduler.py:17 | a reminder created for exactly now is accepted, but a restart at that moment gives it no job |
| ReminderRoutes.RescheduledSentReminderStaysSilent | gantt-backend/app/api/reminder.py:71-81 | a reminder that already fired and is moved later gets a job that delivers nothing |
| RelationColors.ConsistentDisjoint | gantt-frontend/src/utils/relationColors.js:28-59 | while the group map is consistent, no id sits in two groups |
| RelationColors.Shift | gantt-frontend/src/utils/relationColors.js:55-58 | after the group at one index is spliced out, the groups before it keep their index and those after it move down by one |
| RelationColors.RemoveAt | gantt-frontend/src/utils/relationColors.js:57 | splicing one group out keeps every other group, at its shifted index |
| RelationColors.Merge | gantt-frontend/src/utils/relationColors.js:49-58 | merging two groups keeps the map consistent and its ids the same, drops one group, keeps ids that shared a group together, and puts both groups' members in the merged one |
| RelationColors.MergedOwnersPoint | gantt-frontend/src/utils/relationColors.js:49-58 | after a merge every id still points at a group that holds it |
| RelationColors.MergedGroupsOwned | gantt-frontend/src/utils/relationColors.js:49-58 | after a merge every member of every group points at that group |
| RelationColors.MergedOwnersMove | gantt-frontend/src/utils/relationColors.js:52-58 | the members of both merged groups end at the merged group's new index, and ids that shared a group still do |
| RelationColors.StartGroup | gantt-frontend/src/utils/relationColors.js:38-42 | two ungrouped ids form a new last group, consistency kept and every other id unmoved |
| RelationColors.JoinGroup | gantt-frontend/src/utils/relationColors.js:43-48 | an ungrouped id joins the other end's group, consistency kept and every other id unmoved |
| RelationColors.Step | gantt-frontend/src/utils/relationColors.js:32-59 | after one relation both its ends share a group, ids that shared a group still do, and the map stays consistent |
| RelationColors.Endpoints | gantt-frontend/src/utils/relationColors.js:32-33 | both ends of every relation are endpoints |
| RelationColors.Process | gantt-frontend/src/utils/relationColors.js:30-61 | after the loops the map is consistent and covers exactly the earlier ids and the relations' endpoints |
| RelationColors.ProcessKeepsTogether | gantt-frontend/src/utils/relationColors.js:30-61 | ids that shared a group before the loops share one after them |
| RelationColors.ProcessJoins | gantt-frontend/src/utils/relationColors.js:30-61 | after the loops both ends of every relation share a group |
| RelationColors.PaintColours | gantt-frontend/src/utils/relationColors.js:63-68 | painting the first n groups colours exactly the ids of those groups, each with the palette colour of its group index modulo twelve |
| RelationColors.WithRelations | gantt-frontend/src/utils/relationColors.js:20-22 | only tasks from the input with a non-empty relation list are kept |
| RelationColors.Grouped | gantt-frontend/src/utils/relationColors.js:28-61 | the grouping is consistent and covers exactly the endpoints of the relations listed on tasks with relations |
| RelationColors.GenerateRelationColors | gantt-frontend/src/utils/relationColors.js:16-71 | an id is coloured exactly when it is grouped, and its colour is COLORS at its group's index modulo twelve |
| RelationColors.NoRelationsNoColours | gantt-frontend/src/utils/relationColors.js:20-26 | with no task holding a relation the map is empty |
| RelationColors.ColouredAreEndpoints | gantt-frontend/src/utils/relationColors.js:30-69 | the coloured ids are exactly the endpoints of the relations listed on tasks with relations |
| RelationColors.RelatedShareColour | gantt-frontend/src/utils/relationColors.js:38-59 | both ends of every considered relation are coloured, with the same colour |
| RelationColors.PaletteDistinct | gantt-frontend/src/utils/relationColors.js:1-14 | the twelve palette colours are pairwise different |
| RelationColors.FewGroupsDistinctColours | gantt-frontend/src/utils/relationColors.js:63-69 | with at most twelve groups, ids in different groups get different colours |
| RelationColors.MergeSeparates | gantt-frontend/src/utils/relationColors.js:49-58 | a merge puts two ids together only if they already shared a group or came from the two merged groups |
| RelationColors.StepSeparates | gantt-frontend/src/utils/relationColors.js:35-59 | one relation puts two ids together only if they already shared a group, or each is an end of the relation or a group-mate of one |
| RelationColors.ProcessLinked | gantt-frontend/src/utils/relationColors.js:30-61 | group-mates are always joined by a chain of the relations seen so far |
| RelationColors.GroupMatesConnected | gantt-frontend/src/utils/relationColors.js:30-61 | two ids of one group are joined by a chain of the relations considered |
| RelationColors.ConnectedGroupMates | gantt-frontend/src/utils/relationColors.js:30-61 | ids joined by a chain of the relations considered end in one group |
| RelationColors.GroupsAreComponents | gantt-frontend/src/utils/relationColors.js:30-61 | the groups are exactly the connected components of the relation graph |
| RelationColors.UnrelatedDistinctColours | gantt-frontend/src/utils/relationColors.js:63-69 | with at most twelve groups, coloured tasks that no chain of relations joins get different colours |
| TaskUtils.LowerStr | gantt-frontend/src/utils/taskUtils.js:15-16 | every Latin, Latin-1 and Cyrillic capital becomes its small letter, no capital is left, and every other character stays as it was |
| TaskUtils.LowerStrIdempotent | gantt-frontend/src/utils/taskUtils.js:15-16 | lowercasing twice is lowercasing once |
| TaskUtils.CyrillicCaseFolded | gantt-frontend/src/utils/taskUtils.js:15-16 | "а" sorts before "Б" once both are lowercased, although "Б" has the smaller code |
| TaskUtils.StrLessTrichotomy | gantt-frontend/src/utils/taskUtils.js:62-67 | for two strings exactly one of less, greater or equal holds |
| TaskUtils.KeyLessTrichotomy | gantt-frontend/src/utils/taskUtils.js:62-67 | for two sort keys exactly one of less, greater or equal holds |
| TaskUtils.CompareFlips | gantt-frontend/src/utils/taskUtils.js:10-77 | swapping the arguments of the comparator flips its sign |
| TaskUtils.Insert | gantt-frontend/src/utils/taskUtils.js:10 | for a total order, inserting an element into a sorted list keeps it sorted and adds exactly that element |
| TaskUtils.SortBy | gantt-frontend/src/utils/taskUtils.js:8-10 | for a total order, the result is sorted and a permutation of the input |
| TaskUtils.FieldOf | gantt-frontend/src/utils/taskUtils.js:13-59 | exactly the nine named sort fields are known; every other field takes the `default` branch |
| TaskUtils.BeforeTotal | gantt-frontend/src/utils/taskUtils.js:10-77 | the comparator's "not after" relation is total, so the sort is well defined |
| TaskUtils.UnknownKeepsOrder | gantt-frontend/src/utils/taskUtils.js:58-59 | with a comparator that calls every pair equal, the sort leaves the list as it is |
| TaskUtils.SortTasks | gantt-frontend/src/utils/taskUtils.js:1-80 | the result is a permutation of the input, sorted by the comparator, and the rows the comparator ties keep their input order; the input itself is a value and is not changed |
| TaskUtils.InsertStable | gantt-frontend/src/utils/taskUtils.js:8-10 | insertion keeps every run of tied elements in order, the inserted one first |
| TaskUtils.SortByStable | gantt-frontend/src/utils/taskUtils.js:8-10 | the sort is stable: elements the comparator ties come out in their input order |
| TaskUtils.TiedWithIsTied | gantt-frontend/src/utils/taskUtils.js:8-80 | two rows the comparator ranks level with a third are level with each other |
| TaskUtils.SortStable | gantt-frontend/src/utils/taskUtils.js:8-80 | sorting task rows keeps every run of level rows in order |
| TaskUtils.FilterTasks | gantt-frontend/src/utils/taskUtils.js:82-102 | the result is an order-preserving subsequence of the input |
| TaskUtils.UnknownFieldKeepsOrder | gantt-frontend/src/utils/taskUtils.js:58-59 | an unknown sort field keeps the input order |
| TaskUtils.SortedByKeyThenName | gantt-frontend/src/utils/taskUtils.js:62-74 | ascending results never decrease by the field's key and descending ones never increase; for fields other than name, equal keys follow the lowercased name in the same direction |
| TaskUtils.MissingDateKeysAsZero | gantt-frontend/src/utils/taskUtils.js:22-45 | a missing start date keys as 0 and a missing status as the empty string |
| TaskUtils.FilterKeepsExactly | gantt-frontend/src/utils/taskUtils.js:89-101 | a row is kept exactly when it is in the input, in the selected team when that filter is on, and assigned to the caller in "my" mode |
| TaskUtils.NoFilterIsIdentity | gantt-frontend/src/utils/taskUtils.js:89-101 | with neither filter on, the list comes back unchanged |
| Timeline.RMax | gantt-frontend/src/components/gantt/timelineUtils.js:45 | the maximum is one of the two and at least both |
| Timeline.Ceil | gantt-frontend/src/components/gantt/timelineUtils.js:48 | the ceiling is the least integer not below its argument |
| Timeline.DaysInMonth | gantt-frontend/src/components/gantt/timelineUtils.js:12 | a month has 28 to 31 days; February has 29 exactly in a leap year as the date constructor reads the year; the thirty-day months are April, June, September and November |
| Timeline.MonthsDays | gantt-frontend/src/components/gantt/timelineUtils.js:19 | consecutive months total between 28 and 31 days each |
| Timeline.CalcScaleDays | gantt-frontend/src/components/gantt/timelineUtils.js:4-28 | day 1, week 7, two-weeks 14, month 28 to 31, quarter 90 to 92, year 366 exactly in a Gregorian leap year and 365 otherwise, any other scale 30 |
| Timeline.DayStep | gantt-frontend/src/components/gantt/timelineUtils.js:77-85 | the tick step is at least a day, one day on the day and week scales, and 7 for a scale the table lacks |
| Timeline.Offsets | gantt-frontend/src/components/gantt/timelineUtils.js:90-92 | the visited offsets start at the first, are a step apart and stay within the day count; with the break none lies past the end; without it they run until the next step would pass the day count |
| Timeline.TicksAt | gantt-frontend/src/components/gantt/timelineUtils.js:117-128 | one tick per offset, at the span start plus that many days, placed at offset times pixels per day |
| Timeline.HourTicks | gantt-frontend/src/components/gantt/timelineUtils.js:104-115 | the hour ticks are an hour apart from the first, none past the end, and there are some exactly when the first is not past the end |
| Timeline.BuildTimeline | gantt-frontend/src/components/gantt/timelineUtils.js:30-144 | the span and day count do not depend on the width; there is no timeline exactly for a falsy width; a timeline repeats the span and carries the axis ticks |
| Timeline.QuartersMakeTheYear | gantt-frontend/src/components/gantt/timelineUtils.js:14-26 | the four quarters add up to the year's length, except in year 0, which the year scale counts as leap but the date constructor reads as 1900 |
| Timeline.FixedScalesIgnoreDate | gantt-frontend/src/components/gantt/timelineUtils.js:6-8 | scales other than month, quarter and year have a length independent of the centre date |
| Timeline.WidthOnlyGatesTimeline | gantt-frontend/src/components/gantt/timelineUtils.js:56-63 | the width decides only whether there is a timeline; a zero width gives none |
| Timeline.CentredWithoutRange | gantt-frontend/src/components/gantt/timelineUtils.js:49-54 | without a data range the day count is the scale's and the span has that length, centred on the centre timestamp |
| Timeline.RangeIsPadded | gantt-frontend/src/components/gantt/timelineUtils.js:41-48 | a data range is padded by at least a day on each side and the day count covers the padded span |
| Timeline.StepTickSpacing | gantt-frontend/src/components/gantt/timelineUtils.js:117-119 | ticks of consecutive offsets are a step of days apart |
| Timeline.StepTickBound | gantt-frontend/src/components/gantt/timelineUtils.js:117-118 | a tick within the day count lies within that many days of the start |
| Timeline.StepTickLast | gantt-frontend/src/components/gantt/timelineUtils.js:117 | after the last tick, one more step would pass the day count |
| Timeline.TicksAtEveryStep | gantt-frontend/src/components/gantt/timelineUtils.js:116-128 | without a data range, off the day scale, the ticks start at the span start, are a step apart, stay within the day count and stop at the last step that fits |
| Timeline.RangeTicksInsideSpan | gantt-frontend/src/components/gantt/timelineUtils.js:89-102 | with a data range every tick lies within the padded span |
| Timeline.DayTicksAreHours | gantt-frontend/src/components/gantt/timelineUtils.js:103-115 | on the day scale every tick is a whole hour inside the span, and the ticks are an hour apart |
| GanttItems.Round | gantt-frontend/src/components/gantt/GanttChart.jsx:866 | rounding lands within half of the argument, halves rounding up |
| GanttItems.Clamp | gantt-frontend/src/components/gantt/GanttChart.jsx:868 | the clamped value lies within the bounds, equals the input inside them and the nearer bound outside |
| GanttItems.ByPositionCons | gantt-frontend/src/components/gantt/GanttChart.jsx:859-861 | an item no later than the head of a sorted list can be put before it |
| GanttItems.InsertByPosition | gantt-frontend/src/components/gantt/GanttChart.jsx:859-861 | inserting keeps the list in position order and adds exactly that item |
| GanttItems.SortByPosition | gantt-frontend/src/components/gantt/GanttChart.jsx:859-861 | the sort is a permutation of its input in position order, missing positions counting as 0 |
| GanttItems.InsertByPositionStable | gantt-frontend/src/components/gantt/GanttChart.jsx:859-861 | insertion keeps the items of each position in order, the inserted one first |
| GanttItems.SortByPositionStable | gantt-frontend/src/components/gantt/GanttChart.jsx:859-861 | the sort is stable: items with equal positions come out in their input order |
| GanttItems.SortedStaysPut | gantt-frontend/src/components/gantt/GanttChart.jsx:859-861 | items already in position order come back as they are |
| GanttItems.FindIndex | gantt-frontend/src/components/gantt/GanttChart.jsx:863 | the index found is the first with the id, and -1 exactly when no item has it |
| GanttItems.RemoveAt | gantt-frontend/src/components/gantt/GanttChart.jsx:872 | removing one element keeps every other, shifted down after it |
| GanttItems.Move | gantt-frontend/src/components/gantt/GanttChart.jsx:871-873 | the moved item lands at the target index, the rest keep their relative order, and no item is lost or added |
| GanttItems.Renumber | gantt-frontend/src/components/gantt/GanttChart.jsx:899-902 | every item keeps its fields except its position, which becomes its index plus one |
| GanttItems.Plan | gantt-frontend/src/components/gantt/GanttChart.jsx:875-886 | the planned requests send item i position i plus one, in list order |
| GanttItems.SendFromSpec | gantt-frontend/src/components/gantt/GanttChart.jsx:875-892 | the loop sends a prefix of the planned requests, succeeds exactly when every planned request is accepted, and stops right after the first refused one |
| GanttItems.SendFromPrefix | gantt-frontend/src/components/gantt/GanttChart.jsx:875-892 | the requests sent are the planned ones in order, all of them when the loop gets through |
| GanttItems.SendFromAllOk | gantt-frontend/src/components/gantt/GanttChart.jsx:875-892 | the loop gets through exactly when every planned request is accepted |
| GanttItems.SendFromStops | gantt-frontend/src/components/gantt/GanttChart.jsx:875-892 | a loop that does not get through ends with the first refused request, all earlier ones accepted |
| GanttItems.SendAll | gantt-frontend/src/components/gantt/GanttChart.jsx:875-892 | the loop sends a prefix of the plan, all of it on success; a failure ends with the one refused request after accepted ones |
| GanttItems.SendAllRefused | gantt-frontend/src/components/gantt/GanttChart.jsx:887-891 | one refused planned request makes the whole loop fail |
| GanttItems.MoveRenumberKeepsItems | gantt-frontend/src/components/gantt/GanttChart.jsx:871-902 | after a move and renumbering the positions are 1 to n in the new order, the items are the same apart from position, and the moved item is at the target |
| GanttItems.Ids | gantt-frontend/src/components/gantt/GanttChart.jsx:863 | the ids are the items' ids, in order |
| GanttItems.IdsOfMove | gantt-frontend/src/components/gantt/GanttChart.jsx:871-873 | the ids of a moved list are the moved ids |
| GanttItems.MoveInPlace | gantt-frontend/src/components/gantt/GanttChart.jsx:871-873 | moving an item to where it is changes nothing |
| Sidebar.NextStream | gantt-frontend/src/components/gantt/GanttSidebar.jsx:64-65 | the index found is the first stream row at or after the start, or the end when there is none |
| Sidebar.Segments | gantt-frontend/src/components/gantt/GanttSidebar.jsx:58-91 | the reference reading of the grouping: each stream row heads a group of the goal and task rows up to the next stream row |
| Sidebar.Streams | gantt-frontend/src/components/gantt/GanttSidebar.jsx:67-73 | the stream rows heading the groups, in order |
| Sidebar.FilledAtStream | gantt-frontend/src/components/gantt/GanttSidebar.jsx:65-71 | at a stream row the group being filled is closed as it is |
| Sidebar.FilledStep | gantt-frontend/src/components/gantt/GanttSidebar.jsx:76-80 | a goal row goes to the goals, a task row to the tasks, and any other row is skipped |
| Sidebar.SegmentsAsFilled | gantt-frontend/src/components/gantt/GanttSidebar.jsx:73-75 | a segment is the group its stream row starts, filled up to the next stream row |
| Sidebar.FoldFilling | gantt-frontend/src/components/gantt/GanttSidebar.jsx:64-88 | with a group open, the loop closes it filled up to the next stream row and then yields the segments from there |
| Sidebar.FoldEmpty | gantt-frontend/src/components/gantt/GanttSidebar.jsx:64-88 | with no group open, the loop yields the segments from the next stream row |
| Sidebar.SkipNonStreams | gantt-frontend/src/components/gantt/GanttSidebar.jsx:65 | rows that are not stream rows add no stream |
| Sidebar.StreamsCons | gantt-frontend/src/components/gantt/GanttSidebar.jsx:67-73 | the streams of a group followed by more groups are its stream followed by theirs |
| Sidebar.FromStreams | gantt-frontend/src/components/gantt/GanttSidebar.jsx:58-91 | the segments from a stream row carry exactly the stream rows from there, in order |
| Sidebar.RowItems | gantt-frontend/src/components/gantt/GanttSidebar.jsx:258 | the items of the rows, in order |
| Sidebar.FindGroup | gantt-frontend/src/components/gantt/GanttSidebar.jsx:256-257 | nothing exactly when no group has the stream id; a result is the first group with that id |
| Sidebar.StreamItems | gantt-frontend/src/components/gantt/GanttSidebar.jsx:255-259 | the stream's goals or tasks in position order, the same items as its rows; empty for an unknown stream |
| Sidebar.Reordered | gantt-frontend/src/components/gantt/GanttSidebar.jsx:240-272 | a result exactly when a drag onto another item of the same stream finds both items in the stream's sorted list; the result moves the dragged item to the target's index |
| Sidebar.Drop | gantt-frontend/src/components/gantt/GanttSidebar.jsx:240-300 | an ignored drop sends and reports nothing; otherwise the update loop runs, and the renumbered list is reported exactly when every request succeeded |
| Sidebar.Shifts | gantt-frontend/src/components/gantt/GanttSidebar.jsx:205-221 | a request is sent exactly for each item at or after the new position, moving it one place on |
| Sidebar.BeforeCreate | gantt-frontend/src/components/gantt/GanttSidebar.jsx:199-223 | an unknown stream sends no request |
| Sidebar.GoalSavedAction | gantt-frontend/src/components/gantt/GanttSidebar.jsx:174-175 | an update exactly when a goal was being edited, otherwise a creation |
| Sidebar.TaskSavedAction | gantt-frontend/src/components/gantt/GanttSidebar.jsx:186-187 | an update exactly when the selected task has a truthy id, otherwise a creation |
| Sidebar.GroupedIsSegmentation | gantt-frontend/src/components/gantt/GanttSidebar.jsx:58-91 | the loop computes exactly the reference segmentation |
| Sidebar.GroupsFollowStreams | gantt-frontend/src/components/gantt/GanttSidebar.jsx:58-91 | there is one group per stream row, in the rows' order |
| Sidebar.LeadingRowsDropped | gantt-frontend/src/components/gantt/GanttSidebar.jsx:58-91 | rows before the first stream row are dropped, and with no stream row there are no groups |
| Sidebar.DropIgnored | gantt-frontend/src/components/gantt/GanttSidebar.jsx:242-253 | a drop from another stream or onto the dragged item sends and reports nothing |
| Sidebar.DropReorders | gantt-frontend/src/components/gantt/GanttSidebar.jsx:270-296 | a completed drop reports the stream's items with the dragged one at the target's index, renumbered 1 to n, the same items as before, each sent its new position |
| Sidebar.DropFailureAborts | gantt-frontend/src/components/gantt/GanttSidebar.jsx:282-288 | a refused request aborts the drop: nothing is reported and the requests stop at the first refused one |
| Sidebar.ShiftsExactlyTheLater | gantt-frontend/src/components/gantt/GanttSidebar.jsx:205-221 | an item at or after the new position is sent its position plus one, and an item sent nothing lies before it |
| Sidebar.ShiftFreesPosition | gantt-frontend/src/components/gantt/GanttSidebar.jsx:206-214 | after the shift no item holds the new position and the items keep their order |
| Sidebar.PlaceholderCreates | gantt-frontend/src/components/gantt/GanttSidebar.jsx:187 | the insertion placeholder without an id reports a creation, an edited task an update |
| Chart.WithList | gantt-frontend/src/components/gantt/GanttChart.jsx:834-846 | the stream gets the new list of the given kind and keeps its id and its other list |
| Chart.Replace | gantt-frontend/src/components/gantt/GanttChart.jsx:598-602 | every item with the saved id is replaced by it and every other item is kept, in place |
| Chart.ChangeItems | gantt-frontend/src/components/gantt/GanttChart.jsx:591-617 | delete keeps, in order, exactly the items with another id; create appends only an id not yet present; update replaces in place the items with that id |
| Chart.FindIndexAt | gantt-frontend/src/components/gantt/GanttChart.jsx:540 | an item with the id and none before it is the one found |
| Chart.Upsert | gantt-frontend/src/components/gantt/GanttChart.jsx:540-543 | an unknown id is appended; otherwise the list keeps its length; either way the first item with the id is the saved one and every other index is unchanged |
| Chart.SavedIn | gantt-frontend/src/components/gantt/GanttChart.jsx:535-565 | a saved form upserts into the list of its kind in every stream with the form's stream id and leaves the other streams as they were |
| Chart.SidebarChanged | gantt-frontend/src/components/gantt/GanttChart.jsx:567-589 | only the streams with the change's id are changed, each by the change, and every stream keeps its id |
| Chart.FindStream | gantt-frontend/src/components/gantt/GanttChart.jsx:799-800 | nothing exactly when no stream has the id; a result is the first stream with that id |
| Chart.TargetIndex | gantt-frontend/src/components/gantt/GanttChart.jsx:809-811 | the target row lies within the list and is the current row shifted by the rounded drag when that lands inside it |
| Chart.VerticalPlan | gantt-frontend/src/components/gantt/GanttChart.jsx:795-816 | a plan exactly when the drag is 5 pixels or more, the stream and the item are found, and the clamped target row differs from the item's row; the plan moves the item to that row of the position-sorted list |
| Chart.VerticalReorder | gantt-frontend/src/components/gantt/GanttChart.jsx:794-849 | no plan sends nothing and changes nothing; otherwise the update loop runs, and the streams change only when every request succeeded, to the moved list renumbered |
| Chart.Committed | gantt-frontend/src/components/gantt/GanttChart.jsx:834-846 | only the stream with the dragged item's id gets the new list of that kind; every other stream is kept |
| Chart.MinStart | gantt-frontend/src/components/gantt/GanttChart.jsx:94-124 | the least start date: none exactly without any start date, otherwise a start date no later than any other |
| Chart.MaxDeadline | gantt-frontend/src/components/gantt/GanttChart.jsx:94-124 | the greatest deadline: none exactly without any deadline, otherwise a deadline no earlier than any other |
| Chart.MinStartAsWritten | gantt-frontend/src/components/gantt/GanttChart.jsx:96-101 | the scan as written finds some start exactly when an item has a start date |
| Chart.MaxDeadlineAsWritten | gantt-frontend/src/components/gantt/GanttChart.jsx:102-107 | the scan as written finds some deadline exactly when an item has a deadline |
| Chart.Widen | gantt-frontend/src/components/gantt/GanttChart.jsx:130-135 | the range is at least a week long; a narrower one becomes a week around its midpoint and a wider one is kept |
| Chart.DateRange | gantt-frontend/src/components/gantt/GanttChart.jsx:90-138 | a range exists exactly when some item has a start date and some a deadline, and it is at least a week long |
| Chart.DateRangeAsWritten | gantt-frontend/src/components/gantt/GanttChart.jsx:90-138 | the range as written exists in the same cases and is at least a week long |
| Chart.DeleteRemovesId | gantt-frontend/src/components/gantt/GanttChart.jsx:592-593 | after a delete no item has the id, the rest keep their order, and deleting an absent id changes nothing |
| Chart.CreateIdempotent | gantt-frontend/src/components/gantt/GanttChart.jsx:594-597 | creating the same item twice is creating it once |
| Chart.UpdateKeepsShape | gantt-frontend/src/components/gantt/GanttChart.jsx:598-602 | an update keeps the length and the ids, and applying it twice is applying it once |
| Chart.UpsertIsCreateOrUpdate | gantt-frontend/src/components/gantt/GanttChart.jsx:540-543 | with distinct ids, a saved form is the sidebar's update for a known id and its create for a new one |
| Chart.UpsertIdempotent | gantt-frontend/src/components/gantt/GanttChart.jsx:540-543 | saving the same item twice is saving it once |
| Chart.SidebarTouchesOneList | gantt-frontend/src/components/gantt/GanttChart.jsx:567-589 | a change touches only streams with its id and only the list of its kind; a reorder replaces that list wholesale; an unknown kind changes nothing |
| Chart.SmallDragIsNoOp | gantt-frontend/src/components/gantt/GanttChart.jsx:795-796 | a drag shorter than 5 pixels sends nothing and changes nothing |
| Chart.ReorderCommitsOnSuccess | gantt-frontend/src/components/gantt/GanttChart.jsx:818-846 | the streams change only when every request succeeded; the changed list is renumbered 1 to n with the same items, and other streams and the other list stay |
| Chart.DateRangeSpansItems | gantt-frontend/src/components/gantt/GanttChart.jsx:90-138 | the range exists exactly when there are a start and a deadline; when they are a week or more apart it runs exactly from the least start to the greatest deadline |
| Chart.EpochStartIsSkipped | gantt-frontend/src/components/gantt/GanttChart.jsx:98-100 | with starts at 0 and 5, the scan as written takes 5 as the minimum while the least start is 0 |
| Chart.AsWrittenAgreesOffEpoch | gantt-frontend/src/components/gantt/GanttChart.jsx:94-124 | when no date is exactly 0 the scan as written gives the least start and greatest deadline |
| StreamView.RowsHeight | gantt-frontend/src/components/gantt/GanttStream.jsx:40-46 | no rows take no height, and rows of non-negative size never take a negative one |
| StreamView.LayoutTranslates | gantt-frontend/src/components/gantt/GanttStream.jsx:37-51 | a stream's height does not depend on where it is drawn, and moving it down moves its line and both row groups by the same amount |
| StreamView.MoreRowsNoShorter | gantt-frontend/src/components/gantt/GanttStream.jsx:37-51 | with non-negative row sizes, one more goal or one more task never makes the stream shorter |
| StreamView.EmptyListsTakeNoRows | gantt-frontend/src/components/gantt/GanttStream.jsx:37-51 | without goals the task rows follow the label and the gap directly; without goals and tasks the stream is only its fixed parts |
| StreamView.DateToXMonotone | gantt-frontend/src/components/gantt/GanttStream.jsx:53-54 | the view's start is at x = 0 and a later time is never left of an earlier one |
| StreamView.BarBounds | gantt-frontend/src/components/gantt/GanttStream.jsx:56-66 | the reported ends are the two dates' positions in order, a missing start being the left and a missing end the right edge; the left edge is inside the view and the bar is at least 2 pixels wide |
| StreamView.BarInsideViewIsExact | gantt-frontend/src/components/gantt/GanttStream.jsx:56-66 | a bar inside the view and at least 2 pixels wide is drawn exactly from its start to its end |
| StreamView.UndatedBarSpansView | gantt-frontend/src/components/gantt/GanttStream.jsx:56-66 | a bar with neither date spans the whole view |
| StreamView.BarBeforeViewPinsLeft | gantt-frontend/src/components/gantt/GanttStream.jsx:56-66 | a bar wholly before the view is drawn 2 pixels wide at the left edge |
| StreamView.IsVisible | gantt-frontend/src/components/gantt/GanttStream.jsx:225-236 | a task with neither date is always drawn |
| StreamView.VisibleIffOverlaps | gantt-frontend/src/components/gantt/GanttStream.jsx:225-236 | for a non-empty view and a bar that does not end before it starts, the task is drawn exactly when some instant of it lies in the view |
| StreamView.DragShift | gantt-frontend/src/components/gantt/GanttStream.jsx:216-223 | a present non-zero date moves by the drag and any other date stays as it is |
| StreamView.DragKeepsDuration | gantt-frontend/src/components/gantt/GanttStream.jsx:216-223 | dragging keeps a bar's duration, and dragging back by the same amount restores its start |
| StreamView.DropRow | gantt-frontend/src/components/gantt/GanttStream.jsx:294-305 | the marked row lies within the list and is the row itself unless this row is being dragged vertically by a non-zero offset |
| StreamView.IndicatorMatchesRelease | gantt-frontend/src/components/gantt/GanttStream.jsx:294-305 | during a vertical drag the marked row is the clamped, rounded target row that a release computes |
| StreamView.IndicatorIsReleaseTarget | gantt-frontend/src/components/gantt/GanttStream.jsx:294-305 | for a drag of 5 pixels or more, a release moves the item exactly when the marked row is another row, and the item lands on the marked row |

## Left out

- FastAPI routing, dependency injection and the exception-to-status translation of the routers other than the reminder routes are not modelled. The one fact carried over is that the relation endpoint takes no current user.
- The SQLAlchemy session mechanics are abstract. Commit points are modelled, and an exception discards uncommitted work. Flush and refresh are left out, except that deleting a task object makes the flush clear the foreign keys of its relations and remaining assignment rows, which their NOT NULL columns refuse (`Tasks.DeleteTask`). The storage engine's own foreign-key enforcement is left out: rows that the bulk `query.delete()` cascades leave dangling are kept, and so are a deleted task's reminders.
- The thin crud wrappers (team, project, push and meta crud) are the store's map operations.
- Password hashing and verification, JWT encoding and decoding, and web-push delivery are oracle parameters, because they are foreign calls.
- APScheduler's real-time, asynchronous firing is not modelled. Jobs are entries in a map from key to time, and firing is an explicit call.
- `datetime.utcnow()` and `Date.now()` are parameters.
- The legacy stub packages and the test files are not part of this model.
- `int()` and `str()` on ids are modelled by `Decimal.Parse` and `Decimal.Show`, on a run of ASCII digits with an optional sign. Python's tolerance of surrounding whitespace and underscores is not modelled.
- The React rendering, the axios wrappers, and the UI components other than the sidebar, the chart and the stream are not modelled.
- The layout constants come from a module that is not part of this model, so they are the fields of `StreamView.Metrics`.
- The TaskList and GoalList comparators are left out. They return 1 for equal names, so the order they give is engine-defined. `TaskUtils.SortTasks` is modelled instead.
- JavaScript `Date` conversions, time zones and locale formatting are left out. The centre date's year and month are inputs, and timestamps are numbers of milliseconds.
- Floating-point behaviour is left out: the pixel widths, scroll and centring arithmetic, NaN dates, and IEEE rounding. Pixels and timestamps are `real` numbers, and `Math.round` is `floor(x + 0.5)`.
- The resize handles of the stream bars and the horizontal drag commit of the chart are not modelled. Only the drag's displayed offset is modelled (`StreamView.DragShift`).
- The sidebar's UI state resets are left out: selection, dragging flags, and the opening and closing of forms. The sidebar's update requests carry only the position; the other payload fields are not modelled.
- Chart.VerticalReorder: its requests (`GanttItems.Plan`) carry only the id and the new position. The chart also resends the other fields with every request: the name trimmed, or "Цель" / "Задача" when empty; the dates and the assignee email as `… || null`; and the status and priority as `Number(…) || null`. A reorder can therefore rename an item or clear its fields on the server, and that effect is not modelled.
- The chart's reducer returns `undefined` for an unknown action string. `Chart.Action` is closed, so that case does not arise.
- JavaScript's `null` and `undefined` are both `None`.
- Sidebar.Shifts: a missing position is read as 0, as `null >= p` reads it. An `undefined` position would compare false and not be shifted, and that case is not modelled.
- TaskUtils.FilterKeepsExactly: in "my" mode a task with no assignee email is kept when the user email is missing too. This follows `null === null`; an `undefined` email against `null` is not distinguished.
- TaskUtils.FilterKeepsExactly: `Number(selectedTeamId)` is read as `Decimal.Parse`. JavaScript's `Number` also accepts surrounding white space, a fraction or an exponent, and hexadecimal, octal and binary literals, so a team id written " 5", "5.0", "0x5" or "5e0" selects team 5 in the code, and it selects nothing in the model. A blank text reads as 0 there.
- TaskUtils.SortTasks: `StrLess` compares strings by code point, while JavaScript's `<` compares UTF-16 code units. The two orders differ only between a character above U+FFFF and one in U+E000-U+FFFF.
- Tasks.AllTasks: its own contract states only the empty case. The exact contents are stated by `Tasks.AllTasksMembers`.
- Users.TeamsOfUser: the SQL query's row order is unspecified. The model returns the teams in id order, each once.
- Teams.UpdateTeamService: the service calls a crud helper that does not exist (`delete_user_from_team`). A non-empty removal list therefore always fails: NotFound for an unknown first email, and otherwise a Crash.
- RelationColors.FewGroupsDistinctColours: colour distinctness is stated for at most twelve groups. With more, the palette repeats, as in the code. The same bound holds for `RelationColors.UnrelatedDistinctColours`.
- Projects.UpdateProject: an explicit JSON `null` name passes the all-optional update schema. `setattr` then writes it to the NOT NULL `name` column and the commit fails with a 500. The model reads `null` as "not sent" for this field.
- Tasks.UpdateTask: the same explicit-`null` crash on the NOT NULL `name` and `position` columns is read as "not sent".
- Goals.UpdateGoal: the same explicit-`null` crash on the NOT NULL `name` and `deadline` columns is read as "not sent". A `null` deadline at creation is not modelled as a crash either.
- Goals.UpdateGoalAsWritten: the route's response model asks for a `position` that the row does not hold; that serialisation step is not modelled.
- Reminders.CreateReminder: a `remind_at` with a `Z` or an offset parses to an aware datetime. Comparing it with the naive `datetime.utcnow()` raises TypeError, which is a 500. Times are plain integers in the model, so this case is not modelled.
- Reminders.UpdateReminder: the same aware-against-naive comparison is not modelled.
- TaskUtils.LowerStr: lowercasing covers the Latin, Latin-1 and Cyrillic capitals (U+0400-U+042F). Other scripts and the special cases of `toLowerCase()`, such as İ, are left as they are. `TaskUtils.SortTasks` sorts on these keys.
- StreamView.IsVisible: its own contract states only the undated case. The full condition is stated by `StreamView.VisibleIffOverlaps`.

## Findings

| source | as written | input that shows it | evidently intended | confidence | as-written member | corrected member |
|---|---|---|---|---|---|---|
| gantt-backend/app/api/team.py:95-110 | membership lookups run on a session with autoflush off, so a member added earlier in the same request is not seen | `newUsers` lists the same non-member email twice | each user is added once | not executed | Teams.DuplicateInviteAsWritten | Teams.UpdateTeamKeepsUniqueMemberships |
| gantt-backend/app/api/team.py:147-155 | deleting a team removes its streams, projects, memberships and the team, but not the tasks and goals of those streams | a team with one project, one stream and one task in it | the stream's tasks and goals go with it, as in the service layer | not executed | Teams.DeleteTeamOrphansTasks | Teams.DeleteTeamKeepsIntact |
| gantt-frontend/src/components/gantt/GanttChart.jsx:90-138 | `!minDate \|\|` treats a start timestamp of 0 as unset, so a later start replaces it | an item starting at 0 with a deadline of 30 days, and an item starting at 5 | the range starts at the least start date, 0 | not executed | Chart.EpochStartIsSkipped | Chart.DateRangeSpansItems |
| gantt-backend/app/services/goal_service.py:41-46 | the `Goal` class (gantt-backend/app/models/goal.py:7-13) maps no `position` and no `start_date` column, yet the service reads `Goal.position` and the crud passes both keywords to the constructor, so every creation raises | any goal creation by an Editor under a new name, with or without a position | goals are stored with their position and start date, as the schemas and the frontend expect | not executed | Goals.CreateGoalAsWritten | Goals.CreateGoal |
| gantt-backend/app/crud/goal.py:39-45 | `setattr` of `position` or `start_date` lands on attributes the `Goal` class does not map, so they are never stored | an Editor's update that sends a position different from the goal's | the sent position and start date are stored | not executed | Goals.PositionIsLost | Goals.UpdateGoal |

=== FILE: access.dfy ===
/** The ownership chain behind every permission check of the backend.

    A task belongs to a stream, a stream to a project, a project to a team,
    and a caller may act on any of them when it holds a membership row of
    that team; mutations additionally need the Editor role. Each service
    module has its own copy of the check, and the copies differ only in the
    order of lookups and in how the team is reached from the project.
 */
module Access {
  import opened Base
  import opened Store

  /** The role of the caller's first membership row in the team, if any. */
  function RoleIn(db: Db, teamId: Id, userId: Id): (r: Option<int>)
    ensures r.Some? <==> IsMember(db, userId, teamId)
  {
    match FirstMembership(db, teamId, userId)
    case None => None
    case Some(k) => Some(db.memberships[k].roleId)
  }

  /** What a check grants: membership, plus the Editor role when the
      action needs a lead. */
  ghost predicate Authorized(db: Db, userId: Id, teamId: Id, needLead: bool) {
    IsMember(db, userId, teamId) && (needLead ==> RoleIn(db, teamId, userId) == Some(EDITOR))
  }

  /** The membership lookup and the role test that end every check. */
  function CheckMember(db: Db, teamId: Id, userId: Id, needLead: bool): (r: Result<Membership>)
    ensures r.Err? ==> r.error == Forbidden
    ensures r.Ok? <==> Authorized(db, userId, teamId, needLead)
    ensures r.Ok? ==> r.value.teamId == teamId && r.value.userId == userId && r.value in db.memberships.Values
    ensures r.Ok? && needLead ==> r.value.roleId == EDITOR
  {
    match FirstMembership(db, teamId, userId)
    case None => Err(Forbidden)
    case Some(k) =>
      var m := db.memberships[k];
      if needLead && m.roleId != EDITOR then Err(Forbidden) else Ok(m)
  }

  /** `check_team_permissions` (the project and team services share it):
      the team must exist before membership is looked at. */
  function CheckTeam(db: Db, teamId: Id, userId: Id, needLead: bool): (r: Result<Membership>)
    ensures r == Err(NotFound) <==> teamId !in db.teams
    ensures r == Err(Forbidden) <==> teamId in db.teams && !Authorized(db, userId, teamId, needLead)
    ensures r.Ok? <==> teamId in db.teams && Authorized(db, userId, teamId, needLead)
    ensures r.Ok? ==> r.value.teamId == teamId && r.value.userId == userId && r.value in db.memberships.Values
  {
    if teamId !in db.teams then Err(NotFound)
    else CheckMember(db, teamId, userId, needLead)
  }

  /** `check_project_permissions`: the project must exist; the team row
      itself is never looked up. */
  function CheckProject(db: Db, projectId: Id, userId: Id, needLead: bool): (r: Result<Project>)
    ensures r == Err(NotFound) <==> projectId !in db.projects
    ensures r.Ok? <==> projectId in db.projects && Authorized(db, userId, db.projects[projectId].teamId, needLead)
    ensures r.Ok? ==> r.value == db.projects[projectId]
    ensures r.Err? ==> r.error in {NotFound, Forbidden}
  {
    if projectId !in db.projects then Err(NotFound)
    else
      var p := db.projects[projectId];
      var _ :- CheckMember(db, p.teamId, userId, needLead);
      Ok(p)
  }

  /** `check_project_access` of the stream service: membership only, and
      the membership row is handed back for a later role test. */
  function ProjectAccess(db: Db, projectId: Id, userId: Id): (r: Result<(Project, Membership)>)
    ensures r == Err(NotFound) <==> projectId !in db.projects
    ensures r.Ok? <==> projectId in db.projects && IsMember(db, userId, db.projects[projectId].teamId)
    ensures r.Ok? ==> r.value.0 == db.projects[projectId] && r.value.1.teamId == r.value.0.teamId
                      && r.value.1.userId == userId
  {
    if projectId !in db.projects then Err(NotFound)
    else
      var p := db.projects[projectId];
      var m :- CheckMember(db, p.teamId, userId, false);
      Ok((p, m))
  }

  /** `check_stream_access`: the stream lookup raises NotFound first. */
  function StreamAccess(db: Db, streamId: Id, userId: Id): (r: Result<(Stream, Project, Membership)>)
    ensures streamId !in db.streams ==> r == Err(NotFound)
    ensures r.Ok? <==> streamId in db.streams && db.streams[streamId].projectId in db.projects
                       && IsMember(db, userId, db.projects[db.streams[streamId].projectId].teamId)
    ensures r.Ok? ==> r.value.0 == db.streams[streamId] && r.value.1 == db.projects[r.value.0.projectId]
                      && r.value.2.teamId == r.value.1.teamId && r.value.2.userId == userId
  {
    if streamId !in db.streams then Err(NotFound)
    else
      var s := db.streams[streamId];
      var pm :- ProjectAccess(db, s.projectId, userId);
      Ok((s, pm.0, pm.1))
  }

  /** `check_admin_permission`: the Editor role on an already found membership. */
  function AdminPermission(m: Membership): (r: Result<Membership>)
    ensures r.Ok? <==> m.roleId == EDITOR
    ensures r.Ok? ==> r.value == m
    ensures r.Err? ==> r.error == Forbidden
  {
    if m.roleId != EDITOR then Err(Forbidden) else Ok(m)
  }

  /** The team a stream belongs to, when its project exists. */
  function StreamTeam(db: Db, streamId: Id): Option<Id> {
    if streamId in db.streams && db.streams[streamId].projectId in db.projects
    then Some(db.projects[db.streams[streamId].projectId].teamId)
    else None
  }

  /** `check_stream_permissions` of the goal service (`viaRelationship` false,
      team taken from `project.team_id`) and of the task service
      (`viaRelationship` true, team taken from `project.team.id`, which
      raises when the team row is gone). */
  function CheckStream(db: Db, streamId: Id, userId: Id, needLead: bool, viaRelationship: bool): (r: Result<Stream>)
    ensures streamId !in db.streams ==> r == Err(NotFound)
    ensures streamId in db.streams && db.streams[streamId].projectId !in db.projects ==> r == Err(NotFound)
    ensures r == Err(NotFound) <==> StreamTeam(db, streamId).None?
    ensures r == Err(Crash) <==> StreamTeam(db, streamId).Some? && viaRelationship && StreamTeam(db, streamId).value !in db.teams
    ensures r.Ok? <==> StreamTeam(db, streamId).Some? && (viaRelationship ==> StreamTeam(db, streamId).value in db.teams)
                       && Authorized(db, userId, StreamTeam(db, streamId).value, needLead)
    ensures r.Ok? ==> r.value == db.streams[streamId]
  {
    if streamId !in db.streams then Err(NotFound)
    else
      var s := db.streams[streamId];
      if s.projectId !in db.projects then Err(NotFound)
      else
        var teamId := db.projects[s.projectId].teamId;
        if viaRelationship && teamId !in db.teams then Err(Crash)
        else
          var _ :- CheckMember(db, teamId, userId, needLead);
          Ok(s)
  }

  /** `check_task_permissions` of the task service (and, with `needLead`
      false, of the reminder service): the task, then its stream chain. */
  function CheckTask(db: Db, taskId: Id, userId: Id, needLead: bool): (r: Result<Task>)
    ensures taskId !in db.tasks ==> r == Err(NotFound)
    ensures taskId in db.tasks ==> (r.Ok? <==> CheckStream(db, db.tasks[taskId].streamId, userId, needLead, true).Ok?)
    ensures taskId in db.tasks && r.Err? ==> r.error == CheckStream(db, db.tasks[taskId].streamId, userId, needLead, true).error
    ensures r.Ok? ==> r.value == db.tasks[taskId]
  {
    if taskId !in db.tasks then Err(NotFound)
    else
      var t := db.tasks[taskId];
      var _ :- CheckStream(db, t.streamId, userId, needLead, true);
      Ok(t)
  }

  // ---- Relations between the checks --------------------------------------

  /** The Editor grant implies the plain member grant. */
  lemma EditorIsMember(db: Db, userId: Id, teamId: Id)
    ensures Authorized(db, userId, teamId, true) ==> Authorized(db, userId, teamId, false)
  {
  }

  /** With one membership row per (team, user), the Editor check holds
      exactly when the caller's row carries role 2. */
  lemma AuthorizedUnique(db: Db, userId: Id, teamId: Id)
    requires UniqueMemberships(db)
    ensures Authorized(db, userId, teamId, true) <==>
            exists k :: k in db.memberships && db.memberships[k] == Membership(userId, teamId, EDITOR)
  {
    if k :| k in db.memberships && db.memberships[k] == Membership(userId, teamId, EDITOR) {
      FirstMembershipUnique(db, teamId, userId, k);
    }
  }

  /** The stream service's two-step check (access, then the role of the
      returned membership) agrees with the goal service's one-step check. */
  lemma StreamChecksAgree(db: Db, streamId: Id, userId: Id)
    ensures (var a := StreamAccess(db, streamId, userId);
             a.Ok? && AdminPermission(a.value.2).Ok?) <==> CheckStream(db, streamId, userId, true, false).Ok?
    ensures StreamAccess(db, streamId, userId).Ok? <==> CheckStream(db, streamId, userId, false, false).Ok?
  {
  }

  /** Likewise for projects: `check_project_access` followed by the admin
      test is `check_project_permissions` with `need_lead`. */
  lemma ProjectChecksAgree(db: Db, projectId: Id, userId: Id)
    ensures (var a := ProjectAccess(db, projectId, userId);
             a.Ok? && AdminPermission(a.value.1).Ok?) <==> CheckProject(db, projectId, userId, true).Ok?
  {
  }

  /** The two ways of reaching the team agree whenever the team row exists. */
  lemma RelationshipAgreesWithColumn(db: Db, streamId: Id, userId: Id, needLead: bool)
    requires Intact(db)
    ensures CheckStream(db, streamId, userId, needLead, true) == CheckStream(db, streamId, userId, needLead, false)
  {
  }
}

=== FILE: base.dfy ===
/** Failure-carrying wrappers shared by the whole model.

    The backend raises exactly three domain exceptions (NotFoundError,
    ForbiddenError, ConflictError); services that succeed return a value.
    `Crash` stands for an exception outside that taxonomy (an AttributeError
    or a failed `int(...)`), which the web framework turns into a 500.
 */
module Base {

  datatype Option<+T> = None | Some(value: T) {
    predicate IsFailure() {
      None?
    }

    function PropagateFailure<U>(): Option<U>
      requires None?
    {
      None
    }

    function Extract(): T
      requires Some?
    {
      value
    }
  }

  datatype Error = NotFound | Forbidden | Conflict | Crash

  datatype Result<+T> = Ok(value: T) | Err(error: Error) {
    predicate IsFailure() {
      Err?
    }

    function PropagateFailure<U>(): Result<U>
      requires Err?
    {
      Err(error)
    }

    function Extract(): T
      requires Ok?
    {
      value
    }
  }

  /** Python truthiness of an optional string: `None` and `""` are falsy. */
  predicate TruthyStr(s: Option<string>) {
    s.Some? && s.value != ""
  }

  /** JavaScript / Python truthiness of an optional number: absent and 0 are falsy. */
  predicate TruthyNum(n: Option<int>) {
    n.Some? && n.value != 0
  }
}

=== FILE: cascade.dfy ===
/** The bulk `query(...).filter(... in_(ids)).delete()` statements the
    services issue when a parent row goes away. Each removes exactly the
    rows whose parent key is in the given set and keeps the others as they
    were.
 */
module Cascade {
  import opened Store

  function DropTasks(tasks: map<Id, Task>, streamIds: set<Id>): (r: map<Id, Task>)
    ensures forall k :: k in r <==> k in tasks && tasks[k].streamId !in streamIds
    ensures forall k | k in r :: r[k] == tasks[k]
  {
    map k | k in tasks && tasks[k].streamId !in streamIds :: tasks[k]
  }

  function DropGoals(goals: map<Id, Goal>, streamIds: set<Id>): (r: map<Id, Goal>)
    ensures forall k :: k in r <==> k in goals && goals[k].streamId !in streamIds
    ensures forall k | k in r :: r[k] == goals[k]
  {
    map k | k in goals && goals[k].streamId !in streamIds :: goals[k]
  }

  function DropStreams(streams: map<Id, Stream>, projectIds: set<Id>): (r: map<Id, Stream>)
    ensures forall k :: k in r <==> k in streams && streams[k].projectId !in projectIds
    ensures forall k | k in r :: r[k] == streams[k]
  {
    map k | k in streams && streams[k].projectId !in projectIds :: streams[k]
  }

  function DropProjects(projects: map<Id, Project>, teamId: Id): (r: map<Id, Project>)
    ensures forall k :: k in r <==> k in projects && projects[k].teamId != teamId
    ensures forall k | k in r :: r[k] == projects[k]
  {
    map k | k in projects && projects[k].teamId != teamId :: projects[k]
  }

  function DropMemberships(memberships: map<Id, Membership>, teamId: Id): (r: map<Id, Membership>)
    ensures forall k :: k in r <==> k in memberships && memberships[k].teamId != teamId
    ensures forall k | k in r :: r[k] == memberships[k]
  {
    map k | k in memberships && memberships[k].teamId != teamId :: memberships[k]
  }
}

=== FILE: chart.dfy ===
/** The Gantt chart's own state: the streams with their goals and tasks,
    the reducers that apply a saved form or a sidebar change to them, the
    vertical drag that reorders a stream's list, and the date range the
    time axis is fitted to.

    Server requests are the oracle `ok` of the update loop; React's state
    setters become functions from the old streams to the new. */
module Chart {
  import opened Base
  import opened Seqs
  import opened GanttItems
  import Timeline

  datatype Stream = Stream(id: int, goals: seq<Item>, tasks: seq<Item>)

  predicate HasId(items: seq<Item>, id: int) {
    exists k | 0 <= k < |items| :: items[k].id == id
  }

  function ListOf(s: Stream, kind: Kind): seq<Item> {
    if kind == Goals then s.goals else s.tasks
  }

  function WithList(s: Stream, kind: Kind, items: seq<Item>): (r: Stream)
    ensures ListOf(r, kind) == items && r.id == s.id
    ensures kind == Goals ==> r.tasks == s.tasks
    ensures kind == Tasks ==> r.goals == s.goals
  {
    if kind == Goals then s.(goals := items) else s.(tasks := items)
  }

  // ---- handleTaskDataChanged / handleGoalDataChanged ----------------------

  function Replace(items: seq<Item>, item: Item): (r: seq<Item>)
    ensures |r| == |items|
    ensures forall k | 0 <= k < |r| :: r[k] == (if items[k].id == item.id then item else items[k])
  {
    seq(|items|, k requires 0 <= k < |items| => if items[k].id == item.id then item else items[k])
  }

  /** The reducer for one change; a reorder never reaches it. */
  function ChangeItems(items: seq<Item>, item: Item, action: Action): (r: seq<Item>)
    requires action != Reorder
    ensures action == Delete ==> IsSubsequence(r, items)
    ensures action == Delete ==> forall x :: x in r <==> x in items && x.id != item.id
    ensures action == Create ==> (HasId(items, item.id) ==> r == items)
    ensures action == Create ==> (!HasId(items, item.id) ==> r == items + [item])
    ensures action == Update ==> |r| == |items|
    ensures action == Update ==> forall k | 0 <= k < |r| ::
      (items[k].id == item.id ==> r[k] == item) && (items[k].id != item.id ==> r[k] == items[k])
  {
    match action
    case Delete =>
      var keep := (x: Item) => x.id != item.id;
      FilterIsSubsequence(items, keep);
      Filter(items, keep)
    case Create => if HasId(items, item.id) then items else items + [item]
    case Update => Replace(items, item)
  }

  // ---- handleTaskSaved / handleGoalSaved ----------------------------------

  lemma FindIndexAt(items: seq<Item>, id: int, i: int)
    requires 0 <= i < |items| && items[i].id == id
    requires forall j | 0 <= j < i :: items[j].id != id
    ensures FindIndex(items, id) == i
  {
  }

  /** Replace the first item with the saved one's id, or append it. */
  function Upsert(items: seq<Item>, saved: Item): (r: seq<Item>)
    ensures HasId(items, saved.id) ==> |r| == |items|
    ensures !HasId(items, saved.id) ==> r == items + [saved]
    ensures FindIndex(r, saved.id) >= 0 && r[FindIndex(r, saved.id)] == saved
    ensures forall k | 0 <= k < |items| && k != FindIndex(items, saved.id) :: r[k] == items[k]
  {
    var idx := FindIndex(items, saved.id);
    if idx == -1 then
      var r := items + [saved];
      assert r[|items|] == saved;
      r
    else
      var r := items[idx := saved];
      FindIndexAt(r, saved.id, idx);
      r
  }

  /** `handleGoalSaved` / `handleTaskSaved`: the upsert in every stream with
      the form's stream id. */
  function SavedIn(streams: seq<Stream>, streamId: int, saved: Item, kind: Kind): (r: seq<Stream>)
    ensures |r| == |streams|
    ensures forall k | 0 <= k < |r| ::
      (r[k] == if streams[k].id == streamId then WithList(streams[k], kind, Upsert(ListOf(streams[k], kind), saved))
               else streams[k])
  {
    seq(|streams|, k requires 0 <= k < |streams| =>
      if streams[k].id == streamId then WithList(streams[k], kind, Upsert(ListOf(streams[k], kind), saved))
      else streams[k])
  }

  // ---- handleSidebarDataChanged -------------------------------------------

  /** A change reported by the sidebar: `type` is the kind of row. */
  datatype Change = Change(kind: string, action: Action, streamId: int, item: Item, list: seq<Item>)

  function ApplyToStream(s: Stream, c: Change): Stream {
    if c.kind == "goal" then
      (if c.action == Reorder then s.(goals := c.list) else s.(goals := ChangeItems(s.goals, c.item, c.action)))
    else if c.kind == "task" then
      (if c.action == Reorder then s.(tasks := c.list) else s.(tasks := ChangeItems(s.tasks, c.item, c.action)))
    else s
  }

  /** `handleSidebarDataChanged`. */
  function SidebarChanged(streams: seq<Stream>, c: Change): (r: seq<Stream>)
    ensures |r| == |streams|
    ensures forall k | 0 <= k < |r| :: r[k].id == streams[k].id
    ensures forall k | 0 <= k < |r| && streams[k].id != c.streamId :: r[k] == streams[k]
    ensures forall k | 0 <= k < |r| && streams[k].id == c.streamId :: r[k] == ApplyToStream(streams[k], c)
  {
    seq(|streams|, k requires 0 <= k < |streams| =>
      if streams[k].id != c.streamId then streams[k] else ApplyToStream(streams[k], c))
  }

  // ---- Vertical reorder ---------------------------------------------------

  /** The result of releasing a vertical drag: the update requests sent and
      the streams afterwards. */
  datatype Moved = Moved(requests: seq<Request>, streams: seq<Stream>)

  function Abs(x: real): real {
    if x < 0.0 then -x else x
  }

  /** `streamsData.find((s) => s.id === streamId)`. */
  function FindStream(streams: seq<Stream>, streamId: int): (r: Option<Stream>)
    ensures r.None? <==> forall k | 0 <= k < |streams| :: streams[k].id != streamId
    ensures r.Some? ==> r.value in streams && r.value.id == streamId
    ensures r.Some? ==> exists j | 0 <= j < |streams| ::
      streams[j] == r.value && forall k | 0 <= k < j :: streams[k].id != streamId
    decreases |streams|
  {
    if streams == [] then None
    else if streams[0].id == streamId then Some(streams[0])
    else
      var r := FindStream(streams[1..], streamId);
      assert forall k | 1 <= k < |streams| :: streams[k] == streams[1..][k - 1];
      if r.Some? then
        var j :| 0 <= j < |streams[1..]| && streams[1..][j] == r.value
                 && forall k | 0 <= k < j :: streams[1..][k].id != streamId;
        assert streams[j + 1] == r.value;
        r
      else r
  }

  /** The row the dragged item lands on: its index moved by the rounded
      number of rows dragged, kept within the list. */
  function TargetIndex(n: int, current: int, deltaY: real, rowHeight: real): (r: int)
    requires 0 <= current < n && rowHeight > 0.0
    ensures 0 <= r < n
    ensures 0 <= current + Round(deltaY / rowHeight) < n ==> r == current + Round(deltaY / rowHeight)
  {
    Clamp(0, n - 1, current + Round(deltaY / rowHeight))
  }

  /** The stream's list with the item moved to its target row, or `None`
      when the release does nothing. */
  function VerticalPlan(streams: seq<Stream>, streamId: int, itemId: int, deltaY: real,
                        rowHeight: real, kind: Kind): (r: Option<seq<Item>>)
    requires rowHeight > 0.0
    ensures Abs(deltaY) < 5.0 ==> r.None?
    ensures FindStream(streams, streamId).None? ==> r.None?
    ensures r.Some? <==>
      && Abs(deltaY) >= 5.0 && FindStream(streams, streamId).Some?
      && var sorted := SortByPosition(ListOf(FindStream(streams, streamId).value, kind));
         var cur := FindIndex(sorted, itemId);
         0 <= cur && TargetIndex(|sorted|, cur, deltaY, rowHeight) != cur
    ensures r.Some? ==>
      var sorted := SortByPosition(ListOf(FindStream(streams, streamId).value, kind));
      var cur := FindIndex(sorted, itemId);
      && 0 <= cur < |sorted|
      && var target := TargetIndex(|sorted|, cur, deltaY, rowHeight);
      && target != cur
      && r.value == Move(sorted, cur, target)
  {
    if Abs(deltaY) < 5.0 then None
    else
      match FindStream(streams, streamId)
      case None => None
      case Some(stream) =>
        var sorted := SortByPosition(ListOf(stream, kind));
        var cur := FindIndex(sorted, itemId);
        if cur == -1 then None
        else
          var target := TargetIndex(|sorted|, cur, deltaY, rowHeight);
          if target == cur then None
          else Some(Move(sorted, cur, target))
  }

  /** `onUpVertical` / `onUpVerticalTask`; `rowHeight` is the row height
      plus the gap between rows. */
  function VerticalReorder(streams: seq<Stream>, streamId: int, itemId: int, deltaY: real,
                           rowHeight: real, kind: Kind, ok: Request -> bool): (r: Moved)
    requires rowHeight > 0.0
    ensures VerticalPlan(streams, streamId, itemId, deltaY, rowHeight, kind).None? ==> r == Moved([], streams)
    ensures VerticalPlan(streams, streamId, itemId, deltaY, rowHeight, kind).Some? ==>
      var m := VerticalPlan(streams, streamId, itemId, deltaY, rowHeight, kind).value;
      && r.requests == SendAll(m, ok).requests
      && (!SendAll(m, ok).allOk ==> r.streams == streams)
      && (SendAll(m, ok).allOk ==> r.streams == Committed(streams, streamId, kind, Renumber(m)))
  {
    match VerticalPlan(streams, streamId, itemId, deltaY, rowHeight, kind)
    case None => Moved([], streams)
    case Some(reordered) =>
      var sent := SendAll(reordered, ok);
      if !sent.allOk then Moved(sent.requests, streams)
      else
        Moved(sent.requests, Committed(streams, streamId, kind, Renumber(reordered)))
  }

  /** `setStreams` after the loop: the stream with the id takes the new list
      of the given kind. */
  function Committed(streams: seq<Stream>, streamId: int, kind: Kind, list: seq<Item>): (r: seq<Stream>)
    ensures |r| == |streams|
    ensures forall k | 0 <= k < |r| ::
      r[k] == if streams[k].id == streamId then WithList(streams[k], kind, list) else streams[k]
  {
    seq(|streams|, k requires 0 <= k < |streams| =>
      if streams[k].id == streamId then WithList(streams[k], kind, list) else streams[k])
  }

  // ---- dateRange ----------------------------------------------------------

  /** The items the range is taken over: each stream's tasks, then its goals. */
  function AllItems(streams: seq<Stream>): seq<Item> {
    FlatMap(streams, (s: Stream) => s.tasks + s.goals)
  }

  predicate HasStart(items: seq<Item>) {
    exists k | 0 <= k < |items| :: items[k].startDate.Some?
  }

  predicate HasDeadline(items: seq<Item>) {
    exists k | 0 <= k < |items| :: items[k].deadline.Some?
  }

  /** The least start date, scanning from `acc`. */
  function MinStart(items: seq<Item>, acc: Option<int>): (r: Option<int>)
    ensures r.None? <==> acc.None? && !HasStart(items)
    ensures r.Some? && acc.Some? ==> r.value <= acc.value
    ensures r.Some? ==> forall k | 0 <= k < |items| && items[k].startDate.Some? :: r.value <= items[k].startDate.value
    ensures r.Some? ==> r == acc || exists k | 0 <= k < |items| :: items[k].startDate == r
    decreases |items|
  {
    if items == [] then acc
    else
      var x := items[0];
      var acc' := if x.startDate.Some? && (acc.None? || x.startDate.value < acc.value) then x.startDate else acc;
      assert forall k | 1 <= k < |items| :: items[k] == items[1..][k - 1];
      MinStart(items[1..], acc')
  }

  /** The greatest deadline, scanning from `acc`. */
  function MaxDeadline(items: seq<Item>, acc: Option<int>): (r: Option<int>)
    ensures r.None? <==> acc.None? && !HasDeadline(items)
    ensures r.Some? && acc.Some? ==> r.value >= acc.value
    ensures r.Some? ==> forall k | 0 <= k < |items| && items[k].deadline.Some? :: r.value >= items[k].deadline.value
    ensures r.Some? ==> r == acc || exists k | 0 <= k < |items| :: items[k].deadline == r
    decreases |items|
  {
    if items == [] then acc
    else
      var x := items[0];
      var acc' := if x.deadline.Some? && (acc.None? || x.deadline.value > acc.value) then x.deadline else acc;
      assert forall k | 1 <= k < |items| :: items[k] == items[1..][k - 1];
      MaxDeadline(items[1..], acc')
  }

  /** The scan as written: `!minDate || startTs < minDate`, so a minimum
      equal to 0 counts as no minimum yet. */
  function MinStartAsWritten(items: seq<Item>, acc: Option<int>): (r: Option<int>)
    ensures r.None? <==> acc.None? && !HasStart(items)
    decreases |items|
  {
    if items == [] then acc
    else
      var x := items[0];
      var acc' := if x.startDate.Some? && (!TruthyNum(acc) || x.startDate.value < acc.value) then x.startDate else acc;
      assert forall k | 1 <= k < |items| :: items[k] == items[1..][k - 1];
      MinStartAsWritten(items[1..], acc')
  }

  /** `!maxDate || deadlineTs > maxDate`, as written. */
  function MaxDeadlineAsWritten(items: seq<Item>, acc: Option<int>): (r: Option<int>)
    ensures r.None? <==> acc.None? && !HasDeadline(items)
    decreases |items|
  {
    if items == [] then acc
    else
      var x := items[0];
      var acc' := if x.deadline.Some? && (!TruthyNum(acc) || x.deadline.value > acc.value) then x.deadline else acc;
      assert forall k | 1 <= k < |items| :: items[k] == items[1..][k - 1];
      MaxDeadlineAsWritten(items[1..], acc')
  }

  const MIN_RANGE_MS: int := 7 * Timeline.DAY_MS

  /** A range narrower than a week is widened to a week around its midpoint. */
  function Widen(lo: int, hi: int): (r: (real, real))
    ensures r.1 - r.0 >= MIN_RANGE_MS as real
    ensures hi - lo >= MIN_RANGE_MS ==> r == (lo as real, hi as real)
    ensures hi - lo < MIN_RANGE_MS ==>
      r.1 - r.0 == MIN_RANGE_MS as real && r.0 + r.1 == (lo + hi) as real
  {
    if hi - lo < MIN_RANGE_MS then
      var center := (lo + hi) as real / 2.0;
      (center - MIN_RANGE_MS as real / 2.0, center + MIN_RANGE_MS as real / 2.0)
    else (lo as real, hi as real)
  }

  /** `dateRange` with the minimum and maximum taken over every item. */
  function DateRange(streams: seq<Stream>): (r: Option<(real, real)>)
    ensures r.Some? <==> HasStart(AllItems(streams)) && HasDeadline(AllItems(streams))
    ensures r.Some? ==> r.value.1 - r.value.0 >= MIN_RANGE_MS as real
  {
    var items := AllItems(streams);
    var lo, hi := MinStart(items, None), MaxDeadline(items, None);
    if lo.None? || hi.None? then None else Some(Widen(lo.value, hi.value))
  }

  /** `dateRange` as written. */
  function DateRangeAsWritten(streams: seq<Stream>): (r: Option<(real, real)>)
    ensures r.Some? <==> HasStart(AllItems(streams)) && HasDeadline(AllItems(streams))
    ensures r.Some? ==> r.value.1 - r.value.0 >= MIN_RANGE_MS as real
  {
    var items := AllItems(streams);
    var lo, hi := MinStartAsWritten(items, None), MaxDeadlineAsWritten(items, None);
    if lo.None? || hi.None? then None else Some(Widen(lo.value, hi.value))
  }

  // ---- Properties ---------------------------------------------------------

  /** Deleting removes every item with that id and keeps the rest in order. */
  lemma DeleteRemovesId(items: seq<Item>, item: Item)
    ensures !HasId(ChangeItems(items, item, Delete), item.id)
    ensures IsSubsequence(ChangeItems(items, item, Delete), items)
    ensures !HasId(items, item.id) ==> ChangeItems(items, item, Delete) == items
  {
    if !HasId(items, item.id) {
      FilterAll(items, (x: Item) => x.id != item.id);
    }
  }

  /** A second "create" of the same item changes nothing. */
  lemma CreateIdempotent(items: seq<Item>, item: Item)
    ensures ChangeItems(ChangeItems(items, item, Create), item, Create) == ChangeItems(items, item, Create)
  {
    var once := ChangeItems(items, item, Create);
    if !HasId(items, item.id) {
      assert once[|items|] == item;
    }
  }

  /** After an update the item is there wherever its id was, and nothing
      else moved. */
  lemma UpdateKeepsShape(items: seq<Item>, item: Item)
    ensures |ChangeItems(items, item, Update)| == |items|
    ensures Ids(ChangeItems(items, item, Update)) == Ids(items)
    ensures ChangeItems(ChangeItems(items, item, Update), item, Update) == ChangeItems(items, item, Update)
  {
  }

  /** With ids unique in the list, saving is "update" for a known id and
      "create" for a new one. */
  lemma UpsertIsCreateOrUpdate(items: seq<Item>, saved: Item)
    requires forall i, j | 0 <= i < j < |items| :: items[i].id != items[j].id
    ensures Upsert(items, saved) == ChangeItems(items, saved, if HasId(items, saved.id) then Update else Create)
  {
    if HasId(items, saved.id) {
      var idx := FindIndex(items, saved.id);
      var r, u := Upsert(items, saved), ChangeItems(items, saved, Update);
      forall k | 0 <= k < |items|
        ensures r[k] == u[k]
      {
        if k != idx {
          assert items[k].id != saved.id;
        }
      }
    }
  }

  /** Saving the same item twice is saving it once. */
  lemma UpsertIdempotent(items: seq<Item>, saved: Item)
    ensures Upsert(Upsert(items, saved), saved) == Upsert(items, saved)
  {
    var once := Upsert(items, saved);
    var idx := FindIndex(once, saved.id);
    assert once[idx := saved] == once;
  }

  /** A sidebar change touches only the streams with its id, and only the
      list of its kind; a reorder replaces that list wholesale. */
  lemma SidebarTouchesOneList(streams: seq<Stream>, c: Change, k: int)
    requires 0 <= k < |streams|
    ensures var r := SidebarChanged(streams, c);
      && (streams[k].id != c.streamId ==> r[k] == streams[k])
      && (c.kind == "goal" ==> r[k].tasks == streams[k].tasks)
      && (c.kind == "task" ==> r[k].goals == streams[k].goals)
      && (c.kind != "goal" && c.kind != "task" ==> r[k] == streams[k])
      && (streams[k].id == c.streamId && c.action == Reorder && c.kind == "goal" ==> r[k].goals == c.list)
      && (streams[k].id == c.streamId && c.action == Reorder && c.kind == "task" ==> r[k].tasks == c.list)
  {
  }

  /** A drag shorter than 5 pixels sends nothing and changes nothing. */
  lemma SmallDragIsNoOp(streams: seq<Stream>, streamId: int, itemId: int, deltaY: real,
                        rowHeight: real, kind: Kind, ok: Request -> bool)
    requires rowHeight > 0.0 && -5.0 < deltaY < 5.0
    ensures VerticalReorder(streams, streamId, itemId, deltaY, rowHeight, kind, ok) == Moved([], streams)
  {
  }

  /** The streams change only when every request succeeded, and then the
      stream's list is the moved list renumbered 1..n, holding the same
      items; every other stream and the other list stay as they were. */
  lemma ReorderCommitsOnSuccess(streams: seq<Stream>, streamId: int, itemId: int, deltaY: real,
                                rowHeight: real, kind: Kind, ok: Request -> bool, k: int)
    requires rowHeight > 0.0 && 0 <= k < |streams|
    ensures var r := VerticalReorder(streams, streamId, itemId, deltaY, rowHeight, kind, ok);
      && |r.streams| == |streams|
      && (r.streams != streams ==> forall q | q in r.requests :: ok(q))
      && (streams[k].id != streamId ==> r.streams[k] == streams[k])
      && (kind == Goals ==> r.streams[k].tasks == streams[k].tasks)
      && (kind == Tasks ==> r.streams[k].goals == streams[k].goals)
      && (r.streams[k] != streams[k] ==>
            var list := ListOf(r.streams[k], kind);
            && (forall i | 0 <= i < |list| :: list[i].position == Some(i + 1))
            && multiset(Ids(list)) == multiset(Ids(SortByPosition(ListOf(FindStream(streams, streamId).value, kind)))))
  {
    var plan := VerticalPlan(streams, streamId, itemId, deltaY, rowHeight, kind);
    if plan.Some? {
      var sorted := SortByPosition(ListOf(FindStream(streams, streamId).value, kind));
      var cur := FindIndex(sorted, itemId);
      var target := TargetIndex(|sorted|, cur, deltaY, rowHeight);
      MoveRenumberKeepsItems(sorted, cur, target);
      var sent := SendAll(plan.value, ok);
      if sent.allOk {
        assert forall q | q in sent.requests :: ok(q);
      }
    }
  }

  /** The range exists exactly when some item has a start date and some
      item has a deadline; it is then at least a week long and, when wider
      than a week, runs from the least start to the greatest deadline. */
  lemma DateRangeSpansItems(streams: seq<Stream>)
    ensures var items := AllItems(streams);
      DateRange(streams).Some? <==> HasStart(items) && HasDeadline(items)
    ensures DateRange(streams).Some? ==>
      var (lo, hi) := DateRange(streams).value;
      var items := AllItems(streams);
      && hi - lo >= MIN_RANGE_MS as real
      && (MaxDeadline(items, None).value - MinStart(items, None).value >= MIN_RANGE_MS ==>
            && (forall k | 0 <= k < |items| && items[k].startDate.Some? :: lo <= items[k].startDate.value as real)
            && (forall k | 0 <= k < |items| && items[k].deadline.Some? :: hi >= items[k].deadline.value as real)
            && (exists k | 0 <= k < |items| :: items[k].startDate.Some? && lo == items[k].startDate.value as real)
            && (exists k | 0 <= k < |items| :: items[k].deadline.Some? && hi == items[k].deadline.value as real))
  {
  }

  /** An item starting at time 0 (the epoch) does not count as the minimum
      once a later start follows it. */
  lemma EpochStartIsSkipped()
    ensures var a := Item(1, None, None, Some(0), Some(30 * Timeline.DAY_MS));
      var b := Item(2, None, None, Some(5), None);
      var streams := [Stream(1, [], [a, b])];
      && DateRange(streams) == Some((0.0, (30 * Timeline.DAY_MS) as real))
      && DateRangeAsWritten(streams) == Some((5.0, (30 * Timeline.DAY_MS) as real))
  {
    var a := Item(1, None, None, Some(0), Some(30 * Timeline.DAY_MS));
    var b := Item(2, None, None, Some(5), None);
    var streams := [Stream(1, [], [a, b])];
    assert AllItems(streams) == [a, b];
    assert [a, b][1..] == [b];
    var d := 30 * Timeline.DAY_MS;
    assert [b][1..] == [];
    assert MinStart([b], Some(0)) == MinStart([], Some(0)) == Some(0);
    assert MinStart([a, b], None) == MinStart([b], Some(0)) == Some(0);
    assert MaxDeadline([b], Some(d)) == MaxDeadline([], Some(d)) == Some(d);
    assert MaxDeadline([a, b], None) == MaxDeadline([b], Some(d)) == Some(d);
    assert MinStartAsWritten([b], Some(0)) == MinStartAsWritten([], Some(5)) == Some(5);
    assert MinStartAsWritten([a, b], None) == MinStartAsWritten([b], Some(0)) == Some(5);
    assert MaxDeadlineAsWritten([b], Some(d)) == MaxDeadlineAsWritten([], Some(d)) == Some(d);
    assert MaxDeadlineAsWritten([a, b], None) == MaxDeadlineAsWritten([b], Some(d)) == Some(d);
    assert DateRange(streams) == Some(Widen(0, d));
    assert DateRangeAsWritten(streams) == Some(Widen(5, d));
  }

  /** Without a date at exactly 0 the scan as written gives the same range. */
  lemma {:induction false} AsWrittenAgreesOffEpoch(items: seq<Item>, lo: Option<int>, hi: Option<int>)
    requires forall k | 0 <= k < |items| :: items[k].startDate != Some(0) && items[k].deadline != Some(0)
    requires lo != Some(0) && hi != Some(0)
    ensures MinStartAsWritten(items, lo) == MinStart(items, lo)
    ensures MaxDeadlineAsWritten(items, hi) == MaxDeadline(items, hi)
    decreases |items|
  {
    if items != [] {
      var x := items[0];
      var lo' := if x.startDate.Some? && (lo.None? || x.startDate.value < lo.value) then x.startDate else lo;
      var hi' := if x.deadline.Some? && (hi.None? || x.deadline.value > hi.value) then x.deadline else hi;
      assert forall k | 1 <= k < |items| :: items[k] == items[1..][k - 1];
      AsWrittenAgreesOffEpoch(items[1..], lo', hi');
    }
  }
}

=== FILE: decimal.dfy ===
/** Python's `str(n)` and `int(s)` on integers, as far as the backend uses them.

    The scheduler keys every reminder job by `str(reminder.id)`, login and
    registration put `str(user.id)` into the token subject, and the auth
    middleware turns the subject back into an id with `int(sub)`.
 */
module Decimal {
  import opened Base

  predicate IsDigit(c: char) {
    '0' <= c <= '9'
  }

  predicate AllDigits(s: string) {
    forall i | 0 <= i < |s| :: IsDigit(s[i])
  }

  function DigitChar(d: int): (c: char)
    requires 0 <= d < 10
    ensures IsDigit(c)
  {
    (('0' as int) + d) as char
  }

  function DigitValue(c: char): (d: int)
    requires IsDigit(c)
    ensures 0 <= d < 10
  {
    (c as int) - ('0' as int)
  }

  /** Decimal digits of a natural number, most significant first, no leading zeros. */
  function ShowNat(n: nat): (s: string)
    ensures |s| >= 1
    ensures AllDigits(s)
    decreases n
  {
    if n < 10 then [DigitChar(n)] else ShowNat(n / 10) + [DigitChar(n % 10)]
  }

  /** `str(n)`: an optional minus sign followed by the digits of |n|. */
  function Show(n: int): (s: string)
    ensures |s| >= 1
    ensures n >= 0 <==> AllDigits(s)
  {
    if n < 0 then
      var s := "-" + ShowNat(-n);
      assert !IsDigit(s[0]);
      s
    else ShowNat(n)
  }

  /** The value of a non-empty run of decimal digits. */
  function DigitsValue(s: string): (n: nat)
    requires |s| >= 1 && AllDigits(s)
    decreases |s|
  {
    if |s| == 1 then DigitValue(s[0])
    else DigitsValue(s[..|s| - 1]) * 10 + DigitValue(s[|s| - 1])
  }

  /** `int(s)` on an optionally signed run of ASCII digits; `None` is the
      ValueError Python raises for anything else. */
  function Parse(s: string): (r: Option<int>)
    ensures s == "" ==> r.None?
    ensures |s| >= 1 && AllDigits(s) ==> r.Some? && r.value >= 0
    ensures |s| >= 1 && !IsDigit(s[0]) && s[0] != '-' && s[0] != '+' ==> r.None?
    ensures |s| >= 1 && AllDigits(s) ==> r == Some(DigitsValue(s))
    ensures (|s| >= 2 && (s[0] == '-' || s[0] == '+') && AllDigits(s[1..])) ==>
              r == Some(if s[0] == '-' then -(DigitsValue(s[1..]) as int) else DigitsValue(s[1..]))
    ensures r.Some? <==>
              (|s| >= 1 && AllDigits(s)) || (|s| >= 2 && (s[0] == '-' || s[0] == '+') && AllDigits(s[1..]))
  {
    if s == "" then None
    else if s[0] == '-' || s[0] == '+' then
      var rest := s[1..];
      if |rest| >= 1 && AllDigits(rest) then
        Some(if s[0] == '-' then -(DigitsValue(rest) as int) else DigitsValue(rest))
      else None
    else if AllDigits(s) then Some(DigitsValue(s))
    else None
  }

  lemma {:induction false} DigitsOfShowNat(n: nat)
    ensures DigitsValue(ShowNat(n)) == n
    decreases n
  {
    if n >= 10 {
      var prefix := ShowNat(n / 10);
      var s := prefix + [DigitChar(n % 10)];
      assert s[..|s| - 1] == prefix;
      DigitsOfShowNat(n / 10);
    }
  }

  /** Reading back what `str` wrote gives the original integer. */
  lemma ParseShow(n: int)
    ensures Parse(Show(n)) == Some(n)
  {
    if n < 0 {
      var s := Show(n);
      assert s[0] == '-';
      assert s[1..] == ShowNat(-n);
      DigitsOfShowNat(-n);
    } else {
      DigitsOfShowNat(n);
    }
  }

  /** `str` on integers is injective, so `str(id)` is a faithful job key. */
  lemma ShowInjective(a: int, b: int)
    ensures Show(a) == Show(b) ==> a == b
  {
    ParseShow(a);
    ParseShow(b);
  }
}

=== FILE: gantt_items.dfy ===
/** The goal and task items the Gantt chart and its sidebar hold, and the
    list steps they share: sorting by position, finding by id, moving one
    item with two `splice` calls, renumbering positions, and sending one
    update per item until one fails. */
module GanttItems {
  import opened Base
  import opened Seqs

  /** A goal or task as the chart holds it. Dates are timestamps, absent
      when the field is empty. */
  datatype Item = Item(id: int, position: Option<int>, name: Option<string>,
                       startDate: Option<int>, deadline: Option<int>)

  /** Which list of a stream a handler works on. */
  datatype Kind = Goals | Tasks

  /** The change the sidebar reports to the chart. */
  datatype Action = Create | Update | Delete | Reorder

  /** An update request: the item id and the position it is sent. */
  type Request = (int, int)

  // ---- Numbers ------------------------------------------------------------

  /** `Math.round`: halves round up. */
  function Round(x: real): (r: int)
    ensures r as real - 0.5 <= x < r as real + 0.5
  {
    (x + 0.5).Floor
  }

  /** `Math.max(lo, Math.min(hi, x))`. */
  function Clamp(lo: int, hi: int, x: int): (r: int)
    requires lo <= hi
    ensures lo <= r <= hi
    ensures lo <= x <= hi ==> r == x
    ensures x < lo ==> r == lo
    ensures x > hi ==> r == hi
  {
    if x < lo then lo else if x > hi then hi else x
  }

  // ---- Sorting by position ------------------------------------------------

  /** `item.position || 0`. */
  function PosKey(x: Item): int {
    if x.position.Some? then x.position.value else 0
  }

  predicate ByPosition(s: seq<Item>) {
    forall i | 0 <= i < |s| - 1 :: PosKey(s[i]) <= PosKey(s[i + 1])
  }

  lemma ByPositionCons(h: Item, s: seq<Item>)
    requires ByPosition(s)
    requires s != [] ==> PosKey(h) <= PosKey(s[0])
    ensures ByPosition([h] + s)
  {
    var r := [h] + s;
    forall i | 0 <= i < |r| - 1
      ensures PosKey(r[i]) <= PosKey(r[i + 1])
    {
      if i > 0 {
        assert r[i] == s[i - 1] && r[i + 1] == s[i];
      }
    }
  }

  /** The items whose key is `k`: the ones the comparator ties. */
  function AtKey(k: int): Item -> bool {
    (x: Item) => PosKey(x) == k
  }

  /** Places `x` before the first item whose key is not below its own. */
  function InsertByPosition(x: Item, s: seq<Item>): (r: seq<Item>)
    requires ByPosition(s)
    ensures ByPosition(r)
    ensures multiset(r) == multiset(s) + multiset{x}
    ensures r != [] && (r[0] == x || (s != [] && r[0] == s[0]))
    decreases |s|
  {
    if s == [] || PosKey(x) <= PosKey(s[0]) then
      ByPositionCons(x, s);
      [x] + s
    else
      var tail := s[1..];
      assert ByPosition(tail) by {
        forall i | 0 <= i < |tail| - 1
          ensures PosKey(tail[i]) <= PosKey(tail[i + 1])
        {
          assert tail[i] == s[i + 1] && tail[i + 1] == s[i + 2];
        }
      }
      var rest := InsertByPosition(x, tail);
      ByPositionCons(s[0], rest);
      assert s == [s[0]] + tail;
      [s[0]] + rest
  }

  /** `[...items].sort((a, b) => (a.position || 0) - (b.position || 0))`:
      the stable sort by position, missing positions counting as 0. */
  function SortByPosition(items: seq<Item>): (r: seq<Item>)
    ensures multiset(r) == multiset(items)
    ensures |r| == |items|
    ensures ByPosition(r)
    decreases |items|
  {
    if items == [] then []
    else
      assert items == [items[0]] + items[1..];
      var r := InsertByPosition(items[0], SortByPosition(items[1..]));
      assert |r| == |multiset(r)|;
      r
  }

  lemma ByPositionTail(s: seq<Item>)
    requires s != [] && ByPosition(s)
    ensures ByPosition(s[1..])
  {
    var tail := s[1..];
    forall i | 0 <= i < |tail| - 1
      ensures PosKey(tail[i]) <= PosKey(tail[i + 1])
    {
      assert tail[i] == s[i + 1] && tail[i + 1] == s[i + 2];
    }
  }

  /** `InsertByPosition` keeps the items of each key in order, placing `x`
      ahead of those it ties with. */
  lemma {:induction false} InsertByPositionStable(x: Item, s: seq<Item>, k: int)
    requires ByPosition(s)
    ensures Filter(InsertByPosition(x, s), AtKey(k)) ==
            (if PosKey(x) == k then [x] + Filter(s, AtKey(k)) else Filter(s, AtKey(k)))
    decreases |s|
  {
    if s == [] || PosKey(x) <= PosKey(s[0]) {
      FilterCons(x, s, AtKey(k));
    } else {
      var tail := s[1..];
      ByPositionTail(s);
      var rest := InsertByPosition(x, tail);
      assert InsertByPosition(x, s) == [s[0]] + rest;
      assert s == [s[0]] + tail;
      InsertByPositionStable(x, tail, k);
      FilterCons(s[0], rest, AtKey(k));
      FilterCons(s[0], tail, AtKey(k));
      if PosKey(s[0]) == k {
        assert PosKey(x) != k;
        assert Filter(s, AtKey(k)) == [s[0]] + Filter(tail, AtKey(k));
      } else {
        assert Filter(s, AtKey(k)) == Filter(tail, AtKey(k));
      }
    }
  }

  /** The sort is stable: the items of each position key leave in the
      order they came, as `Array.prototype.sort` keeps them. */
  lemma {:induction false} SortByPositionStable(items: seq<Item>, k: int)
    ensures Filter(SortByPosition(items), AtKey(k)) == Filter(items, AtKey(k))
    decreases |items|
  {
    if items != [] {
      SortByPositionStable(items[1..], k);
      InsertByPositionStable(items[0], SortByPosition(items[1..]), k);
      FilterCons(items[0], items[1..], AtKey(k));
      assert items == [items[0]] + items[1..];
    }
  }

  /** Items already in position order come back as they are: the sort is
      stable. */
  lemma {:induction false} SortedStaysPut(items: seq<Item>)
    requires ByPosition(items)
    ensures SortByPosition(items) == items
    decreases |items|
  {
    if items != [] {
      var tail := items[1..];
      assert ByPosition(tail) by {
        forall i | 0 <= i < |tail| - 1
          ensures PosKey(tail[i]) <= PosKey(tail[i + 1])
        {
          assert tail[i] == items[i + 1] && tail[i + 1] == items[i + 2];
        }
      }
      SortedStaysPut(tail);
      assert items == [items[0]] + tail;
    }
  }

  // ---- findIndex, splice --------------------------------------------------

  /** `items.findIndex((x) => x.id === id)`: the first index, or -1. */
  function FindIndex(items: seq<Item>, id: int): (r: int)
    ensures -1 <= r < |items|
    ensures r == -1 <==> forall i | 0 <= i < |items| :: items[i].id != id
    ensures r >= 0 ==> items[r].id == id && forall i | 0 <= i < r :: items[i].id != id
    decreases |items|
  {
    if items == [] then -1
    else if items[0].id == id then 0
    else
      var k := FindIndex(items[1..], id);
      if k == -1 then -1 else k + 1
  }

  /** `s` without the element at index `i`. */
  function RemoveAt<T>(s: seq<T>, i: int): (r: seq<T>)
    requires 0 <= i < |s|
    ensures |r| == |s| - 1
    ensures forall k | 0 <= k < |r| :: r[k] == (if k < i then s[k] else s[k + 1])
  {
    s[..i] + s[i + 1..]
  }

  /** `const [removed] = copy.splice(from, 1); copy.splice(to, 0, removed)`. */
  function Move<T>(s: seq<T>, from: int, to: int): (r: seq<T>)
    requires 0 <= from < |s| && 0 <= to < |s|
    ensures |r| == |s|
    ensures r[to] == s[from]
    ensures RemoveAt(r, to) == RemoveAt(s, from)
    ensures multiset(r) == multiset(s)
  {
    var rest := RemoveAt(s, from);
    var r := rest[..to] + [s[from]] + rest[to..];
    assert RemoveAt(r, to) == rest;
    InsertMultiset(rest, to, s[from]);
    RemoveMultiset(s, from);
    r
  }

  lemma InsertMultiset<T>(s: seq<T>, i: int, x: T)
    requires 0 <= i <= |s|
    ensures multiset(s[..i] + [x] + s[i..]) == multiset(s) + multiset{x}
  {
    assert s == s[..i] + s[i..];
  }

  lemma RemoveMultiset<T>(s: seq<T>, i: int)
    requires 0 <= i < |s|
    ensures multiset(RemoveAt(s, i)) + multiset{s[i]} == multiset(s)
  {
    assert s == s[..i] + [s[i]] + s[i + 1..];
  }

  /** `list.map((x, idx) => ({ ...x, position: idx + 1 }))`. */
  function Renumber(s: seq<Item>): (r: seq<Item>)
    ensures |r| == |s|
    ensures forall i | 0 <= i < |r| :: r[i] == s[i].(position := Some(i + 1))
  {
    seq(|s|, i requires 0 <= i < |s| => s[i].(position := Some(i + 1)))
  }

  // ---- Sequential updates -------------------------------------------------

  /** The outcome of the update loop: the requests sent, in order, and
      whether every one succeeded. */
  datatype Sent = Sent(requests: seq<Request>, allOk: bool)

  /** The requests the loop plans: item `i` is sent position `i + 1`. */
  function Plan(items: seq<Item>): (r: seq<Request>)
    ensures |r| == |items|
    ensures forall i | 0 <= i < |r| :: r[i] == (items[i].id, i + 1)
  {
    seq(|items|, i requires 0 <= i < |items| => (items[i].id, i + 1))
  }

  /** From index `k` on: send item `k` position `k + 1`, and stop at the
      first request `ok` refuses. */
  function SendFrom(items: seq<Item>, k: nat, ok: Request -> bool): (r: Sent)
    requires k <= |items|
    decreases |items| - k
  {
    if k == |items| then Sent([], true)
    else if !ok((items[k].id, k + 1)) then Sent([(items[k].id, k + 1)], false)
    else
      var rest := SendFrom(items, k + 1, ok);
      Sent([(items[k].id, k + 1)] + rest.requests, rest.allOk)
  }

  lemma SendFromSpec(items: seq<Item>, k: nat, ok: Request -> bool)
    requires k <= |items|
    ensures var r := SendFrom(items, k, ok);
      && r.requests <= Plan(items)[k..]
      && (r.allOk <==> forall i | k <= i < |items| :: ok(Plan(items)[i]))
      && (r.allOk ==> r.requests == Plan(items)[k..])
      && (!r.allOk ==>
            (r.requests != [] && !ok(r.requests[|r.requests| - 1])
             && forall i | 0 <= i < |r.requests| - 1 :: ok(r.requests[i])))
  {
    SendFromPrefix(items, k, ok);
    SendFromAllOk(items, k, ok);
    SendFromStops(items, k, ok);
  }

  /** The requests sent are the plan's, from `k`, up to where the loop stopped. */
  lemma {:induction false} SendFromPrefix(items: seq<Item>, k: nat, ok: Request -> bool)
    requires k <= |items|
    ensures var r := SendFrom(items, k, ok);
      r.requests <= Plan(items)[k..] && (r.allOk ==> r.requests == Plan(items)[k..])
    decreases |items| - k
  {
    if k < |items| {
      SendFromPrefix(items, k + 1, ok);
      var plan := Plan(items);
      var rest := SendFrom(items, k + 1, ok);
      assert plan[k..] == [plan[k]] + plan[k + 1..];
      assert SendFrom(items, k, ok).requests == [plan[k]] + (if ok(plan[k]) then rest.requests else []);
    }
  }

  /** The loop gets through exactly when every planned request succeeds. */
  lemma {:induction false} SendFromAllOk(items: seq<Item>, k: nat, ok: Request -> bool)
    requires k <= |items|
    ensures SendFrom(items, k, ok).allOk <==> forall i | k <= i < |items| :: ok(Plan(items)[i])
    decreases |items| - k
  {
    if k < |items| {
      SendFromAllOk(items, k + 1, ok);
      assert Plan(items)[k] == (items[k].id, k + 1);
    }
  }

  /** A loop that did not get through stopped at its first refused request. */
  lemma {:induction false} SendFromStops(items: seq<Item>, k: nat, ok: Request -> bool)
    requires k <= |items|
    ensures var r := SendFrom(items, k, ok);
      !r.allOk ==> (r.requests != [] && !ok(r.requests[|r.requests| - 1])
                    && forall i | 0 <= i < |r.requests| - 1 :: ok(r.requests[i]))
    decreases |items| - k
  {
    if k < |items| && ok((items[k].id, k + 1)) {
      SendFromStops(items, k + 1, ok);
      var rest := SendFrom(items, k + 1, ok);
      var r := SendFrom(items, k, ok);
      assert r.requests == [(items[k].id, k + 1)] + rest.requests;
      assert forall i | 1 <= i < |r.requests| :: r.requests[i] == rest.requests[i - 1];
    }
  }

  /** The update loop over the whole list. */
  function SendAll(items: seq<Item>, ok: Request -> bool): (r: Sent)
    ensures r.requests <= Plan(items)
    ensures r.allOk <==> forall i | 0 <= i < |items| :: ok(Plan(items)[i])
    ensures r.allOk ==> r.requests == Plan(items)
    ensures !r.allOk ==> r.requests != [] && !ok(r.requests[|r.requests| - 1])
    ensures !r.allOk ==> forall i | 0 <= i < |r.requests| - 1 :: ok(r.requests[i])
  {
    SendFromSpec(items, 0, ok);
    assert Plan(items)[0..] == Plan(items);
    SendFrom(items, 0, ok)
  }

  lemma SendAllRefused(items: seq<Item>, ok: Request -> bool)
    requires exists q | q in Plan(items) :: !ok(q)
    ensures !SendAll(items, ok).allOk
  {
    var plan := Plan(items);
    var q :| q in plan && !ok(q);
    var k :| 0 <= k < |plan| && plan[k] == q;
  }

  // ---- Properties ---------------------------------------------------------

  /** Moving an item and renumbering gives positions 1..n in the new order
      and keeps the same items, whatever their old positions. */
  lemma MoveRenumberKeepsItems(s: seq<Item>, from: int, to: int)
    requires 0 <= from < |s| && 0 <= to < |s|
    ensures var r := Renumber(Move(s, from, to));
      && (forall i | 0 <= i < |r| :: r[i].position == Some(i + 1))
      && (forall i | 0 <= i < |r| :: r[i].(position := None) == Move(s, from, to)[i].(position := None))
      && r[to].id == s[from].id
      && multiset(Ids(r)) == multiset(Ids(s))
  {
    var m := Move(s, from, to);
    var r := Renumber(m);
    assert Ids(r) == Ids(m);
    IdsOfMove(s, from, to);
  }

  function Ids(s: seq<Item>): (r: seq<int>)
    ensures |r| == |s|
    ensures forall i | 0 <= i < |s| :: r[i] == s[i].id
  {
    seq(|s|, i requires 0 <= i < |s| => s[i].id)
  }

  lemma IdsOfMove(s: seq<Item>, from: int, to: int)
    requires 0 <= from < |s| && 0 <= to < |s|
    ensures Ids(Move(s, from, to)) == Move(Ids(s), from, to)
  {
    var a, b := Ids(Move(s, from, to)), Move(Ids(s), from, to);
    var rm := RemoveAt(Move(s, from, to), to);
    var ri := RemoveAt(Move(Ids(s), from, to), to);
    assert rm == RemoveAt(s, from);
    assert ri == RemoveAt(Ids(s), from);
    forall j | 0 <= j < |rm|
      ensures rm[j].id == ri[j]
    {
      var src := if j < from then j else j + 1;
      assert rm[j] == s[src] && ri[j] == Ids(s)[src];
    }
    forall k | 0 <= k < |a|
      ensures a[k] == b[k]
    {
      if k < to {
        assert a[k] == rm[k].id && b[k] == ri[k];
      } else if k > to {
        assert a[k] == rm[k - 1].id && b[k] == ri[k - 1];
      } else {
        assert a[k] == s[from].id && b[k] == Ids(s)[from];
      }
    }
  }

  /** Moving an item to where it already is changes nothing. */
  lemma MoveInPlace<T>(s: seq<T>, i: int)
    requires 0 <= i < |s|
    ensures Move(s, i, i) == s
  {
    assert s == s[..i] + [s[i]] + s[i + 1..];
  }
}

=== FILE: goals.dfy ===
/** The goal service and the goal crud helpers: the sibling-name rule
    with exclude-self, "max+1 or 1" positions and partial updates. */
module Goals {
  import opened Base
  import opened Ordered
  import opened Store
  import opened Access

  /** The body of a create request; `position` may be left for the service
      to choose. */
  datatype GoalCreate = GoalCreate(
    name: string,
    description: Option<string>,
    startDate: Option<int>,
    deadline: Option<int>,
    position: Option<int>)

  /** The body of an update request: `None` is a field the client did not
      send; for nullable columns `Some(None)` is an explicit null. */
  datatype GoalPatch = GoalPatch(
    name: Option<string>,
    description: Option<Option<string>>,
    startDate: Option<Option<int>>,
    deadline: Option<Option<int>>,
    position: Option<int>)

  const EmptyGoalPatch := GoalPatch(None, None, None, None, None)

  // ---- crud/goal.py -------------------------------------------------------

  function GoalIdsNamed(db: Db, streamId: Id, name: string, excluded: set<Id>): set<Id> {
    set k | k in db.goals && k !in excluded && db.goals[k].streamId == streamId && db.goals[k].name == name
  }

  /** `get_goal_by_name_in_stream`: the exclusion applies only when
      `exclude_id` is truthy, so an id of 0 is never excluded. */
  function GoalByName(db: Db, streamId: Id, name: string, excludeId: Option<int>): (r: Option<Id>)
    ensures r.None? <==> forall k | k in db.goals && !(TruthyNum(excludeId) && k == excludeId.value) ::
                           db.goals[k].streamId != streamId || db.goals[k].name != name
    ensures r.Some? ==> r.value in db.goals && db.goals[r.value].streamId == streamId && db.goals[r.value].name == name
    ensures r.Some? && TruthyNum(excludeId) ==> r.value != excludeId.value
  {
    var excluded := if TruthyNum(excludeId) then {excludeId.value} else {};
    var ids := GoalIdsNamed(db, streamId, name, excluded);
    assert forall k | k in db.goals && k !in excluded && db.goals[k].streamId == streamId && db.goals[k].name == name :: k in ids;
    First(ids)
  }

  /** `create_goal`: every field of the request is stored as given. */
  function CreateGoalRow(db: Db, streamId: Id, data: GoalCreate, position: int): (r: (Db, Id))
    ensures r.1 !in db.goals
    ensures r.0 == db.(goals := db.goals[r.1 := Goal(data.name, data.description, data.startDate, data.deadline, streamId, position)])
  {
    var id := FreshId(db.goals.Keys);
    (db.(goals := db.goals[id := Goal(data.name, data.description, data.startDate, data.deadline, streamId, position)]), id)
  }

  /** `update_goal`: `setattr` for each explicitly sent field. */
  function ApplyGoalPatch(g: Goal, p: GoalPatch): (g': Goal)
    ensures g'.streamId == g.streamId
    ensures g'.name == (if p.name.Some? then p.name.value else g.name)
    ensures g'.description == (if p.description.Some? then p.description.value else g.description)
    ensures g'.startDate == (if p.startDate.Some? then p.startDate.value else g.startDate)
    ensures g'.deadline == (if p.deadline.Some? then p.deadline.value else g.deadline)
    ensures g'.position == (if p.position.Some? then p.position.value else g.position)
  {
    g.(
      name := if p.name.Some? then p.name.value else g.name,
      description := if p.description.Some? then p.description.value else g.description,
      startDate := if p.startDate.Some? then p.startDate.value else g.startDate,
      deadline := if p.deadline.Some? then p.deadline.value else g.deadline,
      position := if p.position.Some? then p.position.value else g.position)
  }

  // ---- services/goal_service.py -------------------------------------------

  /** `get_stream_goals_service`: membership suffices; no position order. */
  function ListGoals(db: Db, streamId: Id, userId: Id): (r: Result<seq<Id>>)
    ensures r == Err(NotFound) <==> StreamTeam(db, streamId).None?
    ensures r.Ok? <==> StreamTeam(db, streamId).Some? && IsMember(db, userId, StreamTeam(db, streamId).value)
    ensures StreamTeam(db, streamId).Some? && !IsMember(db, userId, StreamTeam(db, streamId).value) ==> r == Err(Forbidden)
    ensures r.Err? ==> r.error in {NotFound, Forbidden}
    ensures r.Ok? ==> forall k :: k in r.value <==> k in db.goals && db.goals[k].streamId == streamId
  {
    var _ :- CheckStream(db, streamId, userId, false, false);
    Ok(SortedIds(GoalsOfStream(db, streamId)))
  }

  /** `create_goal_service`. */
  function CreateGoal(db: Db, streamId: Id, userId: Id, data: GoalCreate): (r: Result<(Db, Id)>)
    ensures r == Err(NotFound) <==> StreamTeam(db, streamId).None?
    ensures StreamTeam(db, streamId).Some? && !Authorized(db, userId, StreamTeam(db, streamId).value, true) ==> r == Err(Forbidden)
    ensures r == Err(Conflict) <==>
      StreamTeam(db, streamId).Some? && Authorized(db, userId, StreamTeam(db, streamId).value, true)
      && exists k :: k in db.goals && db.goals[k].streamId == streamId && db.goals[k].name == data.name
    ensures r.Ok? <==>
      StreamTeam(db, streamId).Some? && Authorized(db, userId, StreamTeam(db, streamId).value, true)
      && forall k | k in db.goals && db.goals[k].streamId == streamId :: db.goals[k].name != data.name
    ensures r.Ok? ==> var (db', id) := r.value;
      && id !in db.goals
      && db'.goals.Keys == db.goals.Keys + {id}
      && (forall k | k in db.goals :: db'.goals[k] == db.goals[k])
      && db' == db.(goals := db'.goals)
      && var g := db'.goals[id];
         && g.name == data.name && g.description == data.description
         && g.startDate == data.startDate && g.deadline == data.deadline && g.streamId == streamId
         && (data.position.Some? ==> g.position == data.position.value)
         && (data.position.None? && GoalsOfStream(db, streamId) == {} ==> g.position == 1)
         && (data.position.None? ==> forall k | k in GoalsOfStream(db, streamId) :: db.goals[k].position < g.position)
         && (data.position.None? && GoalsOfStream(db, streamId) != {} ==>
               exists k :: k in GoalsOfStream(db, streamId) && db.goals[k].position == g.position - 1)
  {
    var _ :- CheckStream(db, streamId, userId, true, false);
    if GoalByName(db, streamId, data.name, None).Some? then Err(Conflict)
    else
      var positions := GoalPositions(db, streamId);
      GoalPositionsEmpty(db, streamId);
      var position := if data.position.Some? then data.position.value else NextPosition(positions);
      Ok(CreateGoalRow(db, streamId, data, position))
  }

  /** `update_goal_service`: the goal is looked up before permissions, and
      the collision check runs only for a truthy name that differs. */
  function UpdateGoal(db: Db, goalId: Id, userId: Id, patch: GoalPatch): (r: Result<(Db, Goal)>)
    ensures r == Err(NotFound) <==> goalId !in db.goals || StreamTeam(db, db.goals[goalId].streamId).None?
    ensures goalId !in db.goals ==> r == Err(NotFound)
    ensures (goalId in db.goals && StreamTeam(db, db.goals[goalId].streamId).Some?
             && !Authorized(db, userId, StreamTeam(db, db.goals[goalId].streamId).value, true)) ==> r == Err(Forbidden)
    ensures r.Ok? <==>
      goalId in db.goals
      && var g := db.goals[goalId];
         && StreamTeam(db, g.streamId).Some? && Authorized(db, userId, StreamTeam(db, g.streamId).value, true)
         && !(TruthyStr(patch.name) && patch.name.value != g.name
              && exists k :: k in db.goals && k != goalId && db.goals[k].streamId == g.streamId && db.goals[k].name == patch.name.value)
    ensures r == Err(Conflict) <==>
      goalId in db.goals
      && var g := db.goals[goalId];
         && StreamTeam(db, g.streamId).Some? && Authorized(db, userId, StreamTeam(db, g.streamId).value, true)
         && TruthyStr(patch.name) && patch.name.value != g.name
         && exists k :: k in db.goals && k != goalId && db.goals[k].streamId == g.streamId && db.goals[k].name == patch.name.value
    ensures r.Ok? ==> goalId in db.goals && var (db', g') := r.value;
      && g' == ApplyGoalPatch(db.goals[goalId], patch)
      && db' == db.(goals := db.goals[goalId := g'])
  {
    if goalId !in db.goals then Err(NotFound)
    else
      var g := db.goals[goalId];
      var _ :- CheckStream(db, g.streamId, userId, true, false);
      if TruthyStr(patch.name) && patch.name.value != g.name
         && GoalByName(db, g.streamId, patch.name.value, Some(goalId)).Some?
      then Err(Conflict)
      else
        var g' := ApplyGoalPatch(g, patch);
        Ok((db.(goals := db.goals[goalId := g']), g'))
  }

  /** `delete_goal_service`. */
  function DeleteGoal(db: Db, goalId: Id, userId: Id): (r: Result<Db>)
    ensures goalId !in db.goals ==> r == Err(NotFound)
    ensures r.Ok? <==> goalId in db.goals && StreamTeam(db, db.goals[goalId].streamId).Some?
                       && Authorized(db, userId, StreamTeam(db, db.goals[goalId].streamId).value, true)
    ensures r == Err(NotFound) <==> goalId !in db.goals || StreamTeam(db, db.goals[goalId].streamId).None?
    ensures (goalId in db.goals && StreamTeam(db, db.goals[goalId].streamId).Some?
             && !Authorized(db, userId, StreamTeam(db, db.goals[goalId].streamId).value, true)) ==> r == Err(Forbidden)
    ensures r.Err? ==> r.error in {NotFound, Forbidden}
    ensures r.Ok? ==> r.value == db.(goals := db.goals - {goalId})
  {
    if goalId !in db.goals then Err(NotFound)
    else
      var _ :- CheckStream(db, db.goals[goalId].streamId, userId, true, false);
      Ok(db.(goals := db.goals - {goalId}))
  }

  // ---- Against the Goal class as declared ---------------------------------

  /** `create_goal_service` AS WRITTEN against `app/models/goal.py`, whose
      `Goal` class maps neither `position` nor `start_date`: without a
      position the query on `Goal.position` raises AttributeError, and with
      one the constructor rejects the `start_date` and `position` keywords
      with a TypeError. The checks before those lines still answer. */
  function CreateGoalAsWritten(db: Db, streamId: Id, userId: Id, data: GoalCreate): (r: Result<(Db, Id)>)
    ensures r.Err?
    ensures r == Err(Crash) <==> CreateGoal(db, streamId, userId, data).Ok?
    ensures r != Err(Crash) ==> r == CreateGoal(db, streamId, userId, data)
  {
    var _ :- CheckStream(db, streamId, userId, true, false);
    if GoalByName(db, streamId, data.name, None).Some? then Err(Conflict)
    else Err(Crash)
  }

  /** No goal can be created: every request the corrected service accepts
      crashes as written. */
  lemma NoGoalIsCreated(db: Db, streamId: Id, userId: Id, data: GoalCreate)
    requires CreateGoal(db, streamId, userId, data).Ok?
    ensures CreateGoalAsWritten(db, streamId, userId, data) == Err(Crash)
  {
  }

  /** `update_goal` AS WRITTEN against the same class: `setattr` of
      `position` or `start_date` lands on a plain attribute that is never
      stored, so only the name, the description and the deadline reach the
      row. */
  function UpdateGoalAsWritten(db: Db, goalId: Id, userId: Id, patch: GoalPatch): (r: Result<Db>)
    ensures r.Err? <==> UpdateGoal(db, goalId, userId, patch).Err?
    ensures r.Err? ==> r.error == UpdateGoal(db, goalId, userId, patch).error
    ensures r.Ok? ==> goalId in db.goals && goalId in r.value.goals
    ensures r.Ok? ==> var g := db.goals[goalId]; var g' := r.value.goals[goalId];
      && g'.name == UpdateGoal(db, goalId, userId, patch).value.1.name
      && g'.description == UpdateGoal(db, goalId, userId, patch).value.1.description
      && g'.deadline == UpdateGoal(db, goalId, userId, patch).value.1.deadline
      && g'.startDate == g.startDate && g'.position == g.position && g'.streamId == g.streamId
      && r.value == db.(goals := db.goals[goalId := g'])
  {
    var updated :- UpdateGoal(db, goalId, userId, patch);
    var g, g' := db.goals[goalId], updated.1;
    Ok(db.(goals := db.goals[goalId := g'.(startDate := g.startDate, position := g.position)]))
  }

  /** A sent position that differs from the stored one is reported by the
      corrected update and lost by the update as written. */
  lemma PositionIsLost(db: Db, goalId: Id, userId: Id, position: int)
    requires goalId in db.goals && position != db.goals[goalId].position
    requires StreamTeam(db, db.goals[goalId].streamId).Some?
    requires Authorized(db, userId, StreamTeam(db, db.goals[goalId].streamId).value, true)
    ensures var patch := EmptyGoalPatch.(position := Some(position));
      && UpdateGoal(db, goalId, userId, patch).Ok?
      && UpdateGoal(db, goalId, userId, patch).value.0.goals[goalId].position == position
      && UpdateGoalAsWritten(db, goalId, userId, patch).value.goals[goalId].position != position
  {
  }

  // ---- Properties ---------------------------------------------------------

  /** An update that sends nothing changes nothing, and sending the same
      fields twice is the same as sending them once. */
  lemma GoalPatchLaws(g: Goal, p: GoalPatch)
    ensures ApplyGoalPatch(g, EmptyGoalPatch) == g
    ensures ApplyGoalPatch(ApplyGoalPatch(g, p), p) == ApplyGoalPatch(g, p)
  {
  }

  /** A goal renamed to a name it differs from never matches itself, so the
      truthiness of `exclude_id` cannot change the outcome of the check. */
  lemma ExclusionOfSelfIrrelevant(db: Db, goalId: Id, name: string)
    requires goalId in db.goals && name != db.goals[goalId].name
    ensures GoalByName(db, db.goals[goalId].streamId, name, Some(goalId)).Some?
        <==> GoalByName(db, db.goals[goalId].streamId, name, None).Some?
  {
  }

  lemma CreateGoalKeepsNamesUnique(db: Db, streamId: Id, userId: Id, data: GoalCreate)
    requires UniqueGoalNames(db)
    ensures CreateGoal(db, streamId, userId, data).Ok? ==> UniqueGoalNames(CreateGoal(db, streamId, userId, data).value.0)
  {
  }

  /** A rename with a non-empty name, or no rename, keeps sibling names
      unique. */
  lemma UpdateGoalKeepsNamesUnique(db: Db, goalId: Id, userId: Id, patch: GoalPatch)
    requires UniqueGoalNames(db)
    requires patch.name.None? || patch.name.value != ""
    ensures UpdateGoal(db, goalId, userId, patch).Ok? ==> UniqueGoalNames(UpdateGoal(db, goalId, userId, patch).value.0)
  {
  }

  /** An empty name skips the collision check, so two goals of a stream can
      end up both named "". */
  lemma EmptyNameSkipsCheck(db: Db, goalId: Id, other: Id, userId: Id)
    requires goalId in db.goals && other in db.goals && other != goalId
    requires db.goals[other].streamId == db.goals[goalId].streamId
    requires db.goals[other].name == "" && db.goals[goalId].name != ""
    requires StreamTeam(db, db.goals[goalId].streamId).Some?
    requires Authorized(db, userId, StreamTeam(db, db.goals[goalId].streamId).value, true)
    ensures var r := UpdateGoal(db, goalId, userId, EmptyGoalPatch.(name := Some("")));
      r.Ok? && !UniqueGoalNames(r.value.0)
  {
    var r := UpdateGoal(db, goalId, userId, EmptyGoalPatch.(name := Some("")));
    assert r.value.0.goals[goalId].name == "";
    assert r.value.0.goals[other].name == "";
  }

  lemma CreateGoalKeepsIntact(db: Db, streamId: Id, userId: Id, data: GoalCreate)
    requires Intact(db)
    ensures CreateGoal(db, streamId, userId, data).Ok? ==> Intact(CreateGoal(db, streamId, userId, data).value.0)
  {
  }

  /** A Reader of the stream's team cannot delete the stream's goals. */
  lemma ReaderCannotDeleteGoal(db: Db, goalId: Id, userId: Id)
    requires goalId in db.goals && StreamTeam(db, db.goals[goalId].streamId).Some?
    requires RoleIn(db, StreamTeam(db, db.goals[goalId].streamId).value, userId) == Some(READER)
    ensures DeleteGoal(db, goalId, userId) == Err(Forbidden)
  {
  }

  /** Deleting a goal right after creating it gives back the store as it
      was: the create adds exactly one row and the delete takes exactly
      that row away. */
  lemma CreateThenDeleteGoal(db: Db, streamId: Id, userId: Id, data: GoalCreate)
    requires CreateGoal(db, streamId, userId, data).Ok?
    ensures var (db', id) := CreateGoal(db, streamId, userId, data).value;
      DeleteGoal(db', id, userId) == Ok(db)
  {
    var (db', id) := CreateGoal(db, streamId, userId, data).value;
    assert db'.goals - {id} == db.goals;
  }

  lemma DeleteGoalKeepsIntact(db: Db, goalId: Id, userId: Id)
    requires Intact(db)
    ensures DeleteGoal(db, goalId, userId).Ok? ==> Intact(DeleteGoal(db, goalId, userId).value)
  {
  }
}

=== FILE: middleware.dfy ===
/** The authentication gate in front of every route, and the dependency
    that turns the id it leaves on the request into the current user.

    Decoding a token (signature and expiry) is an oracle `decode` that
    either yields the token's claims or fails. */
module Middleware {
  import opened Base
  import opened Store
  import opened Decimal
  import opened Users

  /** What the gate does with a request: let it through (with the user id
      it found, or none for an exempt path), answer 401, or fail with a
      500 because the subject is not an integer. */
  datatype Gate = Proceed(userId: Option<int>) | Unauthorized | ServerError

  /** What `get_current_user` makes of the request state. */
  datatype Admission = Admitted(userId: Id, user: User) | Refused(status: int)

  /** `EXEMPT_PATHS`. */
  const EXEMPT_PATHS: seq<string> := [
    "/api/login",
    "/api/register",
    "/api/check-email",
    "/api/taskStatuses",
    "/api/priorities",
    "/api/connectionTypes"
  ]

  /** A path is exempt when it starts with one of the exempt strings. */
  predicate Exempt(path: string) {
    exists i | 0 <= i < |EXEMPT_PATHS| :: EXEMPT_PATHS[i] <= path
  }

  const BEARER: string := "Bearer "

  /** The index of the first space of `s`, if any. */
  function FirstSpace(s: string): (r: Option<nat>)
    ensures r.None? <==> ' ' !in s
    ensures r.Some? ==> r.value < |s| && s[r.value] == ' ' && ' ' !in s[..r.value]
  {
    if s == [] then None
    else if s[0] == ' ' then Some(0)
    else
      match FirstSpace(s[1..])
      case None => None
      case Some(i) =>
        assert s[..i + 1] == [s[0]] + s[1..][..i];
        Some(i + 1)
  }

  lemma FirstSpaceAt(s: string, i: nat)
    requires i < |s| && s[i] == ' ' && ' ' !in s[..i]
    ensures FirstSpace(s) == Some(i)
  {
    assert s[i] in s;
    var j := FirstSpace(s).value;
    assert forall k | 0 <= k < i :: s[..i][k] == s[k];
    assert forall k | 0 <= k < j :: s[..j][k] == s[k];
  }

  /** `header.split(" ", 1)[1]` for a header holding a space. */
  function AfterFirstSpace(s: string): (r: string)
    requires ' ' in s
    ensures exists i | 0 <= i < |s| :: s[i] == ' ' && ' ' !in s[..i] && r == s[i + 1..]
  {
    var i := FirstSpace(s).value;
    s[i + 1..]
  }

  /** `auth_middleware`. */
  function Authenticate(path: string, header: Option<string>, decode: string -> Option<Claims>): (g: Gate)
    ensures Exempt(path) ==> g == Proceed(None)
    ensures !Exempt(path) && (header.None? || !(BEARER <= header.value)) ==> g == Unauthorized
    ensures !Exempt(path) && header.Some? && BEARER <= header.value ==>
      var claims := decode(header.value[|BEARER|..]);
      && (claims.None? ==> g == Unauthorized)
      && (claims.Some? && !TruthyStr(claims.value.sub) ==> g == Unauthorized)
      && (claims.Some? && TruthyStr(claims.value.sub) ==>
            g == (if Parse(claims.value.sub.value).Some? then Proceed(Some(Parse(claims.value.sub.value).value))
                  else ServerError))
    ensures g.Proceed? && g.userId.Some? ==> !Exempt(path)
  {
    if Exempt(path) then Proceed(None)
    else if header.None? || header.value == "" || !(BEARER <= header.value) then Unauthorized
    else
      var h := header.value;
      assert h[..6] == BEARER[..6];
      FirstSpaceAt(h, 6);
      var token := AfterFirstSpace(h);
      match decode(token)
      case None => Unauthorized
      case Some(claims) =>
        if !TruthyStr(claims.sub) then Unauthorized
        else
          match Parse(claims.sub.value)
          case None => ServerError
          case Some(id) => Proceed(Some(id))
  }

  /** `get_current_user`: no id, or the id 0, is a 401; an id with no user
      is a 404. */
  function CurrentUser(db: Db, stateUserId: Option<int>): (r: Admission)
    ensures stateUserId.None? || stateUserId.value == 0 ==> r == Refused(401)
    ensures stateUserId.Some? && stateUserId.value != 0 && stateUserId.value !in db.users ==> r == Refused(404)
    ensures r.Admitted? <==> stateUserId.Some? && stateUserId.value != 0 && stateUserId.value in db.users
    ensures r.Admitted? ==> r.userId == stateUserId.value && r.user == db.users[r.userId]
  {
    if !TruthyNum(stateUserId) then Refused(401)
    else
      match UserById(db, stateUserId.value)
      case Err(_) => Refused(404)
      case Ok(u) => Admitted(stateUserId.value, u)
  }

  // ---- Properties ---------------------------------------------------------

  /** Exemption is by prefix: anything below an exempt path is exempt too,
      and an ordinary route is not. */
  lemma ExemptionIsPrefix(suffix: string)
    ensures Exempt("/api/login" + suffix)
    ensures Exempt("/api/priorities" + suffix)
    ensures !Exempt("/api/user_by_token")
  {
    assert EXEMPT_PATHS[0] <= "/api/login" + suffix;
    assert EXEMPT_PATHS[4] <= "/api/priorities" + suffix;
    var p := "/api/user_by_token";
    forall i | 0 <= i < |EXEMPT_PATHS|
      ensures !(EXEMPT_PATHS[i] <= p)
    {
      assert EXEMPT_PATHS[i][5] != p[5];
    }
  }

  /** A header whose scheme is not exactly "Bearer " is refused whatever
      the token. */
  lemma LowercaseSchemeRefused(token: string, decode: string -> Option<Claims>)
    ensures Authenticate("/api/user_by_token", Some("bearer " + token), decode) == Unauthorized
  {
    ExemptionIsPrefix("");
    assert ("bearer " + token)[0] != BEARER[0];
  }

  /** The token a login hands out, sent back as "Bearer <token>", lets the
      request through as that user and makes that user current, provided
      the decoder reads back what the encoder wrote. */
  lemma LoginTokenAuthenticates(db: Db, email: string, password: string, verify: (string, string) -> bool,
                                now: int, encode: Claims -> string, decode: string -> Option<Claims>, path: string)
    requires Login(db, email, password, verify, now, encode).Ok?
    requires !Exempt(path)
    requires var id := UserByEmail(db, email).value;
      decode(encode(Claims(Some(Show(id)), now + TOKEN_LIFETIME))) == Some(Claims(Some(Show(id)), now + TOKEN_LIFETIME))
    requires UserByEmail(db, email).value != 0
    ensures var id := UserByEmail(db, email).value;
      var token := Login(db, email, password, verify, now, encode).value.accessToken;
      && Authenticate(path, Some(BEARER + token), decode) == Proceed(Some(id))
      && CurrentUser(db, Some(id)) == Admitted(id, db.users[id])
  {
    var id := UserByEmail(db, email).value;
    var token := Login(db, email, password, verify, now, encode).value.accessToken;
    var h := BEARER + token;
    assert h[|BEARER|..] == token;
    ParseShow(id);
  }

  /** A subject that is not an integer gets past every check but crashes
      the conversion. */
  lemma NonNumericSubjectCrashes(token: string, decode: string -> Option<Claims>, exp: int)
    requires decode(token) == Some(Claims(Some("admin"), exp))
    ensures Authenticate("/api/user_by_token", Some(BEARER + token), decode) == ServerError
  {
    ExemptionIsPrefix("");
    assert (BEARER + token)[|BEARER|..] == token;
    assert !IsDigit("admin"[0]);
  }
}

=== FILE: ordered.dfy ===
/** Extremes of finite sets of integers.

    The backend leans on the database for two orderings: `.first()` on an
    unordered query (modelled as the least primary key among the matches) and
    `order_by(position.desc()).first()` (the greatest position).
 */
module Ordered {
  import opened Base

  predicate IsMin(m: int, s: set<int>) {
    m in s && forall x | x in s :: m <= x
  }

  predicate IsMax(m: int, s: set<int>) {
    m in s && forall x | x in s :: x <= m
  }

  lemma MinStep(y: int, rest: set<int>, m: int)
    requires IsMin(m, rest)
    ensures IsMin(if y < m then y else m, rest + {y})
  {
  }

  lemma MaxStep(y: int, rest: set<int>, m: int)
    requires IsMax(m, rest)
    ensures IsMax(if y > m then y else m, rest + {y})
  {
  }

  lemma EmptyIfNoMember(s: set<int>)
    requires forall y :: y !in s
    ensures s == {}
  {
    var e: set<int> := {};
    assert forall y :: y in s <==> y in e;
    assert s == e;
  }

  lemma HasMember(s: set<int>)
    requires s != {}
    ensures exists y :: y in s
  {
    if forall y :: y !in s {
      EmptyIfNoMember(s);
    }
  }

  lemma {:induction false} MinExists(s: set<int>)
    requires s != {}
    ensures exists m :: IsMin(m, s)
    decreases |s|
  {
    HasMember(s);
    var y :| y in s;
    var rest := s - {y};
    if rest == {} {
      assert s == {y};
      assert IsMin(y, s);
    } else {
      MinExists(rest);
      var m :| IsMin(m, rest);
      MinStep(y, rest, m);
      assert rest + {y} == s;
    }
  }

  lemma {:induction false} MaxExists(s: set<int>)
    requires s != {}
    ensures exists m :: IsMax(m, s)
    decreases |s|
  {
    HasMember(s);
    var y :| y in s;
    var rest := s - {y};
    if rest == {} {
      assert s == {y};
      assert IsMax(y, s);
    } else {
      MaxExists(rest);
      var m :| IsMax(m, rest);
      MaxStep(y, rest, m);
      assert rest + {y} == s;
    }
  }

  /** The least element of a non-empty finite set. */
  function Min(s: set<int>): (m: int)
    requires s != {}
    ensures m in s
    ensures forall x | x in s :: m <= x
  {
    MinExists(s);
    var m :| IsMin(m, s);
    m
  }

  /** The greatest element of a non-empty finite set. */
  function Max(s: set<int>): (m: int)
    requires s != {}
    ensures m in s
    ensures forall x | x in s :: x <= m
  {
    MaxExists(s);
    var m :| IsMax(m, s);
    m
  }

  /** The first of a set of matching primary keys, if there is one. */
  function First(s: set<int>): (r: Option<int>)
    ensures r.None? <==> s == {}
    ensures r.Some? ==> r.value in s && forall x | x in s :: r.value <= x
  {
    if s == {} then None else Some(Min(s))
  }

  /** "max+1 or 1": the position given to a new child of a parent whose
      children already hold `positions`. */
  function NextPosition(positions: set<int>): (p: int)
    ensures positions == {} ==> p == 1
    ensures forall x | x in positions :: x < p
    ensures positions != {} ==> p - 1 in positions
  {
    if positions == {} then 1 else Max(positions) + 1
  }

  /** The keys of `s` in ascending order: the order in which rows come back
      from a query without `order_by` is modelled as primary-key order. */
  function SortedIds(s: set<int>): (r: seq<int>)
    ensures |r| == |s|
    ensures forall x :: x in r <==> x in s
    ensures forall i, j | 0 <= i < j < |r| :: r[i] < r[j]
    decreases |s|
  {
    if s == {} then []
    else
      var m := Min(s);
      var rest := SortedIds(s - {m});
      var r := [m] + rest;
      forall i, j | 0 <= i < j < |r|
        ensures r[i] < r[j]
      {
        assert r[j] == rest[j - 1] && rest[j - 1] in s - {m};
        if i > 0 {
          assert r[i] == rest[i - 1];
        }
      }
      r
  }
}

=== FILE: projects.dfy ===
/** The project service: listing, creation, renaming and the cascading
    delete of a project with its streams, tasks and goals. */
module Projects {
  import opened Base
  import opened Ordered
  import opened Store
  import opened Access
  import opened Cascade

  /** `get_team_projects_service`: members of any role may list. */
  function ListProjects(db: Db, teamId: Id, userId: Id): (r: Result<seq<Id>>)
    ensures r == Err(NotFound) <==> teamId !in db.teams
    ensures r.Ok? <==> teamId in db.teams && IsMember(db, userId, teamId)
    ensures teamId in db.teams && !IsMember(db, userId, teamId) ==> r == Err(Forbidden)
    ensures r.Err? ==> r.error in {NotFound, Forbidden}
    ensures r.Ok? ==> forall k :: k in r.value <==> k in db.projects && db.projects[k].teamId == teamId
  {
    var _ :- CheckTeam(db, teamId, userId, false);
    Ok(SortedIds(ProjectsOfTeam(db, teamId)))
  }

  /** `create_project_service`: an Editor adds a project; sibling projects
      may share its name. */
  function CreateProject(db: Db, teamId: Id, userId: Id, name: string): (r: Result<(Db, Id)>)
    ensures r == Err(NotFound) <==> teamId !in db.teams
    ensures r.Ok? <==> teamId in db.teams && Authorized(db, userId, teamId, true)
    ensures teamId in db.teams && !Authorized(db, userId, teamId, true) ==> r == Err(Forbidden)
    ensures r.Err? ==> r.error in {NotFound, Forbidden}
    ensures r.Ok? ==> var (db', id) := r.value;
      && id !in db.projects
      && db' == db.(projects := db.projects[id := Project(name, teamId)])
  {
    var _ :- CheckTeam(db, teamId, userId, true);
    var id := FreshId(db.projects.Keys);
    Ok((db.(projects := db.projects[id := Project(name, teamId)]), id))
  }

  /** `update_project_service`: an Editor may set the name; an unset name
      leaves the row as it was. */
  function UpdateProject(db: Db, projectId: Id, userId: Id, name: Option<string>): (r: Result<(Db, Project)>)
    ensures r == Err(NotFound) <==> projectId !in db.projects
    ensures r.Ok? <==> projectId in db.projects && Authorized(db, userId, db.projects[projectId].teamId, true)
    ensures projectId in db.projects && !Authorized(db, userId, db.projects[projectId].teamId, true) ==> r == Err(Forbidden)
    ensures r.Err? ==> r.error in {NotFound, Forbidden}
    ensures r.Ok? ==> var (db', p) := r.value;
      && p.teamId == db.projects[projectId].teamId
      && p.name == (if name.Some? then name.value else db.projects[projectId].name)
      && db' == db.(projects := db.projects[projectId := p])
  {
    var p :- CheckProject(db, projectId, userId, true);
    var p' := if name.Some? then p.(name := name.value) else p;
    Ok((db.(projects := db.projects[projectId := p']), p'))
  }

  /** `delete_project_service`: tasks and goals of the project's streams,
      then the streams, then the project. */
  function DeleteProject(db: Db, projectId: Id, userId: Id): (r: Result<Db>)
    ensures r == Err(NotFound) <==> projectId !in db.projects
    ensures r.Ok? <==> projectId in db.projects && Authorized(db, userId, db.projects[projectId].teamId, true)
    ensures projectId in db.projects && !Authorized(db, userId, db.projects[projectId].teamId, true) ==> r == Err(Forbidden)
    ensures r.Err? ==> r.error in {NotFound, Forbidden}
    ensures r.Ok? ==> var db' := r.value;
      && db'.projects == db.projects - {projectId}
      && (forall k :: k in db'.streams <==> k in db.streams && db.streams[k].projectId != projectId)
      && (forall k :: k in db'.tasks <==>
            k in db.tasks && !(db.tasks[k].streamId in db.streams && db.streams[db.tasks[k].streamId].projectId == projectId))
      && (forall k :: k in db'.goals <==>
            k in db.goals && !(db.goals[k].streamId in db.streams && db.streams[db.goals[k].streamId].projectId == projectId))
      && (forall k | k in db'.streams :: db'.streams[k] == db.streams[k])
      && (forall k | k in db'.tasks :: db'.tasks[k] == db.tasks[k])
      && (forall k | k in db'.goals :: db'.goals[k] == db.goals[k])
      && db'.users == db.users && db'.teams == db.teams && db'.memberships == db.memberships
      && db'.assignments == db.assignments && db'.relations == db.relations
      && db'.reminders == db.reminders && db'.subscriptions == db.subscriptions
  {
    var _ :- CheckProject(db, projectId, userId, true);
    var streamIds := StreamsOfProject(db, projectId);
    Ok(db.(
      tasks := DropTasks(db.tasks, streamIds),
      goals := DropGoals(db.goals, streamIds),
      streams := DropStreams(db.streams, {projectId}),
      projects := db.projects - {projectId}))
  }

  // ---- Properties ---------------------------------------------------------

  /** A Reader can list but can neither create, rename nor delete. */
  lemma ReaderListsOnly(db: Db, teamId: Id, projectId: Id, userId: Id, name: string)
    requires teamId in db.teams && RoleIn(db, teamId, userId) == Some(READER)
    requires projectId in db.projects && db.projects[projectId].teamId == teamId
    ensures ListProjects(db, teamId, userId).Ok?
    ensures CreateProject(db, teamId, userId, name) == Err(Forbidden)
    ensures UpdateProject(db, projectId, userId, Some(name)) == Err(Forbidden)
    ensures DeleteProject(db, projectId, userId) == Err(Forbidden)
  {
  }

  /** No name-uniqueness check: an Editor can create a second project
      with the name of an existing one in the same team. */
  lemma DuplicateProjectNamesAllowed(db: Db, teamId: Id, userId: Id, existing: Id)
    requires teamId in db.teams && Authorized(db, userId, teamId, true)
    requires existing in db.projects && db.projects[existing].teamId == teamId
    ensures var r := CreateProject(db, teamId, userId, db.projects[existing].name);
      r.Ok? && r.value.1 != existing
      && r.value.0.projects[r.value.1] == r.value.0.projects[existing]
  {
  }

  lemma CreateProjectKeepsIntact(db: Db, teamId: Id, userId: Id, name: string)
    requires Intact(db)
    ensures CreateProject(db, teamId, userId, name).Ok? ==> Intact(CreateProject(db, teamId, userId, name).value.0)
  {
  }

  /** The cascade leaves no stream, task or goal without its parent. */
  lemma DeleteProjectKeepsIntact(db: Db, projectId: Id, userId: Id)
    requires Intact(db)
    ensures DeleteProject(db, projectId, userId).Ok? ==> Intact(DeleteProject(db, projectId, userId).value)
  {
  }

  /** Rows of other projects survive the cascade. */
  lemma DeleteProjectSparesOthers(db: Db, projectId: Id, userId: Id, streamId: Id)
    requires DeleteProject(db, projectId, userId).Ok?
    requires streamId in db.streams && db.streams[streamId].projectId != projectId
    ensures var db' := DeleteProject(db, projectId, userId).value;
      && streamId in db'.streams
      && TasksOfStream(db', streamId) == TasksOfStream(db, streamId)
      && GoalsOfStream(db', streamId) == GoalsOfStream(db, streamId)
  {
  }
}

=== FILE: push.dfy ===
/** The push service: firing a reminder and the user's push subscriptions.

    Delivery through the web-push library is an oracle `deliver` that says
    whether one attempt to one subscription went through; its answer is
    recorded and otherwise ignored, exactly as the service swallows every
    delivery exception. */
module Push {
  import opened Base
  import opened Ordered
  import opened Store
  import opened Seqs

  /** What firing a reminder leaves behind: the store after the commit,
      the subscriptions tried in order, and those the oracle accepted. */
  datatype Fired = Fired(db: Db, attempts: seq<Id>, delivered: seq<Id>)

  function SubscriptionsOf(db: Db, userId: Id): set<Id> {
    set k | k in db.subscriptions && db.subscriptions[k].userId == userId
  }

  /** `get_subscriptions_by_user` and `get_user_subscriptions_service`. */
  function UserSubscriptions(db: Db, userId: Id): (r: seq<Id>)
    ensures forall k :: k in r <==> k in db.subscriptions && db.subscriptions[k].userId == userId
    ensures forall i, j | 0 <= i < j < |r| :: r[i] < r[j]
  {
    SortedIds(SubscriptionsOf(db, userId))
  }

  /** `mark_as_sent`. */
  function MarkAsSent(m: Reminder): (m': Reminder)
    ensures m'.sent
    ensures m'.taskId == m.taskId && m'.userId == m.userId && m'.remindAt == m.remindAt
  {
    m.(sent := true)
  }

  /** `send_push`: nothing for a missing or already sent reminder;
      otherwise one attempt per subscription of the reminder's owner, then
      the reminder is marked sent whatever the attempts gave. */
  function SendPush(db: Db, reminderId: Id, deliver: Subscription -> bool): (r: Fired)
    ensures reminderId !in db.reminders || db.reminders[reminderId].sent ==> r == Fired(db, [], [])
    ensures reminderId in db.reminders && !db.reminders[reminderId].sent ==>
      && r.db == db.(reminders := db.reminders[reminderId := MarkAsSent(db.reminders[reminderId])])
      && (forall k :: k in r.attempts <==>
            k in db.subscriptions && db.subscriptions[k].userId == db.reminders[reminderId].userId)
      && |r.attempts| == |SubscriptionsOf(db, db.reminders[reminderId].userId)|
    ensures IsSubsequence(r.delivered, r.attempts)
    ensures forall i | 0 <= i < |r.delivered| :: r.delivered[i] in db.subscriptions && deliver(db.subscriptions[r.delivered[i]])
  {
    if reminderId !in db.reminders || db.reminders[reminderId].sent then Fired(db, [], [])
    else
      var m := db.reminders[reminderId];
      var attempts := UserSubscriptions(db, m.userId);
      var accepted := (k: Id) => k in db.subscriptions && deliver(db.subscriptions[k]);
      FilterIsSubsequence(attempts, accepted);
      Fired(db.(reminders := db.reminders[reminderId := MarkAsSent(m)]), attempts, Filter(attempts, accepted))
  }

  /** `create_push_subscription_service`: always a new row, even for an
      endpoint the user already registered. */
  function CreateSubscription(db: Db, userId: Id, endpoint: string, p256dh: string, auth: string): (r: (Db, Id))
    ensures r.1 !in db.subscriptions
    ensures r.0 == db.(subscriptions := db.subscriptions[r.1 := Subscription(userId, endpoint, p256dh, auth)])
  {
    var id := FreshId(db.subscriptions.Keys);
    (db.(subscriptions := db.subscriptions[id := Subscription(userId, endpoint, p256dh, auth)]), id)
  }

  /** `delete_push_subscription_service`: the subscription, then ownership. */
  function DeleteSubscription(db: Db, subscriptionId: Id, userId: Id): (r: Result<Db>)
    ensures subscriptionId !in db.subscriptions ==> r == Err(NotFound)
    ensures r == Err(Forbidden) <==>
      subscriptionId in db.subscriptions && db.subscriptions[subscriptionId].userId != userId
    ensures r.Ok? <==> subscriptionId in db.subscriptions && db.subscriptions[subscriptionId].userId == userId
    ensures r.Ok? ==> r.value == db.(subscriptions := db.subscriptions - {subscriptionId})
  {
    if subscriptionId !in db.subscriptions then Err(NotFound)
    else if db.subscriptions[subscriptionId].userId != userId then Err(Forbidden)
    else Ok(db.(subscriptions := db.subscriptions - {subscriptionId}))
  }

  // ---- Properties ---------------------------------------------------------

  /** Marking twice is marking once. */
  lemma MarkAsSentIdempotent(m: Reminder)
    ensures MarkAsSent(MarkAsSent(m)) == MarkAsSent(m)
  {
  }

  /** Firing the same reminder a second time delivers nothing and changes
      nothing: there is at most one round of deliveries per reminder. */
  lemma SecondFiringIsSilent(db: Db, reminderId: Id, deliver: Subscription -> bool, deliver': Subscription -> bool)
    ensures var first := SendPush(db, reminderId, deliver);
      && SendPush(first.db, reminderId, deliver') == Fired(first.db, [], [])
      && first.db == SendPush(first.db, reminderId, deliver').db
  {
  }

  /** What the oracle answers changes neither the store nor which
      subscriptions are tried: a failed delivery never stops the rest. */
  lemma DeliveryOutcomeIgnored(db: Db, reminderId: Id, deliver: Subscription -> bool, deliver': Subscription -> bool)
    ensures SendPush(db, reminderId, deliver).db == SendPush(db, reminderId, deliver').db
    ensures SendPush(db, reminderId, deliver).attempts == SendPush(db, reminderId, deliver').attempts
  {
  }

  /** A user with no subscriptions still gets the reminder marked sent. */
  lemma NoSubscriptionsStillSent(db: Db, reminderId: Id, deliver: Subscription -> bool)
    requires reminderId in db.reminders && !db.reminders[reminderId].sent
    requires forall k | k in db.subscriptions :: db.subscriptions[k].userId != db.reminders[reminderId].userId
    ensures SendPush(db, reminderId, deliver).attempts == []
    ensures SendPush(db, reminderId, deliver).db.reminders[reminderId].sent
  {
    EmptyIfNoMember(SubscriptionsOf(db, db.reminders[reminderId].userId));
  }

  /** Registering the same endpoint twice leaves two rows. */
  lemma NoEndpointDedup(db: Db, userId: Id, endpoint: string, p256dh: string, auth: string)
    ensures var (db1, a) := CreateSubscription(db, userId, endpoint, p256dh, auth);
      var (db2, b) := CreateSubscription(db1, userId, endpoint, p256dh, auth);
      a != b && a in db2.subscriptions && b in db2.subscriptions
      && db2.subscriptions[a] == db2.subscriptions[b]
      && |UserSubscriptions(db2, userId)| >= 2
  {
    var (db1, a) := CreateSubscription(db, userId, endpoint, p256dh, auth);
    var (db2, b) := CreateSubscription(db1, userId, endpoint, p256dh, auth);
    var s := SubscriptionsOf(db2, userId);
    assert {a, b} <= s;
    assert |{a, b}| == 2;
    SubsetSize({a, b}, s);
  }

  lemma SubsetSize(a: set<Id>, b: set<Id>)
    requires a <= b
    ensures |a| <= |b|
  {
    assert b == a + (b - a);
  }

  /** Its owner deleting a subscription right after creating it gets back
      the store as it was. */
  lemma SubscribeThenUnsubscribe(db: Db, userId: Id, endpoint: string, p256dh: string, auth: string)
    ensures var (db', id) := CreateSubscription(db, userId, endpoint, p256dh, auth);
      DeleteSubscription(db', id, userId) == Ok(db)
  {
    var (db', id) := CreateSubscription(db, userId, endpoint, p256dh, auth);
    assert db'.subscriptions - {id} == db.subscriptions;
  }

  /** A deleted subscription is never tried again when a reminder fires. */
  lemma UnsubscribedIsNotTried(db: Db, subscriptionId: Id, userId: Id, reminderId: Id, deliver: Subscription -> bool)
    requires DeleteSubscription(db, subscriptionId, userId).Ok?
    ensures subscriptionId !in SendPush(DeleteSubscription(db, subscriptionId, userId).value, reminderId, deliver).attempts
  {
  }
}

=== FILE: relation_colors.dfy ===
/** The colouring of related tasks on the task views: tasks joined by
    relations are gathered into groups by merging, and every group gets
    the colour at its index in a palette of twelve, cycling.

    The groups are a sequence of sets and `owner` is the map from a task id
    to the index of its group; a JavaScript group object is represented by
    its index in `groups`, so removing a group shifts the indices after it. */
module RelationColors {
  import opened Seqs

  type Id = int

  const COLORS: seq<string> := [
    "#FFE5E5", "#E5F5FF", "#FFF5E5", "#E5FFE5", "#F5E5FF", "#FFFFE5",
    "#E5FFFF", "#FFE5F5", "#F5FFE5", "#FFE5FF", "#E5F5E5", "#FFF5F5"
  ]

  datatype Relation = Relation(taskId1: Id, taskId2: Id)

  /** The part of a task the colouring reads: its relations. */
  datatype RelatedTask = RelatedTask(id: Id, relations: seq<Relation>)

  datatype Grouping = Grouping(groups: seq<set<Id>>, owner: map<Id, nat>)

  /** `taskToGroup` points every id at the one group that holds it. */
  ghost predicate Consistent(g: Grouping) {
    OwnersPoint(g) && GroupsOwned(g)
  }

  /** Every id points at a group that holds it. */
  ghost predicate OwnersPoint(g: Grouping) {
    forall id | id in g.owner :: g.owner[id] < |g.groups| && id in g.groups[g.owner[id]]
  }

  /** Every id of a group points at that group. */
  ghost predicate GroupsOwned(g: Grouping) {
    forall i, id | 0 <= i < |g.groups| && id in g.groups[i] :: id in g.owner && g.owner[id] == i
  }

  /** Consistency makes the groups pairwise disjoint. */
  lemma ConsistentDisjoint(g: Grouping, i: nat, j: nat, id: Id)
    requires Consistent(g)
    requires i < |g.groups| && j < |g.groups| && i != j
    ensures id in g.groups[i] ==> id !in g.groups[j]
  {
    if id in g.groups[i] {
      assert g.owner[id] == i;
    }
  }

  /** The index a group has after the group at `j` was spliced out. */
  function Shift(k: nat, j: nat): (r: nat)
    requires k != j
    ensures k < j ==> r == k
    ensures k > j ==> r == k - 1
  {
    if k > j then k - 1 else k
  }

  function RemoveAt<T>(s: seq<T>, j: nat): (r: seq<T>)
    requires j < |s|
    ensures |r| == |s| - 1
    ensures forall k | 0 <= k < |s| && k != j :: r[Shift(k, j)] == s[k]
  {
    s[..j] + s[j + 1..]
  }

  function MergeOwner(owner: map<Id, nat>, i: nat, j: nat): map<Id, nat>
    requires i != j
  {
    map id | id in owner :: Shift(if owner[id] == j then i else owner[id], j)
  }

  /** Merging the group at `j` into the group at `i`. */
  function Merge(g: Grouping, i: nat, j: nat): (r: Grouping)
    requires Consistent(g)
    requires i < |g.groups| && j < |g.groups| && i != j
    ensures Consistent(r)
    ensures r.owner.Keys == g.owner.Keys
    ensures |r.groups| == |g.groups| - 1
    ensures forall x, y | x in g.owner && y in g.owner && g.owner[x] == g.owner[y] :: r.owner[x] == r.owner[y]
    ensures forall x | x in g.owner && g.owner[x] == j :: r.owner[x] == Shift(i, j)
    ensures forall x | x in g.owner && g.owner[x] == i :: r.owner[x] == Shift(i, j)
  {
    var merged := g.groups[i] + g.groups[j];
    var groups := RemoveAt(g.groups[i := merged], j);
    var owner := MergeOwner(g.owner, i, j);
    var r := Grouping(groups, owner);
    MergedOwnersPoint(g, i, j, r);
    MergedGroupsOwned(g, i, j, r);
    MergedOwnersMove(g.owner, i, j);
    r
  }

  /** Ids of the two merged groups end at the merged group's new index, and
      ids that shared a group still do. */
  lemma MergedOwnersMove(owner: map<Id, nat>, i: nat, j: nat)
    requires i != j
    ensures MergeOwner(owner, i, j).Keys == owner.Keys
    ensures forall x, y | x in owner && y in owner && owner[x] == owner[y] ::
      MergeOwner(owner, i, j)[x] == MergeOwner(owner, i, j)[y]
    ensures forall x | x in owner && owner[x] == j :: MergeOwner(owner, i, j)[x] == Shift(i, j)
    ensures forall x | x in owner && owner[x] == i :: MergeOwner(owner, i, j)[x] == Shift(i, j)
  {
  }

  /** After a merge every id still points at a group that holds it. */
  lemma MergedOwnersPoint(g: Grouping, i: nat, j: nat, r: Grouping)
    requires Consistent(g)
    requires i < |g.groups| && j < |g.groups| && i != j
    requires r.groups == RemoveAt(g.groups[i := g.groups[i] + g.groups[j]], j)
    requires r.owner == MergeOwner(g.owner, i, j)
    ensures OwnersPoint(r)
  {
    var before := g.groups[i := g.groups[i] + g.groups[j]];
    forall id | id in r.owner
      ensures r.owner[id] < |r.groups| && id in r.groups[r.owner[id]]
    {
      var k := if g.owner[id] == j then i else g.owner[id];
      assert r.owner[id] == Shift(k, j);
      assert r.groups[Shift(k, j)] == before[k];
    }
  }

  /** After a merge every id of a group points at that group. */
  lemma MergedGroupsOwned(g: Grouping, i: nat, j: nat, r: Grouping)
    requires GroupsOwned(g)
    requires i < |g.groups| && j < |g.groups| && i != j
    requires r.groups == RemoveAt(g.groups[i := g.groups[i] + g.groups[j]], j)
    requires r.owner == MergeOwner(g.owner, i, j)
    ensures GroupsOwned(r)
  {
    forall n | 0 <= n < |r.groups| {
      MergedGroupOwned(g, i, j, r, n);
    }
  }

  lemma MergedGroupOwned(g: Grouping, i: nat, j: nat, r: Grouping, n: nat)
    requires GroupsOwned(g)
    requires i < |g.groups| && j < |g.groups| && i != j
    requires r.groups == RemoveAt(g.groups[i := g.groups[i] + g.groups[j]], j)
    requires r.owner == MergeOwner(g.owner, i, j)
    requires n < |r.groups|
    ensures forall id | id in r.groups[n] :: id in r.owner && r.owner[id] == n
  {
    var before := g.groups[i := g.groups[i] + g.groups[j]];
    var k := if n < j then n else n + 1;
    assert Shift(k, j) == n;
    assert r.groups[n] == before[k];
    forall id | id in r.groups[n]
      ensures id in r.owner && r.owner[id] == n
    {
      var from := if k == i && id in g.groups[j] then j else k;
      assert id in g.groups[from];
      assert g.owner[id] == from;
    }
  }

  /** Neither end has a group yet: a new group of the two at the end. */
  function StartGroup(g: Grouping, a: Id, b: Id): (r: Grouping)
    requires Consistent(g) && a !in g.owner && b !in g.owner
    ensures Consistent(r)
    ensures r.owner.Keys == g.owner.Keys + {a, b}
    ensures r.owner[a] == r.owner[b] == |g.groups|
    ensures forall x | x in g.owner :: r.owner[x] == g.owner[x]
    ensures |r.groups| == |g.groups| + 1
  {
    var n := |g.groups|;
    var r := Grouping(g.groups + [{a, b}], g.owner[a := n][b := n]);
    assert forall id | id in g.owner :: g.owner[id] < n && r.groups[g.owner[id]] == g.groups[g.owner[id]];
    r
  }

  /** One end has the group at `i`: the other end joins it. */
  function JoinGroup(g: Grouping, i: nat, b: Id): (r: Grouping)
    requires Consistent(g) && i < |g.groups| && b !in g.owner
    ensures Consistent(r)
    ensures r.owner.Keys == g.owner.Keys + {b}
    ensures r.owner[b] == i
    ensures forall x | x in g.owner :: r.owner[x] == g.owner[x]
    ensures |r.groups| == |g.groups|
  {
    Grouping(g.groups[i := g.groups[i] + {b}], g.owner[b := i])
  }

  /** One relation of the loop: start a group, join one, or merge two. */
  function Step(g: Grouping, rel: Relation): (r: Grouping)
    requires Consistent(g)
    ensures Consistent(r)
    ensures r.owner.Keys == g.owner.Keys + {rel.taskId1, rel.taskId2}
    ensures r.owner[rel.taskId1] == r.owner[rel.taskId2]
    ensures forall x, y | x in g.owner && y in g.owner && g.owner[x] == g.owner[y] :: r.owner[x] == r.owner[y]
    ensures |r.groups| <= |g.groups| + 1
  {
    var a, b := rel.taskId1, rel.taskId2;
    if a !in g.owner && b !in g.owner then StartGroup(g, a, b)
    else if a in g.owner && b !in g.owner then JoinGroup(g, g.owner[a], b)
    else if a !in g.owner && b in g.owner then JoinGroup(g, g.owner[b], a)
    else if g.owner[a] != g.owner[b] then
      Merge(g, g.owner[a], g.owner[b])
    else g
  }

  /** The ids a list of relations mentions. */
  function Endpoints(rels: seq<Relation>): (r: set<Id>)
    ensures forall k | 0 <= k < |rels| :: rels[k].taskId1 in r && rels[k].taskId2 in r
    decreases |rels|
  {
    if rels == [] then {}
    else
      assert forall k | 1 <= k < |rels| :: rels[k] == rels[1..][k - 1];
      {rels[0].taskId1, rels[0].taskId2} + Endpoints(rels[1..])
  }

  /** The two nested `forEach` loops, one relation after another. */
  function Process(g: Grouping, rels: seq<Relation>): (r: Grouping)
    requires Consistent(g)
    ensures Consistent(r)
    ensures r.owner.Keys == g.owner.Keys + Endpoints(rels)
    decreases |rels|
  {
    if rels == [] then g
    else
      var r := Process(Step(g, rels[0]), rels[1..]);
      assert Endpoints(rels) == {rels[0].taskId1, rels[0].taskId2} + Endpoints(rels[1..]);
      r
  }

  /** Ids that share a group before the loop share one after it. */
  lemma {:induction false} ProcessKeepsTogether(g: Grouping, rels: seq<Relation>, x: Id, y: Id)
    requires Consistent(g)
    requires x in g.owner && y in g.owner && g.owner[x] == g.owner[y]
    ensures Process(g, rels).owner[x] == Process(g, rels).owner[y]
    decreases |rels|
  {
    if rels != [] {
      assert Process(g, rels) == Process(Step(g, rels[0]), rels[1..]);
      ProcessKeepsTogether(Step(g, rels[0]), rels[1..], x, y);
    }
  }

  /** After the loop both ends of every relation share a group. */
  lemma {:induction false} ProcessJoins(g: Grouping, rels: seq<Relation>, k: nat)
    requires Consistent(g) && k < |rels|
    ensures Process(g, rels).owner[rels[k].taskId1] == Process(g, rels).owner[rels[k].taskId2]
    decreases |rels|
  {
    var g' := Step(g, rels[0]);
    assert Process(g, rels) == Process(g', rels[1..]);
    if k == 0 {
      assert g'.owner[rels[0].taskId1] == g'.owner[rels[0].taskId2];
      ProcessKeepsTogether(g', rels[1..], rels[0].taskId1, rels[0].taskId2);
    } else {
      assert rels[k] == rels[1..][k - 1];
      ProcessJoins(g', rels[1..], k - 1);
    }
  }

  /** `groups.forEach((group, index) => ...)` over the first `n` groups:
      each member gets the palette colour of its group's index. */
  function Paint(groups: seq<set<Id>>, n: nat): map<Id, string>
    requires n <= |groups|
  {
    if n == 0 then map[]
    else
      var group := groups[n - 1];
      Paint(groups, n - 1) + map id | id in group :: COLORS[(n - 1) % |COLORS|]
  }

  lemma {:induction false} PaintColours(g: Grouping, n: nat)
    requires Consistent(g) && n <= |g.groups|
    ensures forall id :: id in Paint(g.groups, n) <==> id in g.owner && g.owner[id] < n
    ensures forall id | id in Paint(g.groups, n) :: Paint(g.groups, n)[id] == COLORS[g.owner[id] % |COLORS|]
  {
    if n > 0 {
      PaintColours(g, n - 1);
    }
  }

  function WithRelations(tasks: seq<RelatedTask>): (r: seq<RelatedTask>)
    ensures forall i | 0 <= i < |r| :: r[i] in tasks && r[i].relations != []
  {
    Filter(tasks, (t: RelatedTask) => t.relations != [])
  }

  function RelationsOf(tasks: seq<RelatedTask>): seq<Relation> {
    FlatMap(tasks, (t: RelatedTask) => t.relations)
  }

  /** `generateRelationColors`: the grouping of the relations listed on the
      tasks that have any, then the colours of the groups. */
  function Grouped(tasks: seq<RelatedTask>): (r: Grouping)
    ensures Consistent(r)
    ensures r.owner.Keys == Endpoints(RelationsOf(WithRelations(tasks)))
  {
    Process(Grouping([], map[]), RelationsOf(WithRelations(tasks)))
  }

  function GenerateRelationColors(tasks: seq<RelatedTask>): (colors: map<Id, string>)
    ensures forall id :: id in colors <==> id in Grouped(tasks).owner
    ensures forall id | id in colors :: colors[id] == COLORS[Grouped(tasks).owner[id] % |COLORS|]
  {
    if |WithRelations(tasks)| == 0 then
      var empty: map<Id, string> := map[];
      assert Grouped(tasks).owner.Keys == {};
      empty
    else
      var g := Grouped(tasks);
      PaintColours(g, |g.groups|);
      Paint(g.groups, |g.groups|)
  }

  // ---- Properties ---------------------------------------------------------

  /** No task with relations, no colours. */
  lemma NoRelationsNoColours(tasks: seq<RelatedTask>)
    requires forall i | 0 <= i < |tasks| :: tasks[i].relations == []
    ensures GenerateRelationColors(tasks) == map[]
  {
    FilterNone(tasks, (t: RelatedTask) => t.relations != []);
  }

  /** The coloured ids are exactly the endpoints of the relations listed on
      tasks that have relations. */
  lemma ColouredAreEndpoints(tasks: seq<RelatedTask>, id: Id)
    ensures id in GenerateRelationColors(tasks) <==> id in Endpoints(RelationsOf(WithRelations(tasks)))
  {
  }

  /** Both ends of every considered relation share a colour, so a chain of
      relations is one colour throughout. */
  lemma RelatedShareColour(tasks: seq<RelatedTask>, k: nat)
    requires k < |RelationsOf(WithRelations(tasks))|
    ensures var rel := RelationsOf(WithRelations(tasks))[k];
      var colors := GenerateRelationColors(tasks);
      rel.taskId1 in colors && rel.taskId2 in colors && colors[rel.taskId1] == colors[rel.taskId2]
  {
    ProcessJoins(Grouping([], map[]), RelationsOf(WithRelations(tasks)), k);
  }

  /** The palette holds twelve different colours. */
  lemma PaletteDistinct(i: nat, j: nat)
    requires i < |COLORS| && j < |COLORS| && i != j
    ensures COLORS[i] != COLORS[j]
  {
  }

  /** With at most twelve groups, ids in different groups get different
      colours. */
  lemma FewGroupsDistinctColours(tasks: seq<RelatedTask>, x: Id, y: Id)
    requires |Grouped(tasks).groups| <= |COLORS|
    requires x in Grouped(tasks).owner && y in Grouped(tasks).owner
    requires Grouped(tasks).owner[x] != Grouped(tasks).owner[y]
    ensures GenerateRelationColors(tasks)[x] != GenerateRelationColors(tasks)[y]
  {
    var g := Grouped(tasks);
    var i, j := g.owner[x], g.owner[y];
    assert i < |COLORS| && j < |COLORS|;
    PaletteDistinct(i, j);
    PaletteIndex(i);
    PaletteIndex(j);
  }

  lemma PaletteIndex(i: int)
    requires 0 <= i < |COLORS|
    ensures i % |COLORS| == i
  {
  }

  // ---- Groups are the connected components ---------------------------------

  /** Some relation of the list joins `x` and `y`, in either direction. */
  ghost predicate Edge(rels: seq<Relation>, x: Id, y: Id) {
    exists k | 0 <= k < |rels| ::
      (rels[k].taskId1 == x && rels[k].taskId2 == y) || (rels[k].taskId1 == y && rels[k].taskId2 == x)
  }

  /** A walk along relations of the list. */
  ghost predicate Path(rels: seq<Relation>, p: seq<Id>) {
    |p| >= 1 && forall i | 0 <= i < |p| - 1 :: Edge(rels, p[i], p[i + 1])
  }

  /** `x` reaches `y` through a chain of relations of the list. */
  ghost predicate Connected(rels: seq<Relation>, x: Id, y: Id) {
    exists p :: Path(rels, p) && p[0] == x && p[|p| - 1] == y
  }

  lemma ConnectedRefl(rels: seq<Relation>, x: Id)
    ensures Connected(rels, x, x)
  {
    assert Path(rels, [x]);
  }

  lemma EdgeConnected(rels: seq<Relation>, x: Id, y: Id)
    requires Edge(rels, x, y)
    ensures Connected(rels, x, y)
  {
    assert Path(rels, [x, y]);
  }

  lemma ConnectedSym(rels: seq<Relation>, x: Id, y: Id)
    requires Connected(rels, x, y)
    ensures Connected(rels, y, x)
  {
    var p :| Path(rels, p) && p[0] == x && p[|p| - 1] == y;
    var n := |p|;
    var q := seq(n, i requires 0 <= i < n => p[n - 1 - i]);
    forall i | 0 <= i < n - 1
      ensures Edge(rels, q[i], q[i + 1])
    {
      assert Edge(rels, p[n - 2 - i], p[n - 1 - i]);
    }
    assert Path(rels, q);
  }

  lemma ConnectedTrans(rels: seq<Relation>, x: Id, y: Id, z: Id)
    requires Connected(rels, x, y) && Connected(rels, y, z)
    ensures Connected(rels, x, z)
  {
    var p :| Path(rels, p) && p[0] == x && p[|p| - 1] == y;
    var q :| Path(rels, q) && q[0] == y && q[|q| - 1] == z;
    var w := p + q[1..];
    forall i | 0 <= i < |w| - 1
      ensures Edge(rels, w[i], w[i + 1])
    {
      if i < |p| - 1 {
        assert w[i] == p[i] && w[i + 1] == p[i + 1];
      } else {
        var j := i - |p| + 1;
        assert w[i] == q[j] && w[i + 1] == q[j + 1];
        assert Edge(rels, q[j], q[j + 1]);
      }
    }
    assert Path(rels, w);
  }

  /** More relations connect at least what fewer did. */
  lemma ConnectedMono(rels: seq<Relation>, more: seq<Relation>, x: Id, y: Id)
    requires Connected(rels, x, y)
    ensures Connected(rels + more, x, y)
  {
    var p :| Path(rels, p) && p[0] == x && p[|p| - 1] == y;
    forall i | 0 <= i < |p| - 1
      ensures Edge(rels + more, p[i], p[i + 1])
    {
      var k :| 0 <= k < |rels| &&
        ((rels[k].taskId1 == p[i] && rels[k].taskId2 == p[i + 1]) || (rels[k].taskId1 == p[i + 1] && rels[k].taskId2 == p[i]));
      assert (rels + more)[k] == rels[k];
    }
    assert Path(rels + more, p);
  }

  /** Ids that share a group are connected by the relations seen so far. */
  ghost predicate Linked(g: Grouping, rels: seq<Relation>) {
    forall x, y | x in g.owner && y in g.owner && g.owner[x] == g.owner[y] :: Connected(rels, x, y)
  }

  /** `x` is an end of `rel`, or shares a group with one before the step. */
  ghost predicate WithEnd(g: Grouping, rel: Relation, x: Id) {
    || x == rel.taskId1 || x == rel.taskId2
    || (x in g.owner && rel.taskId1 in g.owner && g.owner[x] == g.owner[rel.taskId1])
    || (x in g.owner && rel.taskId2 in g.owner && g.owner[x] == g.owner[rel.taskId2])
  }

  /** A merge joins only the two merged groups. */
  lemma MergeSeparates(g: Grouping, i: nat, j: nat, x: Id, y: Id)
    requires Consistent(g)
    requires i < |g.groups| && j < |g.groups| && i != j
    requires x in g.owner && y in g.owner
    requires Merge(g, i, j).owner[x] == Merge(g, i, j).owner[y]
    ensures g.owner[x] == g.owner[y] || (g.owner[x] in {i, j} && g.owner[y] in {i, j})
  {
    assert Merge(g, i, j).owner == MergeOwner(g.owner, i, j);
    var kx := if g.owner[x] == j then i else g.owner[x];
    var ky := if g.owner[y] == j then i else g.owner[y];
    assert Shift(kx, j) == Shift(ky, j);
  }

  /** A step puts two ids in one group only if they already shared one, or
      both are ends of the relation or group-mates of an end. */
  lemma StepSeparates(g: Grouping, rel: Relation, x: Id, y: Id)
    requires Consistent(g)
    requires x in Step(g, rel).owner && y in Step(g, rel).owner
    requires Step(g, rel).owner[x] == Step(g, rel).owner[y]
    ensures (x in g.owner && y in g.owner && g.owner[x] == g.owner[y]) || (WithEnd(g, rel, x) && WithEnd(g, rel, y))
  {
    var a, b := rel.taskId1, rel.taskId2;
    if a !in g.owner && b !in g.owner {
      assert forall id | id in g.owner :: g.owner[id] < |g.groups|;
    } else if a in g.owner && b !in g.owner {
    } else if a !in g.owner && b in g.owner {
    } else if g.owner[a] != g.owner[b] {
      MergeSeparates(g, g.owner[a], g.owner[b], x, y);
    }
  }

  /** Every id `WithEnd` of the step reaches the relation's first end. */
  lemma EndReach(g: Grouping, rel: Relation, done: seq<Relation>, x: Id)
    requires Linked(g, done) && WithEnd(g, rel, x)
    ensures Connected(done + [rel], x, rel.taskId1)
  {
    var rels := done + [rel];
    var a, b := rel.taskId1, rel.taskId2;
    assert rels[|done|] == rel;
    assert Edge(rels, b, a);
    EdgeConnected(rels, b, a);
    if x == a {
      ConnectedRefl(rels, a);
    } else if x == b {
    } else if a in g.owner && g.owner[x] == g.owner[a] {
      ConnectedMono(done, [rel], x, a);
    } else {
      ConnectedMono(done, [rel], x, b);
      ConnectedTrans(rels, x, b, a);
    }
  }

  /** One step keeps group-mates connected, counting its relation. */
  lemma StepLinked(g: Grouping, rel: Relation, done: seq<Relation>)
    requires Consistent(g) && Linked(g, done)
    ensures Linked(Step(g, rel), done + [rel])
  {
    var r := Step(g, rel);
    forall x, y | x in r.owner && y in r.owner && r.owner[x] == r.owner[y]
      ensures Connected(done + [rel], x, y)
    {
      StepSeparates(g, rel, x, y);
      if x in g.owner && y in g.owner && g.owner[x] == g.owner[y] {
        ConnectedMono(done, [rel], x, y);
      } else {
        EndReach(g, rel, done, x);
        EndReach(g, rel, done, y);
        ConnectedSym(done + [rel], y, rel.taskId1);
        ConnectedTrans(done + [rel], x, rel.taskId1, y);
      }
    }
  }

  /** The loop keeps group-mates connected by the relations it has seen. */
  lemma {:induction false} ProcessLinked(g: Grouping, rels: seq<Relation>, done: seq<Relation>)
    requires Consistent(g) && Linked(g, done)
    ensures Linked(Process(g, rels), done + rels)
    decreases |rels|
  {
    if rels == [] {
      assert done + rels == done;
    } else {
      assert Process(g, rels) == Process(Step(g, rels[0]), rels[1..]);
      StepLinked(g, rels[0], done);
      ProcessLinked(Step(g, rels[0]), rels[1..], done + [rels[0]]);
      assert (done + [rels[0]]) + rels[1..] == done + rels;
    }
  }

  /** Along a walk every id after the first shares the first one's group. */
  lemma {:induction false} PathInOneGroup(g: Grouping, rels: seq<Relation>, p: seq<Id>, n: nat)
    requires Consistent(g) && Path(rels, p) && 0 < n < |p|
    ensures var r := Process(g, rels);
      p[0] in r.owner && p[n] in r.owner && r.owner[p[n]] == r.owner[p[0]]
  {
    var r := Process(g, rels);
    assert Edge(rels, p[n - 1], p[n]);
    var k :| 0 <= k < |rels| &&
      ((rels[k].taskId1 == p[n - 1] && rels[k].taskId2 == p[n]) || (rels[k].taskId1 == p[n] && rels[k].taskId2 == p[n - 1]));
    ProcessJoins(g, rels, k);
    assert rels[k].taskId1 in Endpoints(rels) && rels[k].taskId2 in Endpoints(rels);
    if n > 1 {
      PathInOneGroup(g, rels, p, n - 1);
    }
  }

  /** Group-mates are joined by a chain of the relations considered. */
  lemma GroupMatesConnected(tasks: seq<RelatedTask>, x: Id, y: Id)
    requires x in Grouped(tasks).owner && y in Grouped(tasks).owner
    requires Grouped(tasks).owner[x] == Grouped(tasks).owner[y]
    ensures Connected(RelationsOf(WithRelations(tasks)), x, y)
  {
    var rels := RelationsOf(WithRelations(tasks));
    ProcessLinked(Grouping([], map[]), rels, []);
    assert [] + rels == rels;
  }

  /** Ids joined by a chain of the relations considered share a group. */
  lemma ConnectedGroupMates(tasks: seq<RelatedTask>, x: Id, y: Id)
    requires x in Grouped(tasks).owner && y in Grouped(tasks).owner
    requires Connected(RelationsOf(WithRelations(tasks)), x, y)
    ensures Grouped(tasks).owner[x] == Grouped(tasks).owner[y]
  {
    var rels := RelationsOf(WithRelations(tasks));
    var p :| Path(rels, p) && p[0] == x && p[|p| - 1] == y;
    if |p| > 1 {
      PathInOneGroup(Grouping([], map[]), rels, p, |p| - 1);
    }
  }

  /** The groups are exactly the connected components of the relations
      considered: two coloured ids share a group iff a chain of those
      relations joins them. */
  lemma GroupsAreComponents(tasks: seq<RelatedTask>, x: Id, y: Id)
    requires x in Grouped(tasks).owner && y in Grouped(tasks).owner
    ensures Grouped(tasks).owner[x] == Grouped(tasks).owner[y] <==> Connected(RelationsOf(WithRelations(tasks)), x, y)
  {
    if Grouped(tasks).owner[x] == Grouped(tasks).owner[y] {
      GroupMatesConnected(tasks, x, y);
    }
    if Connected(RelationsOf(WithRelations(tasks)), x, y) {
      ConnectedGroupMates(tasks, x, y);
    }
  }

  /** With at most twelve groups, coloured tasks that no chain of relations
      joins get different colours. */
  lemma UnrelatedDistinctColours(tasks: seq<RelatedTask>, x: Id, y: Id)
    requires |Grouped(tasks).groups| <= |COLORS|
    requires x in GenerateRelationColors(tasks) && y in GenerateRelationColors(tasks)
    requires !Connected(RelationsOf(WithRelations(tasks)), x, y)
    ensures GenerateRelationColors(tasks)[x] != GenerateRelationColors(tasks)[y]
  {
    GroupsAreComponents(tasks, x, y);
    FewGroupsDistinctColours(tasks, x, y);
  }
}

=== FILE: reminder_routes.dfy ===
/** The reminder endpoints: each calls the reminder service and then keeps
    the scheduler's job table in step with the committed rows. */
module ReminderRoutes {
  import opened Base
  import opened Store
  import opened Decimal
  import opened Reminders
  import opened Scheduler

  /** The world after a request and the request's reply. */
  datatype Reply<T> = Reply(world: World, result: Result<T>)

  /** The HTTP status an error becomes on these routes: a time in the past
      is a 400, and anything the handlers do not catch is a 500. */
  function ReminderStatus(e: Error): (code: int)
    ensures e == NotFound <==> code == 404
    ensures e == Forbidden <==> code == 403
    ensures e == Conflict <==> code == 400
    ensures e == Crash <==> code == 500
  {
    match e
    case NotFound => 404
    case Forbidden => 403
    case Conflict => 400
    case Crash => 500
  }

  /** `POST /api/tasks/{task_id}/reminders`: the service commits the row,
      then a job keyed by the new id is added at the reminder's time. The
      job is added only after the service succeeded. */
  function CreateReminderRoute(w: World, taskId: Id, userId: Id, remindAt: int, now: int): (r: Reply<Id>)
    ensures CreateReminder(w.db, taskId, userId, remindAt, now).Err? ==>
      r == Reply(w, Err(CreateReminder(w.db, taskId, userId, remindAt, now).error))
    ensures r.result.Ok? ==> var id := r.result.value;
      && CreateReminder(w.db, taskId, userId, remindAt, now) == Ok((r.world.db, id))
      && r.world.jobs.Keys == w.jobs.Keys + {JobKey(id)}
      && r.world.jobs[JobKey(id)] == Job(remindAt, id)
      && (forall k | k in w.jobs :: r.world.jobs[k] == w.jobs[k])
  {
    match CreateReminder(w.db, taskId, userId, remindAt, now)
    case Err(e) => Reply(w, Err(e))
    case Ok((db', id)) =>
      match AddJob(w.jobs, remindAt, id)
      case Err(e) => Reply(World(db', w.jobs), Err(e))
      case Ok(jobs') => Reply(World(db', jobs'), Ok(id))
  }

  /** Replacing a reminder's job: remove it if present, then add it anew,
      which cannot clash. */
  function Reschedule(jobs: Jobs, runAt: int, reminderId: Id): (r: Jobs)
    ensures r.Keys == jobs.Keys + {JobKey(reminderId)}
    ensures r[JobKey(reminderId)] == Job(runAt, reminderId)
    ensures forall k | k in jobs && k != JobKey(reminderId) :: r[k] == jobs[k]
  {
    AddJob(RemoveJobIfPresent(jobs, reminderId), runAt, reminderId).value
  }

  /** `PATCH /api/tasks/reminders/{reminder_id}`: after a successful update,
      a sent time moves the job; without a time the job table is untouched. */
  function UpdateReminderRoute(w: World, reminderId: Id, userId: Id, remindAt: Option<Option<int>>, now: int): (r: Reply<Reminder>)
    ensures UpdateReminder(w.db, reminderId, userId, remindAt, now).Err? ==>
      r == Reply(w, Err(UpdateReminder(w.db, reminderId, userId, remindAt, now).error))
    ensures r.result.Ok? <==> UpdateReminder(w.db, reminderId, userId, remindAt, now).Ok?
    ensures r.result.Ok? ==>
      && UpdateReminder(w.db, reminderId, userId, remindAt, now) == Ok((r.world.db, r.result.value))
      && (remindAt.None? ==> r.world.jobs == w.jobs)
      && (remindAt.Some? ==>
            && r.world.jobs.Keys == w.jobs.Keys + {JobKey(reminderId)}
            && r.world.jobs[JobKey(reminderId)] == Job(r.result.value.remindAt, reminderId)
            && forall k | k in w.jobs && k != JobKey(reminderId) :: r.world.jobs[k] == w.jobs[k])
  {
    match UpdateReminder(w.db, reminderId, userId, remindAt, now)
    case Err(e) => Reply(w, Err(e))
    case Ok((db', m)) =>
      if remindAt.Some? then Reply(World(db', Reschedule(w.jobs, m.remindAt, reminderId)), Ok(m))
      else Reply(World(db', w.jobs), Ok(m))
  }

  /** `DELETE /api/tasks/reminders/{reminder_id}`: the row goes, then the
      job if there is one; a missing job is not an error. */
  function DeleteReminderRoute(w: World, reminderId: Id, userId: Id): (r: Reply<()>)
    ensures DeleteReminder(w.db, reminderId, userId).Err? ==>
      r == Reply(w, Err(DeleteReminder(w.db, reminderId, userId).error))
    ensures r.result.Ok? <==> DeleteReminder(w.db, reminderId, userId).Ok?
    ensures r.result.Ok? ==>
      && r.world.db == DeleteReminder(w.db, reminderId, userId).value
      && JobKey(reminderId) !in r.world.jobs
      && forall k | k in w.jobs && k != JobKey(reminderId) :: k in r.world.jobs && r.world.jobs[k] == w.jobs[k]
  {
    match DeleteReminder(w.db, reminderId, userId)
    case Err(e) => Reply(w, Err(e))
    case Ok(db') => Reply(World(db', RemoveJobIfPresent(w.jobs, reminderId)), Ok(()))
  }

  // ---- Properties ---------------------------------------------------------

  /** With sound jobs, creating never trips over an existing job id, and the
      new job is sound. */
  lemma CreateRouteKeepsJobsSound(w: World, taskId: Id, userId: Id, remindAt: int, now: int)
    requires JobsSound(w)
    ensures var r := CreateReminderRoute(w, taskId, userId, remindAt, now);
      && (r.result.Ok? <==> CreateReminder(w.db, taskId, userId, remindAt, now).Ok?)
      && JobsSound(r.world)
  {
    var s := CreateReminder(w.db, taskId, userId, remindAt, now);
    if s.Ok? {
      var (db', id) := s.value;
      NoJobForUnknown(w, id);
    }
  }

  lemma UpdateRouteKeepsJobsSound(w: World, reminderId: Id, userId: Id, remindAt: Option<Option<int>>, now: int)
    requires JobsSound(w)
    ensures JobsSound(UpdateReminderRoute(w, reminderId, userId, remindAt, now).world)
  {
    var r := UpdateReminderRoute(w, reminderId, userId, remindAt, now);
    if r.result.Ok? {
      forall k | k in r.world.jobs
        ensures k == JobKey(r.world.jobs[k].reminderId)
        ensures r.world.jobs[k].reminderId in r.world.db.reminders
        ensures r.world.jobs[k].runAt == r.world.db.reminders[r.world.jobs[k].reminderId].remindAt
      {
        if k != JobKey(reminderId) {
          ShowInjective(reminderId, w.jobs[k].reminderId);
        }
      }
    }
  }

  lemma DeleteRouteKeepsJobsSound(w: World, reminderId: Id, userId: Id)
    requires JobsSound(w)
    ensures JobsSound(DeleteReminderRoute(w, reminderId, userId).world)
  {
    var r := DeleteReminderRoute(w, reminderId, userId);
    if r.result.Ok? {
      forall k | k in r.world.jobs
        ensures k == JobKey(r.world.jobs[k].reminderId)
        ensures r.world.jobs[k].reminderId in r.world.db.reminders
        ensures r.world.jobs[k].runAt == r.world.db.reminders[r.world.jobs[k].reminderId].remindAt
      {
        ShowInjective(reminderId, w.jobs[k].reminderId);
      }
    }
  }

  /** A reminder created for exactly the current time is accepted, but a
      restart at that same moment gives it no job, so it is never sent. */
  lemma DueNowIsNotRecovered(w: World, taskId: Id, userId: Id, now: int)
    requires CreateReminder(w.db, taskId, userId, now, now).Ok?
    ensures var r := CreateReminderRoute(w, taskId, userId, now, now);
      r.result.Ok? ==> JobKey(r.result.value) !in StartScheduler(r.world.db, now)
  {
    var r := CreateReminderRoute(w, taskId, userId, now, now);
    if r.result.Ok? {
      RestartSchedulesPending(r.world.db, now, r.result.value);
    }
  }

  /** A reminder that already fired and is then moved to a later time gets a
      new job, but that job delivers nothing: `sent` stays true. */
  lemma RescheduledSentReminderStaysSilent(w: World, reminderId: Id, userId: Id, at: int, now: int, deliver: Subscription -> bool)
    requires JobsSound(w)
    requires reminderId in w.db.reminders && w.db.reminders[reminderId].userId == userId
    requires w.db.reminders[reminderId].sent && at >= now
    ensures var r := UpdateReminderRoute(w, reminderId, userId, Some(Some(at)), now);
      && r.result.Ok?
      && JobKey(reminderId) in r.world.jobs
      && Fire(r.world, JobKey(reminderId), deliver).1.attempts == []
  {
    RescheduleKeepsSent(w.db, reminderId, userId, at, now);
  }
}

=== FILE: reminders.dfy ===
/** The reminder service and the reminder crud helpers: membership of the
    task's team to read or create, ownership to change or delete, and the
    rule that a reminder is never set in the past. Times are integers and
    the current time is a parameter. */
module Reminders {
  import opened Base
  import opened Ordered
  import opened Store
  import opened Access

  function RemindersOfUser(db: Db, userId: Id): set<Id> {
    set k | k in db.reminders && db.reminders[k].userId == userId
  }

  function UnsentReminders(db: Db): set<Id> {
    set k | k in db.reminders && !db.reminders[k].sent
  }

  function RemindersOfTaskAndUser(db: Db, taskId: Id, userId: Id): set<Id> {
    set k | k in db.reminders && db.reminders[k].taskId == taskId && db.reminders[k].userId == userId
  }

  /** `get_reminders_by_user` and `get_user_reminders_service`: the caller's
      reminders, in key order, with no access check. */
  function UserReminders(db: Db, userId: Id): (r: seq<Id>)
    ensures forall k :: k in r <==> k in db.reminders && db.reminders[k].userId == userId
    ensures forall i, j | 0 <= i < j < |r| :: r[i] < r[j]
  {
    SortedIds(RemindersOfUser(db, userId))
  }

  /** `get_pending_reminders`: every reminder not yet sent. */
  function PendingReminders(db: Db): (r: seq<Id>)
    ensures forall k :: k in r <==> k in db.reminders && !db.reminders[k].sent
    ensures forall i, j | 0 <= i < j < |r| :: r[i] < r[j]
  {
    SortedIds(UnsentReminders(db))
  }

  /** `get_task_reminders_service`: access to the task through its team,
      then the caller's own reminders on it; other members' reminders on
      the same task are not listed. */
  function TaskReminders(db: Db, taskId: Id, userId: Id): (r: Result<seq<Id>>)
    ensures taskId !in db.tasks ==> r == Err(NotFound)
    ensures r.Ok? <==> CheckTask(db, taskId, userId, false).Ok?
    ensures r.Err? ==> r.error == CheckTask(db, taskId, userId, false).error
    ensures r.Ok? ==> forall k :: k in r.value <==>
      k in db.reminders && db.reminders[k].taskId == taskId && db.reminders[k].userId == userId
  {
    var _ :- CheckTask(db, taskId, userId, false);
    Ok(SortedIds(RemindersOfTaskAndUser(db, taskId, userId)))
  }

  /** `create_reminder_service`: access, then the time check (a reminder
      at exactly `now` is allowed), then a new unsent row. */
  function CreateReminder(db: Db, taskId: Id, userId: Id, remindAt: int, now: int): (r: Result<(Db, Id)>)
    ensures taskId !in db.tasks ==> r == Err(NotFound)
    ensures CheckTask(db, taskId, userId, false).Err? ==> r == Err(CheckTask(db, taskId, userId, false).error)
    ensures r == Err(Conflict) <==> CheckTask(db, taskId, userId, false).Ok? && remindAt < now
    ensures r.Ok? <==> CheckTask(db, taskId, userId, false).Ok? && remindAt >= now
    ensures r.Ok? ==> var (db', id) := r.value;
      && id !in db.reminders
      && db' == db.(reminders := db.reminders[id := Reminder(taskId, userId, remindAt, false)])
  {
    var _ :- CheckTask(db, taskId, userId, false);
    if remindAt < now then Err(Conflict)
    else
      var id := FreshId(db.reminders.Keys);
      Ok((db.(reminders := db.reminders[id := Reminder(taskId, userId, remindAt, false)]), id))
  }

  /** `update_reminder_service`: the reminder, then ownership (the team role
      does not matter), then the time check when a time is sent. A field
      sent as an explicit null is written as null into a NOT NULL column,
      which fails at the commit. The `sent` flag is never touched. */
  function UpdateReminder(db: Db, reminderId: Id, userId: Id, remindAt: Option<Option<int>>, now: int): (r: Result<(Db, Reminder)>)
    ensures reminderId !in db.reminders ==> r == Err(NotFound)
    ensures reminderId in db.reminders && db.reminders[reminderId].userId != userId ==> r == Err(Forbidden)
    ensures r == Err(Conflict) <==>
      reminderId in db.reminders && db.reminders[reminderId].userId == userId
      && remindAt.Some? && remindAt.value.Some? && remindAt.value.value < now
    ensures r == Err(Crash) <==>
      reminderId in db.reminders && db.reminders[reminderId].userId == userId && remindAt == Some(None)
    ensures r.Ok? ==> reminderId in db.reminders && var (db', m) := r.value;
      && m.taskId == db.reminders[reminderId].taskId
      && m.userId == userId
      && m.sent == db.reminders[reminderId].sent
      && m.remindAt == (if remindAt.Some? then remindAt.value.value else db.reminders[reminderId].remindAt)
      && m.remindAt >= (if remindAt.Some? then now else m.remindAt)
      && db' == db.(reminders := db.reminders[reminderId := m])
  {
    if reminderId !in db.reminders then Err(NotFound)
    else
      var m := db.reminders[reminderId];
      if m.userId != userId then Err(Forbidden)
      else if remindAt.Some? && remindAt.value.Some? && remindAt.value.value < now then Err(Conflict)
      else if remindAt == Some(None) then Err(Crash)
      else
        var m' := if remindAt.Some? then m.(remindAt := remindAt.value.value) else m;
        Ok((db.(reminders := db.reminders[reminderId := m']), m'))
  }

  /** `delete_reminder_service`: the reminder, then ownership. */
  function DeleteReminder(db: Db, reminderId: Id, userId: Id): (r: Result<Db>)
    ensures reminderId !in db.reminders ==> r == Err(NotFound)
    ensures r == Err(Forbidden) <==> reminderId in db.reminders && db.reminders[reminderId].userId != userId
    ensures r.Ok? <==> reminderId in db.reminders && db.reminders[reminderId].userId == userId
    ensures r.Ok? ==> r.value == db.(reminders := db.reminders - {reminderId})
  {
    if reminderId !in db.reminders then Err(NotFound)
    else if db.reminders[reminderId].userId != userId then Err(Forbidden)
    else Ok(db.(reminders := db.reminders - {reminderId}))
  }

  // ---- Properties ---------------------------------------------------------

  /** A Reader of the task's team may set reminders on it: no Editor role
      is needed. */
  lemma ReaderMayRemind(db: Db, taskId: Id, userId: Id, remindAt: int, now: int)
    requires taskId in db.tasks && StreamTeam(db, db.tasks[taskId].streamId).Some?
    requires StreamTeam(db, db.tasks[taskId].streamId).value in db.teams
    requires RoleIn(db, StreamTeam(db, db.tasks[taskId].streamId).value, userId) == Some(READER)
    requires remindAt >= now
    ensures CreateReminder(db, taskId, userId, remindAt, now).Ok?
  {
  }

  /** Only the owner can change a reminder, whatever role another member
      holds in the team. */
  lemma OnlyOwnerChanges(db: Db, reminderId: Id, userId: Id, remindAt: Option<Option<int>>, now: int)
    requires reminderId in db.reminders && db.reminders[reminderId].userId != userId
    ensures UpdateReminder(db, reminderId, userId, remindAt, now) == Err(Forbidden)
    ensures DeleteReminder(db, reminderId, userId) == Err(Forbidden)
  {
  }

  /** Rescheduling keeps the `sent` flag: a reminder that already fired
      stays marked as sent at its new time. */
  lemma RescheduleKeepsSent(db: Db, reminderId: Id, userId: Id, at: int, now: int)
    requires reminderId in db.reminders && db.reminders[reminderId].userId == userId
    requires db.reminders[reminderId].sent && at >= now
    ensures var r := UpdateReminder(db, reminderId, userId, Some(Some(at)), now);
      r.Ok? && r.value.0.reminders[reminderId] == Reminder(db.reminders[reminderId].taskId, userId, at, true)
  {
  }

  /** A new reminder is pending and listed for its owner, and the pending
      list grows by exactly that one entry. */
  lemma CreatedIsPending(db: Db, taskId: Id, userId: Id, remindAt: int, now: int)
    requires CreateReminder(db, taskId, userId, remindAt, now).Ok?
    ensures var (db', id) := CreateReminder(db, taskId, userId, remindAt, now).value;
      id in PendingReminders(db') && id in UserReminders(db', userId)
      && |PendingReminders(db')| == |PendingReminders(db)| + 1
  {
    var (db', id) := CreateReminder(db, taskId, userId, remindAt, now).value;
    AddedIsUnsent(db, id, Reminder(taskId, userId, remindAt, false));
  }

  lemma AddedIsUnsent(db: Db, id: Id, m: Reminder)
    requires id !in db.reminders && !m.sent
    ensures UnsentReminders(db.(reminders := db.reminders[id := m])) == UnsentReminders(db) + {id}
    ensures |UnsentReminders(db.(reminders := db.reminders[id := m]))| == |UnsentReminders(db)| + 1
  {
    var db' := db.(reminders := db.reminders[id := m]);
    assert UnsentReminders(db') == UnsentReminders(db) + {id};
    assert id !in UnsentReminders(db);
  }
}

=== FILE: scheduler.dfy ===
/** The in-memory job scheduler that fires reminders, and its re-hydration
    when the application starts.

    A job is a one-shot "date" job whose only argument is a reminder id; the
    scheduler keeps its jobs in a table keyed by the job id, which is always
    `str(reminder.id)`. There is no clock here: a job fires when the model
    says so, and the current time is a parameter. */
module Scheduler {
  import opened Base
  import opened Ordered
  import opened Store
  import opened Decimal
  import opened Push
  import opened Reminders

  datatype Job = Job(runAt: int, reminderId: Id)

  type Jobs = map<string, Job>

  /** The database together with the scheduler's job table. */
  datatype World = World(db: Db, jobs: Jobs)

  /** The job id of a reminder's job. */
  function JobKey(reminderId: Id): string {
    Show(reminderId)
  }

  /** `add_job` without `replace_existing`: a job id already in the table
      raises, any other adds exactly one entry. */
  function AddJob(jobs: Jobs, runAt: int, reminderId: Id): (r: Result<Jobs>)
    ensures r.Err? <==> JobKey(reminderId) in jobs
    ensures r.Err? ==> r.error == Crash
    ensures r.Ok? ==> r.value.Keys == jobs.Keys + {JobKey(reminderId)}
    ensures r.Ok? ==> r.value[JobKey(reminderId)] == Job(runAt, reminderId)
    ensures r.Ok? ==> forall k | k in jobs :: r.value[k] == jobs[k]
  {
    if JobKey(reminderId) in jobs then Err(Crash)
    else Ok(jobs[JobKey(reminderId) := Job(runAt, reminderId)])
  }

  /** `if scheduler.get_job(id): scheduler.remove_job(id)`. */
  function RemoveJobIfPresent(jobs: Jobs, reminderId: Id): (r: Jobs)
    ensures forall k :: k in r <==> k in jobs && k != JobKey(reminderId)
    ensures forall k | k in r :: r[k] == jobs[k]
  {
    jobs - {JobKey(reminderId)}
  }

  /** Every job belongs to an existing reminder, is keyed by its id and
      runs at its time. */
  ghost predicate JobsSound(w: World) {
    forall key | key in w.jobs ::
      && key == JobKey(w.jobs[key].reminderId)
      && w.jobs[key].reminderId in w.db.reminders
      && w.jobs[key].runAt == w.db.reminders[w.jobs[key].reminderId].remindAt
  }

  /** The loop of `start_scheduler`: a job for each listed reminder whose
      time is strictly after `now`, in the order listed. */
  function Rehydrate(jobs: Jobs, db: Db, ids: seq<Id>, now: int): (r: Result<Jobs>)
    requires forall i | 0 <= i < |ids| :: ids[i] in db.reminders
    ensures r.Ok? ==> forall k | k in jobs :: k in r.value && r.value[k] == jobs[k]
    ensures r.Ok? ==> forall k | k in r.value && k !in jobs ::
      && r.value[k].reminderId in ids
      && k == JobKey(r.value[k].reminderId)
      && r.value[k].runAt == db.reminders[r.value[k].reminderId].remindAt
      && r.value[k].runAt > now
    ensures r.Ok? ==> forall i | 0 <= i < |ids| && db.reminders[ids[i]].remindAt > now :: JobKey(ids[i]) in r.value
    ensures ((forall i | 0 <= i < |ids| :: JobKey(ids[i]) !in jobs)
             && (forall i, j | 0 <= i < j < |ids| :: ids[i] != ids[j])) ==> r.Ok?
    decreases |ids|
  {
    if ids == [] then Ok(jobs)
    else
      var id := ids[0];
      var m := db.reminders[id];
      if m.remindAt > now then
        forall i | 1 <= i < |ids| && ids[i] != id
          ensures JobKey(ids[i]) != JobKey(id)
        {
          ShowInjective(ids[i], id);
        }
        var jobs' :- AddJob(jobs, m.remindAt, id);
        assert forall i | 0 <= i < |ids[1..]| :: ids[1..][i] == ids[i + 1];
        Rehydrate(jobs', db, ids[1..], now)
      else
        Rehydrate(jobs, db, ids[1..], now)
  }

  /** `start_scheduler`: an empty table filled from the pending reminders;
      keys never clash because reminder ids are distinct. */
  function StartScheduler(db: Db, now: int): (jobs: Jobs)
    ensures forall k | k in jobs ::
      && k == JobKey(jobs[k].reminderId)
      && jobs[k].reminderId in db.reminders
      && !db.reminders[jobs[k].reminderId].sent
      && jobs[k].runAt == db.reminders[jobs[k].reminderId].remindAt > now
  {
    var ids := PendingReminders(db);
    var empty: Jobs := map[];
    Rehydrate(empty, db, ids, now).value
  }

  /** Running the job stored under `key`: the scheduler drops the one-shot
      job and the job calls `send_push` with the reminder id it carries. */
  function Fire(w: World, key: string, deliver: Subscription -> bool): (r: (World, Fired))
    requires key in w.jobs
    ensures key !in r.0.jobs
    ensures r.0.jobs == w.jobs - {key}
    ensures r.1 == SendPush(w.db, w.jobs[key].reminderId, deliver)
    ensures r.0.db == r.1.db
  {
    var fired := SendPush(w.db, w.jobs[key].reminderId, deliver);
    (World(fired.db, w.jobs - {key}), fired)
  }

  // ---- Properties ---------------------------------------------------------

  /** With sound jobs, a reminder id unknown to the database has no job. */
  lemma NoJobForUnknown(w: World, id: Id)
    requires JobsSound(w) && id !in w.db.reminders
    ensures JobKey(id) !in w.jobs
  {
    if JobKey(id) in w.jobs {
      ShowInjective(id, w.jobs[JobKey(id)].reminderId);
    }
  }

  /** After a restart there is a job for a reminder exactly when it is unsent
      and due strictly after `now`, and every job is sound. */
  lemma RestartSchedulesPending(db: Db, now: int, id: Id)
    ensures JobKey(id) in StartScheduler(db, now) <==>
      id in db.reminders && !db.reminders[id].sent && db.reminders[id].remindAt > now
    ensures JobsSound(World(db, StartScheduler(db, now)))
  {
    var ids := PendingReminders(db);
    var jobs := StartScheduler(db, now);
    if JobKey(id) in jobs {
      ShowInjective(id, jobs[JobKey(id)].reminderId);
    }
    if id in db.reminders && !db.reminders[id].sent && db.reminders[id].remindAt > now {
      assert id in ids;
    }
  }

  /** Firing keeps every remaining job sound: it only sets a `sent` flag. */
  lemma FireKeepsJobsSound(w: World, key: string, deliver: Subscription -> bool)
    requires JobsSound(w) && key in w.jobs
    ensures JobsSound(Fire(w, key, deliver).0)
  {
  }

  /** A job whose reminder was already sent fires without any delivery. */
  lemma SentReminderFiresSilently(w: World, key: string, deliver: Subscription -> bool)
    requires JobsSound(w) && key in w.jobs
    requires w.db.reminders[w.jobs[key].reminderId].sent
    ensures Fire(w, key, deliver).1.attempts == []
    ensures Fire(w, key, deliver).0.db == w.db
  {
  }
}

=== FILE: seqs.dfy ===
/** Sequence combinators shared by the backend listings and the frontend
    helpers. */
module Seqs {

  /** Concatenation of `f(x)` for each `x` of `xs`, in order: a nested
      `for ... for ... append` loop. */
  function FlatMap<A, B>(xs: seq<A>, f: A -> seq<B>): (r: seq<B>)
    ensures xs == [] ==> r == []
    ensures |xs| == 1 ==> r == f(xs[0])
  {
    if xs == [] then [] else f(xs[0]) + FlatMap(xs[1..], f)
  }

  /** An element comes out of `FlatMap` exactly when some input produced it. */
  lemma {:induction false} FlatMapMember<A, B>(xs: seq<A>, f: A -> seq<B>, b: B)
    ensures b in FlatMap(xs, f) <==> exists i :: 0 <= i < |xs| && b in f(xs[i])
    decreases |xs|
  {
    if xs != [] {
      FlatMapMember(xs[1..], f, b);
      if exists i :: 0 <= i < |xs[1..]| && b in f(xs[1..][i]) {
        var i :| 0 <= i < |xs[1..]| && b in f(xs[1..][i]);
        assert b in f(xs[i + 1]);
      }
      if exists i :: 0 <= i < |xs| && b in f(xs[i]) {
        var i :| 0 <= i < |xs| && b in f(xs[i]);
        if i > 0 {
          assert b in f(xs[1..][i - 1]);
        }
      }
    }
  }

  /** `Array.prototype.filter`. */
  function Filter<T>(xs: seq<T>, p: T -> bool): (r: seq<T>)
    ensures |r| <= |xs|
    ensures forall i | 0 <= i < |r| :: r[i] in xs && p(r[i])
    ensures forall i | 0 <= i < |xs| && p(xs[i]) :: xs[i] in r
  {
    if xs == [] then []
    else if p(xs[0]) then [xs[0]] + Filter(xs[1..], p)
    else Filter(xs[1..], p)
  }

  /** `sub` is `xs` with some elements left out, the rest in their order. */
  predicate IsSubsequence<T(==)>(sub: seq<T>, xs: seq<T>)
    decreases |xs|
  {
    if sub == [] then true
    else if xs == [] then false
    else if sub[0] == xs[0] then IsSubsequence(sub[1..], xs[1..])
    else IsSubsequence(sub, xs[1..])
  }

  lemma {:induction false} FilterIsSubsequence<T>(xs: seq<T>, p: T -> bool)
    ensures IsSubsequence(Filter(xs, p), xs)
    decreases |xs|
  {
    if xs != [] {
      FilterIsSubsequence(xs[1..], p);
      if p(xs[0]) {
        assert Filter(xs, p)[1..] == Filter(xs[1..], p);
      } else {
        SubsequenceOfTail(Filter(xs[1..], p), xs);
      }
    }
  }

  lemma {:induction false} SubsequenceOfTail<T>(sub: seq<T>, xs: seq<T>)
    requires xs != [] && IsSubsequence(sub, xs[1..])
    ensures IsSubsequence(sub, xs)
    decreases |xs| + |sub|
  {
    if sub != [] && sub[0] == xs[0] {
      var ys := xs[1..];
      if sub[0] == ys[0] {
        SubsequenceOfTail(sub[1..], ys);
      } else {
        SubsequenceDropHead(sub, ys[1..]);
        SubsequenceOfTail(sub[1..], ys);
      }
    }
  }

  lemma {:induction false} SubsequenceDropHead<T>(sub: seq<T>, xs: seq<T>)
    requires sub != [] && IsSubsequence(sub, xs)
    ensures IsSubsequence(sub[1..], xs)
    decreases |xs| + |sub|
  {
    if sub[0] == xs[0] {
      SubsequenceOfTail(sub[1..], xs);
    } else {
      SubsequenceDropHead(sub, xs[1..]);
      SubsequenceOfTail(sub[1..], xs);
    }
  }

  lemma {:induction false} SubsequenceRefl<T>(xs: seq<T>)
    ensures IsSubsequence(xs, xs)
    decreases |xs|
  {
    if xs != [] {
      SubsequenceRefl(xs[1..]);
    }
  }

  lemma {:induction false} SubsequenceTrans<T>(a: seq<T>, b: seq<T>, c: seq<T>)
    requires IsSubsequence(a, b) && IsSubsequence(b, c)
    ensures IsSubsequence(a, c)
    decreases |c|
  {
    if a != [] && b != [] && c != [] {
      if b[0] == c[0] {
        if a[0] == b[0] {
          SubsequenceTrans(a[1..], b[1..], c[1..]);
        } else {
          SubsequenceTrans(a, b[1..], c[1..]);
          SubsequenceOfTail(a, c);
        }
      } else {
        SubsequenceTrans(a, b, c[1..]);
        SubsequenceOfTail(a, c);
      }
    }
  }

  /** `Filter` of a list with a new head. */
  lemma FilterCons<T>(h: T, xs: seq<T>, p: T -> bool)
    ensures Filter([h] + xs, p) == (if p(h) then [h] + Filter(xs, p) else Filter(xs, p))
  {
    assert ([h] + xs)[1..] == xs;
  }

  lemma {:induction false} FilterNone<T>(xs: seq<T>, p: T -> bool)
    requires forall i | 0 <= i < |xs| :: !p(xs[i])
    ensures Filter(xs, p) == []
    decreases |xs|
  {
    if xs != [] {
      assert forall i | 0 <= i < |xs[1..]| :: xs[1..][i] == xs[i + 1];
      FilterNone(xs[1..], p);
    }
  }

  lemma {:induction false} FilterAll<T>(xs: seq<T>, p: T -> bool)
    requires forall i | 0 <= i < |xs| :: p(xs[i])
    ensures Filter(xs, p) == xs
    decreases |xs|
  {
    if xs != [] {
      assert forall i | 0 <= i < |xs[1..]| :: xs[1..][i] == xs[i + 1];
      FilterAll(xs[1..], p);
      assert xs == [xs[0]] + xs[1..];
    }
  }
}

=== FILE: sidebar.dfy ===
/** The Gantt sidebar: the grouping of the flat row list into streams, the
    drag-and-drop reordering of a stream's goals or tasks, the position
    shift before a task is inserted, and the action a saved form reports.

    A server request is an oracle `ok` that says whether the update of an
    item to a position succeeded; the sidebar's own state resets
    (`setDraggedGoal(null)` and the like) are not modelled. */
module Sidebar {
  import opened Base
  import opened Seqs
  import opened GanttItems

  /** A row of the flat list: `type` is "stream", "goal" or "task". */
  datatype Row = Row(kind: string, item: Item)

  /** A stream row with the goal and task rows filed under it. */
  datatype Group = Group(stream: Row, goals: seq<Row>, tasks: seq<Row>)

  predicate IsStream(r: Row) { r.kind == "stream" }
  predicate IsGoal(r: Row) { r.kind == "goal" }
  predicate IsTask(r: Row) { r.kind == "task" }

  // ---- grouped ------------------------------------------------------------

  function Close(cur: Option<Group>): seq<Group> {
    if cur.Some? then [cur.value] else []
  }

  /** The loop of `grouped` from row `i` on, with the group being filled. */
  function Fold(rows: seq<Row>, i: nat, cur: Option<Group>): seq<Group>
    requires i <= |rows|
    decreases |rows| - i
  {
    if i == |rows| then Close(cur)
    else
      var row := rows[i];
      if IsStream(row) then Close(cur) + Fold(rows, i + 1, Some(Group(row, [], [])))
      else if IsGoal(row) then
        Fold(rows, i + 1, if cur.Some? then Some(cur.value.(goals := cur.value.goals + [row])) else None)
      else if IsTask(row) then
        Fold(rows, i + 1, if cur.Some? then Some(cur.value.(tasks := cur.value.tasks + [row])) else None)
      else Fold(rows, i + 1, cur)
  }

  /** `grouped`. */
  function Grouped(rows: seq<Row>): seq<Group> {
    Fold(rows, 0, None)
  }

  /** The first stream row at or after `i`, or the end. */
  function NextStream(rows: seq<Row>, i: nat): (r: nat)
    requires i <= |rows|
    ensures i <= r <= |rows|
    ensures r < |rows| ==> IsStream(rows[r])
    ensures forall k | i <= k < r :: !IsStream(rows[k])
    decreases |rows| - i
  {
    if i == |rows| || IsStream(rows[i]) then i else NextStream(rows, i + 1)
  }

  /** The reading `grouped` is meant to have: cut the rows at each stream
      row, and give that stream the goal and task rows up to the next one. */
  function Segments(rows: seq<Row>, i: nat): (r: seq<Group>)
    requires i < |rows| && IsStream(rows[i])
    ensures r != [] && r[0].stream == rows[i]
    decreases |rows| - i, 0
  {
    var j := NextStream(rows, i + 1);
    var between := rows[i + 1..j];
    [Group(rows[i], Filter(between, IsGoal), Filter(between, IsTask))] + From(rows, j)
  }

  /** The segments from `j`, which is a stream row or the end. */
  function From(rows: seq<Row>, j: nat): seq<Group>
    requires j <= |rows| && (j < |rows| ==> IsStream(rows[j]))
    decreases |rows| - j, 1
  {
    if j < |rows| then Segments(rows, j) else []
  }

  /** Segments from the first stream row; rows before it belong nowhere. */
  function Segmentation(rows: seq<Row>): seq<Group> {
    From(rows, NextStream(rows, 0))
  }

  function Streams(gs: seq<Group>): (r: seq<Row>)
    ensures |r| == |gs|
    ensures forall k | 0 <= k < |gs| :: r[k] == gs[k].stream
  {
    seq(|gs|, k requires 0 <= k < |gs| => gs[k].stream)
  }

  /** The group being filled when the loop is at `i`, once it is closed. */
  function Filled(rows: seq<Row>, i: nat, s: Row, gs: seq<Row>, ts: seq<Row>): Group
    requires i <= |rows|
  {
    var j := NextStream(rows, i);
    Group(s, gs + Filter(rows[i..j], IsGoal), ts + Filter(rows[i..j], IsTask))
  }

  lemma FilledAtStream(rows: seq<Row>, i: nat, s: Row, gs: seq<Row>, ts: seq<Row>)
    requires i <= |rows| && NextStream(rows, i) == i
    ensures Filled(rows, i, s, gs, ts) == Group(s, gs, ts)
  {
    assert rows[i..i] == [];
    assert gs + [] == gs && ts + [] == ts;
  }

  lemma FilledStep(rows: seq<Row>, i: nat, s: Row, gs: seq<Row>, ts: seq<Row>)
    requires i < |rows| && !IsStream(rows[i])
    ensures IsGoal(rows[i]) ==> Filled(rows, i, s, gs, ts) == Filled(rows, i + 1, s, gs + [rows[i]], ts)
    ensures IsTask(rows[i]) ==> Filled(rows, i, s, gs, ts) == Filled(rows, i + 1, s, gs, ts + [rows[i]])
    ensures !IsGoal(rows[i]) && !IsTask(rows[i]) ==> Filled(rows, i, s, gs, ts) == Filled(rows, i + 1, s, gs, ts)
  {
    var j := NextStream(rows, i);
    assert NextStream(rows, i + 1) == j;
    var seg := rows[i..j];
    assert seg[0] == rows[i] && seg[1..] == rows[i + 1..j];
    assert gs + [rows[i]] + Filter(rows[i + 1..j], IsGoal) == gs + ([rows[i]] + Filter(rows[i + 1..j], IsGoal));
    assert ts + [rows[i]] + Filter(rows[i + 1..j], IsTask) == ts + ([rows[i]] + Filter(rows[i + 1..j], IsTask));
  }

  lemma SegmentsAsFilled(rows: seq<Row>, i: nat)
    requires i < |rows| && IsStream(rows[i])
    ensures Segments(rows, i) == [Filled(rows, i + 1, rows[i], [], [])] + From(rows, NextStream(rows, i + 1))
  {
    var j := NextStream(rows, i + 1);
    assert [] + Filter(rows[i + 1..j], IsGoal) == Filter(rows[i + 1..j], IsGoal);
    assert [] + Filter(rows[i + 1..j], IsTask) == Filter(rows[i + 1..j], IsTask);
  }

  lemma {:induction false} FoldFilling(rows: seq<Row>, i: nat, s: Row, gs: seq<Row>, ts: seq<Row>)
    requires i <= |rows|
    ensures Fold(rows, i, Some(Group(s, gs, ts))) == [Filled(rows, i, s, gs, ts)] + From(rows, NextStream(rows, i))
    decreases |rows| - i
  {
    if i == |rows| {
      FilledAtStream(rows, i, s, gs, ts);
    } else if IsStream(rows[i]) {
      FilledAtStream(rows, i, s, gs, ts);
      FoldFilling(rows, i + 1, rows[i], [], []);
      SegmentsAsFilled(rows, i);
    } else {
      FilledStep(rows, i, s, gs, ts);
      assert NextStream(rows, i + 1) == NextStream(rows, i);
      if IsGoal(rows[i]) {
        FoldFilling(rows, i + 1, s, gs + [rows[i]], ts);
      } else if IsTask(rows[i]) {
        FoldFilling(rows, i + 1, s, gs, ts + [rows[i]]);
      } else {
        FoldFilling(rows, i + 1, s, gs, ts);
      }
    }
  }

  lemma {:induction false} FoldEmpty(rows: seq<Row>, i: nat)
    requires i <= |rows|
    ensures Fold(rows, i, None) == From(rows, NextStream(rows, i))
    decreases |rows| - i
  {
    if i < |rows| {
      if IsStream(rows[i]) {
        var tail := Fold(rows, i + 1, Some(Group(rows[i], [], [])));
        assert Fold(rows, i, None) == [] + tail;
        FoldFilling(rows, i + 1, rows[i], [], []);
        SegmentsAsFilled(rows, i);
        assert From(rows, NextStream(rows, i)) == Segments(rows, i);
        assert [] + tail == tail;
      } else {
        assert Fold(rows, i, None) == Fold(rows, i + 1, None);
        assert NextStream(rows, i) == NextStream(rows, i + 1);
        FoldEmpty(rows, i + 1);
      }
    }
  }

  lemma {:induction false} SkipNonStreams(rows: seq<Row>, a: nat, b: nat)
    requires a <= b <= |rows|
    requires forall k | a <= k < b :: !IsStream(rows[k])
    ensures Filter(rows[a..], IsStream) == Filter(rows[b..], IsStream)
    decreases b - a
  {
    if a < b {
      assert rows[a..][1..] == rows[a + 1..];
      SkipNonStreams(rows, a + 1, b);
    }
  }

  lemma StreamsCons(g: Group, gs: seq<Group>)
    ensures Streams([g] + gs) == [g.stream] + Streams(gs)
  {
  }

  lemma {:induction false} FromStreams(rows: seq<Row>, j: nat)
    requires j <= |rows| && (j < |rows| ==> IsStream(rows[j]))
    ensures Streams(From(rows, j)) == Filter(rows[j..], IsStream)
    decreases |rows| - j
  {
    if j == |rows| {
      assert rows[j..] == [];
    } else {
      var k := NextStream(rows, j + 1);
      var suffix := rows[j..];
      assert suffix[0] == rows[j] && suffix[1..] == rows[j + 1..];
      assert Filter(suffix, IsStream) == [rows[j]] + Filter(rows[j + 1..], IsStream);
      SkipNonStreams(rows, j + 1, k);
      FromStreams(rows, k);
      var gs := Segments(rows, j);
      assert From(rows, j) == gs;
      assert gs == [gs[0]] + From(rows, k);
      StreamsCons(gs[0], From(rows, k));
    }
  }

  // ---- Drop ---------------------------------------------------------------

  /** The item being dragged and the stream it was picked up in. */
  datatype Dragged = Dragged(item: Item, streamId: int)

  /** What a drop does: the update requests sent, and the reordered list
      reported to the chart, if any. */
  datatype DropResult = DropResult(requests: seq<Request>, event: Option<seq<Item>>)

  function RowItems(rows: seq<Row>): (r: seq<Item>)
    ensures |r| == |rows|
    ensures forall k | 0 <= k < |rows| :: r[k] == rows[k].item
  {
    seq(|rows|, k requires 0 <= k < |rows| => rows[k].item)
  }

  /** `grouped.find((g) => g.stream.item.id === streamId)`. */
  function FindGroup(groups: seq<Group>, streamId: int): (r: Option<Group>)
    ensures r.None? <==> forall k | 0 <= k < |groups| :: groups[k].stream.item.id != streamId
    ensures r.Some? ==> r.value in groups && r.value.stream.item.id == streamId
    ensures r.Some? ==> exists j | 0 <= j < |groups| ::
      groups[j] == r.value && forall k | 0 <= k < j :: groups[k].stream.item.id != streamId
    decreases |groups|
  {
    if groups == [] then None
    else if groups[0].stream.item.id == streamId then Some(groups[0])
    else
      var r := FindGroup(groups[1..], streamId);
      assert forall k | 1 <= k < |groups| :: groups[k] == groups[1..][k - 1];
      if r.Some? then
        var j :| 0 <= j < |groups[1..]| && groups[1..][j] == r.value
                 && forall k | 0 <= k < j :: groups[1..][k].stream.item.id != streamId;
        assert groups[j + 1] == r.value;
        r
      else r
  }

  /** The goals or tasks of a stream, sorted by position; `[]` when there
      is no such stream. */
  function StreamItems(groups: seq<Group>, streamId: int, kind: Kind): (r: seq<Item>)
    ensures ByPosition(r)
    ensures FindGroup(groups, streamId).None? ==> r == []
    ensures FindGroup(groups, streamId).Some? ==>
      var g := FindGroup(groups, streamId).value;
      multiset(r) == multiset(RowItems(if kind == Goals then g.goals else g.tasks))
  {
    match FindGroup(groups, streamId)
    case None => []
    case Some(g) => SortByPosition(RowItems(if kind == Goals then g.goals else g.tasks))
  }

  /** The stream's items with the dragged one moved to the target's index,
      or `None` when the drop is ignored: no drag, another stream, the
      target itself, or either item missing from the stream. */
  function Reordered(dragged: Option<Dragged>, target: Item, targetStreamId: int, groups: seq<Group>,
                     kind: Kind): (r: Option<seq<Item>>)
    ensures dragged.None? || dragged.value.streamId != targetStreamId ==> r.None?
    ensures dragged.Some? && dragged.value.item.id == target.id ==> r.None?
    ensures r.Some? <==>
      && dragged.Some? && dragged.value.streamId == targetStreamId && dragged.value.item.id != target.id
      && var items := StreamItems(groups, targetStreamId, kind);
         0 <= FindIndex(items, dragged.value.item.id) && 0 <= FindIndex(items, target.id)
    ensures r.Some? ==>
      var items := StreamItems(groups, targetStreamId, kind);
      var s, t := FindIndex(items, dragged.value.item.id), FindIndex(items, target.id);
      && 0 <= s && 0 <= t
      && r.value == Move(items, s, t)
  {
    if dragged.None? || dragged.value.streamId != targetStreamId then None
    else if dragged.value.item.id == target.id then None
    else
      var items := StreamItems(groups, targetStreamId, kind);
      var s := FindIndex(items, dragged.value.item.id);
      var t := FindIndex(items, target.id);
      if s == -1 || t == -1 then None
      else Some(Move(items, s, t))
  }

  /** `handleGoalDrop` and `handleTaskDrop`: the same steps on a stream's
      goals or on its tasks. */
  function Drop(dragged: Option<Dragged>, target: Item, targetStreamId: int, groups: seq<Group>,
                kind: Kind, ok: Request -> bool): (r: DropResult)
    ensures Reordered(dragged, target, targetStreamId, groups, kind).None? ==> r == DropResult([], None)
    ensures Reordered(dragged, target, targetStreamId, groups, kind).Some? ==>
      var m := Reordered(dragged, target, targetStreamId, groups, kind).value;
      && r.requests == SendAll(m, ok).requests
      && (r.event.Some? <==> SendAll(m, ok).allOk)
      && (r.event.Some? ==> r.event.value == Renumber(m))
  {
    match Reordered(dragged, target, targetStreamId, groups, kind)
    case None => DropResult([], None)
    case Some(reordered) =>
      var sent := SendAll(reordered, ok);
      DropResult(sent.requests, if sent.allOk then Some(Renumber(reordered)) else None)
  }

  // ---- handleBeforeCreateTask ---------------------------------------------

  /** The requests that make room at `newPosition`: every item whose
      position is at least `newPosition` is sent its position plus one
      (a missing position compares and adds as 0). */
  function Shifts(items: seq<Item>, newPosition: int): (r: seq<Request>)
    ensures forall q :: q in r <==> exists k | 0 <= k < |items| ::
      PosKey(items[k]) >= newPosition && q == (items[k].id, PosKey(items[k]) + 1)
    decreases |items|
  {
    if items == [] then []
    else
      var rest := Shifts(items[1..], newPosition);
      assert forall k | 1 <= k < |items| :: items[k] == items[1..][k - 1];
      if PosKey(items[0]) >= newPosition then [(items[0].id, PosKey(items[0]) + 1)] + rest
      else rest
  }

  /** `handleBeforeCreateTask`; a failed request is reported and the loop
      goes on, so every planned request is sent. */
  function BeforeCreate(groups: seq<Group>, currentStreamId: int, newPosition: int): (r: seq<Request>)
    ensures FindGroup(groups, currentStreamId).None? ==> r == []
  {
    Shifts(StreamItems(groups, currentStreamId, Tasks), newPosition)
  }

  /** A position after the shift. */
  function Shifted(x: Item, newPosition: int): int {
    if PosKey(x) >= newPosition then PosKey(x) + 1 else PosKey(x)
  }

  // ---- Saved forms --------------------------------------------------------

  /** The task a form was opened with: an existing task, or the insertion
      placeholder `{ position }` that has no id. */
  datatype Selection = Selection(id: Option<int>, position: Option<int>)

  /** `handleGoalSaved`: an update exactly when a goal was being edited. */
  function GoalSavedAction(selectedGoal: Option<Item>): (a: Action)
    ensures a == Update <==> selectedGoal.Some?
    ensures a == Create <==> selectedGoal.None?
  {
    if selectedGoal.Some? then Update else Create
  }

  /** `handleTaskSaved`: an update exactly when the selected task has a
      truthy id. */
  function TaskSavedAction(selectedTask: Option<Selection>): (a: Action)
    ensures a == Update <==> selectedTask.Some? && TruthyNum(selectedTask.value.id)
    ensures a == Create || a == Update
  {
    if selectedTask.Some? && TruthyNum(selectedTask.value.id) then Update else Create
  }

  // ---- Properties ---------------------------------------------------------

  /** The loop builds exactly the segmentation: one group per stream row,
      holding the goal and task rows up to the next stream row in their
      order, and nothing from the rows before the first stream row. */
  lemma GroupedIsSegmentation(rows: seq<Row>)
    ensures Grouped(rows) == Segmentation(rows)
  {
    FoldEmpty(rows, 0);
  }

  /** The groups come one per stream row, in the rows' order. */
  lemma GroupsFollowStreams(rows: seq<Row>)
    ensures Streams(Grouped(rows)) == Filter(rows, IsStream)
  {
    GroupedIsSegmentation(rows);
    var f := NextStream(rows, 0);
    SkipNonStreams(rows, 0, f);
    assert rows[0..] == rows;
    FromStreams(rows, f);
  }

  /** Goal and task rows before the first stream row are dropped; with no
      stream row at all there are no groups. */
  lemma LeadingRowsDropped(rows: seq<Row>)
    ensures NextStream(rows, 0) == |rows| ==> Grouped(rows) == []
    ensures NextStream(rows, 0) < |rows| ==> Grouped(rows) == Segments(rows, NextStream(rows, 0))
  {
    GroupedIsSegmentation(rows);
  }

  /** A drop from another stream, or onto the dragged item itself, sends
      nothing and reports nothing. */
  lemma DropIgnored(d: Dragged, target: Item, targetStreamId: int, groups: seq<Group>, kind: Kind, ok: Request -> bool)
    requires d.streamId != targetStreamId || d.item.id == target.id
    ensures Drop(Some(d), target, targetStreamId, groups, kind, ok) == DropResult([], None)
  {
  }

  /** A completed drop reports the stream's items with the dragged one moved
      to the target's place, renumbered 1..n, and the same items as before;
      every item was sent its new position. */
  lemma DropReorders(d: Dragged, target: Item, targetStreamId: int, groups: seq<Group>, kind: Kind, ok: Request -> bool)
    requires Drop(Some(d), target, targetStreamId, groups, kind, ok).event.Some?
    ensures var items := StreamItems(groups, targetStreamId, kind);
      var r := Drop(Some(d), target, targetStreamId, groups, kind, ok);
      var ev := r.event.value;
      var t := FindIndex(items, target.id);
      && 0 <= t < |ev|
      && ev[t].id == d.item.id
      && multiset(Ids(ev)) == multiset(Ids(items))
      && (forall i | 0 <= i < |ev| :: ev[i].position == Some(i + 1))
      && r.requests == Plan(ev)
      && (forall q | q in r.requests :: ok(q))
  {
    var items := StreamItems(groups, targetStreamId, kind);
    var s := FindIndex(items, d.item.id);
    var t := FindIndex(items, target.id);
    var m := Reordered(Some(d), target, targetStreamId, groups, kind).value;
    MoveRenumberKeepsItems(items, s, t);
    assert Plan(Renumber(m)) == Plan(m);
  }

  /** A refused request aborts the drop: nothing is reported, and the
      requests sent stop at the first refused one. */
  lemma DropFailureAborts(d: Dragged, target: Item, targetStreamId: int, groups: seq<Group>, kind: Kind, ok: Request -> bool)
    requires Reordered(Some(d), target, targetStreamId, groups, kind).Some?
    requires exists q | q in Plan(Reordered(Some(d), target, targetStreamId, groups, kind).value) :: !ok(q)
    ensures var r := Drop(Some(d), target, targetStreamId, groups, kind, ok);
      && r.event.None?
      && r.requests != [] && !ok(r.requests[|r.requests| - 1])
      && (forall i | 0 <= i < |r.requests| - 1 :: ok(r.requests[i]))
  {
    var m := Reordered(Some(d), target, targetStreamId, groups, kind).value;
    DropSends(Some(d), target, targetStreamId, groups, kind, ok, m);
    SendAllRefused(m, ok);
  }

  /** A drop that is not ignored is the update loop over its plan. */
  lemma DropSends(dragged: Option<Dragged>, target: Item, targetStreamId: int, groups: seq<Group>,
                  kind: Kind, ok: Request -> bool, m: seq<Item>)
    requires Reordered(dragged, target, targetStreamId, groups, kind) == Some(m)
    ensures Drop(dragged, target, targetStreamId, groups, kind, ok).requests == SendAll(m, ok).requests
    ensures Drop(dragged, target, targetStreamId, groups, kind, ok).event.None? <==> !SendAll(m, ok).allOk
  {
  }

  /** Exactly the items at or after `newPosition` are sent, each one place
      further on. */
  lemma ShiftsExactlyTheLater(groups: seq<Group>, currentStreamId: int, newPosition: int, x: Item)
    requires x in StreamItems(groups, currentStreamId, Tasks)
    ensures PosKey(x) >= newPosition ==> (x.id, PosKey(x) + 1) in BeforeCreate(groups, currentStreamId, newPosition)
    ensures (forall q | q in BeforeCreate(groups, currentStreamId, newPosition) :: q.0 != x.id) ==> PosKey(x) < newPosition
  {
  }

  /** After the shift no item holds `newPosition`, and the items keep
      their order. */
  lemma ShiftFreesPosition(x: Item, y: Item, newPosition: int)
    ensures Shifted(x, newPosition) != newPosition
    ensures PosKey(x) < PosKey(y) ==> Shifted(x, newPosition) < Shifted(y, newPosition)
    ensures PosKey(x) == PosKey(y) ==> Shifted(x, newPosition) == Shifted(y, newPosition)
  {
  }

  /** The insertion placeholder reports a creation; a task being edited,
      an update. */
  lemma PlaceholderCreates(position: Option<int>, id: int)
    ensures TaskSavedAction(Some(Selection(None, position))) == Create
    ensures TaskSavedAction(None) == Create
    ensures id != 0 ==> TaskSavedAction(Some(Selection(Some(id), position))) == Update
  {
  }
}

=== FILE: store.dfy ===
/** The relational store behind the backend, as immutable tables keyed by id.

    Every table of the SQLAlchemy models becomes a `map<Id, Row>`. A query
    ending in `.first()` without an ordering yields the matching row with the
    least primary key, and `.all()` yields the matching keys in ascending
    order. Dates and times are integers (seconds since an epoch).
 */
module Store {
  import opened Base
  import opened Ordered

  type Id = int

  /** Role ids of `UserTeam.role_id`. */
  const READER: int := 1
  const EDITOR: int := 2

  datatype User = User(email: string, nickname: string, passwordHash: string)
  datatype Team = Team(name: string)
  datatype Membership = Membership(userId: Id, teamId: Id, roleId: int)
  datatype Project = Project(name: string, teamId: Id)
  datatype Stream = Stream(name: string, projectId: Id)
  datatype Task = Task(
    name: string,
    description: Option<string>,
    streamId: Id,
    statusId: Option<int>,
    priorityId: Option<int>,
    startDate: Option<int>,
    deadline: Option<int>,
    position: int)
  datatype Goal = Goal(
    name: string,
    description: Option<string>,
    startDate: Option<int>,
    deadline: Option<int>,
    streamId: Id,
    position: int)
  /** A `UserTask` row: the user assigned to a task. */
  datatype Assignment = Assignment(userId: Id, taskId: Id)
  datatype Relation = Relation(taskId1: Id, taskId2: Id, connectionId: Id)
  datatype Reminder = Reminder(taskId: Id, userId: Id, remindAt: int, sent: bool)
  datatype Subscription = Subscription(userId: Id, endpoint: string, p256dh: string, auth: string)

  datatype Db = Db(
    users: map<Id, User>,
    teams: map<Id, Team>,
    memberships: map<Id, Membership>,
    projects: map<Id, Project>,
    streams: map<Id, Stream>,
    tasks: map<Id, Task>,
    goals: map<Id, Goal>,
    assignments: map<Id, Assignment>,
    relations: map<Id, Relation>,
    reminders: map<Id, Reminder>,
    subscriptions: map<Id, Subscription>,
    connections: set<Id>)

  /** What a request leaves behind when it commits more than once: the
      store as of its last commit, and its reply. */
  datatype Outcome<T> = Outcome(committed: Db, result: Result<T>)

  /** The key the database hands out to the next inserted row. Only its
      freshness matters to the model. */
  function FreshId(keys: set<Id>): (id: Id)
    ensures id !in keys
  {
    NextPosition(keys)
  }

  // ---- Queries ----------------------------------------------------------

  function MembershipIds(db: Db, teamId: Id, userId: Id): set<Id> {
    set k | k in db.memberships && db.memberships[k].teamId == teamId && db.memberships[k].userId == userId
  }

  /** `UserTeam` filtered on team and user, `.first()`. */
  function FirstMembership(db: Db, teamId: Id, userId: Id): (r: Option<Id>)
    ensures r.None? <==> !IsMember(db, userId, teamId)
    ensures r.Some? ==>
      && r.value in db.memberships
      && db.memberships[r.value].teamId == teamId
      && db.memberships[r.value].userId == userId
      && (forall k | k in MembershipIds(db, teamId, userId) :: r.value <= k)
  {
    MembershipIdsEmpty(db, teamId, userId);
    First(MembershipIds(db, teamId, userId))
  }

  lemma MembershipIdsEmpty(db: Db, teamId: Id, userId: Id)
    ensures MembershipIds(db, teamId, userId) == {} <==> !IsMember(db, userId, teamId)
  {
    var ids := MembershipIds(db, teamId, userId);
    if IsMember(db, userId, teamId) {
      var k :| k in db.memberships && db.memberships[k].teamId == teamId && db.memberships[k].userId == userId;
      assert k in ids;
    } else {
      EmptyIfNoMember(ids);
    }
  }

  /** The user holds at least one membership row of the team. */
  ghost predicate IsMember(db: Db, userId: Id, teamId: Id) {
    exists k :: k in db.memberships && db.memberships[k].teamId == teamId && db.memberships[k].userId == userId
  }

  function UserIdsWithEmail(db: Db, email: string): set<Id> {
    set k | k in db.users && db.users[k].email == email
  }

  /** `User` filtered on email, `.first()`. */
  function UserByEmail(db: Db, email: string): (r: Option<Id>)
    ensures r.None? <==> (forall k | k in db.users :: db.users[k].email != email)
    ensures r.Some? ==> r.value in db.users && db.users[r.value].email == email
  {
    var ids := UserIdsWithEmail(db, email);
    assert forall k | k in db.users && db.users[k].email == email :: k in ids;
    First(ids)
  }

  function AssignmentIds(db: Db, taskId: Id): set<Id> {
    set k | k in db.assignments && db.assignments[k].taskId == taskId
  }

  /** `UserTask` filtered on task, `.first()`; also `task.assigned_users[0]`. */
  function FirstAssignment(db: Db, taskId: Id): (r: Option<Id>)
    ensures r.None? <==> AssignmentIds(db, taskId) == {}
    ensures r.Some? ==> r.value in AssignmentIds(db, taskId)
  {
    First(AssignmentIds(db, taskId))
  }

  /** `assigned_users[0].user.email` when the task has an assignment row
      whose user exists. */
  function AssigneeEmail(db: Db, taskId: Id): (r: Option<string>)
    ensures r.Some? ==> FirstAssignment(db, taskId).Some?
    ensures AssignmentIds(db, taskId) == {} ==> r.None?
  {
    match FirstAssignment(db, taskId)
    case None => None
    case Some(a) =>
      var u := db.assignments[a].userId;
      if u in db.users then Some(db.users[u].email) else None
  }

  function MembersOf(db: Db, teamId: Id): set<Id> {
    set k | k in db.memberships && db.memberships[k].teamId == teamId
  }

  function ProjectsOfTeam(db: Db, teamId: Id): set<Id> {
    set k | k in db.projects && db.projects[k].teamId == teamId
  }

  function StreamsOfProject(db: Db, projectId: Id): set<Id> {
    set k | k in db.streams && db.streams[k].projectId == projectId
  }

  function TasksOfStream(db: Db, streamId: Id): set<Id> {
    set k | k in db.tasks && db.tasks[k].streamId == streamId
  }

  function GoalsOfStream(db: Db, streamId: Id): set<Id> {
    set k | k in db.goals && db.goals[k].streamId == streamId
  }

  function TaskPositions(db: Db, streamId: Id): set<int> {
    set k | k in db.tasks && db.tasks[k].streamId == streamId :: db.tasks[k].position
  }

  function GoalPositions(db: Db, streamId: Id): set<int> {
    set k | k in db.goals && db.goals[k].streamId == streamId :: db.goals[k].position
  }

  // ---- Integrity conditions the services are meant to keep --------------

  /** Every row's parent exists: membership → team, project → team,
      stream → project, task and goal → stream. */
  ghost predicate Intact(db: Db) {
    && (forall k | k in db.memberships :: db.memberships[k].teamId in db.teams)
    && (forall k | k in db.projects :: db.projects[k].teamId in db.teams)
    && (forall k | k in db.streams :: db.streams[k].projectId in db.projects)
    && (forall k | k in db.tasks :: db.tasks[k].streamId in db.streams)
    && (forall k | k in db.goals :: db.goals[k].streamId in db.streams)
  }

  /** At most one membership row per (team, user) pair. */
  ghost predicate UniqueMemberships(db: Db) {
    forall a, b | a in db.memberships && b in db.memberships && a != b ::
      db.memberships[a].teamId != db.memberships[b].teamId || db.memberships[a].userId != db.memberships[b].userId
  }

  /** No two streams of one project share a name. */
  ghost predicate UniqueStreamNames(db: Db) {
    forall a, b | a in db.streams && b in db.streams && a != b ::
      db.streams[a].projectId != db.streams[b].projectId || db.streams[a].name != db.streams[b].name
  }

  /** No two goals of one stream share a name. */
  ghost predicate UniqueGoalNames(db: Db) {
    forall a, b | a in db.goals && b in db.goals && a != b ::
      db.goals[a].streamId != db.goals[b].streamId || db.goals[a].name != db.goals[b].name
  }

  /** The unique columns of `Users`: email and nickname. */
  ghost predicate UniqueUsers(db: Db) {
    forall a, b | a in db.users && b in db.users && a != b ::
      db.users[a].email != db.users[b].email && db.users[a].nickname != db.users[b].nickname
  }

  /** Under unique memberships the first membership is the only one. */
  lemma FirstMembershipUnique(db: Db, teamId: Id, userId: Id, k: Id)
    requires UniqueMemberships(db)
    requires k in db.memberships && db.memberships[k].teamId == teamId && db.memberships[k].userId == userId
    ensures FirstMembership(db, teamId, userId) == Some(k)
  {
  }

  /** Under unique emails, the lookup by email finds the one user with it. */
  lemma UserByEmailUnique(db: Db, k: Id)
    requires UniqueUsers(db)
    requires k in db.users
    ensures UserByEmail(db, db.users[k].email) == Some(k)
  {
  }

  lemma GoalPositionsEmpty(db: Db, streamId: Id)
    ensures GoalsOfStream(db, streamId) == {} <==> GoalPositions(db, streamId) == {}
    ensures forall k | k in GoalsOfStream(db, streamId) :: db.goals[k].position in GoalPositions(db, streamId)
  {
    var ps := GoalPositions(db, streamId);
    if ps != {} {
      HasMember(ps);
      var x :| x in ps;
      var k :| k in db.goals && db.goals[k].streamId == streamId && db.goals[k].position == x;
      assert k in GoalsOfStream(db, streamId);
    }
    if GoalsOfStream(db, streamId) != {} {
      HasMember(GoalsOfStream(db, streamId));
      var k :| k in GoalsOfStream(db, streamId);
      assert db.goals[k].position in ps;
    }
  }

  lemma TaskPositionsEmpty(db: Db, streamId: Id)
    ensures TasksOfStream(db, streamId) == {} <==> TaskPositions(db, streamId) == {}
    ensures forall k | k in TasksOfStream(db, streamId) :: db.tasks[k].position in TaskPositions(db, streamId)
  {
    var ps := TaskPositions(db, streamId);
    if ps != {} {
      HasMember(ps);
      var x :| x in ps;
      var k :| k in db.tasks && db.tasks[k].streamId == streamId && db.tasks[k].position == x;
      assert k in TasksOfStream(db, streamId);
    }
    if TasksOfStream(db, streamId) != {} {
      HasMember(TasksOfStream(db, streamId));
      var k :| k in TasksOfStream(db, streamId);
      assert db.tasks[k].position in ps;
    }
  }
}

=== FILE: stream_view.dfy ===
/** One stream's rows on the chart: the vertical layout of its goal and
    task rows, where a bar starts and how wide it is, whether a task bar
    is drawn at all, how a horizontal drag shifts a bar, and the row the
    drop indicator marks during a vertical drag.

    The layout constants live in a module this model does not include, so
    they are the fields of `Metrics`. Timestamps and pixels are `real`s. */
module StreamView {
  import opened Base
  import opened GanttItems
  import Timeline
  import Chart

  /** The row heights, gaps and paddings of the chart. */
  datatype Metrics = Metrics(separatorOffset: real, labelHeight: real, labelMargin: real,
                             goalRowHeight: real, taskRowHeight: real, rowGap: real,
                             betweenGoalsTasks: real, bottomPadding: real)

  datatype Layout = Layout(lineY: real, goalsTop: real, tasksTop: real, totalHeight: real)

  /** The height `n` rows of height `h` take, with a gap under each; no
      rows take no height. */
  function RowsHeight(n: nat, h: real, gap: real): (r: real)
    ensures n == 0 ==> r == 0.0
    ensures h + gap >= 0.0 ==> r >= 0.0
  {
    if n == 0 then 0.0 else n as real * (h + gap)
  }

  /** The stream's `layout`: its separator line, the top of its goal rows
      and of its task rows, and the height it takes below `baseTop`. */
  function StreamLayout(m: Metrics, baseTop: real, nGoals: nat, nTasks: nat): Layout {
    var lineY := baseTop + m.separatorOffset;
    var goalsTop := baseTop + m.separatorOffset + m.labelHeight + m.labelMargin;
    var tasksTop := goalsTop + RowsHeight(nGoals, m.goalRowHeight, m.rowGap) + m.betweenGoalsTasks;
    var tasksHeight := RowsHeight(nTasks, m.taskRowHeight, m.rowGap);
    Layout(lineY, goalsTop, tasksTop, tasksTop + tasksHeight + m.bottomPadding - baseTop)
  }

  /** A stream's height does not depend on where it is drawn, and moving it
      down moves each of its rows down by the same amount. */
  lemma LayoutTranslates(m: Metrics, top1: real, top2: real, nGoals: nat, nTasks: nat)
    ensures var a, b := StreamLayout(m, top1, nGoals, nTasks), StreamLayout(m, top2, nGoals, nTasks);
      && a.totalHeight == b.totalHeight
      && b.lineY - a.lineY == top2 - top1
      && b.goalsTop - a.goalsTop == top2 - top1
      && b.tasksTop - a.tasksTop == top2 - top1
  {
  }

  /** A stream with non-negative row sizes is no shorter for having more
      rows. */
  lemma MoreRowsNoShorter(m: Metrics, baseTop: real, nGoals: nat, nTasks: nat)
    requires m.goalRowHeight + m.rowGap >= 0.0 && m.taskRowHeight + m.rowGap >= 0.0
    ensures StreamLayout(m, baseTop, nGoals, nTasks).totalHeight <= StreamLayout(m, baseTop, nGoals + 1, nTasks).totalHeight
    ensures StreamLayout(m, baseTop, nGoals, nTasks).totalHeight <= StreamLayout(m, baseTop, nGoals, nTasks + 1).totalHeight
  {
  }

  /** With no goals the task rows follow the label directly; with neither
      goals nor tasks the stream is just its fixed parts. */
  lemma EmptyListsTakeNoRows(m: Metrics, baseTop: real, nTasks: nat)
    ensures StreamLayout(m, baseTop, 0, nTasks).tasksTop
         == baseTop + m.separatorOffset + m.labelHeight + m.labelMargin + m.betweenGoalsTasks
    ensures StreamLayout(m, baseTop, 0, 0).totalHeight
         == m.separatorOffset + m.labelHeight + m.labelMargin + m.betweenGoalsTasks + m.bottomPadding
  {
  }

  // ---- dateToX, getBarBounds ----------------------------------------------

  /** `dateToX`: pixels from the left edge of the view. */
  function DateToX(ts: real, tl: Timeline.View): real {
    (ts - tl.start) / Timeline.DAY_MS as real * tl.pxPerDay
  }

  /** The view's start is at x = 0, and a later time is never left of an
      earlier one. */
  lemma DateToXMonotone(a: real, b: real, tl: Timeline.View)
    requires tl.pxPerDay >= 0.0
    ensures DateToX(tl.start, tl) == 0.0
    ensures a <= b ==> DateToX(a, tl) <= DateToX(b, tl)
  {
    var d := Timeline.DAY_MS as real;
    if a <= b {
      assert (a - tl.start) / d <= (b - tl.start) / d;
      Timeline.MulMonotone((a - tl.start) / d, (b - tl.start) / d, tl.pxPerDay);
    }
  }

  function RClamp(lo: real, hi: real, x: real): real {
    if x > hi then (if lo > hi then lo else hi) else if x < lo then lo else x
  }

  datatype Bounds = Bounds(left: real, width: real, xStart: real, xEnd: real)

  /** `getBarBounds`: a missing start is the left edge, a missing end the
      right edge of the view; the ends are put in order, the visible part
      clamped to the view, and a bar is at least 2 pixels wide. */
  function BarBounds(startTs: Option<real>, endTs: Option<real>, tl: Timeline.View): (r: Bounds)
    ensures r.xStart <= r.xEnd
    ensures var x0 := if startTs.Some? then DateToX(startTs.value, tl) else 0.0;
      var x1 := if endTs.Some? then DateToX(endTs.value, tl) else tl.width;
      (r.xStart, r.xEnd) == (if x1 < x0 then (x1, x0) else (x0, x1))
    ensures tl.width >= 0.0 ==> 0.0 <= r.left <= tl.width
    ensures r.width >= 2.0
  {
    var x0 := if startTs.Some? then DateToX(startTs.value, tl) else 0.0;
    var x1 := if endTs.Some? then DateToX(endTs.value, tl) else tl.width;
    var (xStart, xEnd) := if x1 < x0 then (x1, x0) else (x0, x1);
    var left := RClamp(0.0, tl.width, xStart);
    var right := RClamp(0.0, tl.width, xEnd);
    Bounds(left, if right - left > 2.0 then right - left else 2.0, xStart, xEnd)
  }

  /** A bar that lies inside the view and is at least 2 pixels wide is
      drawn exactly from its start to its end. */
  lemma BarInsideViewIsExact(startTs: Option<real>, endTs: Option<real>, tl: Timeline.View)
    requires var x0 := if startTs.Some? then DateToX(startTs.value, tl) else 0.0;
      var x1 := if endTs.Some? then DateToX(endTs.value, tl) else tl.width;
      0.0 <= x0 && x0 + 2.0 <= x1 <= tl.width
    ensures var b := BarBounds(startTs, endTs, tl);
      b.left == b.xStart && b.left + b.width == b.xEnd
  {
  }

  /** A bar with neither date spans the whole view. */
  lemma UndatedBarSpansView(tl: Timeline.View)
    requires tl.width >= 2.0
    ensures BarBounds(None, None, tl) == Bounds(0.0, tl.width, 0.0, tl.width)
  {
  }

  /** A bar entirely before the view shrinks to 2 pixels at its left edge. */
  lemma BarBeforeViewPinsLeft(startTs: real, endTs: real, tl: Timeline.View)
    requires tl.width >= 0.0 && DateToX(startTs, tl) < 0.0 && DateToX(endTs, tl) < 0.0
    ensures BarBounds(Some(startTs), Some(endTs), tl).left == 0.0
    ensures BarBounds(Some(startTs), Some(endTs), tl).width == 2.0
  {
  }

  // ---- isVisible ----------------------------------------------------------

  /** A task bar is drawn unless it ends before the view or starts at or
      after its end; a date of 0 counts as missing. */
  function IsVisible(start: Option<real>, end: Option<real>, tl: Timeline.View): (r: bool)
    ensures !Timeline.TruthyReal(start) && !Timeline.TruthyReal(end) ==> r
  {
    if Timeline.TruthyReal(start) && Timeline.TruthyReal(end) then
      !(end.value < tl.start || start.value >= tl.end)
    else if Timeline.TruthyReal(start) then !(start.value >= tl.end)
    else if Timeline.TruthyReal(end) then !(end.value < tl.start)
    else true
  }

  /** Whether some instant of the bar lies in the view `[start, end)`; a
      missing end of the bar is open. */
  ghost predicate Overlaps(start: Option<real>, end: Option<real>, tl: Timeline.View) {
    exists t: real :: InBar(t, start, end) && tl.start <= t < tl.end
  }

  predicate InBar(t: real, start: Option<real>, end: Option<real>) {
    (Timeline.TruthyReal(start) ==> start.value <= t) && (Timeline.TruthyReal(end) ==> t <= end.value)
  }

  /** For a non-empty view and a bar that does not end before it starts,
      the bar is drawn exactly when it overlaps the view. */
  lemma VisibleIffOverlaps(start: Option<real>, end: Option<real>, tl: Timeline.View)
    requires tl.start < tl.end
    requires Timeline.TruthyReal(start) && Timeline.TruthyReal(end) ==> start.value <= end.value
    ensures IsVisible(start, end, tl) <==> Overlaps(start, end, tl)
  {
    if IsVisible(start, end, tl) {
      var t := if Timeline.TruthyReal(start) && start.value > tl.start then start.value else tl.start;
      assert InBar(t, start, end) && tl.start <= t < tl.end;
    } else {
      forall t: real | InBar(t, start, end)
        ensures !(tl.start <= t < tl.end)
      {
      }
    }
  }

  // ---- Horizontal drag ----------------------------------------------------

  /** `start ? start + deltaMs : start`: a present, non-zero date moves by
      the drag. */
  function DragShift(ts: Option<real>, deltaMs: real): (r: Option<real>)
    ensures Timeline.TruthyReal(ts) ==> r == Some(ts.value + deltaMs)
    ensures !Timeline.TruthyReal(ts) ==> r == ts
  {
    if Timeline.TruthyReal(ts) then Some(ts.value + deltaMs) else ts
  }

  /** Dragging keeps a bar's duration, and undoing the drag restores it. */
  lemma DragKeepsDuration(start: Option<real>, end: Option<real>, deltaMs: real)
    requires Timeline.TruthyReal(start) && Timeline.TruthyReal(end)
    ensures DragShift(end, deltaMs).value - DragShift(start, deltaMs).value == end.value - start.value
    ensures Timeline.TruthyReal(DragShift(start, deltaMs)) ==> DragShift(DragShift(start, deltaMs), -deltaMs) == start
  {
  }

  // ---- Drop indicator -----------------------------------------------------

  /** `targetRowIdx` of the row at index `idx`: during a drag with a
      non-zero vertical offset, the row moved by the rounded number of rows
      dragged and kept within the list; otherwise the row itself.
      `vertical` says whether this row is the one being dragged vertically
      in this stream. */
  function DropRow(n: int, idx: int, showIndicator: bool, vertical: bool, deltaY: Option<real>,
                   rowHeight: real): (r: int)
    requires 0 <= idx < n && rowHeight > 0.0
    ensures 0 <= r < n
    ensures !(vertical && Timeline.TruthyReal(deltaY)) ==> r == idx
  {
    if showIndicator && Timeline.TruthyReal(deltaY) then
      var offset := if vertical && Timeline.TruthyReal(deltaY) then deltaY.value else 0.0;
      assert !(vertical && Timeline.TruthyReal(deltaY)) ==> Round(offset / rowHeight) == 0;
      Clamp(0, n - 1, idx + Round(offset / rowHeight))
    else idx
  }

  /** The indicator marks the row the clamped, rounded offset points at,
      the row `TargetIndex` computes for a release: the chart draws a
      stream's lists sorted by position, as the release does. */
  lemma IndicatorMatchesRelease(s: Chart.Stream, kind: Kind, itemId: int, deltaY: real, rowHeight: real)
    requires rowHeight > 0.0 && deltaY != 0.0
    requires 0 <= FindIndex(SortByPosition(Chart.ListOf(s, kind)), itemId)
    ensures var sorted := SortByPosition(Chart.ListOf(s, kind));
      var idx := FindIndex(sorted, itemId);
      DropRow(|sorted|, idx, true, true, Some(deltaY), rowHeight)
        == Chart.TargetIndex(|sorted|, idx, deltaY, rowHeight)
  {
  }

  /** For a release of 5 pixels or more the indicator is exactly where the
      item goes: the release moves it iff the marked row is another row,
      and then the item lands on the marked row. A shorter drag can still
      move the indicator, but its release moves nothing. */
  lemma IndicatorIsReleaseTarget(streams: seq<Chart.Stream>, streamId: int, itemId: int, deltaY: real,
                                 rowHeight: real, kind: Kind)
    requires rowHeight > 0.0 && Chart.Abs(deltaY) >= 5.0
    requires Chart.FindStream(streams, streamId).Some?
    requires 0 <= FindIndex(SortByPosition(Chart.ListOf(Chart.FindStream(streams, streamId).value, kind)), itemId)
    ensures var sorted := SortByPosition(Chart.ListOf(Chart.FindStream(streams, streamId).value, kind));
      var idx := FindIndex(sorted, itemId);
      var row := DropRow(|sorted|, idx, true, true, Some(deltaY), rowHeight);
      var plan := Chart.VerticalPlan(streams, streamId, itemId, deltaY, rowHeight, kind);
      && (plan.Some? <==> row != idx)
      && (plan.Some? ==> plan.value[row] == sorted[idx])
  {
    IndicatorMatchesRelease(Chart.FindStream(streams, streamId).value, kind, itemId, deltaY, rowHeight);
  }
}

=== FILE: streams.dfy ===
/** The stream service and the stream crud helpers: access, the sibling
    name rule with exclude-self on rename, and the cascading delete. */
module Streams {
  import opened Base
  import opened Ordered
  import opened Store
  import opened Access
  import opened Cascade

  // ---- crud/stream.py -----------------------------------------------------

  /** `get_stream_by_id`: the row, or NotFound. */
  function GetStreamById(db: Db, streamId: Id): (r: Result<Stream>)
    ensures r.Ok? <==> streamId in db.streams
    ensures r.Ok? ==> r.value == db.streams[streamId]
    ensures r.Err? ==> r.error == NotFound
  {
    if streamId in db.streams then Ok(db.streams[streamId]) else Err(NotFound)
  }

  function StreamIdsNamed(db: Db, projectId: Id, name: string, excluded: set<Id>): set<Id> {
    set k | k in db.streams && k !in excluded && db.streams[k].projectId == projectId && db.streams[k].name == name
  }

  /** `get_stream_by_name_and_proj_id` (no exclusion) and the query inside
      `update_stream` (excluding the stream being renamed). */
  function StreamByName(db: Db, projectId: Id, name: string, excluded: set<Id>): (r: Option<Id>)
    ensures r.None? <==> forall k | k in db.streams && k !in excluded :: db.streams[k].projectId != projectId || db.streams[k].name != name
    ensures r.Some? ==> r.value in db.streams && r.value !in excluded
                        && db.streams[r.value].projectId == projectId && db.streams[r.value].name == name
  {
    var ids := StreamIdsNamed(db, projectId, name, excluded);
    assert forall k | k in db.streams && k !in excluded && db.streams[k].projectId == projectId && db.streams[k].name == name :: k in ids;
    First(ids)
  }

  /** `create_new_stream`. */
  function CreateNewStream(db: Db, projectId: Id, name: string): (r: (Db, Id))
    ensures r.1 !in db.streams
    ensures r.0 == db.(streams := db.streams[r.1 := Stream(name, projectId)])
  {
    var id := FreshId(db.streams.Keys);
    (db.(streams := db.streams[id := Stream(name, projectId)]), id)
  }

  /** `update_stream`: a rename is attempted only for a present name that
      differs from the current one, and collides only with another stream
      of the same project. */
  function UpdateStreamRow(db: Db, streamId: Id, name: Option<string>): (r: Result<(Db, Stream)>)
    requires streamId in db.streams
    ensures var s := db.streams[streamId];
      r == Err(Conflict) <==>
        name.Some? && name.value != s.name && StreamByName(db, s.projectId, name.value, {streamId}).Some?
    ensures r.Err? ==> r.error == Conflict
    ensures r.Ok? ==> var (db', s') := r.value;
      && s'.projectId == db.streams[streamId].projectId
      && s'.name == (if name.Some? then name.value else db.streams[streamId].name)
      && db' == db.(streams := db.streams[streamId := s'])
  {
    var s := db.streams[streamId];
    if name.Some? && name.value != s.name then
      if StreamByName(db, s.projectId, name.value, {streamId}).Some? then Err(Conflict)
      else
        var s' := s.(name := name.value);
        Ok((db.(streams := db.streams[streamId := s']), s'))
    else Ok((db, s))
  }

  /** `delete_stream`: the tasks and goals of the stream, then the stream;
      an absent stream raises NotFound and the already issued deletes are
      rolled back with the session. */
  function DeleteStreamRows(db: Db, streamId: Id): (r: Result<Db>)
    ensures r.Ok? <==> streamId in db.streams
    ensures r.Err? ==> r.error == NotFound
    ensures r.Ok? ==> var db' := r.value;
      && db'.streams == db.streams - {streamId}
      && (forall k :: k in db'.tasks <==> k in db.tasks && db.tasks[k].streamId != streamId)
      && (forall k :: k in db'.goals <==> k in db.goals && db.goals[k].streamId != streamId)
      && (forall k | k in db'.tasks :: db'.tasks[k] == db.tasks[k])
      && (forall k | k in db'.goals :: db'.goals[k] == db.goals[k])
      && db'.users == db.users && db'.teams == db.teams && db'.memberships == db.memberships
      && db'.projects == db.projects
      && db'.assignments == db.assignments && db'.relations == db.relations
      && db'.reminders == db.reminders && db'.subscriptions == db.subscriptions
  {
    var dropped := db.(tasks := DropTasks(db.tasks, {streamId}), goals := DropGoals(db.goals, {streamId}));
    if streamId !in dropped.streams then Err(NotFound)
    else Ok(dropped.(streams := dropped.streams - {streamId}))
  }

  // ---- services/stream_service.py -----------------------------------------

  /** `get_project_streams_service`. */
  function ListStreams(db: Db, projectId: Id, userId: Id): (r: Result<seq<Id>>)
    ensures r == Err(NotFound) <==> projectId !in db.projects
    ensures r.Ok? <==> projectId in db.projects && IsMember(db, userId, db.projects[projectId].teamId)
    ensures projectId in db.projects && !IsMember(db, userId, db.projects[projectId].teamId) ==> r == Err(Forbidden)
    ensures r.Err? ==> r.error in {NotFound, Forbidden}
    ensures r.Ok? ==> forall k :: k in r.value <==> k in db.streams && db.streams[k].projectId == projectId
  {
    var _ :- ProjectAccess(db, projectId, userId);
    Ok(SortedIds(StreamsOfProject(db, projectId)))
  }

  /** `get_stream_service`. */
  function GetStream(db: Db, streamId: Id, userId: Id): (r: Result<Stream>)
    ensures streamId !in db.streams ==> r == Err(NotFound)
    ensures r == Err(NotFound) <==> StreamTeam(db, streamId).None?
    ensures r.Ok? <==> StreamTeam(db, streamId).Some? && IsMember(db, userId, StreamTeam(db, streamId).value)
    ensures StreamTeam(db, streamId).Some? && !IsMember(db, userId, StreamTeam(db, streamId).value) ==> r == Err(Forbidden)
    ensures r.Err? ==> r.error in {NotFound, Forbidden}
    ensures r.Ok? ==> r.value == db.streams[streamId]
  {
    var a :- StreamAccess(db, streamId, userId);
    Ok(a.0)
  }

  /** `create_stream_service`: access, then the Editor role, then the
      sibling-name collision. */
  function CreateStream(db: Db, projectId: Id, name: string, userId: Id): (r: Result<(Db, Id)>)
    ensures r == Err(NotFound) <==> projectId !in db.projects
    ensures projectId in db.projects && !Authorized(db, userId, db.projects[projectId].teamId, true) ==> r == Err(Forbidden)
    ensures r == Err(Conflict) <==>
      projectId in db.projects && Authorized(db, userId, db.projects[projectId].teamId, true)
      && exists k :: k in db.streams && db.streams[k].projectId == projectId && db.streams[k].name == name
    ensures r.Ok? ==> var (db', id) := r.value;
      && id !in db.streams
      && db' == db.(streams := db.streams[id := Stream(name, projectId)])
  {
    var (_, m) :- ProjectAccess(db, projectId, userId);
    var _ :- AdminPermission(m);
    if StreamByName(db, projectId, name, {}).Some? then Err(Conflict)
    else Ok(CreateNewStream(db, projectId, name))
  }

  /** `update_stream_service`. */
  function UpdateStream(db: Db, streamId: Id, name: Option<string>, userId: Id): (r: Result<(Db, Stream)>)
    ensures streamId !in db.streams ==> r == Err(NotFound)
    ensures StreamTeam(db, streamId).Some? && !Authorized(db, userId, StreamTeam(db, streamId).value, true) ==> r == Err(Forbidden)
    ensures r.Ok? <==> StreamTeam(db, streamId).Some? && Authorized(db, userId, StreamTeam(db, streamId).value, true)
                       && UpdateStreamRow(db, streamId, name).Ok?
    ensures r.Ok? ==> r == UpdateStreamRow(db, streamId, name)
    ensures r == Err(NotFound) <==> StreamTeam(db, streamId).None?
    ensures StreamTeam(db, streamId).Some? && Authorized(db, userId, StreamTeam(db, streamId).value, true) ==> r == UpdateStreamRow(db, streamId, name)
    ensures r.Err? ==> r.error in {NotFound, Forbidden, Conflict}
  {
    var (s, _, m) :- StreamAccess(db, streamId, userId);
    var _ :- AdminPermission(m);
    UpdateStreamRow(db, streamId, name)
  }

  /** `delete_stream_service`. */
  function DeleteStream(db: Db, streamId: Id, userId: Id): (r: Result<Db>)
    ensures streamId !in db.streams ==> r == Err(NotFound)
    ensures StreamTeam(db, streamId).Some? && !Authorized(db, userId, StreamTeam(db, streamId).value, true) ==> r == Err(Forbidden)
    ensures r.Ok? <==> StreamTeam(db, streamId).Some? && Authorized(db, userId, StreamTeam(db, streamId).value, true)
    ensures r.Ok? ==> r == DeleteStreamRows(db, streamId)
  {
    var (_, _, m) :- StreamAccess(db, streamId, userId);
    var _ :- AdminPermission(m);
    DeleteStreamRows(db, streamId)
  }

  // ---- Properties ---------------------------------------------------------

  /** Keeping the current name never conflicts, whatever the siblings. */
  lemma SameNameNeverConflicts(db: Db, streamId: Id)
    requires streamId in db.streams
    ensures UpdateStreamRow(db, streamId, Some(db.streams[streamId].name)) == Ok((db, db.streams[streamId]))
    ensures UpdateStreamRow(db, streamId, None) == Ok((db, db.streams[streamId]))
  {
  }

  /** Creation keeps sibling names unique, and the new stream is the one
      the name lookup then finds. */
  lemma CreateStreamKeepsNamesUnique(db: Db, projectId: Id, name: string, userId: Id)
    requires UniqueStreamNames(db)
    ensures var r := CreateStream(db, projectId, name, userId);
      r.Ok? ==> UniqueStreamNames(r.value.0) && StreamByName(r.value.0, projectId, name, {}) == Some(r.value.1)
  {
    var r := CreateStream(db, projectId, name, userId);
    if r.Ok? {
      var (db', id) := r.value;
      assert StreamByName(db, projectId, name, {}).None?;
      assert StreamIdsNamed(db', projectId, name, {}) == {id};
    }
  }

  /** A rename keeps sibling names unique. */
  lemma UpdateStreamKeepsNamesUnique(db: Db, streamId: Id, name: Option<string>)
    requires UniqueStreamNames(db) && streamId in db.streams
    ensures UpdateStreamRow(db, streamId, name).Ok? ==> UniqueStreamNames(UpdateStreamRow(db, streamId, name).value.0)
  {
  }

  lemma CreateStreamKeepsIntact(db: Db, projectId: Id, name: string, userId: Id)
    requires Intact(db)
    ensures CreateStream(db, projectId, name, userId).Ok? ==> Intact(CreateStream(db, projectId, name, userId).value.0)
  {
  }

  /** Deleting a stream orphans no goal or task, but leaves the assignment,
      relation and reminder rows of its tasks in place. */
  lemma DeleteStreamKeepsIntact(db: Db, streamId: Id)
    requires Intact(db)
    ensures DeleteStreamRows(db, streamId).Ok? ==> Intact(DeleteStreamRows(db, streamId).value)
  {
  }

  /** A Reader of the team can read the stream but not change it. */
  lemma ReaderCannotMutateStream(db: Db, streamId: Id, userId: Id, name: Option<string>)
    requires StreamTeam(db, streamId).Some? && RoleIn(db, StreamTeam(db, streamId).value, userId) == Some(READER)
    ensures GetStream(db, streamId, userId).Ok?
    ensures UpdateStream(db, streamId, name, userId) == Err(Forbidden)
    ensures DeleteStream(db, streamId, userId) == Err(Forbidden)
  {
  }
}

=== FILE: task_utils.dfy ===
/** The list helpers of the task tables: sorting by a column with a name
    tie-break, and filtering by team and by assignee.

    `Array.prototype.sort` is stable, so with a comparator that is a total
    preorder its result is the stable sort, modelled here as an insertion
    sort on sequences. Strings compare by character code, as JavaScript's
    `<` does, and lowercasing covers the Latin, Latin-1 and Cyrillic
    capitals. */
module TaskUtils {
  import opened Base
  import opened Seqs
  import Decimal

  /** The fields of a task row the helpers read. Dates are the values of
      `new Date(...).getTime()`, absent when the field is empty. */
  datatype TaskRow = TaskRow(
    name: Option<string>,
    assigneeEmail: Option<string>,
    statusId: Option<int>,
    priorityId: Option<int>,
    startDate: Option<int>,
    deadline: Option<int>,
    teamName: Option<string>,
    projectName: Option<string>,
    streamName: Option<string>,
    teamId: Option<int>)

  datatype Key = Text(s: string) | Num(n: int)

  // ---- Strings ------------------------------------------------------------

  /** The capital letters the model lowercases: Latin A-Z, the Latin-1
      capitals U+00C0-U+00DE except the multiplication sign U+00D7, and
      the Cyrillic capitals U+0400-U+042F (Ѐ-Џ and А-Я). */
  predicate IsUpper(c: char) {
    || 'A' <= c <= 'Z'
    || ('\U{00C0}' <= c <= '\U{00DE}' && c != '\U{00D7}')
    || '\U{0400}' <= c <= '\U{042F}'
  }

  /** The lower-case letter of a capital: 32 code points on for Latin,
      Latin-1 and А-Я, 80 on for Ѐ-Џ (Ё U+0401 becomes ё U+0451). */
  function Lower(c: char): char {
    if 'A' <= c <= 'Z' || ('\U{00C0}' <= c <= '\U{00DE}' && c != '\U{00D7}') || '\U{0410}' <= c <= '\U{042F}'
    then (c as int + 32) as char
    else if '\U{0400}' <= c <= '\U{040F}' then (c as int + 80) as char
    else c
  }

  /** `toLowerCase()` on the modelled alphabets: every capital becomes its
      small letter, no capital is left, and any other character stays. */
  function LowerStr(s: string): (r: string)
    ensures |r| == |s|
    ensures forall i | 0 <= i < |s| :: r[i] == Lower(s[i])
    ensures forall i | 0 <= i < |s| :: !IsUpper(r[i])
    ensures forall i | 0 <= i < |s| :: !IsUpper(s[i]) ==> r[i] == s[i]
  {
    seq(|s|, i requires 0 <= i < |s| => Lower(s[i]))
  }

  /** Lowercasing twice is lowercasing once. */
  lemma LowerStrIdempotent(s: string)
    ensures LowerStr(LowerStr(s)) == LowerStr(s)
  {
    var r := LowerStr(s);
    assert forall i | 0 <= i < |r| :: LowerStr(r)[i] == r[i];
  }

  /** Case is ignored the way `toLowerCase()` ignores it: a Cyrillic small
      letter sorts before a later capital once both are lowercased, although
      every capital has a smaller code than every small letter. */
  lemma CyrillicCaseFolded()
    ensures StrLess("Б", "а")
    ensures StrLess(LowerStr("а"), LowerStr("Б"))
    ensures LowerStr("ЁЛКА") == "ёлка"
  {
    assert LowerStr("а") == "а";
    assert LowerStr("Б") == "б";
  }

  /** JavaScript's `<` on strings: the first differing character decides,
      and a proper prefix is smaller. */
  predicate StrLess(a: string, b: string)
    decreases |a|
  {
    if b == [] then false
    else if a == [] then true
    else if a[0] != b[0] then a[0] < b[0]
    else StrLess(a[1..], b[1..])
  }

  lemma {:induction false} StrLessTrichotomy(a: string, b: string)
    ensures StrLess(a, b) || StrLess(b, a) || a == b
    ensures !(StrLess(a, b) && StrLess(b, a))
    decreases |a|
  {
    if a != [] && b != [] && a[0] == b[0] {
      StrLessTrichotomy(a[1..], b[1..]);
      if a[1..] == b[1..] {
        assert a == [a[0]] + a[1..] && b == [b[0]] + b[1..];
      }
    }
  }

  predicate KeyLess(a: Key, b: Key) {
    match (a, b)
    case (Text(x), Text(y)) => StrLess(x, y)
    case (Num(x), Num(y)) => x < y
    case (Num(_), Text(_)) => true
    case (Text(_), Num(_)) => false
  }

  lemma KeyLessTrichotomy(a: Key, b: Key)
    ensures KeyLess(a, b) || KeyLess(b, a) || a == b
    ensures !(KeyLess(a, b) && KeyLess(b, a))
  {
    if a.Text? && b.Text? {
      StrLessTrichotomy(a.s, b.s);
    }
  }

  // ---- sortTasks ----------------------------------------------------------

  function OrEmpty(s: Option<string>): string {
    if s.Some? then s.value else ""
  }

  /** `(map[id] || "").toLowerCase()` for a truthy id, `""` otherwise. */
  function Label(id: Option<int>, labels: map<int, string>): string {
    if TruthyNum(id) && id.value in labels then LowerStr(labels[id.value]) else ""
  }

  function SortName(t: TaskRow): string {
    LowerStr(OrEmpty(t.name))
  }

  /** The columns the comparator's `switch` knows. */
  datatype Field = Name | Assignee | Status | Priority | StartDate | Deadline | Team | Project | Stream

  /** The `switch (sortField)`: `None` is its `default`. */
  function FieldOf(field: string): (f: Option<Field>)
    ensures f == Some(Name) <==> field == "name"
    ensures f.Some? <==> field in {"name", "assignee", "status", "priority", "start_date", "deadline", "team", "project", "stream"}
  {
    match field
    case "name" => Some(Name)
    case "assignee" => Some(Assignee)
    case "status" => Some(Status)
    case "priority" => Some(Priority)
    case "start_date" => Some(StartDate)
    case "deadline" => Some(Deadline)
    case "team" => Some(Team)
    case "project" => Some(Project)
    case "stream" => Some(Stream)
    case _ => None
  }

  predicate KnownField(field: string) {
    FieldOf(field).Some?
  }

  /** The value a row is sorted by for a known field. */
  function SortKey(t: TaskRow, f: Field, statuses: map<int, string>, priorities: map<int, string>): Key {
    match f
    case Name => Text(SortName(t))
    case Assignee => Text(LowerStr(OrEmpty(t.assigneeEmail)))
    case Status => Text(Label(t.statusId, statuses))
    case Priority => Text(Label(t.priorityId, priorities))
    case StartDate => Num(if t.startDate.Some? then t.startDate.value else 0)
    case Deadline => Num(if t.deadline.Some? then t.deadline.value else 0)
    case Team => Text(LowerStr(OrEmpty(t.teamName)))
    case Project => Text(LowerStr(OrEmpty(t.projectName)))
    case Stream => Text(LowerStr(OrEmpty(t.streamName)))
  }

  /** How a list is sorted: the field (`None` for an unknown one), whether
      the order is `"asc"`, and the label maps. */
  datatype Order = Order(field: Option<Field>, asc: bool, statuses: map<int, string>, priorities: map<int, string>)

  function OrderOf(field: string, order: string, statuses: map<int, string>, priorities: map<int, string>): Order {
    Order(FieldOf(field), order == "asc", statuses, priorities)
  }

  /** The comparator passed to `sort`. */
  function Compare(a: TaskRow, b: TaskRow, o: Order): int {
    if o.field.None? then 0
    else
      var f := o.field.value;
      var ka, kb := SortKey(a, f, o.statuses, o.priorities), SortKey(b, f, o.statuses, o.priorities);
      if KeyLess(ka, kb) then (if o.asc then -1 else 1)
      else if KeyLess(kb, ka) then (if o.asc then 1 else -1)
      else if f != Name && StrLess(SortName(a), SortName(b)) then (if o.asc then -1 else 1)
      else if f != Name && StrLess(SortName(b), SortName(a)) then (if o.asc then 1 else -1)
      else 0
  }

  /** The comparator is consistent: swapping the arguments flips its sign. */
  lemma CompareFlips(a: TaskRow, b: TaskRow, o: Order)
    ensures Compare(a, b, o) > 0 ==> Compare(b, a, o) < 0
  {
    if o.field.Some? {
      KeyLessTrichotomy(SortKey(a, o.field.value, o.statuses, o.priorities), SortKey(b, o.field.value, o.statuses, o.priorities));
      StrLessTrichotomy(SortName(a), SortName(b));
    }
  }

  /** The comparator as the order `sort` arranges rows in. */
  function Before(o: Order): (TaskRow, TaskRow) -> bool {
    (a: TaskRow, b: TaskRow) => Compare(a, b, o) <= 0
  }

  lemma BeforeTotal(o: Order)
    ensures Total(Before(o))
  {
    forall a: TaskRow, b: TaskRow
      ensures Before(o)(a, b) || Before(o)(b, a)
    {
      CompareFlips(a, b, o);
    }
  }

  predicate Sorted(s: seq<TaskRow>, o: Order) {
    SortedBy(s, Before(o))
  }

  // ---- The stable sort ----------------------------------------------------

  /** Any two elements are ordered one way or the other. */
  ghost predicate Total<T(!new)>(le: (T, T) -> bool) {
    forall a: T, b: T :: le(a, b) || le(b, a)
  }

  predicate SortedBy<T>(s: seq<T>, le: (T, T) -> bool) {
    forall i | 0 <= i < |s| - 1 :: le(s[i], s[i + 1])
  }

  lemma SortedCons<T>(h: T, r: seq<T>, le: (T, T) -> bool)
    requires SortedBy(r, le)
    requires r != [] ==> le(h, r[0])
    ensures SortedBy([h] + r, le)
  {
    var s := [h] + r;
    forall i | 0 <= i < |s| - 1
      ensures le(s[i], s[i + 1])
    {
      if i > 0 {
        assert s[i] == r[i - 1] && s[i + 1] == r[i];
      }
    }
  }

  lemma SortedTail<T>(s: seq<T>, le: (T, T) -> bool)
    requires s != [] && SortedBy(s, le)
    ensures SortedBy(s[1..], le)
    ensures |s| > 1 ==> le(s[0], s[1..][0])
  {
    var tail := s[1..];
    forall i | 0 <= i < |tail| - 1
      ensures le(tail[i], tail[i + 1])
    {
      assert tail[i] == s[i + 1] && tail[i + 1] == s[i + 2];
    }
  }

  /** Places `x` before the first element it does not come after. */
  function Insert<T(!new)>(x: T, s: seq<T>, le: (T, T) -> bool): (r: seq<T>)
    requires Total(le) && SortedBy(s, le)
    ensures SortedBy(r, le)
    ensures multiset(r) == multiset(s) + multiset{x}
    ensures r != [] && (r[0] == x || (s != [] && r[0] == s[0]))
    decreases |s|
  {
    if s == [] || le(x, s[0]) then
      SortedCons(x, s, le);
      [x] + s
    else
      SortedTail(s, le);
      var rest := Insert(x, s[1..], le);
      SortedCons(s[0], rest, le);
      assert s == [s[0]] + s[1..];
      [s[0]] + rest
  }

  /** The insertion sort, which is stable. */
  function SortBy<T(!new)>(s: seq<T>, le: (T, T) -> bool): (r: seq<T>)
    requires Total(le)
    ensures multiset(r) == multiset(s)
    ensures |r| == |s|
    ensures SortedBy(r, le)
    decreases |s|
  {
    if s == [] then []
    else
      assert s == [s[0]] + s[1..];
      var r := Insert(s[0], SortBy(s[1..], le), le);
      assert |r| == |multiset(r)|;
      r
  }

  /** Any two elements `p` picks are ordered both ways: the comparator
      ties them. */
  ghost predicate Tied<T(!new)>(p: T -> bool, le: (T, T) -> bool) {
    forall a: T, b: T | p(a) && p(b) :: le(a, b)
  }

  /** `Insert` keeps every run of tied elements in order, placing `x`
      ahead of the elements it ties with. */
  lemma {:induction false} InsertStable<T(!new)>(x: T, s: seq<T>, le: (T, T) -> bool, p: T -> bool)
    requires Total(le) && SortedBy(s, le) && Tied(p, le)
    ensures Filter(Insert(x, s, le), p) == (if p(x) then [x] + Filter(s, p) else Filter(s, p))
    decreases |s|
  {
    if s == [] || le(x, s[0]) {
      FilterCons(x, s, p);
    } else {
      SortedTail(s, le);
      InsertStable(x, s[1..], le, p);
      FilterCons(s[0], Insert(x, s[1..], le), p);
      FilterCons(s[0], s[1..], p);
      assert s == [s[0]] + s[1..];
    }
  }

  /** The sort is stable: tied elements leave in the order they came. */
  lemma {:induction false} SortByStable<T(!new)>(s: seq<T>, le: (T, T) -> bool, p: T -> bool)
    requires Total(le) && Tied(p, le)
    ensures Filter(SortBy(s, le), p) == Filter(s, p)
    decreases |s|
  {
    if s != [] {
      SortByStable(s[1..], le, p);
      InsertStable(s[0], SortBy(s[1..], le), le, p);
      FilterCons(s[0], s[1..], p);
      assert s == [s[0]] + s[1..];
    }
  }

  /** The rows the comparator ranks level with `x`. */
  function TiedWith(x: TaskRow, o: Order): TaskRow -> bool {
    (y: TaskRow) => Compare(x, y, o) == 0
  }

  /** Ranking level with one row is ranking level with each other. */
  lemma TiedWithIsTied(x: TaskRow, o: Order)
    ensures Tied(TiedWith(x, o), Before(o))
  {
    forall a: TaskRow, b: TaskRow | TiedWith(x, o)(a) && TiedWith(x, o)(b)
      ensures Before(o)(a, b)
    {
      if o.field.Some? {
        var f := o.field.value;
        KeyLessTrichotomy(SortKey(x, f, o.statuses, o.priorities), SortKey(a, f, o.statuses, o.priorities));
        KeyLessTrichotomy(SortKey(x, f, o.statuses, o.priorities), SortKey(b, f, o.statuses, o.priorities));
        StrLessTrichotomy(SortName(x), SortName(a));
        StrLessTrichotomy(SortName(x), SortName(b));
      }
    }
  }

  /** `SortBy` under the comparator keeps every run of level rows in
      order. */
  lemma SortStable(tasks: seq<TaskRow>, o: Order)
    ensures Total(Before(o))
    ensures forall x: TaskRow :: Filter(SortBy(tasks, Before(o)), TiedWith(x, o)) == Filter(tasks, TiedWith(x, o))
  {
    BeforeTotal(o);
    forall x: TaskRow
      ensures Filter(SortBy(tasks, Before(o)), TiedWith(x, o)) == Filter(tasks, TiedWith(x, o))
    {
      TiedWithIsTied(x, o);
      SortByStable(tasks, Before(o), TiedWith(x, o));
    }
  }

  /** `sortTasks`: a sorted copy; the input is not touched. */
  function SortTasks(tasks: seq<TaskRow>, field: string, order: string,
                     statuses: map<int, string>, priorities: map<int, string>): (r: seq<TaskRow>)
    ensures multiset(r) == multiset(tasks)
    ensures |r| == |tasks|
    ensures Sorted(r, OrderOf(field, order, statuses, priorities))
    ensures forall x: TaskRow :: Filter(r, TiedWith(x, OrderOf(field, order, statuses, priorities)))
                                 == Filter(tasks, TiedWith(x, OrderOf(field, order, statuses, priorities)))
  {
    SortStable(tasks, OrderOf(field, order, statuses, priorities));
    SortBy(tasks, Before(OrderOf(field, order, statuses, priorities)))
  }

  // ---- filterTasksByTeamAndUser -------------------------------------------

  /** `task.team_id === Number(selectedTeamId)`, with `Number` read as
      `Decimal.Parse`: a text it rejects matches no row. */
  predicate InTeam(t: TaskRow, selectedTeamId: string) {
    var n := Decimal.Parse(selectedTeamId);
    n.Some? && t.teamId == Some(n.value)
  }

  function FilterTasks(tasks: seq<TaskRow>, filterMode: string, teamFilter: string,
                       userEmail: Option<string>, selectedTeamId: Option<string>): (r: seq<TaskRow>)
    ensures IsSubsequence(r, tasks)
    ensures forall i | 0 <= i < |r| :: r[i] in tasks
  {
    var byTeam :=
      if teamFilter == "selected" && TruthyStr(selectedTeamId) then
        var keep := (t: TaskRow) => InTeam(t, selectedTeamId.value);
        FilterIsSubsequence(tasks, keep);
        Filter(tasks, keep)
      else
        (SubsequenceRefl(tasks); tasks);
    var byUser :=
      if filterMode == "my" then
        var mine := (t: TaskRow) => t.assigneeEmail == userEmail;
        FilterIsSubsequence(byTeam, mine);
        Filter(byTeam, mine)
      else
        (SubsequenceRefl(byTeam); byTeam);
    SubsequenceTrans(byUser, byTeam, tasks);
    byUser
  }

  // ---- Properties ---------------------------------------------------------

  /** An unknown field makes every comparison 0, and the stable sort then
      keeps the input order. */
  lemma UnknownFieldKeepsOrder(tasks: seq<TaskRow>, field: string, order: string,
                               statuses: map<int, string>, priorities: map<int, string>)
    requires !KnownField(field)
    ensures SortTasks(tasks, field, order, statuses, priorities) == tasks
  {
    UnknownKeepsOrder(tasks, OrderOf(field, order, statuses, priorities));
  }

  lemma {:induction false} UnknownKeepsOrder(tasks: seq<TaskRow>, o: Order)
    requires o.field.None?
    ensures Total(Before(o)) && SortBy(tasks, Before(o)) == tasks
    decreases |tasks|
  {
    BeforeTotal(o);
    if tasks != [] {
      UnknownKeepsOrder(tasks[1..], o);
      var rest := tasks[1..];
      if rest != [] {
        assert Compare(tasks[0], rest[0], o) == 0;
        assert Before(o)(tasks[0], rest[0]);
      }
      assert Insert(tasks[0], rest, Before(o)) == [tasks[0]] + rest;
      assert tasks == [tasks[0]] + rest;
    }
  }

  /** Ascending results never decrease by the field's key and descending
      ones never increase; rows with equal keys follow the lowercased name
      in the same direction. */
  lemma SortedByKeyThenName(tasks: seq<TaskRow>, field: string, order: string,
                            statuses: map<int, string>, priorities: map<int, string>, i: nat)
    requires KnownField(field)
    requires i + 1 < |SortTasks(tasks, field, order, statuses, priorities)|
    ensures var r := SortTasks(tasks, field, order, statuses, priorities);
      var f := FieldOf(field).value;
      var ka, kb := SortKey(r[i], f, statuses, priorities), SortKey(r[i + 1], f, statuses, priorities);
      && (order == "asc" ==> !KeyLess(kb, ka))
      && (order != "asc" ==> !KeyLess(ka, kb))
      && (field != "name" && ka == kb && order == "asc" ==> !StrLess(SortName(r[i + 1]), SortName(r[i])))
      && (field != "name" && ka == kb && order != "asc" ==> !StrLess(SortName(r[i]), SortName(r[i + 1])))
  {
    var r := SortTasks(tasks, field, order, statuses, priorities);
    var f := FieldOf(field).value;
    assert Before(OrderOf(field, order, statuses, priorities))(r[i], r[i + 1]);
    KeyLessTrichotomy(SortKey(r[i], f, statuses, priorities), SortKey(r[i + 1], f, statuses, priorities));
    StrLessTrichotomy(SortName(r[i]), SortName(r[i + 1]));
  }

  /** A row without a start date keys as 0, so in ascending order it is not
      placed after a row with a positive start date. */
  lemma MissingDateKeysAsZero(t: TaskRow, statuses: map<int, string>, priorities: map<int, string>)
    requires t.startDate.None?
    ensures SortKey(t, FieldOf("start_date").value, statuses, priorities) == Num(0)
    ensures t.statusId.None? ==> SortKey(t, FieldOf("status").value, statuses, priorities) == Text("")
  {
  }

  /** A row is kept exactly when it is in the input, belongs to the
      selected team when the team filter is on, and is assigned to the
      caller when the mode is "my". */
  lemma FilterKeepsExactly(tasks: seq<TaskRow>, filterMode: string, teamFilter: string,
                           userEmail: Option<string>, selectedTeamId: Option<string>, t: TaskRow)
    ensures t in FilterTasks(tasks, filterMode, teamFilter, userEmail, selectedTeamId) <==>
      && t in tasks
      && (teamFilter == "selected" && TruthyStr(selectedTeamId) ==> InTeam(t, selectedTeamId.value))
      && (filterMode == "my" ==> t.assigneeEmail == userEmail)
  {
  }

  /** With neither filter on, the list comes back as it was. */
  lemma NoFilterIsIdentity(tasks: seq<TaskRow>, filterMode: string, teamFilter: string,
                           userEmail: Option<string>, selectedTeamId: Option<string>)
    requires filterMode != "my"
    requires teamFilter != "selected" || !TruthyStr(selectedTeamId)
    ensures FilterTasks(tasks, filterMode, teamFilter, userEmail, selectedTeamId) == tasks
  {
  }
}

=== FILE: tasks.dfy ===
/** The task service and the task crud helpers: create defaults, "max+1
    or 1" positions, replace-semantics of the assignment, the delete that
    leaves relations and reminders behind, and task relations. */
module Tasks {
  import opened Base
  import opened Ordered
  import opened Seqs
  import opened Store
  import opened Access

  datatype TaskCreate = TaskCreate(
    name: string,
    description: Option<string>,
    statusId: Option<int>,
    priorityId: Option<int>,
    assigneeEmail: Option<string>,
    startDate: Option<int>,
    deadline: Option<int>,
    position: Option<int>)

  /** An update request: `None` is a field the client did not send; for
      nullable columns `Some(None)` is an explicit null. */
  datatype TaskPatch = TaskPatch(
    name: Option<string>,
    description: Option<Option<string>>,
    statusId: Option<Option<int>>,
    priorityId: Option<Option<int>>,
    assigneeEmail: Option<string>,
    startDate: Option<Option<int>>,
    deadline: Option<Option<int>>,
    position: Option<int>)

  const EmptyTaskPatch := TaskPatch(None, None, None, None, None, None, None, None)

  /** A task as the listings return it, with the e-mail of its first
      assignee attached. */
  datatype TaskView = TaskView(id: Id, task: Task, assigneeEmail: Option<string>)

  // ---- crud/task.py -------------------------------------------------------

  function View(db: Db, id: Id): TaskView
    requires id in db.tasks
  {
    TaskView(id, db.tasks[id], AssigneeEmail(db, id))
  }

  function Views(db: Db, ids: seq<Id>): (r: seq<TaskView>)
    requires forall i | 0 <= i < |ids| :: ids[i] in db.tasks
    ensures |r| == |ids|
    ensures forall i | 0 <= i < |ids| :: r[i].id == ids[i] && r[i] == View(db, ids[i])
  {
    if ids == [] then [] else [View(db, ids[0])] + Views(db, ids[1..])
  }

  /** The ids a listing carries. */
  function IdsOf(r: seq<TaskView>): set<Id> {
    set i | 0 <= i < |r| :: r[i].id
  }

  /** The views carry exactly the ids they were built from. */
  lemma ViewsIds(db: Db, ids: seq<Id>)
    requires forall i | 0 <= i < |ids| :: ids[i] in db.tasks
    ensures IdsOf(Views(db, ids)) == set k | k in ids
  {
    var r := Views(db, ids);
    forall k | k in ids ensures k in IdsOf(r) {
      var i :| 0 <= i < |ids| && ids[i] == k;
      assert r[i].id == k;
    }
  }

  /** The views of a set of task ids, in key order, carry exactly those ids. */
  lemma ViewsCover(db: Db, s: set<Id>)
    requires s <= db.tasks.Keys
    ensures forall i | 0 <= i < |SortedIds(s)| :: SortedIds(s)[i] in db.tasks
    ensures IdsOf(Views(db, SortedIds(s))) == s
  {
    var ids := SortedIds(s);
    forall i | 0 <= i < |ids|
      ensures ids[i] in db.tasks
    {
      assert ids[i] in s;
    }
    ViewsIds(db, ids);
    SortedIdsElements(s);
  }

  lemma SortedIdsElements(s: set<Id>)
    ensures (set k | k in SortedIds(s)) == s
  {
    var ids := SortedIds(s);
    forall k | k in s
      ensures k in ids
    {
    }
  }

  /** The views of a set of task ids, one per id. */
  lemma ViewsOfSet(db: Db, s: set<Id>)
    requires s <= db.tasks.Keys
    ensures forall i | 0 <= i < |SortedIds(s)| :: SortedIds(s)[i] in db.tasks
    ensures var r := Views(db, SortedIds(s));
      && |r| == |s|
      && (forall i | 0 <= i < |r| :: r[i].id in s && r[i] == View(db, r[i].id))
      && IdsOf(r) == s
  {
    ViewsCover(db, s);
    var ids := SortedIds(s);
    var r := Views(db, ids);
    forall i | 0 <= i < |r|
      ensures r[i].id in s && r[i] == View(db, r[i].id)
    {
      assert r[i].id == ids[i];
    }
  }

  /** `get_tasks_by_stream`: every task of the stream, in key order rather
      than by position. */
  function TasksByStream(db: Db, streamId: Id): (r: seq<TaskView>)
    ensures |r| == |TasksOfStream(db, streamId)|
    ensures forall i | 0 <= i < |r| :: r[i].id in TasksOfStream(db, streamId) && r[i] == View(db, r[i].id)
    ensures IdsOf(r) == TasksOfStream(db, streamId)
  {
    var ts := TasksOfStream(db, streamId);
    ViewsOfSet(db, ts);
    Views(db, SortedIds(ts))
  }

  /** `get_tasks_by_project`: the per-stream lists, concatenated in the
      order of the project's streams. */
  function TasksByProject(db: Db, projectId: Id): (r: seq<TaskView>)
  {
    FlatMap(SortedIds(StreamsOfProject(db, projectId)), (s: Id) => TasksByStream(db, s))
  }

  /** `create_task` (crud): a falsy description becomes "", a falsy status
      or priority becomes 1; the position is stored as given. */
  function NewTask(streamId: Id, data: TaskCreate, position: int): (t: Task)
    ensures t.name == data.name && t.streamId == streamId && t.position == position
    ensures t.startDate == data.startDate && t.deadline == data.deadline
    ensures t.description == Some(if TruthyStr(data.description) then data.description.value else "")
    ensures t.statusId == Some(if TruthyNum(data.statusId) then data.statusId.value else 1)
    ensures t.priorityId == Some(if TruthyNum(data.priorityId) then data.priorityId.value else 1)
  {
    Task(
      data.name,
      Some(if data.description.Some? && data.description.value != "" then data.description.value else ""),
      streamId,
      Some(if data.statusId.Some? && data.statusId.value != 0 then data.statusId.value else 1),
      Some(if data.priorityId.Some? && data.priorityId.value != 0 then data.priorityId.value else 1),
      data.startDate,
      data.deadline,
      position)
  }

  /** `update_task` (crud): `setattr` for each explicitly sent column. */
  function ApplyTaskPatch(t: Task, p: TaskPatch): (t': Task)
    ensures t'.streamId == t.streamId
    ensures t'.name == (if p.name.Some? then p.name.value else t.name)
    ensures t'.description == (if p.description.Some? then p.description.value else t.description)
    ensures t'.statusId == (if p.statusId.Some? then p.statusId.value else t.statusId)
    ensures t'.priorityId == (if p.priorityId.Some? then p.priorityId.value else t.priorityId)
    ensures t'.startDate == (if p.startDate.Some? then p.startDate.value else t.startDate)
    ensures t'.deadline == (if p.deadline.Some? then p.deadline.value else t.deadline)
    ensures t'.position == (if p.position.Some? then p.position.value else t.position)
  {
    t.(
      name := if p.name.Some? then p.name.value else t.name,
      description := if p.description.Some? then p.description.value else t.description,
      statusId := if p.statusId.Some? then p.statusId.value else t.statusId,
      priorityId := if p.priorityId.Some? then p.priorityId.value else t.priorityId,
      startDate := if p.startDate.Some? then p.startDate.value else t.startDate,
      deadline := if p.deadline.Some? then p.deadline.value else t.deadline,
      position := if p.position.Some? then p.position.value else t.position)
  }

  /** The assignment rows with the task's first one removed, if it has one. */
  function DropFirstAssignment(db: Db, taskId: Id): (r: map<Id, Assignment>)
    ensures FirstAssignment(db, taskId).None? ==> r == db.assignments
    ensures FirstAssignment(db, taskId).Some? ==> r == db.assignments - {FirstAssignment(db, taskId).value}
  {
    match FirstAssignment(db, taskId)
    case None => db.assignments
    case Some(a) => db.assignments - {a}
  }

  // ---- services/task_service.py -------------------------------------------

  /** The rows one stream contributes to the listing: its tasks, tagged
      with the team. */
  function StreamRows(db: Db, teamId: Id, s: Id): seq<(Id, TaskView)> {
    var views := TasksByStream(db, s);
    seq(|views|, i requires 0 <= i < |views| => (teamId, views[i]))
  }

  function ProjectRows(db: Db, teamId: Id, p: Id): seq<(Id, TaskView)> {
    FlatMap(SortedIds(StreamsOfProject(db, p)), (s: Id) => StreamRows(db, teamId, s))
  }

  function TeamRows(db: Db, teamId: Id): seq<(Id, TaskView)> {
    FlatMap(SortedIds(ProjectsOfTeam(db, teamId)), (p: Id) => ProjectRows(db, teamId, p))
  }

  /** `get_all_tasks_service`: every task of every stream of every project
      of every team the caller has a membership row in, tagged with that
      team; a team reached through two membership rows is listed twice. */
  function AllTasks(db: Db, userId: Id): (r: seq<(Id, TaskView)>)
    ensures (forall k | k in db.memberships :: db.memberships[k].userId != userId) ==> r == []
  {
    FlatMap(SortedIds(MembershipsOf(db, userId)), (m: Id) => MembershipRows(db, m))
  }

  function MembershipsOf(db: Db, userId: Id): set<Id> {
    set k | k in db.memberships && db.memberships[k].userId == userId
  }

  /** The rows one membership row contributes: those of its team. */
  function MembershipRows(db: Db, m: Id): seq<(Id, TaskView)> {
    TeamRows(db, if m in db.memberships then db.memberships[m].teamId else 0)
  }

  /** The team a task belongs to, through its stream and project. */
  function TaskTeam(db: Db, k: Id): Option<Id> {
    if k !in db.tasks then None
    else
      var s := db.tasks[k].streamId;
      if s !in db.streams then None
      else
        var p := db.streams[s].projectId;
        if p !in db.projects then None else Some(db.projects[p].teamId)
  }

  /** A listing row is a task view tagged with a team. */
  ghost predicate RowOf(db: Db, x: (Id, TaskView), teamId: Id) {
    x.0 == teamId && x.1.id in db.tasks && x.1 == View(db, x.1.id)
  }

  lemma StreamRowsHas(db: Db, teamId: Id, s: Id, x: (Id, TaskView))
    ensures x in StreamRows(db, teamId, s) <==> RowOf(db, x, teamId) && db.tasks[x.1.id].streamId == s
  {
    if x in StreamRows(db, teamId, s) {
      StreamRowsSound(db, teamId, s, x);
    }
    if RowOf(db, x, teamId) && db.tasks[x.1.id].streamId == s {
      StreamRowsComplete(db, teamId, s, x);
    }
  }

  lemma StreamRowsSound(db: Db, teamId: Id, s: Id, x: (Id, TaskView))
    requires x in StreamRows(db, teamId, s)
    ensures RowOf(db, x, teamId) && db.tasks[x.1.id].streamId == s
  {
    var views := TasksByStream(db, s);
    var rows := StreamRows(db, teamId, s);
    var i :| 0 <= i < |rows| && rows[i] == x;
    assert x.1 == views[i];
  }

  lemma StreamRowsComplete(db: Db, teamId: Id, s: Id, x: (Id, TaskView))
    requires RowOf(db, x, teamId) && db.tasks[x.1.id].streamId == s
    ensures x in StreamRows(db, teamId, s)
  {
    var views := TasksByStream(db, s);
    var rows := StreamRows(db, teamId, s);
    assert x.1.id in IdsOf(views);
    var i :| 0 <= i < |views| && views[i].id == x.1.id;
    assert rows[i] == x;
  }

  lemma ProjectRowsHas(db: Db, teamId: Id, p: Id, x: (Id, TaskView))
    ensures x in ProjectRows(db, teamId, p) <==>
      RowOf(db, x, teamId) && db.tasks[x.1.id].streamId in StreamsOfProject(db, p)
  {
    var streams := SortedIds(StreamsOfProject(db, p));
    var f := (s: Id) => StreamRows(db, teamId, s);
    FlatMapMember(streams, f, x);
    if x in ProjectRows(db, teamId, p) {
      var j :| 0 <= j < |streams| && x in f(streams[j]);
      StreamRowsHas(db, teamId, streams[j], x);
    }
    if RowOf(db, x, teamId) && db.tasks[x.1.id].streamId in StreamsOfProject(db, p) {
      var s := db.tasks[x.1.id].streamId;
      var j :| 0 <= j < |streams| && streams[j] == s;
      StreamRowsHas(db, teamId, s, x);
      assert x in f(streams[j]);
    }
  }

  lemma TeamRowsHas(db: Db, teamId: Id, x: (Id, TaskView))
    ensures x in TeamRows(db, teamId) <==> RowOf(db, x, teamId) && TaskTeam(db, x.1.id) == Some(teamId)
  {
    if x in TeamRows(db, teamId) {
      TeamRowsSound(db, teamId, x);
    }
    if RowOf(db, x, teamId) && TaskTeam(db, x.1.id) == Some(teamId) {
      TeamRowsComplete(db, teamId, x);
    }
  }

  lemma TeamRowsSound(db: Db, teamId: Id, x: (Id, TaskView))
    requires x in TeamRows(db, teamId)
    ensures RowOf(db, x, teamId) && TaskTeam(db, x.1.id) == Some(teamId)
  {
    var projects := SortedIds(ProjectsOfTeam(db, teamId));
    var f := (p: Id) => ProjectRows(db, teamId, p);
    FlatMapMember(projects, f, x);
    var j :| 0 <= j < |projects| && x in f(projects[j]);
    assert projects[j] in ProjectsOfTeam(db, teamId);
    ProjectRowsHas(db, teamId, projects[j], x);
  }

  lemma TeamRowsComplete(db: Db, teamId: Id, x: (Id, TaskView))
    requires RowOf(db, x, teamId) && TaskTeam(db, x.1.id) == Some(teamId)
    ensures x in TeamRows(db, teamId)
  {
    var projects := SortedIds(ProjectsOfTeam(db, teamId));
    var f := (p: Id) => ProjectRows(db, teamId, p);
    var p := db.streams[db.tasks[x.1.id].streamId].projectId;
    assert p in ProjectsOfTeam(db, teamId);
    var j :| 0 <= j < |projects| && projects[j] == p;
    ProjectRowsHas(db, teamId, p, x);
    assert x in f(projects[j]);
    FlatMapMember(projects, f, x);
  }

  /** The listing holds exactly the caller's teams' tasks, each tagged with
      its own team. */
  lemma AllTasksMembers(db: Db, userId: Id, x: (Id, TaskView))
    ensures x in AllTasks(db, userId) <==>
      RowOf(db, x, x.0) && IsMember(db, userId, x.0) && TaskTeam(db, x.1.id) == Some(x.0)
  {
    if x in AllTasks(db, userId) {
      AllTasksSound(db, userId, x);
    }
    if RowOf(db, x, x.0) && IsMember(db, userId, x.0) && TaskTeam(db, x.1.id) == Some(x.0) {
      AllTasksComplete(db, userId, x);
    }
  }

  lemma AllTasksSound(db: Db, userId: Id, x: (Id, TaskView))
    requires x in AllTasks(db, userId)
    ensures RowOf(db, x, x.0) && IsMember(db, userId, x.0) && TaskTeam(db, x.1.id) == Some(x.0)
  {
    var ms := SortedIds(MembershipsOf(db, userId));
    var f := (m: Id) => MembershipRows(db, m);
    FlatMapMember(ms, f, x);
    var j :| 0 <= j < |ms| && x in f(ms[j]);
    var m := ms[j];
    assert m in MembershipsOf(db, userId);
    TeamRowsHas(db, db.memberships[m].teamId, x);
  }

  lemma AllTasksComplete(db: Db, userId: Id, x: (Id, TaskView))
    requires RowOf(db, x, x.0) && IsMember(db, userId, x.0) && TaskTeam(db, x.1.id) == Some(x.0)
    ensures x in AllTasks(db, userId)
  {
    var ms := SortedIds(MembershipsOf(db, userId));
    var f := (m: Id) => MembershipRows(db, m);
    var m :| m in db.memberships && db.memberships[m].teamId == x.0 && db.memberships[m].userId == userId;
    assert m in MembershipsOf(db, userId);
    var j :| 0 <= j < |ms| && ms[j] == m;
    TeamRowsHas(db, x.0, x);
    assert x in f(ms[j]);
    FlatMapMember(ms, f, x);
  }

  /** `get_project_tasks_service`: the project, then membership of its
      team reached through `project.team`. */
  function ProjectTasks(db: Db, projectId: Id, userId: Id): (r: Result<seq<TaskView>>)
    ensures r == Err(NotFound) <==> projectId !in db.projects
    ensures r.Ok? <==> projectId in db.projects && db.projects[projectId].teamId in db.teams
                       && IsMember(db, userId, db.projects[projectId].teamId)
    ensures projectId in db.projects && db.projects[projectId].teamId !in db.teams ==> r == Err(Crash)
    ensures (projectId in db.projects && db.projects[projectId].teamId in db.teams
             && !IsMember(db, userId, db.projects[projectId].teamId)) ==> r == Err(Forbidden)
    ensures r.Ok? ==> r.value == TasksByProject(db, projectId)
  {
    if projectId !in db.projects then Err(NotFound)
    else
      var teamId := db.projects[projectId].teamId;
      if teamId !in db.teams then Err(Crash)
      else
        var _ :- CheckMember(db, teamId, userId, false);
        Ok(TasksByProject(db, projectId))
  }

  /** `get_stream_tasks_service`. */
  function StreamTasks(db: Db, streamId: Id, userId: Id): (r: Result<seq<TaskView>>)
    ensures r == Err(NotFound) <==> StreamTeam(db, streamId).None?
    ensures r.Ok? <==> CheckStream(db, streamId, userId, false, true).Ok?
    ensures r.Err? ==> r.error == CheckStream(db, streamId, userId, false, true).error
    ensures r.Ok? ==> r.value == TasksByStream(db, streamId)
  {
    var _ :- CheckStream(db, streamId, userId, false, true);
    Ok(TasksByStream(db, streamId))
  }

  /** `create_task_service`: the task is flushed first; an unknown assignee
      e-mail then aborts the whole request before the commit. */
  function CreateTask(db: Db, streamId: Id, userId: Id, data: TaskCreate): (r: Result<(Db, Id)>)
    ensures r == Err(NotFound) <==>
      StreamTeam(db, streamId).None?
      || (CheckStream(db, streamId, userId, true, true).Ok? && TruthyStr(data.assigneeEmail)
          && UserByEmail(db, data.assigneeEmail.value).None?)
    ensures r.Ok? <==> CheckStream(db, streamId, userId, true, true).Ok?
                       && (TruthyStr(data.assigneeEmail) ==> UserByEmail(db, data.assigneeEmail.value).Some?)
    ensures CheckStream(db, streamId, userId, true, true).Err? ==> r == Err(CheckStream(db, streamId, userId, true, true).error)
    ensures r.Err? ==> r.error in {NotFound, Forbidden, Crash}
    ensures r.Ok? ==> var (db', id) := r.value;
      && id !in db.tasks
      && db'.tasks.Keys == db.tasks.Keys + {id}
      && (forall k | k in db.tasks :: db'.tasks[k] == db.tasks[k])
      && var t := db'.tasks[id];
         && t.streamId == streamId && t.name == data.name
         && t == NewTask(streamId, data, t.position)
         && (data.position.Some? ==> t.position == data.position.value)
         && (data.position.None? && TasksOfStream(db, streamId) == {} ==> t.position == 1)
         && (data.position.None? ==> forall k | k in TasksOfStream(db, streamId) :: db.tasks[k].position < t.position)
         && (data.position.None? && TasksOfStream(db, streamId) != {} ==>
               exists k :: k in TasksOfStream(db, streamId) && db.tasks[k].position == t.position - 1)
    ensures r.Ok? ==> var (db', id) := r.value;
      && (!TruthyStr(data.assigneeEmail) ==> db' == db.(tasks := db'.tasks))
      && (TruthyStr(data.assigneeEmail) ==>
            exists a :: a !in db.assignments
              && db'.assignments == db.assignments[a := Assignment(UserByEmail(db, data.assigneeEmail.value).value, id)]
              && db' == db.(tasks := db'.tasks, assignments := db'.assignments))
  {
    var _ :- CheckStream(db, streamId, userId, true, true);
    TaskPositionsEmpty(db, streamId);
    var position := if data.position.Some? then data.position.value else NextPosition(TaskPositions(db, streamId));
    var id := FreshId(db.tasks.Keys);
    var flushed := db.(tasks := db.tasks[id := NewTask(streamId, data, position)]);
    if data.assigneeEmail.Some? && data.assigneeEmail.value != "" then
      match UserByEmail(db, data.assigneeEmail.value)
      case None => Err(NotFound)
      case Some(u) =>
        var a := FreshId(db.assignments.Keys);
        Ok((flushed.(assignments := db.assignments[a := Assignment(u, id)]), id))
    else Ok((flushed, id))
  }

  /** `update_task_service`: with a truthy assignee e-mail the first
      assignment row is replaced by one for that user; the sent columns are
      then written. */
  function UpdateTask(db: Db, taskId: Id, userId: Id, patch: TaskPatch): (r: Result<(Db, Task)>)
    ensures taskId !in db.tasks ==> r == Err(NotFound)
    ensures CheckTask(db, taskId, userId, true).Err? ==> r == Err(CheckTask(db, taskId, userId, true).error)
    ensures (CheckTask(db, taskId, userId, true).Ok? && TruthyStr(patch.assigneeEmail)
             && UserByEmail(db, patch.assigneeEmail.value).None?) ==> r == Err(NotFound)
    ensures r.Ok? <==> CheckTask(db, taskId, userId, true).Ok?
                       && (TruthyStr(patch.assigneeEmail) ==> UserByEmail(db, patch.assigneeEmail.value).Some?)
    ensures r.Ok? ==> var (db', t') := r.value;
      && t' == ApplyTaskPatch(db.tasks[taskId], patch)
      && db'.tasks == db.tasks[taskId := t']
      && (!TruthyStr(patch.assigneeEmail) ==> db'.assignments == db.assignments)
      && (TruthyStr(patch.assigneeEmail) ==>
            exists a :: a !in db.assignments
              && db'.assignments == DropFirstAssignment(db, taskId)[a := Assignment(UserByEmail(db, patch.assigneeEmail.value).value, taskId)])
      && db' == db.(tasks := db'.tasks, assignments := db'.assignments)
  {
    var t :- CheckTask(db, taskId, userId, true);
    var assignments :-
      if patch.assigneeEmail.Some? && patch.assigneeEmail.value != "" then
        match UserByEmail(db, patch.assigneeEmail.value)
        case None => Err(NotFound)
        case Some(u) =>
          var a := FreshId(db.assignments.Keys);
          Ok(DropFirstAssignment(db, taskId)[a := Assignment(u, taskId)])
      else Ok(db.assignments);
    var t' := ApplyTaskPatch(t, patch);
    Ok((db.(tasks := db.tasks[taskId := t'], assignments := assignments), t'))
  }

  /** Rows that still hold the task once its first assignment row is
      deleted: a relation at either end, or another assignment row. The
      `Task` class declares `assigned_users` and the two relation backrefs
      without a delete cascade, so deleting the task makes the session set
      those rows' foreign keys to NULL, which their NOT NULL columns
      refuse. The reminders have no relationship on `Task` and are left
      alone. */
  predicate HeldByRows(db: Db, taskId: Id) {
    || (exists k | k in db.relations :: db.relations[k].taskId1 == taskId || db.relations[k].taskId2 == taskId)
    || (exists k | k in DropFirstAssignment(db, taskId) :: DropFirstAssignment(db, taskId)[k].taskId == taskId)
  }

  /** `delete_task_service`: the first assignment row, then the task; the
      commit fails, and everything is rolled back, while another row holds
      the task. */
  function DeleteTask(db: Db, taskId: Id, userId: Id): (r: Result<Db>)
    ensures taskId !in db.tasks ==> r == Err(NotFound)
    ensures CheckTask(db, taskId, userId, true).Err? ==> r == Err(CheckTask(db, taskId, userId, true).error)
    ensures CheckTask(db, taskId, userId, true).Ok? && HeldByRows(db, taskId) ==> r == Err(Crash)
    ensures r.Ok? <==> CheckTask(db, taskId, userId, true).Ok? && !HeldByRows(db, taskId)
    ensures r.Ok? ==> r.value == db.(tasks := db.tasks - {taskId}, assignments := DropFirstAssignment(db, taskId))
    ensures r.Ok? ==> AssignmentIds(r.value, taskId) == {}
    ensures r.Ok? ==> forall k | k in r.value.relations :: r.value.relations[k].taskId1 != taskId && r.value.relations[k].taskId2 != taskId
    ensures r.Ok? ==> r.value.relations == db.relations && r.value.reminders == db.reminders
  {
    var _ :- CheckTask(db, taskId, userId, true);
    if HeldByRows(db, taskId) then Err(Crash)
    else
      var db' := db.(tasks := db.tasks - {taskId}, assignments := DropFirstAssignment(db, taskId));
      assert forall k | k in db'.assignments :: db'.assignments[k].taskId != taskId;
      Ok(db')
  }

  /** `delete_task_relation_service`: the relation, then Editor rights on
      its first task. */
  function DeleteRelation(db: Db, relationId: Id, userId: Id): (r: Result<Db>)
    ensures relationId !in db.relations ==> r == Err(NotFound)
    ensures r.Ok? <==> relationId in db.relations && CheckTask(db, db.relations[relationId].taskId1, userId, true).Ok?
    ensures (relationId in db.relations && CheckTask(db, db.relations[relationId].taskId1, userId, true).Err?)
            ==> r == Err(CheckTask(db, db.relations[relationId].taskId1, userId, true).error)
    ensures r.Ok? ==> r.value == db.(relations := db.relations - {relationId})
  {
    if relationId !in db.relations then Err(NotFound)
    else
      var _ :- CheckTask(db, db.relations[relationId].taskId1, userId, true);
      Ok(db.(relations := db.relations - {relationId}))
  }

  /** `create_task_relation_service`: no caller, hence no permission check;
      the tasks, then self-reference, then the connection type. */
  function CreateRelation(db: Db, taskId1: Id, taskId2: Id, connectionId: Id): (r: Result<(Db, Id)>)
    ensures r == Err(NotFound) <==> taskId1 !in db.tasks || taskId2 !in db.tasks
                                    || (taskId1 != taskId2 && connectionId !in db.connections)
    ensures r == Err(Conflict) <==> taskId1 in db.tasks && taskId2 in db.tasks && taskId1 == taskId2
    ensures r.Ok? ==> var (db', id) := r.value;
      && id !in db.relations
      && db' == db.(relations := db.relations[id := Relation(taskId1, taskId2, connectionId)])
  {
    if taskId1 !in db.tasks || taskId2 !in db.tasks then Err(NotFound)
    else if taskId1 == taskId2 then Err(Conflict)
    else if connectionId !in db.connections then Err(NotFound)
    else
      var id := FreshId(db.relations.Keys);
      Ok((db.(relations := db.relations[id := Relation(taskId1, taskId2, connectionId)]), id))
  }

  // ---- Properties ---------------------------------------------------------

  /** The project listing holds exactly the tasks of the project's streams. */
  lemma TasksByProjectMembers(db: Db, projectId: Id, k: Id)
    ensures (exists i :: 0 <= i < |TasksByProject(db, projectId)| && TasksByProject(db, projectId)[i].id == k)
        <==> k in db.tasks && db.tasks[k].streamId in StreamsOfProject(db, projectId)
  {
    var out := TasksByProject(db, projectId);
    if exists i :: 0 <= i < |out| && out[i].id == k {
      var i :| 0 <= i < |out| && out[i].id == k;
      TasksByProjectSound(db, projectId, i);
    }
    if k in db.tasks && db.tasks[k].streamId in StreamsOfProject(db, projectId) {
      TasksByProjectComplete(db, projectId, k);
    }
  }

  lemma TasksByProjectSound(db: Db, projectId: Id, i: int)
    requires 0 <= i < |TasksByProject(db, projectId)|
    ensures var k := TasksByProject(db, projectId)[i].id;
      k in db.tasks && db.tasks[k].streamId in StreamsOfProject(db, projectId)
  {
    var streams := SortedIds(StreamsOfProject(db, projectId));
    var f := (s: Id) => TasksByStream(db, s);
    var out := TasksByProject(db, projectId);
    var v := out[i];
    FlatMapMember(streams, f, v);
    var j :| 0 <= j < |streams| && v in f(streams[j]);
    StreamViewSound(db, streams[j], v);
    assert streams[j] in StreamsOfProject(db, projectId);
  }

  lemma StreamViewSound(db: Db, s: Id, v: TaskView)
    requires v in TasksByStream(db, s)
    ensures v.id in db.tasks && db.tasks[v.id].streamId == s
  {
    var views := TasksByStream(db, s);
    var m :| 0 <= m < |views| && views[m] == v;
    assert v.id in TasksOfStream(db, s);
  }

  lemma TasksByProjectComplete(db: Db, projectId: Id, k: Id)
    requires k in db.tasks && db.tasks[k].streamId in StreamsOfProject(db, projectId)
    ensures exists i :: 0 <= i < |TasksByProject(db, projectId)| && TasksByProject(db, projectId)[i].id == k
  {
    var streams := SortedIds(StreamsOfProject(db, projectId));
    var f := (s: Id) => TasksByStream(db, s);
    var out := TasksByProject(db, projectId);
    var s := db.tasks[k].streamId;
    var views := TasksByStream(db, s);
    assert k in IdsOf(views);
    var i :| 0 <= i < |views| && views[i].id == k;
    var v := views[i];
    var j :| 0 <= j < |streams| && streams[j] == s;
    assert v in f(streams[j]);
    FlatMapMember(streams, f, v);
    assert v in out;
    var n :| 0 <= n < |out| && out[n] == v;
  }

  /** With at most one assignment row before, a successful reassignment
      leaves exactly one: the new assignee's. */
  lemma ReassignReplaces(db: Db, taskId: Id, userId: Id, patch: TaskPatch)
    requires |AssignmentIds(db, taskId)| <= 1
    requires TruthyStr(patch.assigneeEmail)
    requires UpdateTask(db, taskId, userId, patch).Ok?
    ensures var db' := UpdateTask(db, taskId, userId, patch).value.0;
      exists a :: AssignmentIds(db', taskId) == {a}
                  && db'.assignments[a] == Assignment(UserByEmail(db, patch.assigneeEmail.value).value, taskId)
  {
    var db' := UpdateTask(db, taskId, userId, patch).value.0;
    var a :| a !in db.assignments
      && db'.assignments == DropFirstAssignment(db, taskId)[a := Assignment(UserByEmail(db, patch.assigneeEmail.value).value, taskId)];
    DropFirstClears(db, taskId);
    forall x ensures x in AssignmentIds(db', taskId) <==> x == a {
    }
    assert AssignmentIds(db', taskId) == {a};
  }

  /** A set of at most one element that holds `f` is `{f}`. */
  lemma SingletonOf(s: set<Id>, f: Id)
    requires |s| <= 1 && f in s
    ensures s == {f}
  {
    var rest := s - {f};
    assert |rest| == |s| - 1;
    assert rest == {};
    assert s == rest + {f};
  }

  /** With at most one row for the task, dropping its first leaves none. */
  lemma DropFirstClears(db: Db, taskId: Id)
    requires |AssignmentIds(db, taskId)| <= 1
    ensures forall k | k in DropFirstAssignment(db, taskId) :: DropFirstAssignment(db, taskId)[k].taskId != taskId
  {
    var ids := AssignmentIds(db, taskId);
    match FirstAssignment(db, taskId)
    case None =>
      assert forall k | k in db.assignments && db.assignments[k].taskId == taskId :: k in ids;
    case Some(f) =>
      SingletonOf(ids, f);
      assert forall k | k in db.assignments && db.assignments[k].taskId == taskId :: k in ids;
  }

  /** A falsy e-mail cannot clear an assignee: the rows stay as they were. */
  lemma FalsyEmailKeepsAssignee(db: Db, taskId: Id, userId: Id, patch: TaskPatch)
    requires !TruthyStr(patch.assigneeEmail)
    requires UpdateTask(db, taskId, userId, patch).Ok?
    ensures AssigneeEmail(UpdateTask(db, taskId, userId, patch).value.0, taskId) == AssigneeEmail(db, taskId)
  {
    var db' := UpdateTask(db, taskId, userId, patch).value.0;
    assert db'.assignments == db.assignments && db'.users == db.users;
    assert AssignmentIds(db', taskId) == AssignmentIds(db, taskId);
  }

  /** Every relation joins two existing tasks. */
  ghost predicate RelationsResolve(db: Db) {
    forall k | k in db.relations :: db.relations[k].taskId1 in db.tasks && db.relations[k].taskId2 in db.tasks
  }

  /** A task with a relation cannot be deleted: the session's attempt to
      detach the relation aborts the commit. */
  lemma RelatedTaskIsNotDeleted(db: Db, taskId: Id, userId: Id, relationId: Id)
    requires CheckTask(db, taskId, userId, true).Ok?
    requires relationId in db.relations
    requires db.relations[relationId].taskId1 == taskId || db.relations[relationId].taskId2 == taskId
    ensures DeleteTask(db, taskId, userId) == Err(Crash)
  {
    assert HeldByRows(db, taskId);
  }

  /** A delete never leaves a relation naming a missing task. */
  lemma DeleteTaskKeepsRelationsResolved(db: Db, taskId: Id, userId: Id)
    requires RelationsResolve(db)
    requires DeleteTask(db, taskId, userId).Ok?
    ensures RelationsResolve(DeleteTask(db, taskId, userId).value)
  {
    var db' := DeleteTask(db, taskId, userId).value;
    forall k | k in db'.relations
      ensures db'.relations[k].taskId1 in db'.tasks && db'.relations[k].taskId2 in db'.tasks
    {
      assert db.relations[k] == db'.relations[k];
    }
  }

  /** The reminders of a deleted task stay, still naming it. */
  lemma DeleteTaskLeavesReminders(db: Db, taskId: Id, userId: Id, reminderId: Id)
    requires DeleteTask(db, taskId, userId).Ok?
    requires reminderId in db.reminders && db.reminders[reminderId].taskId == taskId
    ensures var db' := DeleteTask(db, taskId, userId).value;
      taskId !in db'.tasks && reminderId in db'.reminders && db'.reminders[reminderId].taskId == taskId
  {
  }

  /** Anyone can relate any two existing tasks through an existing
      connection type, even across teams. */
  lemma RelationNeedsNoPermission(db: Db, taskId1: Id, taskId2: Id, connectionId: Id)
    requires taskId1 in db.tasks && taskId2 in db.tasks && taskId1 != taskId2
    requires connectionId in db.connections
    ensures CreateRelation(db, taskId1, taskId2, connectionId).Ok?
  {
  }

  lemma CreateTaskKeepsIntact(db: Db, streamId: Id, userId: Id, data: TaskCreate)
    requires Intact(db)
    ensures CreateTask(db, streamId, userId, data).Ok? ==> Intact(CreateTask(db, streamId, userId, data).value.0)
  {
    var r := CreateTask(db, streamId, userId, data);
    if r.Ok? {
      var (db', id) := r.value;
      CreateTaskShape(db, streamId, userId, data);
      AddTaskKeepsIntact(db, id, db'.tasks[id], db'.assignments);
    }
  }

  /** A created task is one new row of an existing stream, and possibly an
      assignment row; nothing else changes. */
  lemma CreateTaskShape(db: Db, streamId: Id, userId: Id, data: TaskCreate)
    requires CreateTask(db, streamId, userId, data).Ok?
    ensures var (db', id) := CreateTask(db, streamId, userId, data).value;
      && streamId in db.streams
      && id in db'.tasks
      && db'.tasks[id].streamId == streamId
      && db' == db.(tasks := db.tasks[id := db'.tasks[id]], assignments := db'.assignments)
  {
    var (db', id) := CreateTask(db, streamId, userId, data).value;
    assert db'.tasks == db.tasks[id := db'.tasks[id]];
  }

  lemma AddTaskKeepsIntact(db: Db, id: Id, t: Task, assignments: map<Id, Assignment>)
    requires Intact(db) && t.streamId in db.streams
    ensures Intact(db.(tasks := db.tasks[id := t], assignments := assignments))
  {
  }

  /** A Reader of the first task's team cannot delete the relation. */
  lemma ReaderCannotDeleteRelation(db: Db, relationId: Id, userId: Id)
    requires relationId in db.relations && db.relations[relationId].taskId1 in db.tasks
    requires var s := db.tasks[db.relations[relationId].taskId1].streamId;
      && StreamTeam(db, s).Some? && StreamTeam(db, s).value in db.teams
      && RoleIn(db, StreamTeam(db, s).value, userId) == Some(READER)
    ensures DeleteRelation(db, relationId, userId) == Err(Forbidden)
  {
  }

  /** An Editor of the first task's team who deletes a relation right
      after creating it gets back the store as it was. */
  lemma RelateThenUnrelate(db: Db, taskId1: Id, taskId2: Id, connectionId: Id, userId: Id)
    requires CreateRelation(db, taskId1, taskId2, connectionId).Ok?
    requires CheckTask(db, taskId1, userId, true).Ok?
    ensures var (db', id) := CreateRelation(db, taskId1, taskId2, connectionId).value;
      DeleteRelation(db', id, userId) == Ok(db)
  {
    var (db', id) := CreateRelation(db, taskId1, taskId2, connectionId).value;
    assert db' == db.(relations := db'.relations);
    assert db'.relations - {id} == db.relations;
  }
}

=== FILE: teams.dfy ===
/** Teams: the member listing, creation, the membership edits of an update
    and deletion.

    Two implementations exist side by side. The team service (unused by the
    routes) gives new members the Reader role, writes a truthy name only,
    commits once per added member and cascades a delete down to tasks and
    goals. The live router gives new members role 2, writes any name that
    is present, commits once at the end, and deletes streams and projects
    but not their tasks and goals.
 */
module Teams {
  import opened Base
  import opened Ordered
  import opened Store
  import opened Access
  import opened Cascade

  /** One entry of a team's member listing. */
  datatype MemberView = MemberView(id: Id, email: string, nickname: string, role: string)

  /** The body of an update request; `None` is a field the client left out. */
  datatype TeamUpdate = TeamUpdate(name: Option<string>, newUsers: Option<seq<string>>, deleteUsers: Option<seq<string>>)

  /** The state of the service's `newUsers` loop: what the session holds,
      what has been committed, and the error that stopped it, if any. */
  datatype Progress = Progress(pending: Db, committed: Db, failed: Option<Error>)

  // ---- Role labels ----------------------------------------------------------

  /** The service's label: "Editor" for role 2 and "Reader" for any other. */
  function RoleLabel(roleId: int): (s: string)
    ensures s == "Editor" <==> roleId == EDITOR
    ensures s == "Reader" <==> roleId != EDITOR
  {
    if roleId == EDITOR then "Editor" else "Reader"
  }

  /** The router's role names. */
  const ROLE_MAPPING: map<int, string> := map[READER := "Reader", EDITOR := "Editor"]

  /** `ROLE_MAPPING.get(role_id, "Reader")`. */
  function RoleName(roleId: int): (s: string)
    ensures s == "Reader" || s == "Editor"
  {
    if roleId in ROLE_MAPPING then ROLE_MAPPING[roleId] else "Reader"
  }

  /** The router's mapping with its default and the service's test give
      every role id the same label, so one listing models both routes. */
  lemma RoleNamesAgree(roleId: int)
    ensures RoleName(roleId) == RoleLabel(roleId)
  {
  }

  // ---- Rows of the membership table ------------------------------------------

  /** Every row of `a` is in `b`, unchanged. */
  ghost predicate Grows(a: map<Id, Membership>, b: map<Id, Membership>) {
    forall k | k in a :: k in b && b[k] == a[k]
  }

  /** Every row of `b` that is not in `a` gives someone `roleId` in `teamId`. */
  ghost predicate NewRowsAre(a: map<Id, Membership>, b: map<Id, Membership>, teamId: Id, roleId: int) {
    forall k | k in b && k !in a :: b[k].teamId == teamId && b[k].roleId == roleId
  }

  /** `session.add(UserTeam(...))`: one more row under a fresh key. */
  function AddMembership(db: Db, m: Membership): (r: Db)
    ensures r == db.(memberships := r.memberships)
    ensures Grows(db.memberships, r.memberships)
    ensures forall k | k in r.memberships && k !in db.memberships :: r.memberships[k] == m
    ensures IsMember(r, m.userId, m.teamId)
  {
    var k := FreshId(db.memberships.Keys);
    var r := db.(memberships := db.memberships[k := m]);
    assert r.memberships[k] == m;
    r
  }

  /** Adding a row for a pair that has none keeps pairs unique. */
  lemma AddMembershipKeepsUnique(db: Db, m: Membership)
    ensures UniqueMemberships(db) && !IsMember(db, m.userId, m.teamId) ==> UniqueMemberships(AddMembership(db, m))
  {
  }

  /** A member stays a member when rows are only added. */
  lemma MemberStaysMember(a: Db, b: Db, userId: Id, teamId: Id)
    requires Grows(a.memberships, b.memberships) && IsMember(a, userId, teamId)
    ensures IsMember(b, userId, teamId)
  {
    var k :| k in a.memberships && a.memberships[k].teamId == teamId && a.memberships[k].userId == userId;
    assert k in b.memberships;
  }

  /** The e-mail lookup reads the user table only. */
  lemma UserByEmailFrame(a: Db, b: Db, email: string)
    requires a.users == b.users
    ensures UserByEmail(a, email) == UserByEmail(b, email)
  {
    assert UserIdsWithEmail(a, email) == UserIdsWithEmail(b, email);
  }

  // ---- Listing ---------------------------------------------------------------

  /** One entry per membership row, through `member.user`, which fails
      when the user row is gone. */
  function MemberViews(db: Db, ids: seq<Id>): (r: Result<seq<MemberView>>)
    requires forall i | 0 <= i < |ids| :: ids[i] in db.memberships
    ensures r.Ok? <==> forall i | 0 <= i < |ids| :: db.memberships[ids[i]].userId in db.users
    ensures r.Err? ==> r.error == Crash
    ensures r.Ok? ==> |r.value| == |ids|
    ensures r.Ok? ==> forall i | 0 <= i < |ids| ::
      var m := db.memberships[ids[i]];
      && r.value[i].id == m.userId
      && r.value[i].email == db.users[m.userId].email
      && r.value[i].nickname == db.users[m.userId].nickname
      && (r.value[i].role == "Editor" <==> m.roleId == EDITOR)
  {
    if ids == [] then Ok([])
    else
      var m := db.memberships[ids[0]];
      if m.userId !in db.users then Err(Crash)
      else
        var rest :- MemberViews(db, ids[1..]);
        var u := db.users[m.userId];
        Ok([MemberView(m.userId, u.email, u.nickname, RoleLabel(m.roleId))] + rest)
  }

  /** `get_team_users_service` and the router's `get_team_users`: the
      team, then the caller's membership, then one entry per membership row
      of the team in key order. */
  function TeamUsers(db: Db, teamId: Id, userId: Id): (r: Result<seq<MemberView>>)
    ensures r == Err(NotFound) <==> teamId !in db.teams
    ensures r == Err(Forbidden) <==> teamId in db.teams && !IsMember(db, userId, teamId)
    ensures r.Err? ==> r.error in {NotFound, Forbidden, Crash}
    ensures r.Ok? ==> |r.value| == |MembersOf(db, teamId)|
    ensures r.Ok? ==> forall i | 0 <= i < |r.value| ::
      var k := SortedIds(MembersOf(db, teamId))[i];
      && k in db.memberships && db.memberships[k].teamId == teamId
      && r.value[i].id == db.memberships[k].userId
      && (r.value[i].role == "Editor" <==> db.memberships[k].roleId == EDITOR)
  {
    var _ :- CheckTeam(db, teamId, userId, false);
    TeamListing(db, teamId)
  }

  /** The part of the listing past the checks: the team's rows in key
      order, each through its user. */
  function TeamListing(db: Db, teamId: Id): (r: Result<seq<MemberView>>)
    ensures r.Err? ==> r.error == Crash
    ensures r.Ok? <==> forall k | k in MembersOf(db, teamId) :: db.memberships[k].userId in db.users
    ensures r.Ok? ==> |r.value| == |MembersOf(db, teamId)|
    ensures r.Ok? ==> forall i | 0 <= i < |r.value| ::
      var k := SortedIds(MembersOf(db, teamId))[i];
      && k in db.memberships && db.memberships[k].teamId == teamId
      && r.value[i].id == db.memberships[k].userId
      && (r.value[i].role == "Editor" <==> db.memberships[k].roleId == EDITOR)
  {
    var ids := SortedIds(MembersOf(db, teamId));
    SortedMembers(db, teamId);
    MemberViews(db, ids)
  }

  /** The listing fails past the checks exactly when a row of the team
      names a user that no longer exists. */
  lemma TeamUsersCrash(db: Db, teamId: Id, userId: Id)
    ensures TeamUsers(db, teamId, userId) == Err(Crash) <==>
      (teamId in db.teams && IsMember(db, userId, teamId)
       && exists k :: k in MembersOf(db, teamId) && db.memberships[k].userId !in db.users)
  {
    SortedMembers(db, teamId);
  }

  /** The team's rows in key order are its rows, and all their users exist
      exactly when every one of them does. */
  lemma SortedMembers(db: Db, teamId: Id)
    ensures forall i | 0 <= i < |SortedIds(MembersOf(db, teamId))| ::
      SortedIds(MembersOf(db, teamId))[i] in MembersOf(db, teamId)
    ensures (forall i | 0 <= i < |SortedIds(MembersOf(db, teamId))| ::
               db.memberships[SortedIds(MembersOf(db, teamId))[i]].userId in db.users)
        <==> (forall k | k in MembersOf(db, teamId) :: db.memberships[k].userId in db.users)
  {
    var ms := MembersOf(db, teamId);
    var ids := SortedIds(ms);
    forall i | 0 <= i < |ids| ensures ids[i] in ms {
      assert ids[i] in ids;
    }
    if forall i | 0 <= i < |ids| :: db.memberships[ids[i]].userId in db.users {
      forall k | k in ms ensures db.memberships[k].userId in db.users {
        assert k in ids;
        var i :| 0 <= i < |ids| && ids[i] == k;
      }
    }
    if forall k | k in ms :: db.memberships[k].userId in db.users {
      forall i | 0 <= i < |ids| ensures db.memberships[ids[i]].userId in db.users {
        assert ids[i] in ms;
      }
    }
  }

  // ---- Creation --------------------------------------------------------------

  /** `create_team_service` and the router's `create_team`: a new team and
      a role-2 membership row for its creator. */
  function CreateTeam(db: Db, ownerId: Id, name: string): (r: (Db, Id))
    ensures r.1 !in db.teams
    ensures r.0.teams == db.teams[r.1 := Team(name)]
    ensures r.0 == AddMembership(db, Membership(ownerId, r.1, EDITOR)).(teams := r.0.teams)
  {
    var id := FreshId(db.teams.Keys);
    (AddMembership(db, Membership(ownerId, id, EDITOR)).(teams := db.teams[id := Team(name)]), id)
  }

  /** In a store without dangling memberships, the creator's row is the
      new team's only one, so the creator may edit the team at once. */
  lemma CreatorIsEditor(db: Db, ownerId: Id, name: string)
    requires Intact(db)
    ensures var (db', id) := CreateTeam(db, ownerId, name);
      Authorized(db', ownerId, id, true) && |MembersOf(db', id)| == 1
  {
    var (db', id) := CreateTeam(db, ownerId, name);
    var k := CreatedTeamRows(db, ownerId, name);
    assert FirstMembership(db', id, ownerId) == Some(k);
  }

  /** The new team's only membership row is the creator's Editor row. */
  lemma CreatedTeamRows(db: Db, ownerId: Id, name: string) returns (k: Id)
    requires Intact(db)
    ensures var (db', id) := CreateTeam(db, ownerId, name);
      && k in db'.memberships && db'.memberships[k] == Membership(ownerId, id, EDITOR)
      && MembersOf(db', id) == {k} && MembershipIds(db', id, ownerId) == {k}
  {
    var (db', id) := CreateTeam(db, ownerId, name);
    k := FreshId(db.memberships.Keys);
    assert db'.memberships == db.memberships[k := Membership(ownerId, id, EDITOR)];
    forall j | j in db'.memberships && db'.memberships[j].teamId == id
      ensures j == k
    {
    }
  }

  lemma CreateTeamKeepsIntact(db: Db, ownerId: Id, name: string)
    requires Intact(db)
    ensures Intact(CreateTeam(db, ownerId, name).0)
  {
  }

  // ---- The service's update --------------------------------------------------

  /** The `newUsers` loop of `update_team_service`: an unknown e-mail stops
      it with NotFound; a known user without a row gets a Reader row, and
      `add_user_to_team` commits that row together with everything else the
      session holds. */
  function AddReaders(pending: Db, committed: Db, teamId: Id, emails: seq<string>): (r: Progress)
    ensures r.pending == pending.(memberships := r.pending.memberships)
    ensures (r.pending == pending && r.committed == committed) || r.committed == r.pending
    ensures Grows(pending.memberships, r.pending.memberships)
    ensures NewRowsAre(pending.memberships, r.pending.memberships, teamId, READER)
    ensures r.failed.None? <==> forall i | 0 <= i < |emails| :: UserByEmail(pending, emails[i]).Some?
    ensures r.failed.Some? ==> r.failed.value == NotFound
    ensures r.failed.None? ==> forall i | 0 <= i < |emails| :: IsMember(r.pending, UserByEmail(pending, emails[i]).value, teamId)
    ensures UniqueMemberships(pending) ==> UniqueMemberships(r.pending)
    decreases |emails|
  {
    if emails == [] then Progress(pending, committed, None)
    else
      match UserByEmail(pending, emails[0])
      case None => Progress(pending, committed, Some(NotFound))
      case Some(u) =>
        var next := if FirstMembership(pending, teamId, u).None? then AddMembership(pending, Membership(u, teamId, READER)) else pending;
        AddMembershipKeepsUnique(pending, Membership(u, teamId, READER));
        var r := AddReaders(next, if next == pending then committed else next, teamId, emails[1..]);
        AddReadersStep(pending, next, r, teamId, u, emails);
        r
  }

  /** The inductive step of `AddReaders`: what holds of the tail's run holds
      of the whole list. */
  lemma AddReadersStep(pending: Db, next: Db, r: Progress, teamId: Id, u: Id, emails: seq<string>)
    requires emails != [] && UserByEmail(pending, emails[0]) == Some(u)
    requires next == if FirstMembership(pending, teamId, u).None? then AddMembership(pending, Membership(u, teamId, READER)) else pending
    requires Grows(next.memberships, r.pending.memberships) && next.users == r.pending.users
    requires r.failed.None? <==> forall i | 0 <= i < |emails[1..]| :: UserByEmail(next, emails[1..][i]).Some?
    requires r.failed.None? ==> forall i | 0 <= i < |emails[1..]| :: IsMember(r.pending, UserByEmail(next, emails[1..][i]).value, teamId)
    ensures r.failed.None? <==> forall i | 0 <= i < |emails| :: UserByEmail(pending, emails[i]).Some?
    ensures r.failed.None? ==> forall i | 0 <= i < |emails| :: IsMember(r.pending, UserByEmail(pending, emails[i]).value, teamId)
  {
    forall e ensures UserByEmail(next, e) == UserByEmail(pending, e) {
      UserByEmailFrame(next, pending, e);
    }
    MemberStaysMember(next, r.pending, u, teamId);
    assert forall i | 1 <= i < |emails| :: emails[i] == emails[1..][i - 1];
  }

  /** `update_team_service`: NotFound and the role check as in
      `check_team_permissions`; a truthy name is written; the `newUsers`
      loop commits per added member; any non-empty `deleteUsers` fails,
      with NotFound for an unknown e-mail and otherwise with the call of a
      crud helper that does not exist. */
  function UpdateTeamService(db: Db, teamId: Id, userId: Id, req: TeamUpdate): (r: Outcome<Team>)
    ensures teamId !in db.teams ==> r == Outcome(db, Err(NotFound))
    ensures teamId in db.teams && !Authorized(db, userId, teamId, true) ==> r == Outcome(db, Err(Forbidden))
    ensures req.deleteUsers.Some? && req.deleteUsers.value != [] ==> r.result.Err?
    ensures r.result.Ok? ==>
      && teamId in db.teams && Authorized(db, userId, teamId, true)
      && r.committed.teams == db.teams[teamId := Team(if TruthyStr(req.name) then req.name.value else db.teams[teamId].name)]
      && r.result.value == r.committed.teams[teamId]
    ensures teamId in db.teams && Authorized(db, userId, teamId, true) && !AllKnown(db, req.newUsers) ==>
      r.result == Err(NotFound)
    ensures r.result.Ok? ==> AllKnown(db, req.newUsers)
    ensures r.result.Ok? && req.newUsers.Some? ==> forall i | 0 <= i < |req.newUsers.value| ::
      IsMember(r.committed, UserByEmail(db, req.newUsers.value[i]).value, teamId)
    ensures r.committed == db.(teams := r.committed.teams, memberships := r.committed.memberships)
    ensures Grows(db.memberships, r.committed.memberships)
    ensures NewRowsAre(db.memberships, r.committed.memberships, teamId, READER)
    ensures UniqueMemberships(db) ==> UniqueMemberships(r.committed)
  {
    if teamId !in db.teams then Outcome(db, Err(NotFound))
    else
      match CheckTeam(db, teamId, userId, true)
      case Err(e) => Outcome(db, Err(e))
      case Ok(_) =>
        var named := if TruthyStr(req.name) then db.(teams := db.teams[teamId := Team(req.name.value)]) else db;
        UserByEmailsFrame(named, db);
        var added := if req.newUsers.Some? then AddReaders(named, db, teamId, req.newUsers.value) else Progress(named, db, None);
        if added.failed.Some? then Outcome(added.committed, Err(added.failed.value))
        else if req.deleteUsers.Some? && req.deleteUsers.value != [] then
          var e := req.deleteUsers.value[0];
          Outcome(added.committed, Err(if UserByEmail(added.pending, e).None? then NotFound else Crash))
        else Outcome(added.pending, Ok(added.pending.teams[teamId]))
  }

  /** A member added before an unknown e-mail stays added: its row was
      committed before the error. */
  lemma PartialUpdateSurvives(db: Db, teamId: Id, userId: Id, known: string, unknown: string)
    requires teamId in db.teams && Authorized(db, userId, teamId, true)
    requires UserByEmail(db, known).Some? && !IsMember(db, UserByEmail(db, known).value, teamId)
    requires UserByEmail(db, unknown).None?
    ensures var r := UpdateTeamService(db, teamId, userId, TeamUpdate(None, Some([known, unknown]), None));
      r.result == Err(NotFound) && IsMember(r.committed, UserByEmail(db, known).value, teamId)
  {
    var u := UserByEmail(db, known).value;
    var next := AddMembership(db, Membership(u, teamId, READER));
    UserByEmailFrame(next, db, unknown);
    assert [known, unknown][1..] == [unknown];
    var tail := AddReaders(next, next, teamId, [unknown]);
    assert tail == Progress(next, next, Some(NotFound));
  }

  // ---- The router's update ---------------------------------------------------

  /** The router's `newUsers` loop AS WRITTEN: the session does not
      autoflush, so the membership lookup reads the store as it was before
      the request and misses a row added earlier in the same loop. */
  function AddEditorsAsWritten(before: Db, pending: Db, teamId: Id, emails: seq<string>): (r: Result<Db>)
    ensures r.Ok? <==> forall i | 0 <= i < |emails| :: UserByEmail(before, emails[i]).Some?
    ensures r.Err? ==> r.error == NotFound
    ensures r.Ok? ==> r.value == pending.(memberships := r.value.memberships)
    ensures r.Ok? ==> Grows(pending.memberships, r.value.memberships)
    ensures r.Ok? ==> NewRowsAre(pending.memberships, r.value.memberships, teamId, EDITOR)
    decreases |emails|
  {
    if emails == [] then Ok(pending)
    else
      match UserByEmail(before, emails[0])
      case None => Err(NotFound)
      case Some(u) =>
        var next := if FirstMembership(before, teamId, u).None? then AddMembership(pending, Membership(u, teamId, EDITOR)) else pending;
        AddEditorsAsWritten(before, next, teamId, emails[1..])
  }

  /** The same e-mail twice gives a non-member two rows in the team. */
  lemma DuplicateEmailAsWritten(db: Db, teamId: Id, email: string)
    requires UserByEmail(db, email).Some? && !IsMember(db, UserByEmail(db, email).value, teamId)
    ensures var r := AddEditorsAsWritten(db, db, teamId, [email, email]);
      r.Ok? && !UniqueMemberships(r.value)
  {
    var u := UserByEmail(db, email).value;
    var once := AddMembership(db, Membership(u, teamId, EDITOR));
    var twice := AddMembership(once, Membership(u, teamId, EDITOR));
    assert FirstMembership(db, teamId, u).None?;
    assert [email, email][1..] == [email];
    assert AddEditorsAsWritten(db, db, teamId, [email, email]) == AddEditorsAsWritten(db, once, teamId, [email]);
    assert [email][1..] == [];
    assert AddEditorsAsWritten(db, once, teamId, [email]) == AddEditorsAsWritten(db, twice, teamId, []);
    var a :| a in once.memberships && a !in db.memberships;
    var b :| b in twice.memberships && b !in once.memberships;
    assert twice.memberships[a] == twice.memberships[b];
  }

  /** The `newUsers` loop as intended: a user who already holds a row,
      including one added earlier in the same request, gets no second. */
  function AddEditors(pending: Db, teamId: Id, emails: seq<string>): (r: Result<Db>)
    ensures r.Ok? <==> forall i | 0 <= i < |emails| :: UserByEmail(pending, emails[i]).Some?
    ensures r.Err? ==> r.error == NotFound
    ensures r.Ok? ==> r.value == pending.(memberships := r.value.memberships)
    ensures r.Ok? ==> Grows(pending.memberships, r.value.memberships)
    ensures r.Ok? ==> NewRowsAre(pending.memberships, r.value.memberships, teamId, EDITOR)
    ensures r.Ok? ==> forall k | k in r.value.memberships && k !in pending.memberships ::
                        !IsMember(pending, r.value.memberships[k].userId, teamId)
    ensures r.Ok? ==> forall i | 0 <= i < |emails| :: IsMember(r.value, UserByEmail(pending, emails[i]).value, teamId)
    ensures r.Ok? && UniqueMemberships(pending) ==> UniqueMemberships(r.value)
    decreases |emails|
  {
    if emails == [] then Ok(pending)
    else
      match UserByEmail(pending, emails[0])
      case None => Err(NotFound)
      case Some(u) =>
        var next := if FirstMembership(pending, teamId, u).None? then AddMembership(pending, Membership(u, teamId, EDITOR)) else pending;
        AddMembershipKeepsUnique(pending, Membership(u, teamId, EDITOR));
        var r := AddEditors(next, teamId, emails[1..]);
        AddEditorsStep(pending, next, r, teamId, u, emails);
        r
  }

  /** The inductive step of `AddEditors`. */
  lemma AddEditorsStep(pending: Db, next: Db, r: Result<Db>, teamId: Id, u: Id, emails: seq<string>)
    requires emails != [] && UserByEmail(pending, emails[0]) == Some(u)
    requires next == if FirstMembership(pending, teamId, u).None? then AddMembership(pending, Membership(u, teamId, EDITOR)) else pending
    requires r.Ok? <==> forall i | 0 <= i < |emails[1..]| :: UserByEmail(next, emails[1..][i]).Some?
    requires r.Ok? ==> r.value == next.(memberships := r.value.memberships) && Grows(next.memberships, r.value.memberships)
    requires r.Ok? ==> forall k | k in r.value.memberships && k !in next.memberships :: !IsMember(next, r.value.memberships[k].userId, teamId)
    requires r.Ok? ==> forall i | 0 <= i < |emails[1..]| :: IsMember(r.value, UserByEmail(next, emails[1..][i]).value, teamId)
    ensures r.Ok? <==> forall i | 0 <= i < |emails| :: UserByEmail(pending, emails[i]).Some?
    ensures r.Ok? ==> forall k | k in r.value.memberships && k !in pending.memberships ::
                        !IsMember(pending, r.value.memberships[k].userId, teamId)
    ensures r.Ok? ==> forall i | 0 <= i < |emails| :: IsMember(r.value, UserByEmail(pending, emails[i]).value, teamId)
  {
    forall e ensures UserByEmail(next, e) == UserByEmail(pending, e) {
      UserByEmailFrame(next, pending, e);
    }
    assert forall i | 1 <= i < |emails| :: emails[i] == emails[1..][i - 1];
    if r.Ok? {
      MemberStaysMember(next, r.value, u, teamId);
      forall k | k in r.value.memberships && k !in pending.memberships
        ensures !IsMember(pending, r.value.memberships[k].userId, teamId)
      {
        if k in next.memberships {
          assert next.memberships[k] == Membership(u, teamId, EDITOR);
        } else if IsMember(pending, r.value.memberships[k].userId, teamId) {
          MemberStaysMember(pending, next, r.value.memberships[k].userId, teamId);
        }
      }
    }
  }

  /** Row `k` is the first row of the team, in `db`, of a user that one of
      `emails` names: a row the `deleteUsers` loop removes. */
  ghost predicate Delisted(db: Db, teamId: Id, emails: seq<string>, k: Id) {
    exists i | 0 <= i < |emails| ::
      UserByEmail(db, emails[i]).Some? && FirstMembership(db, teamId, UserByEmail(db, emails[i]).value) == Some(k)
  }

  /** The router's `deleteUsers` loop: an unknown e-mail stops it with
      NotFound; otherwise the user's first row of the team in the store as
      it was before the request, if any, is deleted. */
  function RemoveMembers(before: Db, pending: Db, teamId: Id, emails: seq<string>): (r: Result<Db>)
    ensures r.Ok? <==> forall i | 0 <= i < |emails| :: UserByEmail(before, emails[i]).Some?
    ensures r.Err? ==> r.error == NotFound
    ensures r.Ok? ==> r.value == pending.(memberships := r.value.memberships)
    ensures r.Ok? ==> forall k | k in r.value.memberships :: k in pending.memberships && r.value.memberships[k] == pending.memberships[k]
    ensures r.Ok? ==> forall k | k in pending.memberships && k !in r.value.memberships ::
                        k in before.memberships && before.memberships[k].teamId == teamId
    ensures r.Ok? ==> forall i | 0 <= i < |emails| ::
                        var f := FirstMembership(before, teamId, UserByEmail(before, emails[i]).value);
                        f.Some? ==> f.value !in r.value.memberships
    ensures r.Ok? ==> forall k | k in pending.memberships && k !in r.value.memberships :: Delisted(before, teamId, emails, k)
    decreases |emails|
  {
    if emails == [] then Ok(pending)
    else
      match UserByEmail(before, emails[0])
      case None => Err(NotFound)
      case Some(u) =>
        var next := match FirstMembership(before, teamId, u)
          case None => pending
          case Some(k) => pending.(memberships := pending.memberships - {k});
        var r := RemoveMembers(before, next, teamId, emails[1..]);
        assert forall i | 1 <= i < |emails| :: emails[i] == emails[1..][i - 1];
        r
  }

  /** The router's `update_team`, corrected: the team, the caller's row and
      its role 2; a present name (even an empty one) is written; then the
      `newUsers` and `deleteUsers` loops; one commit at the end, so an error
      leaves the store as it was. */
  function UpdateTeam(db: Db, teamId: Id, userId: Id, req: TeamUpdate): (r: Result<Db>)
    ensures teamId !in db.teams ==> r == Err(NotFound)
    ensures teamId in db.teams && !Authorized(db, userId, teamId, true) ==> r == Err(Forbidden)
    ensures r.Ok? <==>
      (teamId in db.teams && Authorized(db, userId, teamId, true)
       && (req.newUsers.Some? ==> forall i | 0 <= i < |req.newUsers.value| :: UserByEmail(db, req.newUsers.value[i]).Some?)
       && (req.deleteUsers.Some? ==> forall i | 0 <= i < |req.deleteUsers.value| :: UserByEmail(db, req.deleteUsers.value[i]).Some?))
    ensures r.Err? ==> r.error in {NotFound, Forbidden}
    ensures r.Ok? ==> r.value.teams == db.teams[teamId := Team(if req.name.Some? then req.name.value else db.teams[teamId].name)]
    ensures r.Ok? ==> r.value == db.(teams := r.value.teams, memberships := r.value.memberships)
    ensures r.Ok? ==> forall k | k in db.memberships ::
      (k in r.value.memberships <==> !(req.deleteUsers.Some? && Delisted(db, teamId, req.deleteUsers.value, k)))
    ensures r.Ok? ==> forall k | k in db.memberships && k in r.value.memberships :: r.value.memberships[k] == db.memberships[k]
  {
    if teamId !in db.teams then Err(NotFound)
    else
      var _ :- CheckMember(db, teamId, userId, true);
      var named := Rename(db, teamId, req.name);
      UserByEmailsFrame(named, db);
      var added :- Invite(named, teamId, req.newUsers);
      UserByEmailsFrame(added, db);
      if req.deleteUsers.Some? then RemoveMembers(db, added, teamId, req.deleteUsers.value) else Ok(added)
  }

  /** `if update_data.name is not None: team_obj.name = update_data.name`. */
  function Rename(db: Db, teamId: Id, name: Option<string>): (r: Db)
    requires teamId in db.teams
    ensures r.teams == db.teams[teamId := Team(if name.Some? then name.value else db.teams[teamId].name)]
    ensures r == db.(teams := r.teams)
  {
    if name.Some? then db.(teams := db.teams[teamId := Team(name.value)]) else db
  }

  /** The `newUsers` loop when the field is present. */
  function Invite(db: Db, teamId: Id, emails: Option<seq<string>>): (r: Result<Db>)
    ensures emails.None? ==> r == Ok(db)
    ensures emails.Some? ==> r == AddEditors(db, teamId, emails.value)
  {
    if emails.Some? then AddEditors(db, teamId, emails.value) else Ok(db)
  }

  /** Every e-mail of a present list names a user. */
  ghost predicate AllKnown(db: Db, emails: Option<seq<string>>) {
    emails.Some? ==> forall i | 0 <= i < |emails.value| :: UserByEmail(db, emails.value[i]).Some?
  }

  /** `UserByEmailFrame` for every e-mail at once. */
  lemma UserByEmailsFrame(a: Db, b: Db)
    requires a.users == b.users
    ensures forall e :: UserByEmail(a, e) == UserByEmail(b, e)
  {
    forall e ensures UserByEmail(a, e) == UserByEmail(b, e) {
      UserByEmailFrame(a, b, e);
    }
  }

  /** The router's `update_team` as written, with the loop that can add a
      second row for one user. */
  function UpdateTeamAsWritten(db: Db, teamId: Id, userId: Id, req: TeamUpdate): (r: Result<Db>)
    ensures teamId in db.teams && !Authorized(db, userId, teamId, true) ==> r == Err(Forbidden)
    ensures r == Err(NotFound) <==>
      teamId !in db.teams
      || (Authorized(db, userId, teamId, true) && !(AllKnown(db, req.newUsers) && AllKnown(db, req.deleteUsers)))
    ensures r.Ok? <==>
      teamId in db.teams && Authorized(db, userId, teamId, true) && AllKnown(db, req.newUsers) && AllKnown(db, req.deleteUsers)
    ensures r.Ok? ==> r.value.teams == db.teams[teamId := Team(if req.name.Some? then req.name.value else db.teams[teamId].name)]
    ensures r.Ok? ==> r.value == db.(teams := r.value.teams, memberships := r.value.memberships)
    ensures r.Ok? ==> NewRowsAre(db.memberships, r.value.memberships, teamId, EDITOR)
    ensures r.Ok? ==> forall k | k in db.memberships ::
      (k in r.value.memberships <==> !(req.deleteUsers.Some? && Delisted(db, teamId, req.deleteUsers.value, k)))
    ensures r.Ok? ==> forall k | k in db.memberships && k in r.value.memberships :: r.value.memberships[k] == db.memberships[k]
    ensures r.Ok? && req.deleteUsers.Some? ==> forall i | 0 <= i < |req.deleteUsers.value| ::
      var f := FirstMembership(db, teamId, UserByEmail(db, req.deleteUsers.value[i]).value);
      f.Some? ==> f.value !in r.value.memberships
  {
    if teamId !in db.teams then Err(NotFound)
    else
      var _ :- CheckMember(db, teamId, userId, true);
      var named := if req.name.Some? then db.(teams := db.teams[teamId := Team(req.name.value)]) else db;
      var added :- if req.newUsers.Some? then AddEditorsAsWritten(db, named, teamId, req.newUsers.value) else Ok(named);
      if req.deleteUsers.Some? then RemoveMembers(db, added, teamId, req.deleteUsers.value) else Ok(added)
  }

  /** The counterexample of the finding on the whole route: one request
      naming a non-member twice leaves that user with two rows. */
  lemma DuplicateInviteAsWritten(db: Db, teamId: Id, userId: Id, email: string)
    requires teamId in db.teams && Authorized(db, userId, teamId, true)
    requires UserByEmail(db, email).Some? && !IsMember(db, UserByEmail(db, email).value, teamId)
    ensures var r := UpdateTeamAsWritten(db, teamId, userId, TeamUpdate(None, Some([email, email]), None));
      r.Ok? && !UniqueMemberships(r.value)
  {
    DuplicateEmailAsWritten(db, teamId, email);
  }

  /** The corrected update keeps one row per (team, user) pair. */
  lemma UpdateTeamKeepsUniqueMemberships(db: Db, teamId: Id, userId: Id, req: TeamUpdate)
    requires UniqueMemberships(db)
    ensures UpdateTeam(db, teamId, userId, req).Ok? ==> UniqueMemberships(UpdateTeam(db, teamId, userId, req).value)
  {
  }

  /** With one row per pair, a member listed in `deleteUsers` is no
      longer a member afterwards, even if `newUsers` lists it too. */
  lemma ListedMemberLeaves(db: Db, teamId: Id, userId: Id, req: TeamUpdate, i: int, u: Id)
    requires UniqueMemberships(db)
    requires UpdateTeam(db, teamId, userId, req).Ok?
    requires req.deleteUsers.Some? && 0 <= i < |req.deleteUsers.value|
    requires UserByEmail(db, req.deleteUsers.value[i]) == Some(u) && IsMember(db, u, teamId)
    ensures !IsMember(UpdateTeam(db, teamId, userId, req).value, u, teamId)
  {
    var db' := UpdateTeam(db, teamId, userId, req).value;
    var named := Rename(db, teamId, req.name);
    UserByEmailsFrame(named, db);
    var added := Invite(named, teamId, req.newUsers).value;
    UserByEmailsFrame(added, db);
    assert db' == RemoveMembers(db, added, teamId, req.deleteUsers.value).value;
    var f := FirstMembership(db, teamId, u).value;
    assert f !in db'.memberships;
    assert forall k | k in db.memberships && db.memberships[k].teamId == teamId && db.memberships[k].userId == u :: k == f;
    assert IsMember(named, u, teamId);
    assert forall k | k in added.memberships && k !in named.memberships :: added.memberships[k].userId != u;
  }

  /** A non-member listed in `newUsers` is a member afterwards, even if
      `deleteUsers` lists it too. */
  lemma InvitedUserJoins(db: Db, teamId: Id, userId: Id, req: TeamUpdate, i: int, u: Id)
    requires UpdateTeam(db, teamId, userId, req).Ok?
    requires req.newUsers.Some? && 0 <= i < |req.newUsers.value|
    requires UserByEmail(db, req.newUsers.value[i]) == Some(u) && !IsMember(db, u, teamId)
    ensures IsMember(UpdateTeam(db, teamId, userId, req).value, u, teamId)
  {
    var db' := UpdateTeam(db, teamId, userId, req).value;
    var named := Rename(db, teamId, req.name);
    UserByEmailsFrame(named, db);
    var added := Invite(named, teamId, req.newUsers).value;
    UserByEmailsFrame(added, db);
    assert IsMember(added, u, teamId);
    var k :| k in added.memberships && added.memberships[k].teamId == teamId && added.memberships[k].userId == u;
    assert k !in db.memberships;
    assert k in db'.memberships;
  }

  // ---- Deletion --------------------------------------------------------------

  /** The streams of the team's projects. */
  function StreamsOfTeam(db: Db, teamId: Id): set<Id> {
    set k | k in db.streams && db.streams[k].projectId in ProjectsOfTeam(db, teamId)
  }

  /** The router's `delete_team` AS WRITTEN: streams, projects, membership
      rows and the team go, but the tasks and goals of those streams stay. */
  function DeleteTeamAsWritten(db: Db, teamId: Id, userId: Id): (r: Result<Db>)
    ensures r == Err(NotFound) <==> teamId !in db.teams
    ensures r.Ok? <==> teamId in db.teams && Authorized(db, userId, teamId, true)
    ensures r.Err? ==> r.error in {NotFound, Forbidden}
    ensures r.Ok? ==> var db' := r.value;
      && db'.teams == db.teams - {teamId}
      && (forall k :: k in db'.memberships <==> k in db.memberships && db.memberships[k].teamId != teamId)
      && (forall k :: k in db'.projects <==> k in db.projects && db.projects[k].teamId != teamId)
      && (forall k :: k in db'.streams <==> k in db.streams && k !in StreamsOfTeam(db, teamId))
      && (forall k | k in db'.memberships :: db'.memberships[k] == db.memberships[k])
      && (forall k | k in db'.projects :: db'.projects[k] == db.projects[k])
      && (forall k | k in db'.streams :: db'.streams[k] == db.streams[k])
      && db' == db.(teams := db'.teams, memberships := db'.memberships, projects := db'.projects, streams := db'.streams)
  {
    var _ :- CheckTeam(db, teamId, userId, true);
    var projectIds := ProjectsOfTeam(db, teamId);
    Ok(db.(
      streams := DropStreams(db.streams, projectIds),
      projects := DropProjects(db.projects, teamId),
      memberships := DropMemberships(db.memberships, teamId),
      teams := db.teams - {teamId}))
  }

  /** The counterexample of the finding: a task of the deleted team
      survives its stream. */
  lemma DeleteTeamOrphansTasks(db: Db, teamId: Id, userId: Id, taskId: Id)
    requires teamId in db.teams && Authorized(db, userId, teamId, true)
    requires taskId in db.tasks && StreamTeam(db, db.tasks[taskId].streamId) == Some(teamId)
    ensures var r := DeleteTeamAsWritten(db, teamId, userId);
      && r.Ok? && taskId in r.value.tasks
      && r.value.tasks[taskId].streamId !in r.value.streams
      && !Intact(r.value)
  {
    var s := db.tasks[taskId].streamId;
    assert db.streams[s].projectId in ProjectsOfTeam(db, teamId);
    assert s in StreamsOfTeam(db, teamId);
  }

  /** `delete_team_service`, and the router's `delete_team` as intended:
      the team's tasks and goals, its streams, its projects, its membership
      rows and the team itself. */
  function DeleteTeam(db: Db, teamId: Id, userId: Id): (r: Result<Db>)
    ensures r == Err(NotFound) <==> teamId !in db.teams
    ensures r.Ok? <==> teamId in db.teams && Authorized(db, userId, teamId, true)
    ensures r.Err? ==> r.error in {NotFound, Forbidden}
    ensures r.Ok? ==> var db' := r.value;
      && db'.teams == db.teams - {teamId}
      && (forall k :: k in db'.memberships <==> k in db.memberships && db.memberships[k].teamId != teamId)
      && (forall k :: k in db'.projects <==> k in db.projects && db.projects[k].teamId != teamId)
      && (forall k :: k in db'.streams <==> k in db.streams && k !in StreamsOfTeam(db, teamId))
      && (forall k :: k in db'.tasks <==> k in db.tasks && db.tasks[k].streamId !in StreamsOfTeam(db, teamId))
      && (forall k :: k in db'.goals <==> k in db.goals && db.goals[k].streamId !in StreamsOfTeam(db, teamId))
      && (forall k | k in db'.memberships :: db'.memberships[k] == db.memberships[k])
      && (forall k | k in db'.projects :: db'.projects[k] == db.projects[k])
      && (forall k | k in db'.streams :: db'.streams[k] == db.streams[k])
      && (forall k | k in db'.tasks :: db'.tasks[k] == db.tasks[k])
      && (forall k | k in db'.goals :: db'.goals[k] == db.goals[k])
      && db'.users == db.users && db'.assignments == db.assignments && db'.relations == db.relations
      && db'.reminders == db.reminders && db'.subscriptions == db.subscriptions && db'.connections == db.connections
  {
    var _ :- CheckTeam(db, teamId, userId, true);
    var projectIds := ProjectsOfTeam(db, teamId);
    var streamIds := StreamsOfTeam(db, teamId);
    Ok(db.(
      tasks := DropTasks(db.tasks, streamIds),
      goals := DropGoals(db.goals, streamIds),
      streams := DropStreams(db.streams, projectIds),
      projects := DropProjects(db.projects, teamId),
      memberships := DropMemberships(db.memberships, teamId),
      teams := db.teams - {teamId}))
  }

  /** The full cascade leaves no row without its parent. */
  lemma DeleteTeamKeepsIntact(db: Db, teamId: Id, userId: Id)
    requires Intact(db)
    ensures DeleteTeam(db, teamId, userId).Ok? ==> Intact(DeleteTeam(db, teamId, userId).value)
  {
    var r := DeleteTeam(db, teamId, userId);
    if r.Ok? {
      var db' := r.value;
      var streamIds := StreamsOfTeam(db, teamId);
      forall k | k in db'.streams
        ensures db'.streams[k].projectId in db'.projects
      {
        var p := db.streams[k].projectId;
        assert p !in ProjectsOfTeam(db, teamId);
      }
      forall k | k in db'.tasks
        ensures db'.tasks[k].streamId in db'.streams
      {
        assert db.tasks[k].streamId !in streamIds;
      }
      forall k | k in db'.goals
        ensures db'.goals[k].streamId in db'.streams
      {
        assert db.goals[k].streamId !in streamIds;
      }
    }
  }

  /** Nothing of another team goes with it. */
  lemma DeleteTeamSparesOthers(db: Db, teamId: Id, userId: Id, streamId: Id)
    requires DeleteTeam(db, teamId, userId).Ok?
    requires StreamTeam(db, streamId).Some? && StreamTeam(db, streamId).value != teamId
    ensures var db' := DeleteTeam(db, teamId, userId).value;
      && StreamTeam(db', streamId) == StreamTeam(db, streamId)
      && TasksOfStream(db', streamId) == TasksOfStream(db, streamId)
      && GoalsOfStream(db', streamId) == GoalsOfStream(db, streamId)
  {
  }
}

=== FILE: timeline.dfy ===
/** The Gantt chart's time axis: how many days a scale shows, the visible
    span, and where the axis ticks go.

    A timestamp is a number of milliseconds. The calendar year and month
    of the centre date (in local time) are inputs: the conversion of a
    timestamp into a local calendar date is not part of this model. Pixel
    quantities are `real`s, so the rounding of IEEE doubles is not
    modelled either. */
module Timeline {
  import opened Base

  const DAY_MS: int := 24 * 60 * 60 * 1000
  const HOUR_MS: int := 60 * 60 * 1000

  // ---- Numbers ------------------------------------------------------------

  function RMax(a: real, b: real): (r: real)
    ensures r >= a && r >= b && (r == a || r == b)
  {
    if a >= b then a else b
  }

  /** `Math.ceil`. */
  function Ceil(x: real): (r: int)
    ensures r as real - 1.0 < x <= r as real
  {
    if x.Floor as real == x then x.Floor else x.Floor + 1
  }

  /** JavaScript truthiness of a number that may be missing. */
  predicate TruthyReal(x: Option<real>) {
    x.Some? && x.value != 0.0
  }

  // ---- calcScaleDays ------------------------------------------------------

  /** The leap-year rule of the "year" scale. */
  predicate IsLeap(y: int) {
    (y % 4 == 0 && y % 100 != 0) || y % 400 == 0
  }

  /** The year `new Date(y, ...)` means: 0..99 are read as 1900..1999. */
  function DateYear(y: int): int {
    if 0 <= y <= 99 then 1900 + y else y
  }

  /** `new Date(y, m + 1, 0).getDate()`: the last day of month `m` (0-based)
      of the year `new Date` reads `y` as. */
  function DaysInMonth(y: int, m: int): (d: int)
    requires 0 <= m < 12
    ensures 28 <= d <= 31
    ensures m == 1 ==> (d == 29 <==> IsLeap(DateYear(y)))
    ensures m != 1 ==> d == (if m == 3 || m == 5 || m == 8 || m == 10 then 30 else 31)
  {
    if m == 1 then (if IsLeap(DateYear(y)) then 29 else 28)
    else if m == 3 || m == 5 || m == 8 || m == 10 then 30
    else 31
  }

  /** The days of `count` consecutive months from month `m`. */
  function MonthsDays(y: int, m: int, count: nat): (d: int)
    requires 0 <= m && m + count <= 12
    ensures 28 * count <= d <= 31 * count
    decreases count
  {
    if count == 0 then 0 else DaysInMonth(y, m) + MonthsDays(y, m + 1, count - 1)
  }

  /** `calcScaleDays` for a centre date in year `y` and month `month`. */
  function CalcScaleDays(scaleType: string, y: int, month: int): (r: int)
    requires 0 <= month < 12
    ensures scaleType == "day" ==> r == 1
    ensures scaleType == "week" ==> r == 7
    ensures scaleType == "two-weeks" ==> r == 14
    ensures scaleType == "month" ==> 28 <= r <= 31
    ensures scaleType == "quarter" ==> 90 <= r <= 92
    ensures scaleType == "year" ==> (r == 366 <==> IsLeap(y)) && (r == 365 || r == 366)
    ensures scaleType !in {"day", "week", "two-weeks", "month", "quarter", "year"} ==> r == 30
    ensures r >= 1
  {
    if scaleType == "day" then 1
    else if scaleType == "week" then 7
    else if scaleType == "two-weeks" then 14
    else if scaleType == "month" then DaysInMonth(y, month)
    else if scaleType == "quarter" then
      var qStart := (month / 3) * 3;
      var d := MonthsDays(y, qStart, 3);
      assert qStart == 0 || qStart == 3 || qStart == 6 || qStart == 9;
      d
    else if scaleType == "year" then (if IsLeap(y) then 366 else 365)
    else 30
  }

  // ---- buildTimeline ------------------------------------------------------

  datatype Tick = Tick(timestamp: real, x: real)

  /** The `timeline` object. */
  datatype View = View(start: real, end: real, width: real, ticks: seq<Tick>, pxPerDay: real, totalDays: int)

  /** What `buildTimeline` returns; `timeline` is `None` for `null`. */
  datatype Built = Built(viewStart: real, viewEnd: real, totalDays: int, timeline: Option<View>)

  /** The step between axis ticks, in days, for a scale. */
  function DayStep(scaleType: string): (d: int)
    ensures d >= 1
    ensures scaleType in {"day", "week", "two-weeks"} ==> d == 1
    ensures scaleType !in {"day", "week", "two-weeks", "month", "quarter", "year"} ==> d == 7
  {
    match scaleType
    case "day" => 1
    case "week" => 1
    case "two-weeks" => 1
    case "month" => 2
    case "quarter" => 7
    case "year" => 30
    case _ => 7
  }

  /** The shown span and its length in days: a data range gets 5% padding
      on each side, at least a day; otherwise the scale's length centred on
      `centerTs`. */
  function Span(scaleType: string, centerTs: int, y: int, month: int,
                minDate: Option<real>, maxDate: Option<real>): (r: (real, real, int))
    requires 0 <= month < 12
  {
    if minDate.Some? && maxDate.Some? then
      var span := maxDate.value - minDate.value;
      var padding := RMax(span * 0.05, DAY_MS as real);
      var startTs := minDate.value - padding;
      var endTs := maxDate.value + padding;
      (startTs, endTs, Ceil((endTs - startTs) / DAY_MS as real))
    else
      var totalDays := CalcScaleDays(scaleType, y, month);
      var rangeMs := (totalDays * DAY_MS) as real;
      (centerTs as real - rangeMs / 2.0, centerTs as real + rangeMs / 2.0, totalDays)
  }

  /** The day offsets the loop `for (d = 0; d <= totalDays; d += dayStep)`
      visits from `d` on; with `stopPastEnd` it also breaks at the first
      offset whose timestamp is after `endTs`. */
  function Offsets(d: int, totalDays: int, step: int, startTs: real, endTs: real, stopPastEnd: bool): (r: seq<int>)
    requires step >= 1
    ensures r != [] ==> r[0] == d
    ensures forall i | 0 <= i < |r| - 1 :: r[i + 1] == r[i] + step
    ensures forall i | 0 <= i < |r| :: d <= r[i] <= totalDays
    ensures stopPastEnd ==> forall i | 0 <= i < |r| :: startTs + (r[i] * DAY_MS) as real <= endTs
    ensures !stopPastEnd ==> (r != [] <==> d <= totalDays)
    ensures !stopPastEnd && r != [] ==> r[|r| - 1] + step > totalDays
    decreases if d <= totalDays then totalDays - d + 1 else 0
  {
    if d > totalDays then []
    else if stopPastEnd && startTs + (d * DAY_MS) as real > endTs then []
    else [d] + Offsets(d + step, totalDays, step, startTs, endTs, stopPastEnd)
  }

  /** One tick per offset: its timestamp and its x position. */
  function TicksAt(offsets: seq<int>, startTs: real, pxPerDay: real): (r: seq<Tick>)
    ensures |r| == |offsets|
    ensures forall i | 0 <= i < |r| ::
      r[i] == Tick(startTs + (offsets[i] * DAY_MS) as real, offsets[i] as real * pxPerDay)
  {
    seq(|offsets|, i requires 0 <= i < |offsets| =>
      Tick(startTs + (offsets[i] * DAY_MS) as real, offsets[i] as real * pxPerDay))
  }

  /** The hour ticks of the "day" scale: every whole hour from the first
      at or after `startTs` up to `endTs`. */
  function HourTicks(ts: int, startTs: real, endTs: real, pxPerDay: real): (r: seq<Tick>)
    ensures forall i | 0 <= i < |r| ::
      && r[i].timestamp == (ts + i * HOUR_MS) as real
      && r[i].timestamp <= endTs
    ensures (ts as real <= endTs) == (r != [])
    decreases if ts as real <= endTs then endTs.Floor - ts + 1 else 0
  {
    if ts as real > endTs then []
    else
      var rest := HourTicks(ts + HOUR_MS, startTs, endTs, pxPerDay);
      var r := [Tick(ts as real, ((ts as real - startTs) / DAY_MS as real) * pxPerDay)] + rest;
      forall i | 1 <= i < |r|
        ensures ts + i * HOUR_MS == (ts + HOUR_MS) + (i - 1) * HOUR_MS
      {
      }
      r
  }

  /** The axis ticks: day offsets over a data range (stopping past its end),
      whole hours on the "day" scale, day offsets otherwise. */
  function AxisTicks(scaleType: string, ranged: bool, startTs: real, endTs: real, totalDays: int, pxPerDay: real): seq<Tick> {
    var step := DayStep(scaleType);
    if ranged then TicksAt(Offsets(0, totalDays, step, startTs, endTs, true), startTs, pxPerDay)
    else if scaleType == "day" then HourTicks(Ceil(startTs / HOUR_MS as real) * HOUR_MS, startTs, endTs, pxPerDay)
    else TicksAt(Offsets(0, totalDays, step, startTs, endTs, false), startTs, pxPerDay)
  }

  /** `buildTimeline`; `chartWidth` is `None` when missing, and both it and
      `0` are falsy. */
  function BuildTimeline(scaleType: string, centerTs: int, y: int, month: int, chartWidth: Option<real>,
                         minDate: Option<real>, maxDate: Option<real>): (b: Built)
    requires 0 <= month < 12
    ensures var (s, e, days) := Span(scaleType, centerTs, y, month, minDate, maxDate);
      b.viewStart == s && b.viewEnd == e && b.totalDays == days
    ensures b.timeline.None? <==> !TruthyReal(chartWidth)
    ensures b.timeline.Some? ==>
      (b.timeline.value.start == b.viewStart && b.timeline.value.end == b.viewEnd
       && b.timeline.value.totalDays == b.totalDays
       && b.timeline.value.ticks == AxisTicks(scaleType, minDate.Some? && maxDate.Some?, b.viewStart, b.viewEnd,
                                              b.totalDays, b.timeline.value.pxPerDay))
  {
    var (startTs, endTs, totalDays) := Span(scaleType, centerTs, y, month, minDate, maxDate);
    var ranged := minDate.Some? && maxDate.Some?;
    if !TruthyReal(chartWidth) then Built(startTs, endTs, totalDays, None)
    else
      var w := chartWidth.value;
      var scaleDays := CalcScaleDays(scaleType, y, month);
      var pxPerDay := if ranged then RMax(w / scaleDays as real, 0.5) else RMax(w / totalDays as real, 1.0);
      var width := if ranged then RMax(w, (totalDays as real * pxPerDay).Floor as real) else w;
      var ticks := AxisTicks(scaleType, ranged, startTs, endTs, totalDays, pxPerDay);
      Built(startTs, endTs, totalDays, Some(View(startTs, endTs, width, ticks, pxPerDay, totalDays)))
  }

  // ---- Properties ---------------------------------------------------------

  /** The four quarters add up to the year, except in year 0, which the
      "year" scale counts as leap but `new Date` reads as 1900. */
  lemma QuartersMakeTheYear(y: int, month: int)
    requires 0 <= month < 12
    ensures y != 0 ==>
      CalcScaleDays("quarter", y, 0) + CalcScaleDays("quarter", y, 3) +
      CalcScaleDays("quarter", y, 6) + CalcScaleDays("quarter", y, 9) == CalcScaleDays("year", y, month)
    ensures y == 0 ==>
      CalcScaleDays("quarter", y, 0) + CalcScaleDays("quarter", y, 3) +
      CalcScaleDays("quarter", y, 6) + CalcScaleDays("quarter", y, 9) == 365 &&
      CalcScaleDays("year", y, month) == 366
  {
    QuarterSum(y);
    if 1 <= y <= 99 {
      assert IsLeap(1900 + y) == IsLeap(y) by {
        assert (1900 + y) % 4 == y % 4;
        assert (1900 + y) % 100 != 0;
        assert (1900 + y) % 400 != 0;
        assert y % 100 != 0 && y % 400 != 0;
      }
    }
  }

  /** The quarters hold every month once: 337 days besides February. */
  lemma QuarterSum(y: int)
    ensures CalcScaleDays("quarter", y, 0) + CalcScaleDays("quarter", y, 3) +
      CalcScaleDays("quarter", y, 6) + CalcScaleDays("quarter", y, 9) == 337 + DaysInMonth(y, 1)
  {
    assert CalcScaleDays("quarter", y, 0) == MonthsDays(y, 0, 3);
    assert CalcScaleDays("quarter", y, 3) == MonthsDays(y, 3, 3);
    assert CalcScaleDays("quarter", y, 6) == MonthsDays(y, 6, 3);
    assert CalcScaleDays("quarter", y, 9) == MonthsDays(y, 9, 3);
    assert MonthsDays(y, 2, 1) == 31;
    assert MonthsDays(y, 0, 3) == 62 + DaysInMonth(y, 1);
    assert MonthsDays(y, 5, 1) == 30;
    assert MonthsDays(y, 3, 3) == 91;
    assert MonthsDays(y, 8, 1) == 30;
    assert MonthsDays(y, 6, 3) == 92;
    assert MonthsDays(y, 11, 1) == 31;
    assert MonthsDays(y, 9, 3) == 92;
  }

  /** The fixed scales do not depend on the centre date. */
  lemma FixedScalesIgnoreDate(y1: int, m1: int, y2: int, m2: int, scaleType: string)
    requires 0 <= m1 < 12 && 0 <= m2 < 12
    requires scaleType !in {"month", "quarter", "year"}
    ensures CalcScaleDays(scaleType, y1, m1) == CalcScaleDays(scaleType, y2, m2)
  {
  }

  /** The chart width decides only whether there is a `timeline`: the span
      and its day count are those of any other width. */
  lemma WidthOnlyGatesTimeline(scaleType: string, centerTs: int, y: int, month: int,
                               w1: Option<real>, w2: Option<real>, minDate: Option<real>, maxDate: Option<real>)
    requires 0 <= month < 12
    ensures var b1 := BuildTimeline(scaleType, centerTs, y, month, w1, minDate, maxDate);
      var b2 := BuildTimeline(scaleType, centerTs, y, month, w2, minDate, maxDate);
      b1.totalDays == b2.totalDays && b1.viewStart == b2.viewStart && b1.viewEnd == b2.viewEnd
    ensures BuildTimeline(scaleType, centerTs, y, month, Some(0.0), minDate, maxDate).timeline.None?
  {
  }

  /** Without a data range the span is the scale's length, centred on
      `centerTs`. */
  lemma CentredWithoutRange(scaleType: string, centerTs: int, y: int, month: int,
                            chartWidth: Option<real>, minDate: Option<real>, maxDate: Option<real>)
    requires 0 <= month < 12
    requires minDate.None? || maxDate.None?
    ensures var b := BuildTimeline(scaleType, centerTs, y, month, chartWidth, minDate, maxDate);
      && b.totalDays == CalcScaleDays(scaleType, y, month)
      && b.viewStart + b.viewEnd == 2.0 * centerTs as real
      && b.viewEnd - b.viewStart == (b.totalDays * DAY_MS) as real
  {
  }

  /** With a data range the span holds it with at least a day to spare on
      each side, and the day count covers the span. */
  lemma RangeIsPadded(scaleType: string, centerTs: int, y: int, month: int,
                      chartWidth: Option<real>, lo: real, hi: real)
    requires 0 <= month < 12
    requires lo <= hi
    ensures var b := BuildTimeline(scaleType, centerTs, y, month, chartWidth, Some(lo), Some(hi));
      && b.viewStart <= lo - DAY_MS as real
      && b.viewEnd >= hi + DAY_MS as real
      && (b.totalDays * DAY_MS) as real >= b.viewEnd - b.viewStart
      && b.totalDays >= 2
  {
    SpanPadded(scaleType, centerTs, y, month, lo, hi);
  }

  lemma SpanPadded(scaleType: string, centerTs: int, y: int, month: int, lo: real, hi: real)
    requires 0 <= month < 12
    requires lo <= hi
    ensures var (s, e, days) := Span(scaleType, centerTs, y, month, Some(lo), Some(hi));
      && s <= lo - DAY_MS as real
      && e >= hi + DAY_MS as real
      && (days * DAY_MS) as real >= e - s
      && days >= 2
  {
    var (s, e, days) := Span(scaleType, centerTs, y, month, Some(lo), Some(hi));
    var d := DAY_MS as real;
    var q := (e - s) / d;
    assert e - s >= 2.0 * d;
    assert q * d == e - s;
    assert q >= 2.0;
    assert days == Ceil(q);
    assert days as real >= q;
    assert (days * DAY_MS) as real == days as real * d;
    MulMonotone(q, days as real, d);
  }

  lemma MulMonotone(x: real, y: real, p: real)
    requires x <= y && p >= 0.0
    ensures x * p <= y * p
  {
    assert y * p - x * p == (y - x) * p;
  }

  lemma StepTickSpacing(offs: seq<int>, step: int, startTs: real, pxPerDay: real)
    requires forall i | 0 <= i < |offs| - 1 :: offs[i + 1] == offs[i] + step
    ensures var ticks := TicksAt(offs, startTs, pxPerDay);
      forall i | 0 <= i < |ticks| - 1 :: ticks[i + 1].timestamp - ticks[i].timestamp == (step * DAY_MS) as real
  {
    var ticks := TicksAt(offs, startTs, pxPerDay);
    forall i | 0 <= i < |ticks| - 1
      ensures ticks[i + 1].timestamp - ticks[i].timestamp == (step * DAY_MS) as real
    {
      var a, b := offs[i] * DAY_MS, offs[i + 1] * DAY_MS;
      assert b == a + step * DAY_MS;
      assert b as real == a as real + (step * DAY_MS) as real;
    }
  }

  lemma StepTickBound(offs: seq<int>, totalDays: int, startTs: real, pxPerDay: real)
    requires forall i | 0 <= i < |offs| :: offs[i] <= totalDays
    ensures var ticks := TicksAt(offs, startTs, pxPerDay);
      forall i | 0 <= i < |ticks| :: ticks[i].timestamp <= startTs + (totalDays * DAY_MS) as real
  {
    var ticks := TicksAt(offs, startTs, pxPerDay);
    forall i | 0 <= i < |ticks|
      ensures ticks[i].timestamp <= startTs + (totalDays * DAY_MS) as real
    {
      assert offs[i] * DAY_MS <= totalDays * DAY_MS;
    }
  }

  lemma StepTickLast(offs: seq<int>, totalDays: int, step: int, startTs: real, pxPerDay: real)
    requires offs != [] && offs[|offs| - 1] + step > totalDays
    ensures var ticks := TicksAt(offs, startTs, pxPerDay);
      ticks[|ticks| - 1].timestamp + (step * DAY_MS) as real > startTs + (totalDays * DAY_MS) as real
  {
    var last := offs[|offs| - 1];
    assert last * DAY_MS + step * DAY_MS > totalDays * DAY_MS;
  }

  /** Ticks that start at `startTs`, sit `step` days apart and stop at the
      last one within `totalDays` days. */
  ghost predicate EvenlySpaced(ticks: seq<Tick>, startTs: real, totalDays: int, step: int) {
    && ticks != []
    && ticks[0].timestamp == startTs
    && (forall i | 0 <= i < |ticks| - 1 :: ticks[i + 1].timestamp - ticks[i].timestamp == (step * DAY_MS) as real)
    && (forall i | 0 <= i < |ticks| :: ticks[i].timestamp <= startTs + (totalDays * DAY_MS) as real)
    && ticks[|ticks| - 1].timestamp + (step * DAY_MS) as real > startTs + (totalDays * DAY_MS) as real
  }

  /** Without a data range, on every scale but "day", the ticks sit at day
      offsets 0, step, 2 step, ... and stop at the last one within the day
      count. */
  lemma TicksAtEveryStep(scaleType: string, centerTs: int, y: int, month: int, w: real)
    requires 0 <= month < 12
    requires w != 0.0 && scaleType != "day"
    ensures var b := BuildTimeline(scaleType, centerTs, y, month, Some(w), None, None);
      EvenlySpaced(b.timeline.value.ticks, b.viewStart, b.totalDays, DayStep(scaleType))
  {
    var b := BuildTimeline(scaleType, centerTs, y, month, Some(w), None, None);
    var v := b.timeline.value;
    assert v.ticks == TicksAt(Offsets(0, b.totalDays, DayStep(scaleType), b.viewStart, b.viewEnd, false), b.viewStart, v.pxPerDay);
    StepTicks(b.totalDays, DayStep(scaleType), b.viewStart, b.viewEnd, v.pxPerDay);
  }

  /** The ticks of the loop over day offsets without the stop past the end. */
  lemma StepTicks(totalDays: int, step: int, startTs: real, endTs: real, pxPerDay: real)
    requires totalDays >= 0 && step >= 1
    ensures EvenlySpaced(TicksAt(Offsets(0, totalDays, step, startTs, endTs, false), startTs, pxPerDay),
                         startTs, totalDays, step)
  {
    var offs := Offsets(0, totalDays, step, startTs, endTs, false);
    StepTickSpacing(offs, step, startTs, pxPerDay);
    StepTickBound(offs, totalDays, startTs, pxPerDay);
    StepTickLast(offs, totalDays, step, startTs, pxPerDay);
  }

  /** With a data range no tick lies outside the span. */
  lemma RangeTicksInsideSpan(scaleType: string, centerTs: int, y: int, month: int, w: real, lo: real, hi: real, i: int)
    requires 0 <= month < 12
    requires w != 0.0
    ensures var b := BuildTimeline(scaleType, centerTs, y, month, Some(w), Some(lo), Some(hi));
      var ticks := b.timeline.value.ticks;
      0 <= i < |ticks| ==> b.viewStart <= ticks[i].timestamp <= b.viewEnd
  {
    var b := BuildTimeline(scaleType, centerTs, y, month, Some(w), Some(lo), Some(hi));
    var step := DayStep(scaleType);
    var offs := Offsets(0, b.totalDays, step, b.viewStart, b.viewEnd, true);
    if 0 <= i < |offs| {
      assert offs[i] * DAY_MS >= 0;
    }
  }

  /** The first whole hour at or after `startTs`. */
  lemma FirstHour(startTs: real)
    ensures var first := Ceil(startTs / HOUR_MS as real) * HOUR_MS;
      first % HOUR_MS == 0 && first as real >= startTs
  {
    var c := Ceil(startTs / HOUR_MS as real);
    assert c as real >= startTs / HOUR_MS as real;
    assert (c * HOUR_MS) as real == c as real * HOUR_MS as real;
  }

  /** Hour ticks from a whole hour at or after `startTs` are whole hours
      inside the span, an hour apart. */
  lemma HourTicksWhole(first: int, startTs: real, endTs: real, pxPerDay: real, i: int)
    requires first % HOUR_MS == 0 && first as real >= startTs
    requires 0 <= i < |HourTicks(first, startTs, endTs, pxPerDay)|
    ensures var ticks := HourTicks(first, startTs, endTs, pxPerDay);
      && startTs <= ticks[i].timestamp <= endTs
      && (ticks[i].timestamp.Floor % HOUR_MS == 0)
      && ticks[i].timestamp.Floor as real == ticks[i].timestamp
      && (i + 1 < |ticks| ==> ticks[i + 1].timestamp - ticks[i].timestamp == HOUR_MS as real)
  {
    var ticks := HourTicks(first, startTs, endTs, pxPerDay);
    var t := first + i * HOUR_MS;
    assert ticks[i].timestamp == t as real;
    assert (t as real).Floor == t;
    var k := first / HOUR_MS;
    assert first == k * HOUR_MS;
    assert t == (k + i) * HOUR_MS;
    HourMultiple(k + i);
    assert i * HOUR_MS >= 0;
    if i + 1 < |ticks| {
      assert ticks[i + 1].timestamp == (t + HOUR_MS) as real;
    }
  }

  lemma HourMultiple(k: int)
    ensures (k * HOUR_MS) % HOUR_MS == 0
  {
  }

  /** On the "day" scale the ticks are whole hours inside the span, an hour
      apart. */
  lemma DayTicksAreHours(centerTs: int, y: int, month: int, w: real, i: int)
    requires 0 <= month < 12
    requires w != 0.0
    ensures var b := BuildTimeline("day", centerTs, y, month, Some(w), None, None);
      var ticks := b.timeline.value.ticks;
      0 <= i < |ticks| ==>
        && b.viewStart <= ticks[i].timestamp <= b.viewEnd
        && (ticks[i].timestamp.Floor % HOUR_MS == 0)
        && ticks[i].timestamp.Floor as real == ticks[i].timestamp
        && (i + 1 < |ticks| ==> ticks[i + 1].timestamp - ticks[i].timestamp == HOUR_MS as real)
  {
    var b := BuildTimeline("day", centerTs, y, month, Some(w), None, None);
    var first := Ceil(b.viewStart / HOUR_MS as real) * HOUR_MS;
    assert b.timeline.value.ticks == HourTicks(first, b.viewStart, b.viewEnd, b.timeline.value.pxPerDay);
    FirstHour(b.viewStart);
    if 0 <= i < |b.timeline.value.ticks| {
      HourTicksWhole(first, b.viewStart, b.viewEnd, b.timeline.value.pxPerDay, i);
    }
  }
}

=== FILE: users.dfy ===
/** The user crud helpers and the user service: lookups, registration,
    login and the "who am I" views.

    Password hashing and checking, and the signing of tokens, are oracles
    passed in as functions; the model fixes only what goes into them and
    what is done with what comes out. */
module Users {
  import opened Base
  import opened Ordered
  import opened Store
  import opened Decimal

  /** `ACCESS_TOKEN_EXPIRE_DAYS`, in seconds. */
  const TOKEN_LIFETIME: int := 30 * 24 * 60 * 60

  /** The claims put into an access token; a decoded token may lack `sub`. */
  datatype Claims = Claims(sub: Option<string>, exp: int)

  /** The body returned by login and registration. */
  datatype TokenReply = TokenReply(accessToken: string, tokenType: string)

  /** `get_user_by_id`: a missing user is an error, not a `None`. */
  function UserById(db: Db, userId: Id): (r: Result<User>)
    ensures r.Err? <==> userId !in db.users
    ensures r.Err? ==> r.error == NotFound
    ensures r.Ok? ==> r.value == db.users[userId]
  {
    if userId in db.users then Ok(db.users[userId]) else Err(NotFound)
  }

  function UserIdsWithNickname(db: Db, nickname: string): set<Id> {
    set k | k in db.users && db.users[k].nickname == nickname
  }

  /** `get_user_by_nickname`. */
  function UserByNickname(db: Db, nickname: string): (r: Option<Id>)
    ensures r.None? <==> (forall k | k in db.users :: db.users[k].nickname != nickname)
    ensures r.Some? ==> r.value in db.users && db.users[r.value].nickname == nickname
  {
    var ids := UserIdsWithNickname(db, nickname);
    assert forall k | k in db.users && db.users[k].nickname == nickname :: k in ids;
    First(ids)
  }

  /** `check_email_exists_service`. */
  function EmailExists(db: Db, email: string): (b: bool)
    ensures b <==> exists k :: k in db.users && db.users[k].email == email
  {
    UserByEmail(db, email).Some?
  }

  /** `create_user`: the insert is committed unless it breaks the unique
      email or nickname column, in which case it is rolled back. */
  function CreateUser(db: Db, email: string, nickname: string, passwordHash: string): (r: Result<(Db, Id)>)
    ensures r.Err? <==> exists k :: k in db.users && (db.users[k].email == email || db.users[k].nickname == nickname)
    ensures r.Err? ==> r.error == Conflict
    ensures r.Ok? ==> var (db', id) := r.value;
      && id !in db.users
      && db' == db.(users := db.users[id := User(email, nickname, passwordHash)])
  {
    if UserByEmail(db, email).Some? || UserByNickname(db, nickname).Some? then Err(Conflict)
    else
      var id := FreshId(db.users.Keys);
      Ok((db.(users := db.users[id := User(email, nickname, passwordHash)]), id))
  }

  /** `create_access_token({"sub": str(id)})`, issued at `now`. */
  function IssueToken(userId: Id, now: int, encode: Claims -> string): (r: TokenReply)
    ensures r.accessToken == encode(Claims(Some(Show(userId)), now + TOKEN_LIFETIME))
    ensures r.tokenType == "Bearer"
  {
    TokenReply(encode(Claims(Some(Show(userId)), now + TOKEN_LIFETIME)), "Bearer")
  }

  /** `register_user_service`: hash, insert, and a token for the new id. */
  function Register(db: Db, email: string, nickname: string, password: string,
                    hash: string -> string, now: int, encode: Claims -> string): (r: Result<(Db, TokenReply)>)
    ensures r.Err? <==> CreateUser(db, email, nickname, hash(password)).Err?
    ensures r.Err? ==> r.error == Conflict
    ensures r.Ok? ==> var (db', id) := CreateUser(db, email, nickname, hash(password)).value;
      r.value == (db', IssueToken(id, now, encode))
  {
    var (db', id) :- CreateUser(db, email, nickname, hash(password));
    Ok((db', IssueToken(id, now, encode)))
  }

  /** `login_user_service`: the user found by email must exist and the
      password must check against its hash; either failure is the same
      `Forbidden`. */
  function Login(db: Db, email: string, password: string, verify: (string, string) -> bool,
                 now: int, encode: Claims -> string): (r: Result<TokenReply>)
    ensures r.Err? ==> r.error == Forbidden
    ensures UserByEmail(db, email).None? ==> r == Err(Forbidden)
    ensures r.Ok? <==> UserByEmail(db, email).Some? && verify(password, db.users[UserByEmail(db, email).value].passwordHash)
    ensures r.Ok? ==> r.value == IssueToken(UserByEmail(db, email).value, now, encode)
  {
    match UserByEmail(db, email)
    case None => Err(Forbidden)
    case Some(id) =>
      if !verify(password, db.users[id].passwordHash) then Err(Forbidden)
      else Ok(IssueToken(id, now, encode))
  }

  function TeamIdsOfUser(db: Db, userId: Id): set<Id> {
    set k | k in db.memberships && db.memberships[k].userId == userId && db.memberships[k].teamId in db.teams
      :: db.memberships[k].teamId
  }

  /** `get_teams_by_user`: the teams joined to a membership row of the user;
      the query yields each team once. */
  function TeamsOfUser(db: Db, userId: Id): (r: seq<Id>)
    ensures forall t :: t in r <==> t in db.teams && IsMember(db, userId, t)
    ensures forall i, j | 0 <= i < j < |r| :: r[i] < r[j]
  {
    var s := TeamIdsOfUser(db, userId);
    assert forall k | k in db.memberships && db.memberships[k].userId == userId && db.memberships[k].teamId in db.teams
      :: db.memberships[k].teamId in s;
    SortedIds(s)
  }

  /** `get_user_by_token_service`. */
  function UserByToken(db: Db, currentUserId: Id): (r: Result<(User, seq<Id>)>)
    ensures r.Err? <==> currentUserId !in db.users
    ensures r.Err? ==> r.error == NotFound
    ensures r.Ok? ==> r.value == (db.users[currentUserId], TeamsOfUser(db, currentUserId))
  {
    var u :- UserById(db, currentUserId);
    Ok((u, TeamsOfUser(db, currentUserId)))
  }

  /** `get_user_service`: only one's own record, refused before any lookup. */
  function GetUser(db: Db, requestedUserId: Id, currentUserId: Id): (r: Result<(User, seq<Id>)>)
    ensures requestedUserId != currentUserId ==> r == Err(Forbidden)
    ensures requestedUserId == currentUserId ==> r == UserByToken(db, currentUserId)
  {
    if requestedUserId != currentUserId then Err(Forbidden)
    else
      var u :- UserById(db, requestedUserId);
      Ok((u, TeamsOfUser(db, requestedUserId)))
  }

  // ---- Properties ---------------------------------------------------------

  /** A successful registration keeps email and nickname unique. */
  lemma CreateUserKeepsUnique(db: Db, email: string, nickname: string, passwordHash: string)
    requires UniqueUsers(db)
    ensures CreateUser(db, email, nickname, passwordHash).Ok? ==>
      UniqueUsers(CreateUser(db, email, nickname, passwordHash).value.0)
  {
  }

  /** A failed registration leaves the users as they were: there is no store
      in the error, and it is the unique columns that decide. */
  lemma DuplicateEmailRejected(db: Db, k: Id, nickname: string, passwordHash: string)
    requires k in db.users
    ensures CreateUser(db, db.users[k].email, nickname, passwordHash) == Err(Conflict)
  {
  }

  /** Login cannot tell an unknown email from a wrong password. */
  lemma LoginFailuresAlike(db: Db, email: string, password: string, verify: (string, string) -> bool,
                           now: int, encode: Claims -> string, k: Id)
    requires UniqueUsers(db) && k in db.users
    requires !verify(password, db.users[k].passwordHash)
    requires forall j | j in db.users :: db.users[j].email != email
    ensures Login(db, db.users[k].email, password, verify, now, encode) == Err(Forbidden)
    ensures Login(db, email, password, verify, now, encode) == Err(Forbidden)
  {
    UserByEmailUnique(db, k);
  }

  /** Whoever registers can log in with the same password right after,
      provided the hash checks, and the token names the new user. */
  lemma RegisterThenLogin(db: Db, email: string, nickname: string, password: string,
                          hash: string -> string, verify: (string, string) -> bool,
                          now: int, later: int, encode: Claims -> string)
    requires Register(db, email, nickname, password, hash, now, encode).Ok?
    requires verify(password, hash(password))
    ensures var (db', _) := Register(db, email, nickname, password, hash, now, encode).value;
      var id := CreateUser(db, email, nickname, hash(password)).value.1;
      Login(db', email, password, verify, later, encode) == Ok(IssueToken(id, later, encode))
  {
    var (db', id) := CreateUser(db, email, nickname, hash(password)).value;
    assert UserIdsWithEmail(db', email) == {id};
  }

  /** The teams listed for a user are exactly those holding a membership row
      for it. */
  lemma TeamsAreMemberships(db: Db, userId: Id, t: Id)
    requires UserByToken(db, userId).Ok?
    ensures t in UserByToken(db, userId).value.1 <==> t in db.teams && IsMember(db, userId, t)
  {
  }
}
